=== FILE: README.md ===
# baseappv2 core, modelled in Dafny

This project models the core of baseappv2, a multi-tenant SaaS backend. Organisations hold a
tier (`authority`, a bit mask). Users belong to organisations and hold roles, and roles hold
per-feature permission masks. Every route checks those masks before it touches the document
database. The model covers the following parts:

- **Permissions** (`bits.dfy`, `permission_check.dfy`, `feature_crud.dfy`, `menu.dfy`,
  `sorting.dfy`): the route guard `has_permission`. It also covers the feature/role permission
  matrix with `set_permission`, which toggles one action bit of a role on a feature, and the
  menu tree filtered by tier and permission, with its sorting.
- **Bootstrap** (`org_init.dfy`): creating the owner organisation, its Admin role and its first
  user. The seeding of the role's permission rows fails as written, and is also modelled as
  evidently intended.
- **Authentication** (`auth.dfy`, `jwt.dfy`, `session.dfy`, `key_value.dfy`,
  `forgot_password.dfy`): login, refresh and logout with the refresh token kept in Redis. It
  also covers token issue and validation, and the OTP-based password reset.
- **Users and API credentials** (`user_crud.dfy`, `api_credentials.dfy`, `records.dfy`):
  user creation, update and password changes, and the API-credential routes with their
  tenant filter.
- **Document management** (`dms_upload.dfy`, `dms_browse.dfy`, `index_list.dfy`,
  `delete_worker.dfy`, `db_errors.dfy`, `pagination.dfy`, `query_filter.dfy`):
  - the upload pipeline: type checks, the folder chain built from a doctype template, and
    storage accounting;
  - browsing, listing with pagination and the `regex:` filter translation;
  - the index-list CRUD;
  - the Redis worker that deletes files and gives their storage back.
- **Infrastructure** (`clickhouse_schema.dfy`, `clickhouse_query.dfy`, `clickhouse_values.dfy`,
  `mongodb.dfy`, `redis_queue.dfy`, `json.dfy`, `email.dfy`, `middleware.dfy`, `utility.dfy`):
  - the ClickHouse DDL and query builders, and how ClickHouse reads the literals they write;
  - MongoDB database initialisation from a JSON configuration;
  - the Redis FIFO task queue and the JSON encoding of its tasks;
  - e-mail composition and template loading;
  - the exception and logging middlewares;
  - password hashing and enum helpers.

Shared definitions live in `base.dfy` (results and Python exceptions) and `strings.dfy`
(Python string methods).

Code that works by updating state in place is modelled as classes:
- the services that keep a user and organisation context;
- the database collections;
- the Redis store and queue;
- the ClickHouse table schema;
- the MongoDB connection.

Their methods state their effect against a specification function, and the properties are
lemmas about those functions. The database, the object store, the clock, random ids and
UUIDs are parameters: a `Database` object holding one sequence per collection, functions
such as `evaluate` and `url`, and values drawn by the caller.

## Model

| member | source | states |
|---|---|---|
| Middleware.NewBusinessError | baseapp/services/middleware.py:12-15 | A `BusinessError` carries its message, and its code is 400 unless one is given. |
| Middleware.HandleExceptions | baseapp/services/middleware.py:17-54 | A handler that returns is passed through with its own response; every exception becomes an error reply whose body has status 4. |
| Middleware.BusinessReply | baseapp/services/middleware.py:20-25 | A business error is answered with its own code and its own message. |
| Middleware.StatusIdentifiesKind | baseapp/services/middleware.py:26-54 | Apart from business errors, the status code identifies the kind of exception: 400 for a validation error, 503 for a connection error, 403 for a permission error and 500 for any other. |
| Middleware.MessageExposure | baseapp/services/middleware.py:26-54 | Only validation and business errors show their own text to the client. Connection and permission failures get fixed messages. Unhandled errors get "Internal server error" in production and their own text elsewhere. |
| Middleware.LogId | baseapp/services/middleware.py:57-60 | A request is logged under its `log_id` header when it has one, and under a freshly generated id otherwise. |
| Middleware.AddProcessTimeAndLog | baseapp/services/middleware.py:56-80 | Both log entries carry the same log id, the method, path and status are logged, and `X-Process-Time` is added to the response. Every other header of the response is kept. |
| Middleware.ClientLogIdKept | baseapp/services/middleware.py:57-61 | A client that sends `log_id` finds that id in both log entries, whatever id would have been generated. |
| Utility.GenerateUuid | baseapp/utils/utility.py:9-10 | An identifier is 32 hexadecimal digits. |
| Utility.ParseHexOfHex | baseapp/utils/utility.py:9-10 | The hexadecimal digits of a number read back as that number. |
| Utility.GenerateUuidInjective | baseapp/utils/utility.py:9-10 | Distinct random draws give distinct identifiers. |
| Utility.HashPassword | baseapp/utils/utility.py:12-16 | The hash is made with the given salt, or with a fresh salt when none is given. |
| Utility.SaltedHash | baseapp/services/_org/crud.py:143-145 | The salt the bootstrap stores is the salt of the hash it stores. |
| Utility.UnpackError | baseapp/services/auth/crud.py:36 | Assigning `n` items to two names goes through exactly when `n` is 2; more items raise "too many values to unpack (expected 2)", fewer raise the "not enough values" ValueError. |
| Utility.SaltedHashRaisesAsWritten | baseapp/utils/utility.py:12-16 | `hash_password` returns one 60-character str, so the pair assignment its callers make raises "too many values to unpack (expected 2)". |
| Utility.CheckPassword | baseapp/utils/utility.py:18-29 | A password is accepted only when it is non-empty and a readable hash is stored. |
| Utility.CheckOwnHash | baseapp/utils/utility.py:12-29 | A hash made from a non-empty password accepts that password, whatever the salt. |
| Utility.CheckOnlyOwnHash | baseapp/utils/utility.py:12-29 | A hash accepts no password other than the one it was made from. |
| Utility.GeneratePassword | baseapp/utils/utility.py:31-34 | A generated password has the requested length, and every character comes from letters, digits and punctuation. |
| Utility.IsNone | baseapp/utils/utility.py:46-47 | The default is returned exactly when the variable is None; otherwise the variable itself is returned. |
| PermissionCheck.Matching | baseapp/services/permission_check_service.py:26 | The cursor holds exactly the grant rows of one of the roles on the feature. |
| PermissionCheck.AuthorizedIffCursorCovers | baseapp/services/permission_check_service.py:26-33 | Some cursor row holds every required bit exactly when some grant row of the roles on the feature does. |
| PermissionCheck.Decision | baseapp/services/permission_check_service.py:24-39 | The guard's answer for a cursor that may fail at a given row: true at a covering row before the failure, the missing-logger error at the failure, false otherwise. `HasPermission`, `FoundBeforeFault`, `FaultNeverDenies` and `FaultRaisesAsWritten` prove its meaning. |
| PermissionCheck.HasPermission | baseapp/services/permission_check_service.py:12-39 | Without a database fault, the guard answers true exactly when one row of the caller's roles on the feature holds every required bit. With a fault, it answers true only when such a row came before the fault, and otherwise it raises. |
| PermissionCheck.FaultNeverDenies | baseapp/services/permission_check_service.py:24-39 | A database fault is never turned into a refusal. The guard answers true exactly when a covering row came before the fault, and raises otherwise. |
| PermissionCheck.FaultRaisesAsWritten | baseapp/services/permission_check_service.py:34-36 | As written, a lookup error before any covering row raises the AttributeError about the missing `logger`. |
| PermissionCheck.DecisionIntended | baseapp/services/permission_check_service.py:34-36 | The guard as its `PyMongoError` handler intends: every error it raises is "Database error occurred while checking permission.". |
| PermissionCheck.FaultReportedIntended | baseapp/services/permission_check_service.py:24-36 | As intended, a lookup error raises that ValueError exactly when no covering row came before it, never refuses, and without an error the answer is unchanged. |
| PermissionCheck.NoRolesDenied | baseapp/services/permission_check_service.py:26-33 | A caller without roles is refused. |
| PermissionCheck.RowsDoNotCombine | baseapp/services/permission_check_service.py:28-31 | Bits held by two different rows do not add up: rows holding bits 1 and 2 do not authorise bits 1 and 2 together. |
| PermissionCheck.ZeroRequired | baseapp/services/permission_check_service.py:28-31 | When nothing is required, any matching row authorises. |
| PermissionCheck.Monotone | baseapp/services/permission_check_service.py:26-33 | More roles and more grant rows never withdraw an authorisation. |
| Bits.BitOf | baseapp/services/_feature/crud.py:53 | The lookup `bitRA[key]` fails exactly when no action has the key; otherwise it gives the bit of an action with that key. |
| Bits.SumIsUnion | baseapp/services/_org/crud.py:103-104 | When no two actions share a bit, the sum of the action bits is their bitwise union. |
| Bits.RoleActionSum | baseapp/services/_org/crud.py:103-104 | The eight seeded action bits sum to 255. |
| Bits.SubtractSubMask | baseapp/services/_org/crud.py:118 | Subtracting a withheld mask whose bits are all present clears exactly those bits. |
| Bits.SubtractNegated | baseapp/services/_menu/crud.py:131 | `granted - (neg & granted)` clears from `granted` exactly the bits of `neg`. |
| FeatureCrud.Toggle | baseapp/services/_feature/crud.py:57-60 | The new permission of an existing grant row: the bit added, or removed when it was already held. `ToggleMeaning`, `ToggleIsXor`, `ToggleTwice` and `ToggleNothing` prove that it flips exactly that bit and undoes itself. |
| FeatureCrud.ToggleMeaning | baseapp/services/_feature/crud.py:57-60 | The toggle clears the action's bits when the row holds all of them, and sets them otherwise. No other bit changes. |
| FeatureCrud.ToggleIsXor | baseapp/services/_feature/crud.py:57-60 | For a one-bit action the toggle is an exclusive or. |
| FeatureCrud.ToggleTwice | baseapp/services/_feature/crud.py:57-60 | Toggling twice restores the permission when the row held all or none of the action's bits. |
| FeatureCrud.ToggleTwicePartial | baseapp/services/_feature/crud.py:57-60 | For an action of two bits where the row holds one, toggling twice does not restore the permission. |
| FeatureCrud.RowIndex | baseapp/services/_feature/crud.py:56 | The lookup finds the first row of the role on the feature, and finds none exactly when there is no such row. |
| FeatureCrud.RefusalWritesNothing | baseapp/services/_feature/crud.py:37-101 | Every refused `set_permission` leaves the grant rows unchanged. |
| FeatureCrud.SetPermissionOutcome | baseapp/services/_feature/crud.py:37-101 | The result and the new grant table of `set_permission`: the refusals for an unknown feature or action and for an action withheld from the tier, then the toggle of an existing row or the insert of a new one. `Refusals`, `RefusalWritesNothing`, `PermittedWrite` and `SetPermissionTwice` prove its meaning. |
| FeatureCrud.Refusals | baseapp/services/_feature/crud.py:49-54 | "Feature not found" is raised exactly when the feature is missing. A tier without a `negasiperm` entry is a KeyError. "Action not permitted" is raised exactly when the action's bit is withheld from the caller's tier. |
| FeatureCrud.PermittedWrite | baseapp/services/_feature/crud.py:56-95 | A permitted action on an existing row rewrites only that row's permission, with the toggle. Otherwise exactly one row is appended, holding the action's bit and the caller's organisation. |
| FeatureCrud.SetPermissionTwice | baseapp/services/_feature/crud.py:37-101 | Setting the same one-bit action twice on an existing row restores the grant table. |
| FeatureCrud.RowIndexAfterWrite | baseapp/services/_feature/crud.py:56-63 | After its permission is rewritten, the first matching row is still the first matching row. |
| FeatureCrud.Selected | baseapp/services/_feature/crud.py:138-141 | With a role filter only the rows of that role are kept, and without one every row is kept. |
| FeatureCrud.LastRowWins | baseapp/services/_feature/crud.py:150-152 | The permission recorded for a feature is that of its last row, and one is recorded exactly when some row is on the feature. |
| FeatureCrud.ActionStateMeaning | baseapp/services/_feature/crud.py:160-174 | A cell is 0 (disabled) exactly when the action is withheld from the tier, or no row exists and the role is `dataawal`. It is 1 (assigned) exactly when the action is not withheld and the recorded permission has its bit. Otherwise it is 2 (unassigned). |
| FeatureCrud.WithheldIsDisabled | baseapp/services/_feature/crud.py:172-174 | A withheld action is shown disabled whatever the grant rows say. |
| FeatureCrud.Cells | baseapp/services/_feature/crud.py:164-174 | A feature's row has one cell per action, in enumeration order, each in the state its bit gives. |
| FeatureCrud.RowChecks | baseapp/services/_feature/crud.py:161-172 | A visible feature's row needs `filters["r_id"]` and the tier's `negasiperm` entry. They are looked up in that order. |
| FeatureCrud.MatrixStep | baseapp/services/_feature/crud.py:155-181 | One more feature extends the matrix by that feature's row, or stops it with that feature's error. |
| FeatureCrud.ErrorStops | baseapp/services/_feature/crud.py:155-181 | The first error ends the listing with that error. |
| FeatureCrud.Matrix | baseapp/services/_feature/crud.py:155-181 | The permission matrix over the features in order: the first error raised, or one row per visible feature. `MatrixStep`, `ErrorStops`, `MatrixShape` and `NothingVisible` prove its shape. |
| FeatureCrud.MatrixShape | baseapp/services/_feature/crud.py:155-181 | The matrix succeeds exactly when every visible feature has a role filter and a `negasiperm` entry for the tier. It then has one row per visible feature, in order, with that feature's id and name. |
| FeatureCrud.NothingVisible | baseapp/services/_feature/crud.py:155-156 | Without visible features the matrix is empty, whatever the filters. |
| FeatureCrud.FeatureService.SetContext | baseapp/services/_feature/crud.py:19-27 | The service records the caller's organisation and tier. |
| FeatureCrud.FeatureService.SetPermission | baseapp/services/_feature/crud.py:37-101 | The result and the new grant rows are those of the refusal, toggle or insert described above. |
| FeatureCrud.FeatureService.WritePermission | baseapp/services/_feature/crud.py:56-95 | A permitted action toggles the first matching row, or inserts a row holding just its bit. |
| FeatureCrud.FeatureService.GetAll | baseapp/services/_feature/crud.py:103-193 | The result is the permission matrix of the filtered rows over every feature visible to the caller's tier. |
| FeatureCrud.FeatureService.LoopBody | baseapp/services/_feature/crud.py:155-181 | One pass of the second loop appends the feature's row, skips a hidden feature, or raises. |
| FeatureCrud.FeatureService.RolesFeature | baseapp/services/_feature/crud.py:150-152 | The first loop maps each feature to the permission of its last row. |
| FeatureCrud.FeatureService.FeatureCells | baseapp/services/_feature/crud.py:160-174 | The three passes over the enumeration fill the feature's cells with the three-state value of each action. |
| Menu.RoleRows | baseapp/services/_menu/crud.py:53-87 | The second pipeline keeps exactly the grant rows of the caller's roles. |
| Menu.CombinedCovers | baseapp/services/_menu/crud.py:96-101 | A feature gets a combined permission exactly when some row is on it, and that permission holds every bit of every such row. |
| Menu.CombinedLeast | baseapp/services/_menu/crud.py:96-101 | The combined permission holds no bit beyond the rows' bits: any mask holding every row's bits holds it. |
| Menu.OrgLabel | baseapp/services/_menu/crud.py:141-150 | The `_organization` entry is relabelled exactly when the tier has one of the partner (1), client (2) or customer (4) bits, and the lowest such bit decides the label. |
| Menu.FeatureEntryRelabel | baseapp/services/_menu/crud.py:132-150 | Only the `_organization` entry is relabelled, and only its value and details change. |
| Menu.EffectiveClears | baseapp/services/_menu/crud.py:131 | The effective permission is the combined permission with the withheld bits cleared. |
| Menu.ViewShownMeaning | baseapp/services/_menu/crud.py:131 | The menu's test `view & (rf - (neg & rf))` passes exactly when the view bit is granted and not withheld. |
| Menu.ItemEntry | baseapp/services/_menu/crud.py:107-154 | An item's feature entry carries the item's id and sort number. |
| Menu.ItemShownIff | baseapp/services/_menu/crud.py:110-151 | An item is shown exactly when all of these hold: its feature exists, the feature is visible to the caller's tier, the roles hold rows on it, and the combined permission has the view bit once the withheld bits are removed. |
| Menu.ItemRaisesIff | baseapp/services/_menu/crud.py:128-131 | An item raises only for a missing `view` key or a tier without a `negasiperm` entry, and only once its visible feature has rows. |
| Menu.GuardIgnoresWithheldBits | baseapp/services/_menu/crud.py:131 | The route guard ignores the bits withheld from the tier while the menu honours them. With the view bit withheld, the guard admits a view of a feature whose menu item is not shown. |
| Menu.WithheldNotHeld | baseapp/services/_menu/crud.py:131 | A view bit the tier withholds is never held, whatever the roles grant. |
| Menu.UsedParents | baseapp/services/_menu/crud.py:156-158 | The kept parent entries are exactly the parent entries some shown entry names. |
| Menu.ScanItemsSound | baseapp/services/_menu/crud.py:107-154 | After the second loop, every shown entry is the entry of a scanned item and carries that item's menu id. Parent entries carry no menu id. Every recorded parent id is the parent of a shown entry. |
| Menu.ScanStepSound | baseapp/services/_menu/crud.py:107-154 | One pass of the second loop keeps the scan sound. |
| Menu.SideMenu | baseapp/services/_menu/crud.py:40-160 | The side menu: the items sorted, the entries of the items the caller may view and the parents they name, sorted by `sortnumber`. `SideMenuOrdered`, `SideMenuParents` and `SideMenuComplete` prove that it is ordered, shows nothing it should not and hides nothing it should show. |
| Menu.SideMenuOrdered | baseapp/services/_menu/crud.py:156-160 | The menu is ordered by `sortnumber`. It is a permutation of the shown entries followed by the named parents. Entries with the same sort number keep that order. |
| Menu.SideMenuParents | baseapp/services/_menu/crud.py:107-160 | Every feature entry of the menu is an item the caller may view, and every parent entry is named as parent by a feature entry of the menu. |
| Menu.MenuService.SetContext | baseapp/services/_menu/crud.py:21-38 | The service records the caller's tier and roles. |
| Menu.MenuService.GetAll | baseapp/services/_menu/crud.py:40-160 | The answer is the side menu: the combined role permissions, then the item scan, then the named parents, sorted by sort number. |
| Menu.MenuService.ScanLoop | baseapp/services/_menu/crud.py:104-154 | The second loop computes the scan over the sorted items, or stops at the first error. |
| Menu.MenuService.NamedParents | baseapp/services/_menu/crud.py:156-158 | The third loop keeps exactly the named parent entries, in order. |
| Menu.MenuService.CombineRoles | baseapp/services/_menu/crud.py:96-101 | The first loop maps each feature to the OR of the permissions of its rows, and holds no other feature. |
| Menu.MenuService.Step | baseapp/services/_menu/crud.py:107-154 | One pass of the second loop: record a top-level parent item, then add the item's feature entry if it is shown. |
| Menu.MenuService.ItemStep | baseapp/services/_menu/crud.py:109-151 | The feature join and the view test for one item. |
| Menu.ScanItemsComplete | baseapp/services/_menu/crud.py:107-154 | After the second loop, the entry of every item the caller may view has been gathered, and its parent id recorded when it names one. Every top-level item without a feature has had its parent entry gathered. |
| Menu.ScanStepComplete | baseapp/services/_menu/crud.py:107-154 | One pass of the second loop keeps what was gathered and gathers the new item. |
| Menu.SideMenuComplete | baseapp/services/_menu/crud.py:107-160 | The menu hides nothing: the entry of every item the caller may view is in it, and so is the parent entry of every top-level item that a shown item names as its parent. |
| Menu.ScanErrorStops | baseapp/services/_menu/crud.py:107-154 | The first error an item raises ends the menu with that error. |
| Sorting.SortByCorrect | baseapp/services/_menu/crud.py:160 | Sorting by `sortnumber` orders the entries, is a permutation of them and is stable. |
| Sorting.SortBySorted | baseapp/services/_menu/crud.py:80 | Entries already in key order are returned unchanged. |
| OrgInit.HasOwner | baseapp/services/_org/crud.py:38-40 | An owner exists exactly when some organisation has tier exactly 1. |
| OrgInit.UsernameTaken | baseapp/services/_org/crud.py:43-45 | The owner-user check compares user names only. |
| OrgInit.SeedRowsOk | baseapp/services/_org/crud.py:107-119 | Seeding fails exactly when some feature visible to the tier has no `negasiperm` entry for it. |
| OrgInit.SeedRowsShape | baseapp/services/_org/crud.py:107-119 | The seeded rows match the visible features one for one, in order. Each row carries the new organisation, the new role, its feature's id and `total - negasiperm[tier]`. |
| OrgInit.SeededPermission | baseapp/services/_org/crud.py:104-118 | Each seeded row has every action bit except those withheld from the tier: `255 - neg == 255 & ~neg`. |
| OrgInit.SeedRoleGrants | baseapp/services/_org/crud.py:94-129 | Corrected seeding, with the ROLEACTION enumeration supplied: the loop inserts the seeded rows after the existing grants, and writes nothing when it fails. |
| OrgInit.SeedErrorStops | baseapp/services/_org/crud.py:112-119 | A failing feature stops the seeding with its error. |
| OrgInit.AdminLocksOutAsWritten | baseapp/services/_org/crud.py:94-129 | As written, the `get_enum` call fails and no grant row is written. After a bootstrap the grant rows are unchanged, so the route guard refuses the new Admin role every action on every feature. |
| OrgInit.InitOwnerOrgOutcomeAsWritten | baseapp/services/_org/crud.py:19-64 | `init_owner_org` as written: after the checks, the organisation and its Admin role are inserted, then `init_user` raises on the pair assignment and the handler answers status 4 with the error's text. |
| OrgInit.InitStrandsOwnerAsWritten | baseapp/services/_org/crud.py:143 | As written, a bootstrap that passes its checks answers the unpacking error, inserts no user and leaves the organisation and role behind; with the owner tier, every later bootstrap is refused, so the owner organisation never gets a user. |
| OrgInit.AdminAdmittedWhenSeeded | baseapp/services/_org/crud.py:94-129 | With the seeding corrected, the guard admits the Admin role to every action of a visible feature whose bits are not withheld from the tier. |
| OrgInit.AdmittedByRow | baseapp/services/permission_check_service.py:26-31 | A row of the role on the feature that covers the bits admits the role, whatever rows come before it. |
| OrgInit.SeededRowOf | baseapp/services/_org/crud.py:112-119 | Every visible feature with an entry for the tier has a seeded row with the remaining bits. |
| OrgInit.SeededCovers | baseapp/services/_org/crud.py:104-118 | A seeded row covers every required set of bits that is not withheld. |
| OrgInit.InitRefusals | baseapp/services/_org/crud.py:36-45 | The owner check comes first, then the user-name check, and a refusal writes nothing. |
| OrgInit.InitCreates | baseapp/services/_org/crud.py:47-57 | A bootstrap that goes ahead appends one organisation with the requested tier, one "Admin" role of it and one user holding that role. The user's hash accepts exactly the requested password. The grant rows are left as they were. |
| OrgInit.OwnerClosesBootstrap | baseapp/services/_org/crud.py:38-40 | After an owner of tier 1 is created, every later bootstrap is refused. |
| OrgInit.InitOwnerOrg | baseapp/services/_org/crud.py:19-64 | The service's bootstrap has exactly the outcome and the effect on organisations, roles and users that the bootstrap model defines. The grant rows are untouched, because the seeding fails. |
| OrgInit.InitUser | baseapp/services/_org/crud.py:131-156 | The user is stored with a fresh id, a salted hash of its password and the role and organisation it belongs to. It is appended to the users. |
| Records.FindFeature | baseapp/services/_feature/crud.py:49 | The lookup returns the first feature with the id, and returns none exactly when no feature has it. |
| Records.FindOrg | baseapp/services/auth/crud.py:21-22 | The lookup returns the first organisation with the id, and returns none exactly when no organisation has it. |
| Records.OrgIndex | baseapp/services/_dms/upload/crud.py:62 | The position found is that of the first organisation with the id. |
| Records.FindUserByLogin | baseapp/services/auth/crud.py:47-53 | The lookup returns the first user whose user name or e-mail address is the login, and returns none exactly when there is no such user. |
| Records.UserIndex | baseapp/services/_user/crud.py:456-457 | The position found is that of the first user with the id, and none is found exactly when no user has it. |
| Records.VisibleFeatures | baseapp/services/_org/crud.py:107-110 | The list holds exactly the features sharing a bit with the tier (`$bitsAnySet`). |
| Records.VisibleFeaturesAppend | baseapp/services/_org/crud.py:107-110 | The visible features of two lists are those of the first followed by those of the second, so the list keeps the features' order. |
| Auth.CheckOrg | baseapp/services/auth/crud.py:16-28 | The result is "Organization not found" exactly when no organisation has the id. A tier comes from the organisation's `authority`. A missing `authority` gives the KeyError's text. |
| Auth.ValidatePasswordMeaning | baseapp/services/auth/crud.py:30-40 | An inactive user is refused before any password comparison. An active one with the right password (hashed with the stored salt, it gives the stored hash) is accepted exactly when its organisation lookup gave a tier, and receives that tier. Given a refusal object as its tier, it is refused with the validation error. A wrong password gives "Invalid password". |
| Auth.ValidateUserIff | baseapp/services/auth/crud.py:42-74 | A login succeeds exactly for the first user whose user name or e-mail address matches, when that user is active, has a salt and a hash, the password hashes to that hash, and the user's organisation exists with a tier. The identity returned is that user's, with that tier. An unknown login gives "User not found". |
| Auth.ValidatePasswordAsWritten | baseapp/services/auth/crud.py:30-40 | `validate_password` as written: after the status check, the pair assignment from `hash_password` raises, and the caught ValueError's text is the refusal. |
| Auth.ValidateUserAsWritten | baseapp/services/auth/crud.py:42-74 | `validate_user` as written, with that password check. |
| Auth.PasswordLoginRefusedAsWritten | baseapp/services/auth/crud.py:36 | As written, no login succeeds: an active user with a salt and a hash is refused with "too many values to unpack (expected 2)" whatever the password, and every other login gets the refusal the intended check gives. |
| Auth.InactiveIgnoresPassword | baseapp/services/auth/crud.py:32-33 | An inactive user gets the same refusal whatever password is offered. |
| Auth.BootstrapAdminLogsIn | baseapp/services/_org/crud.py:19-64 | The administrator a bootstrap creates can log in with its user name and exactly the password it was created with, and receives the new organisation's tier. This needs the administrator to be active, with no earlier user having that name as e-mail address. |
| Auth.FoundWhenAppended | baseapp/services/auth/crud.py:47-53 | A user appended with a login no earlier user has is the user that login finds. |
| Auth.TierWhenAppended | baseapp/services/auth/crud.py:16-25 | An organisation appended with an id no earlier organisation has gives its own tier. |
| Auth.AdminShadowedByEmail | baseapp/services/_org/crud.py:43-45 | An earlier user whose e-mail address equals the administrator's user name passes the bootstrap's check and is found first at login. |
| Jwt.IssuedTokens | baseapp/utils/jwt.py:17-34 | An issued token keeps the caller's claims. It expires the configured time after issue, or at once when `expire_in` is 0. It decodes until then and is refused as expired afterwards. The lifetime returned is the configured one. |
| Jwt.LifetimeIgnoresArgument | baseapp/utils/jwt.py:17-31 | The lifetime returned never depends on `expire_in`. |
| Jwt.CurrentUserOfIssued | baseapp/utils/jwt.py:36-66 | An access token the service issued admits its holder, with the claims copied unchanged, until it expires. After that it gets "Token expired.". Text the service did not sign gets "Could not validate credentials". |
| KeyValue.RevokeAll | baseapp/services/_forgot_password/crud.py:100 | Every key holding a refresh token of the user is deleted, and every other key keeps its entry. |
| Session.LoginOutcome | baseapp/services/auth/api.py:26-71 | The answer of the login route and the new refresh-token store: the credential check, then on success the access and refresh tokens and the stored refresh-token entry. `Login`, `StatusIsZeroOrFour`, `LoginStores` and `LoginThenRefresh` prove its meaning. |
| Session.Login | baseapp/services/auth/api.py:25-71 | The login route's answer and the new key store are those the login model gives. A user whose organisation has no tier is refused. |
| Session.Refresh | baseapp/services/auth/api.py:73-105 | The refresh route's answer is the one the refresh model gives, and the store is not changed. |
| Session.Logout | baseapp/services/auth/api.py:107-132 | The logout route's answer and the new key store are those the logout model gives. |
| Session.StatusIsZeroOrFour | baseapp/services/auth/api.py:25-132 | Every answer of the three routes has status 0 or 4. |
| Session.LoginStores | baseapp/services/auth/api.py:31-66 | A login succeeds exactly when the credentials validate and the user's organisation has a tier. A refused login answers with the validation message and stores nothing. An accepted one keeps its refresh token under the login name, with the refresh lifetime, and leaves every other key alone. |
| Session.RefreshIff | baseapp/services/auth/api.py:76-100 | A refresh succeeds exactly when the cookie is a signed, unexpired token that is the token kept under its `sub`. The new access token carries the refresh token's own claims. |
| Session.LoginThenRefresh | baseapp/services/auth/api.py:43-48 | Right after a login, its refresh token is honoured. An earlier token for the same login name is honoured only if it is that very token. |
| Session.LogoutEndsSession | baseapp/services/auth/api.py:115-122 | After a logout, every later refresh for that login name fails until the next login. |
| Session.RevokedRefused | baseapp/services/_forgot_password/crud.py:98-100 | Once a user's tokens are revoked, that user's refresh tokens are refused. |
| ForgotPassword.IsValidUser | baseapp/services/_forgot_password/crud.py:20-29 | The result is the id of the first user whose user name or e-mail address matches, provided that user is active, and nothing otherwise. |
| ForgotPassword.OtpSixDigits | baseapp/services/_forgot_password/crud.py:39 | Every one-time password is six decimal digits. |
| ForgotPassword.SendOtp | baseapp/services/_forgot_password/crud.py:31-48 | The method's answer and the new key store are those the send model gives. |
| ForgotPassword.VerifyOtp | baseapp/services/_forgot_password/crud.py:50-69 | The method's answer and the new key store are those the verify model gives. |
| ForgotPassword.ResetPassword | baseapp/services/_forgot_password/crud.py:71-108 | The method's answer, the new users and the new key store are those the reset model gives. |
| ForgotPassword.SendOtpStores | baseapp/services/_forgot_password/crud.py:31-48 | An unknown or inactive user gets "User not found" and nothing is stored. Otherwise a six-digit code is stored for 300 seconds under `otp:<email>`, and it is the code in the queued task. |
| ForgotPassword.VerifyOtpIff | baseapp/services/_forgot_password/crud.py:50-69 | A code is accepted exactly when it is the stored one. The code is then spent and a reset token is stored for 900 seconds. Otherwise the store is unchanged. |
| ForgotPassword.OtpSingleUse | baseapp/services/_forgot_password/crud.py:59-65 | A code works once: presenting it again is refused. |
| ForgotPassword.SentCodeVerifies | baseapp/services/_forgot_password/crud.py:39-63 | The code sent is the code that verifies, when nothing else touched the key in between. |
| ForgotPassword.ResetRefusedUnchanged | baseapp/services/_forgot_password/crud.py:80-106 | A reset with a token that is not the stored one changes nothing. |
| ForgotPassword.ResetPasswordEffect | baseapp/services/_forgot_password/crud.py:80-104 | An accepted reset rewrites the hash of only the matched user. The new hash accepts the new password and nothing else. The reset token is spent and none of the user's refresh tokens remain. |
| UserCrud.RoleList | baseapp/services/_user/crud.py:600-606 | The role list holds each role name, in order. |
| UserCrud.CheckCaller | baseapp/services/_user/crud.py:454-475 | An accepted caller is the user with the caller's id. |
| UserCrud.CheckCallerIff | baseapp/services/_user/crud.py:454-475 | The caller is accepted exactly when it exists, is active, has a stored hash and that hash accepts the old password. Each of the four refusals (not found, inactive, no hash, wrong old password) happens exactly when its check is the first to fail. |
| UserCrud.UserService.SetContext | baseapp/services/_user/crud.py:22-37 | The service records the caller's user and organisation. |
| UserCrud.UserService.Create | baseapp/services/_user/crud.py:39-67 | A new user is stored with a hash of its password under the caller's organisation. The answer holds the stored fields except the password. A taken id is a duplicate-key error that writes nothing. |
| UserCrud.UserService.UpdateAllByAdmin | baseapp/services/_user/crud.py:201-250 | "User not found" is raised exactly when no user has the id, and then nothing changes. Otherwise only the four fields of the first user with the id change. |
| UserCrud.UserService.ChangePassword | baseapp/services/_user/crud.py:477-532 | A change succeeds exactly when the two new passwords agree and the caller passes its checks. A mismatch is refused before anything is read. A refusal writes nothing. On success the caller's new hash is the new password's. |
| UserCrud.UserService.ResetPassword | baseapp/services/_user/crud.py:534-587 | A reset succeeds exactly when the two new passwords agree and the user exists. No old password is asked for. A refusal writes nothing. |
| UserCrud.CreatedUserPassword | baseapp/services/_user/crud.py:52-54 | A created user's hash accepts its password and only that one. |
| UserCrud.NormalizeRoles | baseapp/services/_user/crud.py:600-606 | Only the `roles` filter is rewritten; every other key is left as it was. |
| UserCrud.NormalizeRolesMeaning | baseapp/services/_user/crud.py:600-606 | The rewritten role filter matches a user's role list exactly when the original names one of its roles, whether it was one name or a list. |
| ApiCredentials.CredentialIndex | baseapp/services/_api_credentials/crud.py:108 | The position found is that of the first credential with the id, and none is found exactly when no credential has it. |
| ApiCredentials.CredentialService.SetContext | baseapp/services/_api_credentials/crud.py:20-35 | The service records the caller's user and organisation. |
| ApiCredentials.CredentialService.Create | baseapp/services/_api_credentials/crud.py:37-99 | A credential is stored for the caller's organisation or the named one, with a prefixed client id and a hash of a prefixed secret. The plain secret is returned once. A taken id is the database error, and nothing is written. |
| ApiCredentials.CredentialService.GetById | baseapp/services/_api_credentials/crud.py:101-146 | The credential with the id is returned, or "API Credential not found" exactly when there is none. |
| ApiCredentials.CredentialService.UpdateStatus | baseapp/services/_api_credentials/crud.py:148-201 | Only the status of the first credential with the id changes. The answer is its projection without the hash. A missing id is refused and changes nothing. |
| ApiCredentials.IssuedSecret | baseapp/services/_api_credentials/crud.py:50-53 | The stored hash accepts the issued secret and no other text. The client id starts with `client_pub_` and the secret with `client_sec_`. |
| ApiCredentials.CreateThenFound | baseapp/services/_api_credentials/crud.py:41-59 | After a creation, the new credential is the one its id finds, it belongs to the organisation asked for, its stored hash accepts the secret the answer shows, and every earlier credential is kept. |
| ApiCredentials.DeleteIdempotent | baseapp/services/_api_credentials/crud.py:148-182 | Deleting the same id twice is deleting it once: the second deletion gives the same answer and leaves the credentials as the first left them. |
| ApiCredentials.CreateRoute | baseapp/services/_api_credentials/api.py:19-36 | Without bit 2 on `_api_credentials` the caller is refused and nothing is written. With it, the answer and the credentials afterwards are those of the service's creation for the caller's organisation: a fresh id succeeds and appends the issued credential, a taken id fails and writes nothing. |
| ApiCredentials.CreateByOwnerRoute | baseapp/services/_api_credentials/api.py:38-58 | A caller below the owner tier, or without bit 2, is refused and nothing is written. An owner with bit 2 gets the service's creation for the named organisation: a fresh id succeeds and appends the issued credential, a taken id fails and writes nothing. |
| ApiCredentials.DeleteRoute | baseapp/services/_api_credentials/api.py:60-77 | Without bit 4 the caller is refused. With it, an unknown id gives "API Credential not found" and writes nothing, and a present id succeeds: only the first credential with the id is marked DELETE, no record is removed, and the answer is its projection. |
| ApiCredentials.ListFilter | baseapp/services/_api_credentials/api.py:100-111 | With no `org_id` the listing is restricted to the caller's organisation, and an owner's `org_id` restricts it to that organisation. Anyone else's `org_id` adds no restriction. A status is added exactly when given. |
| ApiCredentials.Filtered | baseapp/services/_api_credentials/crud.py:231 | The filtered credentials are exactly those passing the filter's equality tests. |
| ApiCredentials.ListRoute | baseapp/services/_api_credentials/api.py:79-121 | The caller is refused exactly when bit 1 is missing. Otherwise the answer is one page of the filtered credentials, ordered by the sort field in the requested direction, without their hashes, with the pagination block. |
| ApiCredentials.OrderedMeaning | baseapp/services/_api_credentials/crud.py:218-232 | The `$sort` stage keeps the same credentials and orders them by the sort field's rank, ascending, or descending for "desc". |
| ApiCredentials.Project | baseapp/services/_api_credentials/crud.py:221-227 | Each listed credential shows its id, key name, client id and status, in order. |
| ApiCredentials.NonOwnerSeesAllOrganisations | baseapp/services/_api_credentials/api.py:104-108 | A non-owner who passes `org_id` sees the credentials of every organisation that pass the status test. |
| DmsUpload.LastDot | baseapp/services/_dms/upload/crud.py:48 | The position found holds a dot with no dot after it. The result is -1 exactly when the name has no dot. |
| DmsUpload.ExtensionIs | baseapp/services/_dms/upload/crud.py:44-48 | For an allowed-style extension `e`, a file has extension `e` exactly when its last path component is longer than `e` and ends in `e`, ignoring case. So `.pdf` alone has no extension, and `a.PDF` has `.pdf`. |
| DmsUpload.CheckFile | baseapp/services/_dms/upload/crud.py:139-146 | A file passes exactly when the sniffed type is one of the four MIME types and its extension is one of the four extensions. The MIME test comes first and gives "Invalid file type". The extension test gives "Unsupported file extension". |
| DmsUpload.GetStorageOrg | baseapp/services/_dms/upload/crud.py:59-67 | The used storage of the first organisation with the id, 0 when it has none. "Organization not found" exactly when no organisation has the id. |
| DmsUpload.SetUsedStorage | baseapp/services/_dms/upload/crud.py:202 | Only the first organisation with the id gets the new used storage. No organisation is added or removed. |
| DmsUpload.SanitizeMeaning | baseapp/services/_dms/upload/crud.py:89 | A cleaned folder name holds only letters, digits, `_`, space, newline and `.`. A name made only of those is kept unchanged. |
| DmsUpload.SanitizeIdempotent | baseapp/services/_dms/upload/crud.py:89 | Cleaning a cleaned name changes nothing. |
| DmsUpload.SegmentNamesAt | baseapp/services/_dms/upload/crud.py:86-100 | Folder name `k` comes from template level `k`: the metadata value under the cleaned level name, `_Empty_` when that value is empty, and the cleaned name itself when metadata lacks it. |
| DmsUpload.FolderNames | baseapp/services/_dms/upload/crud.py:81-100 | There is one folder name per `>>`-separated template level, and always at least one. |
| DmsUpload.FindFolder | baseapp/services/_dms/upload/crud.py:103-112 | The position found is that of the first folder with the name, level, organisation and parent asked for. None is found exactly when no folder matches. |
| DmsUpload.StepFinds | baseapp/services/_dms/upload/crud.py:112-128 | One level keeps every existing folder. It ends with a folder matching its own lookup that carries the id it returns. It adds a folder only when none matched. |
| DmsUpload.ChainShape | baseapp/services/_dms/upload/crud.py:84-128 | The chain has one folder per name, at levels 1, 2 and so on. Each folder sits below the one before it, and the first below the starting parent. Every existing folder is kept. |
| DmsUpload.ChainAddsOnlyChain | baseapp/services/_dms/upload/crud.py:114-125 | Every folder the chain creates is one of the chain's own folders. |
| DmsUpload.ChainReuse | baseapp/services/_dms/upload/crud.py:112-128 | Making the chain again over any collection that extends the result of a first run creates nothing and returns the same ids. |
| DmsUpload.ChainIdempotent | baseapp/services/_dms/upload/crud.py:69-130 | A second run of the same chain creates no folder and returns the same ids. |
| DmsUpload.FindDoctype | baseapp/services/_dms/upload/crud.py:74-78 | The doctype found has the id, and none is found exactly when no doctype has it. |
| DmsUpload.CreateFoldersOutcome | baseapp/services/_dms/upload/crud.py:69-130 | "Doctype not found" is raised exactly when no doctype has the id, and then no folder is written. Otherwise the result names a last folder and at least one level. |
| DmsUpload.CreateFoldersResult | baseapp/services/_dms/upload/crud.py:81-130 | A successful run returns one folder name per template level and the id of the last folder of the chain made from those names. |
| DmsUpload.CreateFoldersIdempotent | baseapp/services/_dms/upload/crud.py:69-130 | Running again with the same doctype and metadata creates no folder and returns the same result. |
| DmsUpload.StoreUpload | baseapp/services/_dms/upload/crud.py:162-210 | The store step succeeds exactly when the folders were made and the object store accepts the file. A failure changes nothing more. A success adds one file and sets the used storage to the old value plus the size. |
| DmsUpload.UploadRefusals | baseapp/services/_dms/upload/crud.py:139-162 | The refusals come in the source's order: MIME type, then extension, then organisation, then doctype. Each leaves files, folders and organisations unchanged. |
| DmsUpload.UploadOutcome | baseapp/services/_dms/upload/crud.py:132-213 | The result and the new folders, files and used storage of an upload: the type checks, the storage quota, the folder chain, the object store and the file document. `UploadRefusals`, `UploadSucceedsIff`, `UploadAfterChecks` and `UploadPassedChecks` prove its meaning. |
| DmsUpload.UploadSucceedsIff | baseapp/services/_dms/upload/crud.py:132-213 | An upload succeeds exactly when the type checks pass, the organisation and the doctype exist and the object store accepts the file. A failed upload adds no file and changes no organisation. |
| DmsUpload.UploadAfterChecks | baseapp/services/_dms/upload/crud.py:157-202 | Past the type checks and the organisation lookup, the upload is the store step with the extension and the used storage they returned. |
| DmsUpload.UploadPassedChecks | baseapp/services/_dms/upload/crud.py:139-159 | A successful upload passed the type checks and found its organisation. |
| DmsUpload.UploadAccounting | baseapp/services/_dms/upload/crud.py:159-202 | After a successful upload, the organisation's used storage is its old value (0 when absent) plus the file's size. No other organisation changes. |
| DmsUpload.UploadStoresFile | baseapp/services/_dms/upload/crud.py:164-199 | A successful upload adds one file document named `<uuid><extension>`. It sits in the chain's last folder, and its path is the folder names joined by " >> ". |
| DmsUpload.UploadsShareFolders | baseapp/services/_dms/upload/crud.py:69-130 | Two uploads with the same doctype and metadata land in the same folder, and the second creates no folder. |
| DmsUpload.UploadService.SetContext | baseapp/services/_dms/upload/crud.py:27-34 | The service records the caller's user and organisation. |
| DmsUpload.UploadService.CreateFolders | baseapp/services/_dms/upload/crud.py:69-130 | The result and the folders collection afterwards are those of the `create_folders` model. |
| DmsUpload.UploadService.ChainLevels | baseapp/services/_dms/upload/crud.py:86-128 | The loop over the template levels leaves the folders of the chain model and returns its ids. |
| DmsUpload.UploadService.FindOrCreate | baseapp/services/_dms/upload/crud.py:111-128 | One level reuses the first matching folder, or inserts one with the new id and returns that id. |
| DmsUpload.UploadService.UploadFileToMinio | baseapp/services/_dms/upload/crud.py:132-213 | The answer and the organisations, folders and files afterwards are those of the upload model. |
| DmsUpload.UploadService.FoldersAndStore | baseapp/services/_dms/upload/crud.py:162-204 | After the checks, the answer and the new state are those of the store step applied to the `create_folders` outcome. |
| DmsUpload.UploadService.Store | baseapp/services/_dms/upload/crud.py:164-204 | The answer and the new state are those of the store step. |
| DmsBrowse.ByNameKeys | baseapp/services/_dms/browse/crud.py:90-103 | The answer has a key exactly for each reference name among the matched files. A file stored without a name (null) gives the key None. |
| DmsBrowse.ByNameLastWins | baseapp/services/_dms/browse/crud.py:91-99 | A file whose reference name no later file shares gives that key its entry. Of files sharing a name, the last one wins. This holds also among the files stored without a name. |
| DmsBrowse.ByNameStep | baseapp/services/_dms/browse/crud.py:91-103 | One more file sets its entry under its reference name, None included, and leaves every other key alone. |
| DmsBrowse.BrowseByKey | baseapp/services/_dms/browse/crud.py:37-122 | The answer is the files matching the built query, keyed by reference name (None for a file uploaded without one), each with its link. Only a database failure fails. |
| DmsBrowse.BrowseDbFailureAsWritten | baseapp/services/_dms/browse/crud.py:108-109 | As written, a failing aggregate surfaces as an UnboundLocalError about `e`, not the ValueError the handler means to raise. |
| DmsBrowse.Items | baseapp/services/_dms/browse/crud.py:164-170 | There is one item per folder, in order, holding that folder's id and name. |
| DmsBrowse.ListFolderMeaning | baseapp/services/_dms/browse/crud.py:124-190 | The listing succeeds exactly when the database answers and a filter dictionary was given. A missing dictionary fails at the `pid` test. The list has one item per folder, followed by Trash exactly when `pid` is not a filter key. |
| DmsBrowse.ListFolder | baseapp/services/_dms/browse/crud.py:124-205 | The answer is the listing model applied to the folders matching the built query. |
| DmsBrowse.ListFolderDbFailureAsWritten | baseapp/services/_dms/browse/crud.py:191-192 | As written, a failing aggregate surfaces as an UnboundLocalError about `e`. |
| DmsBrowse.Rows | baseapp/services/_dms/browse/crud.py:273-277 | There is one row per file, in order, each with the file's link. |
| DmsBrowse.ListFileMeaning | baseapp/services/_dms/browse/crud.py:227-287 | The page holds at most `per_page` rows. Row `k` is the match at position `skip + k`, with its link. The block counts every match and rounds the page count up. |
| DmsBrowse.ListFile | baseapp/services/_dms/browse/crud.py:207-302 | The answer is the page model applied to the files matching the built query. |
| DmsBrowse.ListFileDbFailureAsWritten | baseapp/services/_dms/browse/crud.py:288-289 | As written, a failing aggregate or count surfaces as an UnboundLocalError about `e`. |
| DmsBrowse.CheckStorage | baseapp/services/_dms/browse/crud.py:304-347 | A failing database read gives "Database error occurred while find document.", and only it does. Otherwise "Organization not found" is raised exactly when no organisation has the id. Otherwise the answer is the `storage` and `usedstorage` of the first organisation with the id. A missing `storage` gives a KeyError, checked before `usedstorage`. |
| DmsBrowse.IncUsedFound | baseapp/services/_redis_worker/delete_file_worker.py:65 | After a storage update, the first organisation with the id is the one found before, with its used storage moved by the amount. A missing organisation is found afterwards with only that used storage. |
| DmsBrowse.CheckStorageAfterDelete | baseapp/services/_redis_worker/delete_file_worker.py:59-69 | After a deletion task that meets no database failure, the storage check reports the same quota. The used storage is lower by the total size of the deleted files. |
| DmsBrowse.StorageAfterInc | baseapp/services/_redis_worker/delete_file_worker.py:65 | After one storage update, the storage check reports the same quota and the used storage moved by the amount. |
| DmsBrowse.CheckStorageAfterUpsert | baseapp/services/_redis_worker/delete_file_worker.py:65 | The upsert can create an organisation document with no quota. The storage check then raises a KeyError for `storage`. |
| DmsBrowse.DeleteAfter | baseapp/services/_redis_worker/delete_file_worker.py:59-68 | A task that meets no failure changes the organisations as one storage update by minus the total size of its files. |
| IndexList.IndexOf | baseapp/services/_dms/index_list/crud.py:68 | The position found is that of the first index with the id, and none is found exactly when no index has it. |
| IndexList.Find | baseapp/services/_dms/index_list/crud.py:60-90 | The stored dictionary of the first index with the id is returned. "Index not found" is raised exactly when none has it. |
| IndexList.IndexService.SetContext | baseapp/services/_dms/index_list/crud.py:20-27 | The service records the caller's user and organisation. |
| IndexList.IndexService.Create | baseapp/services/_dms/index_list/crud.py:37-58 | The stored document is the payload with its id, author, date and organisation added, appended to the collection and returned. A taken id is a duplicate-key error that writes nothing. |
| IndexList.IndexService.GetById | baseapp/services/_dms/index_list/crud.py:60-106 | The answer is the read model of the id, and nothing is written. |
| IndexList.IndexService.SetFields | baseapp/services/_dms/index_list/crud.py:119-141 | The first index with the id gets every key of the `$set` and answers with its updated dictionary. A missing id raises "Index not found" and changes nothing. |
| IndexList.IndexService.UpdateById | baseapp/services/_dms/index_list/crud.py:108-157 | The payload's fields and the editor's stamp are set on the index, as the update model says. |
| IndexList.IndexService.UpdateStatus | baseapp/services/_dms/index_list/crud.py:246-280 | Only the status and the editor's stamp are set on the index, as the update model says. |
| IndexList.CreatedFields | baseapp/services/_dms/index_list/crud.py:45-49 | The created document holds the payload's name and type, its new id, the author and the organisation. |
| IndexList.CreateThenGet | baseapp/services/_dms/index_list/crud.py:37-90 | An index created under a fresh id is what a read of that id then finds. |
| IndexList.UpdateThenGet | baseapp/services/_dms/index_list/crud.py:119-141 | An update answers with what a later read finds: every key of the `$set` with its new value, and every other key as it was. A missing id changes nothing. |
| IndexList.UpdateLeavesOthers | baseapp/services/_dms/index_list/crud.py:119 | No other id reads differently after an update. |
| IndexList.SetKeepsKeys | baseapp/services/_dms/index_list/crud.py:115-119 | An update that does not touch `_id` keeps every stored dictionary holding its own id. The payloads of both updates leave `_id` alone. |
| IndexList.DeleteMarks | baseapp/services/_dms/index_list/api.py:115-130 | Deleting an index only marks it. Afterwards it reads with status "DELETE" and the editor who marked it. |
| IndexList.ProjectMeaning | baseapp/services/_dms/index_list/crud.py:186-193 | A listed index shows its id and exactly those of name, description, type and status that it stores, with their stored values. Nothing else is shown. |
| IndexList.GetAllMeaning | baseapp/services/_dms/index_list/crud.py:178-229 | The listing fails only with the database. Otherwise it holds at most `per_page` entries, the projections of the page's indexes in order, and its block counts every match. |
| IndexList.GetAll | baseapp/services/_dms/index_list/crud.py:159-244 | The answer is the listing model applied to the indexes matching the built query. |
| IndexList.GetAllDbFailureAsWritten | baseapp/services/_dms/index_list/crud.py:230-231 | As written, a failing aggregate or count surfaces as an UnboundLocalError about `e`. |
| DeleteWorker.SelectedMembers | baseapp/services/_redis_worker/delete_file_worker.py:30-56 | The selection holds exactly the files whose `refkey_table` and `refkey_id` match the task. The files it leaves are exactly the others. |
| DeleteWorker.IncUsedMeaning | baseapp/services/_redis_worker/delete_file_worker.py:65 | The organisation's used storage grows by the amount. An existing document keeps its place and its other fields. A missing one is appended with only the id and the used storage. Other organisations keep their documents. |
| DeleteWorker.IncTwice | baseapp/services/_redis_worker/delete_file_worker.py:65 | Two updates of one organisation equal one update by their sum, even when the first one creates the document. |
| DeleteWorker.DecrementAllSum | baseapp/services/_redis_worker/delete_file_worker.py:59-65 | The per-file decrements add up to one decrement by the total size. |
| DeleteWorker.DecrementAllMeaning | baseapp/services/_redis_worker/delete_file_worker.py:59-65 | After the loop's storage updates, the organisation's used storage is its old value (0 if absent) minus the total size. Other organisations keep their documents, and no file means no change. |
| DeleteWorker.DeleteOne | baseapp/services/_redis_worker/delete_file_worker.py:68 | At most one file is removed: the first with the id. |
| DeleteWorker.DeleteOneKeeps | baseapp/services/_redis_worker/delete_file_worker.py:68 | With distinct ids, deleting the first file with an id removes every file with that id. |
| DeleteWorker.DeleteAllKeeps | baseapp/services/_redis_worker/delete_file_worker.py:59-68 | With distinct ids, the loop's deletions remove exactly the files whose id is a selected one. |
| DeleteWorker.KeepSelected | baseapp/services/_redis_worker/delete_file_worker.py:30-68 | With distinct ids, keeping the files whose id is not selected keeps exactly the unmatched files. |
| DeleteWorker.DbFailureAsWritten | baseapp/services/_redis_worker/delete_file_worker.py:70-72 | As written, a database failure surfaces as an UnboundLocalError about `e`, after the same writes. |
| DeleteWorker.Outcome | baseapp/services/_redis_worker/delete_file_worker.py:16-72 | The result and the new organisations and files of `process_task`: the selected files deleted one by one, each giving its size back to the organisation, up to a database failure. `ProcessTask`, `DbFailureReported`, `ProcessStorage` and `ProcessDeletes` prove its meaning. |
| DeleteWorker.DbFailureReported | baseapp/services/_redis_worker/delete_file_worker.py:55-72 | The task fails exactly when one of its database calls fails, with "Database error while retrieve document". A failing aggregate changes nothing. A failing deletion has already given back that file's storage. |
| DeleteWorker.ProcessStorage | baseapp/services/_redis_worker/delete_file_worker.py:59-69 | Without a database failure the task returns the number of selected files. The organisation's used storage drops by their total size, and other organisations are unchanged. |
| DeleteWorker.ProcessDeletes | baseapp/services/_redis_worker/delete_file_worker.py:59-68 | Without a database failure and with distinct ids, exactly the selected files are deleted. The rest stay, in order. |
| DeleteWorker.ProcessTask | baseapp/services/_redis_worker/delete_file_worker.py:16-75 | The result and the organisations and files afterwards are those of the task model. |
| DeleteWorker.RemoveAll | baseapp/services/_redis_worker/delete_file_worker.py:59-69 | The loop leaves the organisations and files that the loop model gives, and returns its result. |
| DbErrors.AsWrittenMisreports | baseapp/services/_dms/index_list/crud.py:230-241 | As written, a database failure never reaches the caller as the intended ValueError. Every other result is unchanged. |
| ClickHouseSchema.DefinitionShape | baseapp/config/clickhouse.py:15-19 | A column definition is its name, a space and its type, followed by ` DEFAULT` and the default exactly when there is one. A `False` or `0` default still counts. |
| ClickHouseSchema.RedundantTests | baseapp/config/clickhouse.py:21-28 | The second test of each type predicate adds nothing: "LowCardinality(String)" contains "String", "UInt" contains "Int" and "DateTime" contains "Date". |
| ClickHouseSchema.IndexType | baseapp/config/clickhouse.py:53-58 | A string column takes a `set(0)` index, even when its type is also numeric or a date. Otherwise a numeric or date column takes `minmax`. Any other column is refused with a ValueError naming it and its type. |
| ClickHouseSchema.IndexClausesOk | baseapp/config/clickhouse.py:52-60 | When every indexed column has a kind, there is one declaration per column, in order, each with its column's kind. |
| ClickHouseSchema.IndexClausesRaise | baseapp/config/clickhouse.py:52-58 | When some indexed column has no kind, the declarations fail with the error of the first such column. |
| ClickHouseSchema.IndexBlockJoin | baseapp/config/clickhouse.py:60-63 | Stripping removes exactly the final `,\n`. The block is the declarations joined by `",\n"`, and empty when there are none. |
| ClickHouseSchema.CreateTableQuery | baseapp/config/clickhouse.py:47-71 | The `CREATE TABLE` statement of a schema, or the error of its first index column without an index kind. `CreateTableShape`, `NoIndexKeepsComma`, `OrderByWhenKeys`, `CreateTableFails`, `SchemaFails`, `SchemaOrdered` and `SchemaKept` prove its shape and its failures. |
| ClickHouseSchema.CreateTableShape | baseapp/config/clickhouse.py:47-71 | When every index column has a kind, the statement holds their declarations joined by `",\n"`, with no trailing comma. |
| ClickHouseSchema.NoIndexKeepsComma | baseapp/config/clickhouse.py:63-66 | With no index columns the index block is empty. The statement then keeps a comma after the last column definition, before `)`. |
| ClickHouseSchema.OrderByWhenKeys | baseapp/config/clickhouse.py:66-69 | The statement ends with ` ORDER BY (<keys>)` exactly when there are primary keys. Otherwise it ends with ` ENGINE = MergeTree`, and the `tuple()` fallback is never used. |
| ClickHouseSchema.CreateTableFails | baseapp/config/clickhouse.py:47-71 | The statement fails exactly when some index column has no kind, and then with the error of the first such column. |
| ClickHouseSchema.IndexedMeaning | baseapp/config/clickhouse.py:44-45 | The indexed columns are exactly the columns added as indexed. |
| ClickHouseSchema.KeyNamesMeaning | baseapp/config/clickhouse.py:41-42 | The primary-key names are the names of the columns added as keys. |
| ClickHouseSchema.PrefixRaise | baseapp/config/clickhouse.py:52-58 | Once a prefix of the index columns raises, every longer list raises with the same error. |
| ClickHouseSchema.TableSchema.constructor | baseapp/config/clickhouse.py:31-35 | A new schema has its table name and no columns, keys or index columns. |
| ClickHouseSchema.TableSchema.AddColumn | baseapp/config/clickhouse.py:37-45 | The column is appended. Its name joins the keys exactly when it is a primary key, and the column joins the index columns exactly when it is indexed. |
| ClickHouseSchema.TableSchema.GenerateCreateTableQuery | baseapp/config/clickhouse.py:47-71 | The loop's statement, or its error, is the one the statement model gives for the schema's columns. For a schema built by the constructor and `add_column`, the statement fails exactly when an indexed column has no index kind, and ends with `ORDER BY` exactly when some column is a primary key. |
| ClickHouseSchema.SchemaFails | baseapp/config/clickhouse.py:37-58 | For key and index lists drawn from the columns, the statement fails exactly when some column marked as indexed is neither a string, a number nor a date. |
| ClickHouseSchema.SchemaOrdered | baseapp/config/clickhouse.py:37-68 | For key and index lists drawn from the columns, a statement that succeeds ends with the ordering on the keys exactly when some column is marked as a primary key. |
| ClickHouseSchema.SchemaKept | baseapp/config/clickhouse.py:37-71 | The statement of a schema whose key and index lists are drawn from its columns keeps both promises above. |
| ClickHouseQuery.BuildCondition | baseapp/config/clickhouse.py:347-401 | One filter condition: the operator checked first, then lists under `IN`/`NOT IN`, quoted strings, two-item ranges as `BETWEEN`, cast dates, printed numbers and formatted values. `UnsupportedOperator`, `BuildFailsIff`, `InListReadsBack`, `StringOperand`, `BackslashOperand` and `RangeOperators` prove what it produces. |
| ClickHouseQuery.UnsupportedOperator | baseapp/config/clickhouse.py:355-358 | An operator other than the six supported ones is refused, whatever the value, with "Unsupported operator: " and its text. |
| ClickHouseQuery.BuildFailsIff | baseapp/config/clickhouse.py:347-401 | A condition fails exactly when the operator is unsupported, or when a date range outside `IN` and `NOT IN` has a second item that is not a date. |
| ClickHouseQuery.QuotedListReadsBack | baseapp/config/clickhouse.py:363-364 | A list of strings quoted by `format_value` reads back as exactly those strings, one literal each, when none of them holds a backslash. |
| ClickHouseQuery.InListReadsBack | baseapp/config/clickhouse.py:361-364 | Under `IN`, a list of strings without backslashes becomes a parenthesised list that ClickHouse reads back as exactly those strings. |
| ClickHouseQuery.StringOperand | baseapp/config/clickhouse.py:372-376 | A string operand is quoted by `format_value` under every supported operator, whether or not it holds `%`. When it holds no backslash, the quoted text reads back as the string. |
| ClickHouseQuery.BackslashOperand | baseapp/config/clickhouse.py:372-376 | Comparing a column with the string `\` by `=` gives a condition whose literal never closes. |
| ClickHouseQuery.RangeOperators | baseapp/config/clickhouse.py:379-394 | For a two-item range of dates or numbers, `!=` wraps the `=` condition in `NOT (…)`. `LIKE` and `NOT LIKE` give the same text as `=`. |
| ClickHouseQuery.FilterConditions | baseapp/config/clickhouse.py:284-292 | The loop over a filter dictionary returns the conditions the condition model gives, or the first error. |
| ClickHouseQuery.ConditionsRaiseLonger | baseapp/config/clickhouse.py:286-292 | Once a prefix of the filters fails, every longer list fails with the same error. |
| ClickHouseQuery.ConditionsOk | baseapp/config/clickhouse.py:286-292 | When every filter builds, there is one condition per filter, in order. |
| ClickHouseQuery.ConditionsRaise | baseapp/config/clickhouse.py:286-292 | When some filter fails, the conditions fail with the error of the first failing filter. |
| ClickHouseQuery.TupleRangeIsOperator | baseapp/config/clickhouse.py:287-289 | A date range passed as a two-item tuple is read as `(value, operator)`, so its end date is refused as an operator. Passed as a list, it is a BETWEEN range. |
| ClickHouseQuery.CountQueryFilters | baseapp/config/clickhouse.py:230-255 | Without filters there is no `WHERE`. With filters the conditions are joined by ` AND `, and a failing filter fails the statement. |
| ClickHouseQuery.CountFromRowsMeaning | baseapp/config/clickhouse.py:263 | No rows gives 0. Otherwise the count is the first column of the first row, and an empty first row raises. |
| ClickHouseQuery.LimitIffOffset | baseapp/config/clickhouse.py:303-304 | `LIMIT … OFFSET …;` is appended exactly when an offset is given. The statement with an offset is the one without, followed by the limit. |
| ClickHouseQuery.OrderByList | baseapp/config/clickhouse.py:296-300 | Ordering by a list of columns puts the direction after each of them. An empty list orders nothing. |
| ClickHouseQuery.RowDictKeys | baseapp/config/clickhouse.py:313 | A row's dictionary has exactly the names that have a value beside them. |
| ClickHouseQuery.RowDictValues | baseapp/config/clickhouse.py:313 | Each key holds the value beside its last occurrence. |
| ClickHouseQuery.DeduplicateFilters | baseapp/config/clickhouse.py:316-345 | The filters are joined to the `id NOT IN` condition with ` AND `. No filters leave the condition alone. A failing filter fails the statement. |
| ClickHouseQuery.UpdateWithoutConditions | baseapp/config/clickhouse.py:201-204 | With no conditions the statement ends in a bare `WHERE `. |
| ClickHouseQuery.AssignmentReadsBack | baseapp/config/clickhouse.py:198 | Each assignment of a string without backslashes is `col = ` followed by a literal that reads back as the string. |
| ClickHouseQuery.FirstMissing | baseapp/config/clickhouse.py:173 | The column named is one the row lacks. |
| ClickHouseQuery.RowTuplesOk | baseapp/config/clickhouse.py:172-175 | When every row has every column there is one tuple per row. |
| ClickHouseQuery.RowTuplesRaise | baseapp/config/clickhouse.py:172-175 | The first row missing a column fails the insert, with the first column it misses. |
| ClickHouseQuery.InsertFailsIff | baseapp/config/clickhouse.py:163-183 | Inserting fails exactly when some row lacks some column. The error is then a KeyError naming the first column missing from the first such row. |
| ClickHouseQuery.InsertNothing | baseapp/config/clickhouse.py:172-180 | Inserting no rows still sends a statement, with nothing after `VALUES`. |
| ClickHouseValues.ReplaceDoubles | baseapp/config/clickhouse.py:409 | `replace("'", "''")` doubles every single quote and changes nothing else. |
| ClickHouseValues.UndoubleDoubled | baseapp/config/clickhouse.py:409 | Undoing the doubling gives the string back. |
| ClickHouseValues.ReadDoubled | baseapp/config/clickhouse.py:403-411 | For a string without a backslash, the as-written quoting reads back as the string and ends exactly at its closing quote. |
| ClickHouseValues.DoubledPlain | baseapp/config/clickhouse.py:409 | A string without quotes is left as it is by the doubling. |
| ClickHouseValues.BackslashAsWritten | baseapp/config/clickhouse.py:407-410 | As written, the string `\` is quoted as `'\'`. |
| ClickHouseValues.BackslashNeverCloses | baseapp/config/clickhouse.py:407-410 | As written, a lone backslash escapes its own closing quote, so the literal never ends. |
| ClickHouseValues.BackslashSwallowsNext | baseapp/config/clickhouse.py:361-364 | In an `IN` list, as written, the backslash's literal runs on to the next value's opening quote. That value's text is then read as SQL. |
| ClickHouseValues.ReadEscaped | baseapp/config/clickhouse.py:403-411 | Under the corrected quoting, with backslashes escaped too, every quoted string reads back as itself, and its literal ends exactly at its closing quote. |
| ClickHouseValues.PlainValueReadsBack | baseapp/config/clickhouse.py:403-411 | A string without a backslash, formatted as written, is one literal standing for the string itself and ending at its closing quote. |
| ClickHouseValues.FormatValueEscapedReadsBack | baseapp/config/clickhouse.py:403-411 | Under the corrected quoting, with backslashes escaped too, every formatted string is one literal standing for the string itself. |
| ClickHouseValues.EscapeWithoutBackslash | baseapp/config/clickhouse.py:409 | Both quotings agree on strings without a backslash. |
| Email.Substituted | baseapp/config/email_smtp.py:137-141 | The template after each placeholder in turn is replaced, at every occurrence, by its replacement. What it means is proved by `ProcessPlaceHolder`, `SubstitutedAppend`, `SubstitutedLonger` and `ChainedPlaceholders`. |
| Email.ProcessPlaceHolder | baseapp/config/email_smtp.py:137-141 | Each placeholder is replaced, in list order, by its replacement. A replacement list shorter than the placeholder list fails with an index error. |
| Email.SubstitutedAppend | baseapp/config/email_smtp.py:139-140 | Substituting two lists of placeholders is substituting the first list and then the second. |
| Email.SubstitutedLonger | baseapp/config/email_smtp.py:138-140 | Replacements beyond the number of placeholders are ignored. |
| Email.ReplaceWhole | baseapp/config/email_smtp.py:140 | A non-empty text replaced within itself becomes the replacement. |
| Email.ChainedPlaceholders | baseapp/config/email_smtp.py:139-140 | Later placeholders are replaced in text that earlier replacements put in, so one replacement can feed the next. |
| Email.TitleAtStartIgnored | baseapp/config/email_smtp.py:149-150 | As written, a template that starts with its `<title>` gets an empty subject, because `find` returns 0 and the test is `> 0`. |
| Email.Subject | baseapp/config/email_smtp.py:147-154 | The subject taken from the template: the text after the first `<title>`, when that tag stands after index 0, up to the next `</title>`, and empty otherwise. `SubjectBetween` and `NoTitleNoSubject` prove what it finds, and `TitleAtStartIgnored` shows the title at index 0 being missed. |
| Email.SubjectBetween | baseapp/config/email_smtp.py:147-154 | As written, the subject is the text between the first `<title>` and the first `</title>` after it when something precedes the `<title>`. Corrected, the same holds wherever the title stands. |
| Email.NoTitleNoSubject | baseapp/config/email_smtp.py:149-150 | Without a `<title>` the subject is empty, both as written and corrected. |
| Email.LoadHtmlEmailTemplate | baseapp/config/email_smtp.py:143-155 | The placeholders are filled first, and the subject is taken from the filled body with the as-written `tb > 0` test. The body returned is the filled template. Too few replacements fail with an index error. |
| Email.Compose | baseapp/config/email_smtp.py:23-61 | The headers `body_msg` sets: sender, subject, `To` (a list joined with `","`), `Cc` and `Reply-To` when not empty, and the blind copies kept aside. `ComposeIntended`, `RecipientsOfListsAsWritten`, `EmptyCopyOmitted` and `BccStringKept` state what it keeps and drops. |
| Email.Recipients | baseapp/config/email_smtp.py:112-118 | The addresses handed to the server: `To`, then `Cc`, then the blind copies when there are any, each split on `", "`. `RecipientsOfLists` proves that the intended composition delivers to every listed address; `RecipientsOfListsAsWritten` shows a `To` list merged into one address. |
| Email.RecipientsOfLists | baseapp/config/email_smtp.py:29-121 | Corrected, with the `To` list joined by `", "`: when `To`, `Cc` and `bcc` are lists of clean addresses, the server receives exactly those addresses, in that order. |
| Email.RecipientsOfListsAsWritten | baseapp/config/email_smtp.py:29-121 | As written, for lists of clean addresses without commas, the server receives the `To` addresses merged into one recipient joined by `","`, then exactly the `Cc` and `bcc` addresses. |
| Email.CommaJoinNoCommaSpace | baseapp/config/email_smtp.py:30 | Addresses without commas, none starting with a space, joined by `","` contain no `", "`. |
| Email.NoCommaSpaceSplit | baseapp/config/email_smtp.py:115 | Text with no `", "` splits into itself alone. |
| Email.ToListMergedAsWritten | baseapp/config/email_smtp.py:29-32 | As written, a `To` list of two or more plain addresses reaches the server as one recipient: the addresses joined by `","`. |
| Email.EmptyCopyOmitted | baseapp/config/email_smtp.py:35-41 | An empty `Cc` string or list adds no `Cc` header and no recipient. |
| Email.BccStringKept | baseapp/config/email_smtp.py:59-61 | A string of blind copies is always kept, even the empty string, because the length is compared with `""`. The empty one then adds no recipient. |
| Email.Connect | baseapp/config/email_smtp.py:97-107 | Port 465 opens an SSL connection and any other port a plain one. STARTTLS is sent whenever it is asked for, on either. |
| Email.SendOutcome | baseapp/config/email_smtp.py:92-134 | Sending returns `True` exactly when no SMTP failure occurs. Every SMTP failure becomes a ValueError. |
| MongoDb.Ascending | baseapp/config/mongodb.py:81 | There is one key per field, in order, each ascending. |
| MongoDb.CompoundSpecs | baseapp/config/mongodb.py:80-82 | There is one named index per dictionary entry. |
| MongoDb.IndexSpecsMeaning | baseapp/config/mongodb.py:74-83 | Every index is ascending. A string item makes one unnamed single-field index. A dictionary item makes one index per entry, named by its key, over its fields in order. |
| MongoDb.CompoundSpecsMeaning | baseapp/config/mongodb.py:80-82 | Every compound index carries its entry's name and its fields, ascending. |
| MongoDb.IndexSpecsCount | baseapp/config/mongodb.py:75-83 | The number of indexes is one per string item plus one per dictionary entry. |
| MongoDb.WithIndexes | baseapp/config/mongodb.py:74-83 | The named collection gets the indexes appended and keeps its documents. Every other collection is unchanged. |
| MongoDb.InsertUnorderedMeaning | baseapp/config/mongodb.py:104 | The unordered insert keeps every stored document and adds only batch documents. Every batch `_id` is taken afterwards, and `_id`s stay unique: a duplicate is skipped and the rest still go in. |
| MongoDb.InsertDistinctKeepsAll | baseapp/config/mongodb.py:104 | A batch of distinct, untaken `_id`s is stored whole, after the existing documents. |
| MongoDb.Normalise | baseapp/config/mongodb.py:97-102 | A record with an `id` has it moved to `_id`. One without gets a new UUID as `_id`. Every other field is kept. |
| MongoDb.NormaliseTwice | baseapp/config/mongodb.py:97-102 | Normalising twice replaces the `_id` taken from `id` with a new UUID, because the first pass deleted `id`. |
| MongoDb.NormaliseAll | baseapp/config/mongodb.py:97-102 | Each record of the list is normalised with its own UUID, in order. |
| MongoDb.ApplyLocal | baseapp/config/mongodb.py:69-107 | Processing a collection touches that collection only. It keeps every document and every index already there. |
| MongoDb.ApplyStoresRecords | baseapp/config/mongodb.py:86-104 | After processing, every initial record of the collection is stored under its normalised `_id`, and `_id`s stay unique. |
| MongoDb.CreatedNext | baseapp/config/mongodb.py:69-107 | The configured collections are processed one after another, in order. |
| MongoDb.WithIndexesAppend | baseapp/config/mongodb.py:75-83 | Creating one list of indexes and then another is creating their concatenation. |
| MongoDb.MongoDatabase.CreateIndex | baseapp/config/mongodb.py:77 | The collection gets one more index, and nothing else changes. |
| MongoDb.MongoDatabase.InsertMany | baseapp/config/mongodb.py:104 | The collection's documents become the unordered insert of the batch, and nothing else changes. |
| MongoDb.MongoDatabase.CreateCompound | baseapp/config/mongodb.py:80-83 | The collection gets the named compound indexes of the dictionary item, in order. |
| MongoDb.MongoDatabase.CreateIndexes | baseapp/config/mongodb.py:74-83 | The collection gets the indexes of its `index` list, in order. |
| MongoDb.MongoDatabase.ProcessCollection | baseapp/config/mongodb.py:71-107 | The collections afterwards are those of the one-collection model: indexes first, then the normalised records. |
| MongoDb.MongoDatabase.CreateCollections | baseapp/config/mongodb.py:69-107 | The collections afterwards are those of processing every configured collection in order. |
| MongoDb.MongoConn.constructor | baseapp/config/mongodb.py:18-35 | A connection is opened with or without a selected database. |
| MongoDb.MongoConn.GetDatabase | baseapp/config/mongodb.py:42-45 | The selected database is returned, or None when none was selected. |
| MongoDb.MongoConn.CreateDatabase | baseapp/config/mongodb.py:59-109 | Nothing happens when no database is selected. Otherwise each configured collection, in order, gets its indexes and then its normalised initial records. |
| MongoDb.NormaliseRecords | baseapp/config/mongodb.py:97-102 | The loop rewrites the records in place into their normalised forms. |
| Json.EscapeChar | baseapp/services/redis_queue.py:17 | A quote, backslash, newline, carriage return or tab is escaped with a backslash. Any other character is written as it is. No escape is a bare quote. |
| Json.Members | baseapp/services/redis_queue.py:17 | There is one `"key": "value"` member per field, in order. |
| Json.Dumps | baseapp/services/redis_queue.py:17 | The text is an object: it starts with `{` and ends with `}`. |
| Json.ReadChars | baseapp/services/redis_queue.py:26 | What follows a read string literal is shorter than the text read. |
| Json.ReadEscaped | baseapp/services/redis_queue.py:17-26 | The escaped characters of any string, then a quote, read back as the string, ending just after that quote. |
| Json.ReadQuoted | baseapp/services/redis_queue.py:17-26 | A string literal reads back as its string, whatever it holds, with what follows left unread. |
| Json.ReadMembersBack | baseapp/services/redis_queue.py:17-26 | The members of a non-empty task and the closing brace read back as the task. |
| Json.LoadsDumps | baseapp/services/redis_queue.py:17-26 | Decoding the text of a task gives the task back. |
| Json.DumpsInjective | baseapp/services/redis_queue.py:17 | Different tasks are written as different texts. |
| RedisQueue.Pending | baseapp/services/redis_queue.py:17-25 | A list pushed at the head and popped from the tail yields its entries oldest first: the reverse of its stored order. |
| RedisQueue.PendingPush | baseapp/services/redis_queue.py:17 | Pushing at the head puts the entry last in line. |
| RedisQueue.PendingPop | baseapp/services/redis_queue.py:25 | Popping from the tail takes the entry first in line and leaves the rest in line. |
| RedisQueue.DumpsAll | baseapp/services/redis_queue.py:17 | Each task is written as its JSON text, in order. |
| RedisQueue.RedisLists.constructor | baseapp/services/redis_queue.py:8-10 | A new server holds no lists. |
| RedisQueue.RedisQueueManager.constructor | baseapp/services/redis_queue.py:8-10 | The manager keeps its connection and queue name. |
| RedisQueue.RedisQueueManager.EnqueueTask | baseapp/services/redis_queue.py:12-18 | The task's JSON text is pushed at the head of its list, so it waits behind every task already queued. Other lists are unchanged. |
| RedisQueue.RedisQueueManager.DequeueTask | baseapp/services/redis_queue.py:20-26 | An empty queue gives None and changes nothing. Otherwise the oldest entry is removed and decoded, and an empty entry gives None. Other lists are unchanged. |
| RedisQueue.DequeueYieldsFirst | baseapp/services/redis_queue.py:20-26 | A queue holding tasks yields the first one, decoded exactly, and keeps the rest in order. |
| RedisQueue.FifoOrder | baseapp/services/redis_queue.py:12-26 | Two tasks enqueued on an empty queue come out in the order they went in, and then the queue is empty. |
| Pagination.TotalPages | baseapp/services/_dms/index_list/crud.py:227 | The page count is the least number of pages of `per_page` items that hold every item. |
| Pagination.CeilingDivision | baseapp/services/_dms/index_list/crud.py:227 | `(total + per_page - 1) // per_page` is that least page count. |
| Pagination.PageOf | baseapp/services/_dms/index_list/crud.py:179-200 | A page holds at most `per_page` items. |
| Pagination.PagesCoverItems | baseapp/services/_dms/index_list/crud.py:179-227 | A page is non-empty exactly when its number is at most `total_pages`. The item at position `i` sits on page `i / per_page + 1`, at position `i % per_page`. |
| Pagination.PageNonEmpty | baseapp/services/_dms/index_list/crud.py:179-227 | A page is non-empty exactly when its number is at most `total_pages`. |
| Pagination.ItemOnPage | baseapp/services/_dms/index_list/crud.py:179-200 | The item at position `i` is on page `i / per_page + 1`. |
| Pagination.Listing | baseapp/services/_dms/index_list/crud.py:221-229 | The page holds at most `per_page` items. The block counts every match and gives the least page count that holds them all. |
| QueryFilter.Translate | baseapp/services/_dms/index_list/crud.py:170-176 | A string starting with `regex:` becomes a case-insensitive `$regex` clause on everything after that prefix. Every other value is kept as it is. |
| QueryFilter.TranslateInjectiveOnStrings | baseapp/services/_dms/index_list/crud.py:170-176 | Two filter strings that give the same query value are the same string. |
| QueryFilter.Query | baseapp/services/_dms/index_list/crud.py:168-176 | No filters give an empty query. Otherwise the query has the same keys as the filters, each value translated. |
| QueryFilter.BuildQuery | baseapp/services/_dms/index_list/crud.py:168-176 | The loop fills the query the translation model gives. |

## Left out

- Drivers and connections: the MongoDB, Redis, ClickHouse, MinIO and SMTP clients are modelled by what the code reads and writes (sequences, maps, a `Database` object), not by their wire protocols. Connection set-up, context managers (`__enter__`/`__exit__`, `close`, `get_connection`, `check_database_exists`), `ClickHouseConn.connect_to_server` and `select_database` are not modelled.
- MongoDB query evaluation (`find`, `aggregate`, `$bitsAnySet`) is given as an `evaluate` function from a filter document to the matching records, in the order the database returns them. Where a listing sorts, the sort is modelled: the menu with the stable `Sorting.SortBy` (MongoDB's `$sort` does not guarantee the order of equal keys; the model fixes one, the order the records come in), the API credentials with `ApiCredentials.Ordered` over a rank the caller gives for the sort field's values. Elsewhere `evaluate` returns the records already in the requested order.
- Database failures are an input of DeleteWorker.ProcessTask, DeleteWorker.RemoveAll, IndexList.GetAll, DmsBrowse.BrowseByKey, DmsBrowse.ListFolder, DmsBrowse.ListFile, DmsBrowse.CheckStorage and PermissionCheck.HasPermission only, as a boolean or a `Failure` parameter. The other modelled operations that catch `PyMongoError` (among them FeatureCrud.FeatureService.SetPermission, DmsUpload.UploadService.UploadFileToMinio and the user and API-credential operations) are modelled with a database that answers; the ValueError they raise on a failure is not modelled.
- FeatureCrud.FeatureService.GetAll, Menu.MenuService.GetAll and the user and API-credential reads have no failure path in the model. When their query fails, their handlers log an unbound `e` (`_feature/crud.py:195`, `_menu/crud.py:162`, `_user/crud.py:688`, `_api_credentials/crud.py:265`) and raise UnboundLocalError. That is not modelled.
- DeleteWorker.ProcessTask, DeleteWorker.RemoveAll, IndexList.GetAll, DmsBrowse.BrowseByKey, DmsBrowse.ListFolder and DmsBrowse.ListFile return, on a database failure, the ValueError the code evidently intends. As written, the handlers log an unbound `e` and raise UnboundLocalError. `DbErrors.AsWritten` and the `DbFailureAsWritten` lemmas (`DeleteWorker.DbFailureAsWritten`, `IndexList.GetAllDbFailureAsWritten`, `DmsBrowse.BrowseDbFailureAsWritten`, `DmsBrowse.ListFolderDbFailureAsWritten`, `DmsBrowse.ListFileDbFailureAsWritten`) map each of these results to the as-written error.
- The object store is left out. `put_object`, `remove_object` and libmagic MIME sniffing are not modelled. `presigned_get_object` is a `url` function parameter, and the sniffed MIME type is an input.
- Clocks, UUIDs, `secrets` tokens and `random` choices are parameters drawn by the caller. Token expiry is a comparison with a given time. Redis TTLs are stored with the key but never expire in the model.
- SHA-256, bcrypt and JWT signing are modelled as free constructors: two hashes are equal exactly when they come from the same salt and password, and a token the service signed carries its claims and expiry. No other property of the algorithms is modelled, and JWT decoding errors other than a bad signature or expiry are not distinguished.
- `hash_password` returns a single string in `baseapp/utils/utility.py:12-16`, but `_org/crud.py:143` and `auth/crud.py:36` unpack it as a `(salt, hash)` pair, which raises ValueError (see Findings). The as-written behaviour is `Auth.ValidateUserAsWritten` and `OrgInit.InitOwnerOrgOutcomeAsWritten`; the rest of the model (the login route, the bootstrap method) uses the intended pair, the salt and the hash made with it.
- `revoke_all_refresh_tokens` is imported by the forgot-password service but is not defined in `baseapp/utils/jwt.py`. As written, that module-level import raises ImportError when the module is loaded, so the service never runs; this is not modelled. The function is modelled from its call site as "delete every refresh-token key of the user" (`KeyValue.RevokeAll`).
- The `CurrentUser` record in `model/common.py` does not match the fields `baseapp/utils/jwt.py` reads and writes. The model follows `jwt.py`.
- ApiCredentials.CreateRoute, ApiCredentials.CreateByOwnerRoute, ApiCredentials.DeleteRoute, ApiCredentials.ListRoute and the DMS browse route read `cu.ip_address` and `cu.user_agent` (`_api_credentials/api.py:30-31`, `:52-53`, `:68-69`, `:96-97`, `_dms/browse/api.py:31-32`). Neither `CurrentUser` record has these fields, so as written each of these routes raises AttributeError before it reaches the service. The model leaves the two fields out (they only feed the audit trail) and lets the routes reach the service.
- `UpdateStatus` is not defined in `model/common.py`. Its only callers build it from a `status` value, so its payload is modelled as `{"status": …}`.
- `Status`, which `auth/crud.py:5` and several services import from `model/common.py`, is not defined there. `UserInfo` in `auth/model.py:11-15` has no `res_code` or `res_message` field and requires `roles`. Taken literally, every refusal `UserInfo(res_code=4, …)` fails validation, and the login route's read of `user_info.res_code` fails after every accepted login. The model uses the evident intent: `Auth.UserInfo` is either accepted, with the identity, roles and tier, or refused, with a message.
- `get_response_based_on_env` is imported from `baseapp/utils/utility.py` but is not defined there. The middleware's production switch is modelled as a boolean parameter. The auth routes (`auth/api.py:64-71`) pass their answers through it, and the model treats it there as returning the answer unchanged.
- The audit trail (`audit_trail_service.py`) and all logging are side effects with no bearing on results, and are not modelled. The middleware's request and response log entries are modelled as values; where they go is not.
- `set_metadata` in `baseapp/services/_dms/upload/crud.py:215` is an audit-trail write plus a plain update, and is not modelled.
- The background workers' thread loops (`base_worker.py`, `redis_worker.py`) are not modelled: they only poll a queue, sleep and dispatch. The delete-file worker's `process_task` is modelled.
- Route handlers are modelled only for `auth/api.py` and `_api_credentials/api.py`. The other routes are HTTP glue around `has_permission` and a filter dictionary. The pydantic models, `setting.py`, `main.py` and the OAuth, profile and AI services are not part of this model.
- Sizes and storage counters are unbounded integers. Float file sizes and 64-bit counter limits are not modelled.
- ClickHouse values: `format_value` is modelled for strings, integers and booleans. Floats and dates are opaque text given by the caller, also where an operator's text appears in the "Unsupported operator: …" message: for a datetime taken as operator (ClickHouseQuery.TupleRangeIsOperator), the model's message carries that opaque text, where the code writes `str(datetime)`, such as `2024-01-31 00:00:00`. `\xHH` escapes, and how ClickHouse reads quoted text nested inside a `str()` of a list, are not modelled. `insert_data_copy`, `execute_query`, `execute_no_return` and the `result_rows`/`column_names` objects are not modelled.
- ClickHouseQuery.TupleRangeIsOperator: a date range given as a tuple is read as an operator-value pair, as the code does. The datetime formatting of range bounds is opaque text.
- JSON covers only what the queues carry: objects whose fields all hold strings, written with Python's default separators. `\uXXXX`, `\b` and `\f` escapes, other value types and other whitespace are not modelled. `Loads` returns None where `json.loads` raises.
- The Redis queue's connection context manager and error logging are not modelled.
- MongoDB bootstrap: a `BulkWriteError` from an unordered `insert_many` is modelled as the duplicates being skipped and logged. A collection exists in the model once it has an index or a record. `create_index` is modelled as appending an index spec to the collection's list, without deduplication.
- Email: reading the template file, attachments, MIME assembly and the constructor's configuration fallbacks are left out; the template body is a parameter. The SMTP session is a `Transport` plus an optional failure parameter. STARTTLS is sent whenever `use_tls` is set, port 465 included, as written.
- Email.SendOutcome: states that a session failure becomes a ValueError, but not which message each failure kind gets. Errors outside `smtplib`'s hierarchy, such as an `OSError` or `ConnectionRefusedError` while opening the connection, are not caught by `send_email` and propagate. They are not modelled.
- The middleware's `X-Process-Time` value is text given by the caller; the clock is not modelled. Exception subclasses are not modelled: each exception is one constructor of `Exc`.
- The forgot-password OTP is queued for sending: the push of the e-mail task is modelled, and the returned task stands for the queue entry. The worker that sends the mail is not part of this model.
- The delete-file worker's `update_one(..., upsert=True)` creates an organisation record holding only `usedstorage` when the organisation is missing. The model does this, but states no property of the created record beyond its counter.
- Permission and tier masks are 32-bit vectors (`bv32` in `bits.dfy`). Python's integers are unbounded, so bits above 31 are not modelled.
- `Str.Lower` and `Str.Strip` handle ASCII letters and ASCII whitespace only (for `Strip`, the characters `str.isspace` accepts below 128, the separators 0x1c to 0x1f included). Python's `lower` and `strip` are Unicode-aware.
- DmsUpload.UploadService.UploadFileToMinio takes the metadata as a dictionary from names to strings. The route reads it with `json.loads` (`_dms/upload/api.py:27`), so it can also be `null` or hold values that are not strings. Null metadata raises TypeError at the first `in` test (`_dms/upload/crud.py:92`), after the storage read. A non-string value becomes a folder name (`_dms/upload/crud.py:95`, `:98`); the folders are inserted and `put_object` runs (`_dms/upload/crud.py:169`), and only then does `" >> ".join` raise TypeError (`_dms/upload/crud.py:186`), leaving the folders and the stored object behind. Neither case is modelled.
- DmsBrowse.BrowseByKey keys files by `Option<string>`: a file stored without a reference name (the upload stores `refkey_name: None`) is keyed by None, as in the code. A file document that lacks the `refkey_name` field altogether, which the code answers with a KeyError at `_dms/browse/crud.py:92`, is not modelled: every upload stores the field.
- Middleware.LogId looks the `log_id` header up by its exact name. Starlette's header lookup ignores case, so a client sending `LOG_ID` or `Log_Id` is also logged under its own id (a `Log-Id` header does not match: the hyphen is not mapped to an underscore); that case folding is not modelled.

## Findings

| source | as written | input that shows it | evidently intended | confidence | as-written member | corrected member |
|---|---|---|---|---|---|---|
| baseapp/services/_org/crud.py:103 | `get_enum("ROLEACTION")` passes one argument to a two-argument function; the TypeError is caught at lines 127-129, so no grant row is ever inserted | any organisation bootstrap | the Admin role gets a grant row per visible feature, holding every ROLEACTION bit except those withheld from the tier | not executed | OrgInit.AdminLocksOutAsWritten | OrgInit.AdminAdmittedWhenSeeded |
| baseapp/services/_redis_worker/delete_file_worker.py:70-72 | the `PyMongoError` handler logs `str(e)`, but `e` is bound only by the later `except Exception as e` clause, so an UnboundLocalError is raised | a task whose aggregate, update or delete raises a PyMongoError | raise ValueError("Database error while retrieve document") | not executed | DeleteWorker.DbFailureAsWritten | DeleteWorker.DbFailureReported |
| baseapp/services/_dms/index_list/crud.py:230-231 | the same unbound `e` in the listing's `PyMongoError` handler; browse/crud.py repeats it at lines 108-109, 191-192 and 288-289 | a listing whose aggregate or count raises a PyMongoError | raise ValueError("Database error while retrieve document") | not executed | IndexList.GetAllDbFailureAsWritten | IndexList.GetAllMeaning |
| baseapp/config/clickhouse.py:403-411 | only single quotes are doubled; a backslash is left as is, so it escapes the character after it | the string `\` is formatted as `'\'`, a literal that never ends | a quoted literal that reads back as the string | not executed | ClickHouseValues.BackslashNeverCloses | ClickHouseValues.FormatValueEscapedReadsBack |
| baseapp/config/email_smtp.py:149-150 | the `<title>` search succeeds only when `find` returns more than 0 | a template that starts with `<title>Hi</title>` gets subject `''` | the subject is the title wherever it stands, index 0 included | not executed | Email.TitleAtStartIgnored | Email.SubjectBetween |
| baseapp/config/email_smtp.py:29-32 | a `To` list is joined with `","`, but the recipients are later split on `", "` (line 115) | `to=["a@x", "b@y"]` reaches the server as the one recipient `a@x,b@y` | the list joined with `", "`, so that each address is its own recipient | not executed | Email.ToListMergedAsWritten | Email.RecipientsOfLists |
| baseapp/services/auth/crud.py:36 | `salt, claim_password = hash_password(...)` unpacks the one str `hash_password` returns, a 60-character bcrypt hash; the ValueError is caught at line 72 and its text becomes the refusal | any login of an active user with a stored salt and hash, the right password included | hash the password with the stored salt and compare the hash with the stored one | not executed | Auth.PasswordLoginRefusedAsWritten | Auth.ValidateUserIff |
| baseapp/services/_org/crud.py:143 | the same pair assignment in `init_user` raises after the organisation and its Admin role are inserted; the handler at lines 62-64 answers status 4 | any bootstrap that passes the owner and user-name checks | insert the owner user with a fresh salt and the hash made with it | not executed | OrgInit.InitStrandsOwnerAsWritten | OrgInit.InitCreates |
| baseapp/services/permission_check_service.py:34-36 | the `PyMongoError` handler logs through `self.logger`, which `PermissionChecker` never sets, so an AttributeError is raised instead of the ValueError | a grant lookup whose cursor raises a PyMongoError before any covering row | raise ValueError("Database error occurred while checking permission.") | not executed | PermissionCheck.FaultRaisesAsWritten | PermissionCheck.FaultReportedIntended |

=== FILE: api_credentials.dfy ===
/** API credentials: a public client id and a secret whose plaintext is
    shown once, in the answer to its creation, while only its hash is
    stored; the routes guard the `_api_credentials` feature with bits 1
    (list), 2 (create) and 4 (delete), creation for another organisation
    is reserved to the owner tier, and deletion only marks the record. */
module ApiCredentials {
  import opened Base
  import opened Bits
  import opened Records
  import opened Utility
  import PermissionCheck
  import Pagination
  import Sorting

  /** The answer to a creation: the only place the plaintext secret appears. */
  datatype Issued = Issued(id: string, orgId: Option<string>, keyName: string, clientId: string, clientSecret: string, status: Status)

  /** The answer to an update: the record without its hash. */
  datatype Projection = Projection(id: string, keyName: string, clientId: string, status: Status)

  const NotFound: Exc := ValueError("API Credential not found")
  const CreateFailed: Exc := ValueError("Database error occurred while creating document.")
  const AccessDenied: Exc := PermissionError("Access denied")
  const Feature := "_api_credentials"

  function ClientId(pubToken: string): string { "client_pub_" + pubToken }
  function ClientSecret(secToken: string): string { "client_sec_" + secToken }

  /** The position of the first credential with that id, if any. */
  function CredentialIndex(creds: seq<Credential>, id: string): (r: Option<nat>)
    ensures r.None? <==> forall i :: 0 <= i < |creds| ==> creds[i].id != id
    ensures r.Some? ==> r.value < |creds| && creds[r.value].id == id
    ensures r.Some? ==> forall i :: 0 <= i < r.value ==> creds[i].id != id
  {
    if creds == [] then None
    else if creds[0].id == id then Some(0)
    else match CredentialIndex(creds[1..], id)
      case None => None
      case Some(k) => Some(k + 1)
  }

  /** The random parts of a creation: the record id (`uuid4`), the two
      `token_urlsafe` strings and the bcrypt salt. */
  datatype Draws = Draws(id: string, pubToken: string, secToken: string, salt: string)

  class CredentialService {
    var userId: string
    var orgId: string

    constructor (userId: string, orgId: string)
      ensures this.userId == userId && this.orgId == orgId
    {
      this.userId := userId;
      this.orgId := orgId;
    }

    /** `set_context`: the caller's user and organisation. */
    method SetContext(userId: string, orgId: string)
      modifies this
      ensures this.userId == userId && this.orgId == orgId
    {
      this.userId := userId;
      this.orgId := orgId;
    }

    /** `create(data)` (for the caller's organisation, `owner == None`) and
        `create_by_owner(data)` (for the organisation the request names). */
    method Create(db: Database, keyName: string, status: Status, owner: Option<string>, d: Draws)
      returns (r: Result<Issued>)
      modifies db`credentials
      ensures r.Raise? <==> CredentialIndex(old(db.credentials), d.id).Some?
      ensures r.Raise? ==> r.exc == CreateFailed && db.credentials == old(db.credentials)
      ensures r.Ok? ==>
        && r.value == Issued(d.id, owner, keyName, ClientId(d.pubToken), ClientSecret(d.secToken), status)
        && db.credentials == old(db.credentials) +
             [Credential(d.id, keyName, status, owner.GetOr(orgId), ClientId(d.pubToken),
                         HashPassword(ClientSecret(d.secToken), None, d.salt))]
    {
      if CredentialIndex(db.credentials, d.id).Some? {
        return Raise(CreateFailed);
      }
      var clientId := ClientId(d.pubToken);
      var secret := ClientSecret(d.secToken);
      var hashed := HashPassword(secret, None, d.salt);
      var org := if owner.Some? then owner.value else orgId;
      db.credentials := db.credentials + [Credential(d.id, keyName, status, org, clientId, hashed)];
      r := Ok(Issued(d.id, owner, keyName, clientId, secret, status));
    }

    /** `get_by_id(id)`. */
    method GetById(db: Database, id: string) returns (r: Result<Credential>)
      ensures r.Raise? <==> forall i :: 0 <= i < |db.credentials| ==> db.credentials[i].id != id
      ensures r.Raise? ==> r.exc == NotFound
      ensures r.Ok? ==> r.value in db.credentials && r.value.id == id
    {
      var k := CredentialIndex(db.credentials, id);
      if k.None? {
        return Raise(NotFound);
      }
      r := Ok(db.credentials[k.value]);
    }

    /** `update_by_id(id, {"status": s})`: the new status and the projection
        without the hash. */
    method UpdateStatus(db: Database, id: string, status: Status) returns (r: Result<Projection>)
      modifies db`credentials
      ensures r.Raise? <==> forall i :: 0 <= i < |old(db.credentials)| ==> old(db.credentials)[i].id != id
      ensures r.Raise? ==> r.exc == NotFound && db.credentials == old(db.credentials)
      ensures r.Ok? ==>
        var k := CredentialIndex(old(db.credentials), id).value;
        var c := old(db.credentials)[k];
        && db.credentials == old(db.credentials)[k := c.(status := status)]
        && r.value == Projection(c.id, c.keyName, c.clientId, status)
    {
      var k := CredentialIndex(db.credentials, id);
      if k.None? {
        return Raise(NotFound);
      }
      var c := db.credentials[k.value].(status := status);
      db.credentials := db.credentials[k.value := c];
      r := Ok(Projection(c.id, c.keyName, c.clientId, c.status));
    }
  }

  /** A created credential's stored hash accepts its secret and no other
      text, and the client id and the secret carry their prefixes. */
  lemma IssuedSecret(keyName: string, status: Status, orgId: string, d: Draws, other: string)
    ensures var c := Credential(d.id, keyName, status, orgId, ClientId(d.pubToken), HashPassword(ClientSecret(d.secToken), None, d.salt));
      && (CheckPassword(other, Some(c.secretHash)) <==> other == ClientSecret(d.secToken))
      && c.clientId[..11] == "client_pub_" && ClientSecret(d.secToken)[..11] == "client_sec_"
  {
    var secret := ClientSecret(d.secToken);
    CheckOwnHash(secret, None, d.salt);
    if CheckPassword(other, Some(HashPassword(secret, None, d.salt))) {
      CheckOnlyOwnHash(secret, other, None, d.salt);
    }
  }

  /** What `CredentialService.Create` does to the credentials `before`,
      giving `after` and answering `r`, for organisation `org`: a taken id
      is refused and writes nothing; otherwise the issued credential is
      appended with its prefixed client id and the hash of its secret. */
  predicate CreateEffect(before: seq<Credential>, after: seq<Credential>, r: Result<Issued>, org: string,
                         keyName: string, status: Status, owner: Option<string>, d: Draws)
  {
    && (r.Raise? <==> CredentialIndex(before, d.id).Some?)
    && (r.Raise? ==> r.exc == CreateFailed && after == before)
    && (r.Ok? ==>
         && r.value == Issued(d.id, owner, keyName, ClientId(d.pubToken), ClientSecret(d.secToken), status)
         && after == before + [Credential(d.id, keyName, status, org, ClientId(d.pubToken),
                                          HashPassword(ClientSecret(d.secToken), None, d.salt))])
  }

  /** What `CredentialService.UpdateStatus(id, Deleted)` does: an unknown id
      is refused and writes nothing; otherwise only the first credential
      with the id is marked DELETE, and its projection is the answer. */
  predicate DeleteEffect(before: seq<Credential>, after: seq<Credential>, r: Result<Projection>, id: string) {
    && (r.Raise? <==> CredentialIndex(before, id).None?)
    && (r.Raise? ==> r.exc == NotFound && after == before)
    && (r.Ok? ==>
         var k := CredentialIndex(before, id).value;
         && after == before[k := before[k].(status := Deleted)]
         && r.value == Projection(before[k].id, before[k].keyName, before[k].clientId, Deleted))
  }

  /** After a creation, the new credential is the one its id finds, it
      belongs to the organisation asked for, its stored hash accepts the
      secret the answer shows, and every earlier credential is kept. */
  lemma CreateThenFound(before: seq<Credential>, after: seq<Credential>, r: Result<Issued>, org: string,
                        keyName: string, status: Status, owner: Option<string>, d: Draws)
    requires CreateEffect(before, after, r, org, keyName, status, owner, d) && r.Ok?
    ensures CredentialIndex(after, d.id) == Some(|before|)
    ensures after[|before|].orgId == org
    ensures CheckPassword(r.value.clientSecret, Some(after[|before|].secretHash))
    ensures after[..|before|] == before
  {
    IssuedSecret(keyName, status, org, d, r.value.clientSecret);
    var k := CredentialIndex(after, d.id);
    assert after[|before|].id == d.id;
    assert forall i :: 0 <= i < |before| ==> after[i].id != d.id by {
      assert CredentialIndex(before, d.id).None?;
    }
    assert k.Some? && k.value == |before|;
  }

  /** Deleting twice is deleting once: a second deletion of the same id
      finds the marked credential and writes the same collection again. */
  lemma DeleteIdempotent(before: seq<Credential>, mid: seq<Credential>, after: seq<Credential>,
                         r1: Result<Projection>, r2: Result<Projection>, id: string)
    requires DeleteEffect(before, mid, r1, id) && DeleteEffect(mid, after, r2, id)
    ensures after == mid
    ensures r1 == r2
  {
    if r1.Ok? {
      var k := CredentialIndex(before, id).value;
      assert forall i :: 0 <= i < |mid| ==> (mid[i].id == id <==> before[i].id == id);
      var k2 := CredentialIndex(mid, id);
      assert k2.Some?;
      assert k2.value == k;
    } else {
      assert CredentialIndex(mid, id).None?;
    }
  }

  // ---------------------------------------------------------------------
  // Routes

  /** What the routes know of the caller. */
  datatype Caller = Caller(id: string, orgId: string, roles: seq<string>, authority: int)

  /** `POST /create`: bit 2 on the feature, then a credential for the
      caller's organisation. */
  method CreateRoute(db: Database, svc: CredentialService, cu: Caller, keyName: string, status: Status, d: Draws)
    returns (r: Result<Issued>)
    modifies db`credentials, svc
    ensures !PermissionCheck.Authorized(db.grants, cu.roles, Feature, 2) ==>
      r == Raise(AccessDenied) && db.credentials == old(db.credentials)
    ensures r.Ok? ==> r.value.orgId.None? && |db.credentials| == |old(db.credentials)| + 1 && db.credentials[|db.credentials| - 1].orgId == cu.orgId
    ensures PermissionCheck.Authorized(db.grants, cu.roles, Feature, 2) ==>
      CreateEffect(old(db.credentials), db.credentials, r, cu.orgId, keyName, status, None, d)
  {
    var allowed := PermissionCheck.HasPermission(db, cu.roles, Feature, 2, None);
    if allowed != Ok(true) {
      return Raise(AccessDenied);
    }
    svc.SetContext(cu.id, cu.orgId);
    r := svc.Create(db, keyName, status, None, d);
  }

  /** `POST /create-by-owner`: the owner tier is checked before any grant
      is read, then bit 2, then a credential for the named organisation. */
  method CreateByOwnerRoute(db: Database, svc: CredentialService, cu: Caller, keyName: string, status: Status,
                            orgId: string, d: Draws)
    returns (r: Result<Issued>)
    modifies db`credentials, svc
    ensures cu.authority != 1 ==> r == Raise(AccessDenied) && db.credentials == old(db.credentials)
    ensures !PermissionCheck.Authorized(db.grants, cu.roles, Feature, 2) ==>
      r == Raise(AccessDenied) && db.credentials == old(db.credentials)
    ensures r.Ok? ==> r.value.orgId == Some(orgId) && |db.credentials| == |old(db.credentials)| + 1 && db.credentials[|db.credentials| - 1].orgId == orgId
    ensures cu.authority == 1 && PermissionCheck.Authorized(db.grants, cu.roles, Feature, 2) ==>
      CreateEffect(old(db.credentials), db.credentials, r, orgId, keyName, status, Some(orgId), d)
  {
    if cu.authority != 1 {
      return Raise(AccessDenied);
    }
    var allowed := PermissionCheck.HasPermission(db, cu.roles, Feature, 2, None);
    if allowed != Ok(true) {
      return Raise(AccessDenied);
    }
    svc.SetContext(cu.id, cu.orgId);
    r := svc.Create(db, keyName, status, Some(orgId), d);
  }

  /** `DELETE /delete/{id}`: bit 4, then the status becomes DELETE; the
      record stays. */
  method DeleteRoute(db: Database, svc: CredentialService, cu: Caller, id: string) returns (r: Result<Projection>)
    modifies db`credentials, svc
    ensures !PermissionCheck.Authorized(db.grants, cu.roles, Feature, 4) ==>
      r == Raise(AccessDenied) && db.credentials == old(db.credentials)
    ensures |db.credentials| == |old(db.credentials)|
    ensures r.Ok? ==> r.value.status == Deleted && r.value.id == id
    ensures r.Ok? ==> forall i :: 0 <= i < |db.credentials| ==>
      db.credentials[i] == old(db.credentials)[i] || db.credentials[i] == old(db.credentials)[i].(status := Deleted)
    ensures PermissionCheck.Authorized(db.grants, cu.roles, Feature, 4) ==>
      DeleteEffect(old(db.credentials), db.credentials, r, id)
  {
    var allowed := PermissionCheck.HasPermission(db, cu.roles, Feature, 4, None);
    if allowed != Ok(true) {
      return Raise(AccessDenied);
    }
    svc.SetContext(cu.id, cu.orgId);
    ghost var before := db.credentials;
    r := svc.UpdateStatus(db, id, Deleted);
    if r.Ok? {
      var k := CredentialIndex(before, id).value;
      assert db.credentials == before[k := before[k].(status := Deleted)];
      forall i | 0 <= i < |db.credentials|
        ensures db.credentials[i] == before[i] || db.credentials[i] == before[i].(status := Deleted)
      {
        if i != k {
          assert db.credentials[i] == before[i];
        }
      }
    }
  }

  /** The listing filter: no `org_id` parameter restricts to the caller's
      organisation, an `org_id` from an owner to that organisation, and an
      `org_id` from anyone else to none at all; a status is added only when
      given. Empty strings count as not given. */
  function ListFilter(orgParam: string, status: string, cu: Caller): (f: Doc)
    ensures orgParam == "" ==> Get(f, "org_id") == Some(VStr(cu.orgId))
    ensures orgParam != "" && cu.authority == 1 ==> Get(f, "org_id") == Some(VStr(orgParam))
    ensures orgParam != "" && cu.authority != 1 ==> "org_id" !in f
    ensures "status" in f <==> status != ""
    ensures status != "" ==> f["status"] == VStr(status)
    ensures f.Keys <= {"org_id", "status"}
  {
    var byOrg: Doc :=
      if orgParam != "" then (if cu.authority == 1 then map["org_id" := VStr(orgParam)] else map[])
      else map["org_id" := VStr(cu.orgId)];
    if status != "" then byOrg["status" := VStr(status)] else byOrg
  }

  /** A credential passes the listing filter's equality tests. */
  predicate Passes(c: Credential, f: Doc) {
    && ("org_id" in f ==> f["org_id"] == VStr(c.orgId))
    && ("status" in f ==> f["status"] == VStr(StatusName(c.status)))
  }

  function Filtered(creds: seq<Credential>, f: Doc): (r: seq<Credential>)
    ensures forall c :: c in r <==> c in creds && Passes(c, f)
  {
    if creds == [] then [] else (if Passes(creds[0], f) then [creds[0]] else []) + Filtered(creds[1..], f)
  }

  /** `{"$sort": {sort_field: order}}`: the credentials ordered by the rank
      the database gives their `sort_field` value, ascending unless
      `sort_order` is "desc"; credentials of equal rank keep their order. */
  function Ordered(creds: seq<Credential>, rank: Credential -> int, descending: bool): seq<Credential> {
    if descending then Sorting.SortBy(creds, c => -rank(c)) else Sorting.SortBy(creds, rank)
  }

  /** The ordered credentials are the same credentials, each with a rank no
      greater (ascending) or no smaller (descending) than every later one. */
  lemma OrderedMeaning(creds: seq<Credential>, rank: Credential -> int, descending: bool)
    ensures multiset(Ordered(creds, rank, descending)) == multiset(creds)
    ensures var o := Ordered(creds, rank, descending);
      forall i, j :: 0 <= i < j < |o| ==> if descending then rank(o[i]) >= rank(o[j]) else rank(o[i]) <= rank(o[j])
  {
    if descending {
      Sorting.SortByCorrect(creds, c => -rank(c));
    } else {
      Sorting.SortByCorrect(creds, rank);
    }
  }

  /** `GET /`: bit 1, then one page of the filtered credentials in the
      requested order, projected without their hashes. `rank` is the
      database's order on the `sort_field` values. */
  method ListRoute(db: Database, svc: CredentialService, cu: Caller, orgParam: string, status: string, page: nat, perPage: nat,
                   rank: Credential -> int, descending: bool)
    returns (r: Result<(seq<Projection>, Pagination.PageInfo)>)
    requires page >= 1 && perPage >= 1
    modifies svc
    ensures !PermissionCheck.Authorized(db.grants, cu.roles, Feature, 1) <==> r == Raise(AccessDenied)
    ensures r.Ok? ==>
      var matched := Filtered(db.credentials, ListFilter(orgParam, status, cu));
      var (rows, info) := Pagination.Listing(Ordered(matched, rank, descending), page, perPage);
      r.value == (Project(rows), info)
  {
    var allowed := PermissionCheck.HasPermission(db, cu.roles, Feature, 1, None);
    if allowed != Ok(true) {
      return Raise(AccessDenied);
    }
    svc.SetContext(cu.id, cu.orgId);
    var f := ListFilter(orgParam, status, cu);
    var (rows, info) := Pagination.Listing(Ordered(Filtered(db.credentials, f), rank, descending), page, perPage);
    r := Ok((Project(rows), info));
  }

  function Project(creds: seq<Credential>): (r: seq<Projection>)
    ensures |r| == |creds|
    ensures forall k :: 0 <= k < |creds| ==>
      r[k] == Projection(creds[k].id, creds[k].keyName, creds[k].clientId, creds[k].status)
  {
    seq(|creds|, k requires 0 <= k < |creds| => Projection(creds[k].id, creds[k].keyName, creds[k].clientId, creds[k].status))
  }

  /** A non-owner passing `org_id` sees credentials of every organisation
      that pass the status test. */
  lemma NonOwnerSeesAllOrganisations(creds: seq<Credential>, orgParam: string, status: string, cu: Caller, c: Credential)
    requires orgParam != "" && cu.authority != 1
    requires c in creds && (status != "" ==> StatusName(c.status) == status)
    ensures c in Filtered(creds, ListFilter(orgParam, status, cu))
  {
  }
}

=== FILE: auth.dfy ===
/** Credential validation: find the user by user name or e-mail address,
    read the organisation's tier, then check that the user is active and
    that the password hashes, with the user's stored salt, to the stored
    hash. */
module Auth {
  import opened Base
  import opened Bits
  import opened Records
  import opened Utility
  import OrgInit

  /** What `check_org` returns: the organisation's tier, or the error object
      it builds instead (which its caller then uses as the tier). */
  datatype Authority = Tier(mask: Mask) | OrgRefusal(message: string)

  const OrgNotFound := "Organization not found"

  /** `check_org(org_id)`: the tier of the organisation, "Organization not
      found" when there is none, and the text of the KeyError when its
      document has no `authority`. */
  function CheckOrg(orgs: seq<Org>, orgId: string): (a: Authority)
    ensures a == OrgRefusal(OrgNotFound) <==> forall i :: 0 <= i < |orgs| ==> orgs[i].id != orgId
    ensures a.Tier? ==> exists i :: 0 <= i < |orgs| && orgs[i].id == orgId && orgs[i].authority == Some(a.mask)
    ensures a == OrgRefusal(KeyError("authority").Text()) ==>
      exists i :: 0 <= i < |orgs| && orgs[i].id == orgId && orgs[i].authority.None?
    ensures a.Tier? || a == OrgRefusal(OrgNotFound) || a == OrgRefusal(KeyError("authority").Text())
  {
    match FindOrg(orgs, orgId)
    case None => OrgRefusal(OrgNotFound)
    case Some(o) =>
      assert exists i :: 0 <= i < |orgs| && orgs[i] == o;
      match o.authority
      case None => OrgRefusal(KeyError("authority").Text())
      case Some(m) => Tier(m)
  }

  /** `model.UserInfo`: `res_code` 0 with the user's identity, or `res_code`
      4 with a message. Its `authority` field is an optional integer, so only
      a tier can be carried by an accepted login. */
  datatype UserInfo =
    | Valid(id: string, orgId: string, roles: Value, authority: Mask)
    | Invalid(message: string)

  /** What `validate_user` answers when building the accepted `UserInfo`
      fails because `authority` holds the error object `check_org` returned
      instead of an integer: the validation error is caught and its text
      becomes the message. The exact wording pydantic gives is not
      modelled. */
  const AuthorityRejected := "1 validation error for UserInfo: authority"

  /** The `user_data` dictionary `validate_user` builds for `validate_password`. */
  datatype UserData = UserData(
    id: string, orgId: string, password: Hash, salt: string,
    roles: Value, status: Status, authority: Authority)

  const InvalidPassword := "Invalid password."
  const UserNotFound := "User not found"

  function NotActive(id: string): string {
    id + " is not active user."
  }

  /** `validate_password(user_info, password)`, where a matching password
      builds the accepted `UserInfo` from `user_info["authority"]`. */
  function ValidatePassword(data: UserData, password: string): UserInfo {
    if data.status != Active then Invalid(NotActive(data.id))
    else if SaltedHash(password, data.salt).1 == data.password then
      match data.authority
      case Tier(m) => Valid(data.id, data.orgId, data.roles, m)
      case OrgRefusal(_) => Invalid(AuthorityRejected)
    else Invalid(InvalidPassword)
  }

  /** An inactive user is refused before any password comparison; an
      active one is accepted exactly when the password, hashed with the
      stored salt, gives the stored hash and the organisation's tier was
      read; a right password without a tier is refused with the validation
      error, and a wrong one with "Invalid password.". */
  lemma ValidatePasswordMeaning(data: UserData, password: string)
    ensures data.status != Active ==> ValidatePassword(data, password) == Invalid(NotActive(data.id))
    ensures ValidatePassword(data, password).Valid? <==>
      && data.status == Active && data.password == HashPassword(password, Some(data.salt), data.salt)
      && data.authority.Tier?
    ensures ValidatePassword(data, password).Valid? ==>
      ValidatePassword(data, password) == Valid(data.id, data.orgId, data.roles, data.authority.mask)
    ensures (data.status == Active && data.password == HashPassword(password, Some(data.salt), data.salt)
             && data.authority.OrgRefusal?) ==>
      ValidatePassword(data, password) == Invalid(AuthorityRejected)
    ensures (data.status == Active && data.password != HashPassword(password, Some(data.salt), data.salt)) ==>
      ValidatePassword(data, password) == Invalid(InvalidPassword)
  {
  }

  /** `validate_password` as written: after the status check, the pair
      assignment from `hash_password` (see `UnpackError`) raises, and
      `validate_user` catches the ValueError and answers with its text. Were
      the unpacking to succeed, this would be `ValidatePassword`. */
  function ValidatePasswordAsWritten(data: UserData, password: string): UserInfo {
    if data.status != Active then Invalid(NotActive(data.id))
    else
      match UnpackError(BcryptTextLength)
      case Some(e) => Invalid(e.Text())
      case None => ValidatePassword(data, password)
  }

  /** `validate_user(username, password)`: the lookup, the organisation's
      tier, then `user_data` field by field, where a missing `password` or
      `salt` is a KeyError that becomes `res_code` 4 with its text. */
  function ValidateUser(users: seq<User>, orgs: seq<Org>, login: string, password: string): UserInfo {
    match FindUserByLogin(users, login)
    case None => Invalid(UserNotFound)
    case Some(u) =>
      var authority := CheckOrg(orgs, u.orgId);
      if u.password.None? then Invalid(KeyError("password").Text())
      else if u.salt.None? then Invalid(KeyError("salt").Text())
      else ValidatePassword(UserData(u.id, u.orgId, u.password.value, u.salt.value, u.roles, u.status, authority), password)
  }

  /** The login succeeds exactly for the first user whose user name or
      e-mail address is `login`, when it is active, has a salt and a hash,
      the password hashes with that salt to that hash, and its organisation
      exists and has a tier; the identity returned is that user's, and the
      tier is read from the organisation record. */
  lemma ValidateUserIff(users: seq<User>, orgs: seq<Org>, login: string, password: string)
    ensures ValidateUser(users, orgs, login, password).Valid? <==>
      && FindUserByLogin(users, login).Some?
      && var u := FindUserByLogin(users, login).value;
         && u.status == Active && u.salt.Some?
         && u.password == Some(HashPassword(password, u.salt, ""))
         && CheckOrg(orgs, u.orgId).Tier?
    ensures ValidateUser(users, orgs, login, password).Valid? ==>
      var u := FindUserByLogin(users, login).value;
      ValidateUser(users, orgs, login, password) == Valid(u.id, u.orgId, u.roles, CheckOrg(orgs, u.orgId).mask)
    ensures (forall i :: 0 <= i < |users| ==> users[i].username != login && users[i].email != login) ==>
      ValidateUser(users, orgs, login, password) == Invalid(UserNotFound)
  {
    match FindUserByLogin(users, login)
    case None =>
    case Some(u) =>
      if u.password.Some? && u.salt.Some? {
        ValidatePasswordMeaning(UserData(u.id, u.orgId, u.password.value, u.salt.value, u.roles, u.status, CheckOrg(orgs, u.orgId)), password);
      }
  }

  /** `validate_user` as written: as `ValidateUser`, with the password
      check of `ValidatePasswordAsWritten`. */
  function ValidateUserAsWritten(users: seq<User>, orgs: seq<Org>, login: string, password: string): UserInfo {
    match FindUserByLogin(users, login)
    case None => Invalid(UserNotFound)
    case Some(u) =>
      var authority := CheckOrg(orgs, u.orgId);
      if u.password.None? then Invalid(KeyError("password").Text())
      else if u.salt.None? then Invalid(KeyError("salt").Text())
      else ValidatePasswordAsWritten(UserData(u.id, u.orgId, u.password.value, u.salt.value, u.roles, u.status, authority), password)
  }

  /** As written, no password login succeeds: an active user with a stored
      salt and hash is refused with the unpacking error, whatever the
      password, and every other login gets the refusal `ValidateUser`
      gives. */
  lemma PasswordLoginRefusedAsWritten(users: seq<User>, orgs: seq<Org>, login: string, password: string)
    ensures ValidateUserAsWritten(users, orgs, login, password).Invalid?
    ensures (&& FindUserByLogin(users, login).Some?
             && var u := FindUserByLogin(users, login).value;
                u.status == Active && u.password.Some? && u.salt.Some?) ==>
      ValidateUserAsWritten(users, orgs, login, password) == Invalid(TooManyToUnpack)
    ensures !(&& FindUserByLogin(users, login).Some?
              && var u := FindUserByLogin(users, login).value;
                 u.status == Active && u.password.Some? && u.salt.Some?) ==>
      ValidateUserAsWritten(users, orgs, login, password) == ValidateUser(users, orgs, login, password)
  {
    SaltedHashRaisesAsWritten();
  }

  /** An inactive user gets the same refusal whatever password is offered. */
  lemma InactiveIgnoresPassword(users: seq<User>, orgs: seq<Org>, login: string, p1: string, p2: string)
    requires FindUserByLogin(users, login).Some?
    requires var u := FindUserByLogin(users, login).value; u.status != Active && u.password.Some? && u.salt.Some?
    ensures ValidateUser(users, orgs, login, p1) == ValidateUser(users, orgs, login, p2)
            == Invalid(NotActive(FindUserByLogin(users, login).value.id))
  {
  }

  /** The administrator the bootstrap creates can log in with its user name
      and exactly the password it was created with, and receives the new
      organisation's tier, when it is active and no earlier user has that
      name as e-mail address (the bootstrap compares user names only). */
  lemma BootstrapAdminLogsIn(s: OrgInit.State, orgReq: OrgInit.OrgRequest, userReq: OrgInit.UserRequest,
                             draws: OrgInit.Draws, password: string)
    requires OrgInit.InitOwnerOrgOutcome(s, orgReq, userReq, draws).0.Created?
    requires userReq.status == Active
    requires forall i :: 0 <= i < |s.users| ==> s.users[i].email != userReq.username
    requires forall i :: 0 <= i < |s.orgs| ==> s.orgs[i].id != draws.orgId
    ensures var s' := OrgInit.InitOwnerOrgOutcome(s, orgReq, userReq, draws).1;
      && (ValidateUser(s'.users, s'.orgs, userReq.username, password).Valid? <==> password == userReq.password)
      && (ValidateUser(s'.users, s'.orgs, userReq.username, password).Valid? ==>
            ValidateUser(s'.users, s'.orgs, userReq.username, password)
              == Valid(draws.userId, draws.orgId, VStr(draws.roleId), orgReq.authority))
  {
    OrgInit.InitCreates(s, orgReq, userReq, draws, password);
    var (r, s') := OrgInit.InitOwnerOrgOutcome(s, orgReq, userReq, draws);
    FoundWhenAppended(s.users, r.user, userReq.username);
    TierWhenAppended(s.orgs, r.org);
    ValidateUserIff(s'.users, s'.orgs, userReq.username, password);
  }

  /** A user appended with a login no earlier user has is the one that
      login finds. */
  lemma FoundWhenAppended(users: seq<User>, u: User, login: string)
    requires forall i :: 0 <= i < |users| ==> users[i].email != login && users[i].username != login
    requires u.username == login
    ensures FindUserByLogin(users + [u], login) == Some(u)
  {
    var w := users + [u];
    assert w[|users|] == u;
    var v := FindUserByLogin(w, login).value;
    var i :| 0 <= i < |w| && w[i] == v;
    assert i == |users|;
  }

  /** An organisation appended with an id no earlier organisation has gives
      its own tier. */
  lemma TierWhenAppended(orgs: seq<Org>, o: Org)
    requires forall i :: 0 <= i < |orgs| ==> orgs[i].id != o.id
    requires o.authority.Some?
    ensures CheckOrg(orgs + [o], o.id) == Tier(o.authority.value)
  {
    var w := orgs + [o];
    assert w[|orgs|] == o;
    assert forall i :: 0 <= i < |w| && w[i].id == o.id ==> i == |orgs|;
  }

  /** An earlier user whose e-mail address is the administrator's user name
      takes the administrator's logins: the bootstrap lets it through, and
      the login lookup finds the earlier user first. */
  lemma AdminShadowedByEmail(s: OrgInit.State, orgReq: OrgInit.OrgRequest, userReq: OrgInit.UserRequest,
                             draws: OrgInit.Draws, j: nat)
    requires !OrgInit.HasOwner(s.orgs)
    requires j < |s.users| && s.users[j].email == userReq.username && s.users[j].username != userReq.username
    requires forall i :: 0 <= i < |s.users| ==> s.users[i].username != userReq.username
    ensures OrgInit.InitOwnerOrgOutcome(s, orgReq, userReq, draws).0.Created?
    ensures var (r, s') := OrgInit.InitOwnerOrgOutcome(s, orgReq, userReq, draws);
      FindUserByLogin(s'.users, userReq.username).Some? && FindUserByLogin(s'.users, userReq.username).value in s.users
  {
    var (r, s') := OrgInit.InitOwnerOrgOutcome(s, orgReq, userReq, draws);
    PrefixWins(s.users, [r.user], userReq.username, j);
  }

  lemma {:induction false} PrefixWins(users: seq<User>, more: seq<User>, login: string, j: nat)
    requires j < |users| && (users[j].username == login || users[j].email == login)
    ensures FindUserByLogin(users + more, login) == FindUserByLogin(users, login)
  {
    if users[0].username == login || users[0].email == login {
    } else {
      assert (users + more)[1..] == users[1..] + more;
      PrefixWins(users[1..], more, login, j - 1);
    }
  }
}

=== FILE: base.dfy ===
/** Values shared by every part of the model: optional values, the Python
    exceptions the services raise, results that either hold a value or an
    exception, and the loosely typed values found in request filters,
    database documents and queued tasks. */
module Base {

  datatype Option<+T> = None | Some(value: T) {
    function GetOr(default: T): T {
      match this
      case Some(v) => v
      case None => default
    }
  }

  /** The Python exceptions the modelled code raises or lets escape. */
  datatype Exc =
    | BusinessError(message: string, code: int)
    | ValueError(message: string)
    | ConnectionError(message: string)
    | PermissionError(message: string)
    | KeyError(key: string)
    | TypeError(message: string)
    | AttributeError(name: string)
    | OtherError(message: string)
    | UnboundLocalError(name: string)
  {
    /** The text `str(e)` gives for the exception (a key error quotes its key). */
    function Text(): string {
      match this
      case BusinessError(m, _) => m
      case ValueError(m) => m
      case ConnectionError(m) => m
      case PermissionError(m) => m
      case KeyError(k) => "'" + k + "'"
      case TypeError(m) => m
      case AttributeError(n) => n
      case OtherError(m) => m
      case UnboundLocalError(n) => "cannot access local variable '" + n + "' where it is not associated with a value"
    }
  }

  /** Either the value an operation returns or the exception it raises. */
  datatype Result<+T> = Ok(value: T) | Raise(exc: Exc) {
    predicate IsFailure() { Raise? }
    function PropagateFailure<U>(): Result<U>
      requires Raise?
    {
      Raise(exc)
    }
    function Extract(): T
      requires Ok?
    {
      value
    }
  }

  /** A JSON-like value as found in request filters, documents and tasks. */
  datatype Value =
    | VNull
    | VBool(b: bool)
    | VInt(i: int)
    | VStr(s: string)
    | VList(items: seq<Value>)
    | VDict(fields: map<string, Value>)

  /** A document or a filter: a dictionary from field names to values. */
  type Doc = map<string, Value>

  /** The first `false` of a sequence that holds one. */
  lemma FirstFalse(oks: seq<bool>) returns (k: nat)
    requires exists j :: 0 <= j < |oks| && !oks[j]
    ensures k < |oks| && !oks[k]
    ensures forall j :: 0 <= j < k ==> oks[j]
  {
    k := 0;
    while oks[k]
      invariant k < |oks|
      invariant forall j :: 0 <= j < k ==> oks[j]
      invariant exists j :: k <= j < |oks| && !oks[j]
      decreases |oks| - k
    {
      k := k + 1;
    }
  }

  /** `d.get(k)` in Python: the value under `k`, or None. */
  function Get(d: Doc, k: string): Option<Value> {
    if k in d then Some(d[k]) else None
  }
}

=== FILE: bits.dfy ===
/** Permission bitmasks and the `ROLEACTION` action enumeration.

    A mask is the low 32 bits of the Python integer the services store.
    Python integers are two's complement of unbounded width, so `&`, `|`,
    `+` and `-` on the low 32 bits agree with `bv32` arithmetic, including
    the wrap-around of a subtraction that goes below zero. */
module Bits {
  import opened Base

  type Mask = bv32

  /** `bits & mask != 0`: some bit of `bits` is in `mask`. */
  predicate Meets(bits: Mask, mask: Mask) {
    bits & mask != 0
  }

  /** `(permission & required) == required`: every required bit is present. */
  predicate Covers(permission: Mask, required: Mask) {
    permission & required == required
  }

  /** One entry of the `ROLEACTION` enumeration: an action key and its bit. */
  datatype Action = Action(key: string, bit: Mask)

  /** The enumeration as `get_enum` returns it: a dictionary from action key
      to bit, in insertion order. */
  type ActionEnum = seq<Action>

  /** The enumeration as the deployment seeds it. */
  const RoleAction: ActionEnum := [
    Action("view", 1), Action("add", 2), Action("edit", 4), Action("delete", 8),
    Action("export", 16), Action("import", 32), Action("approval", 64), Action("setting", 128)
  ]

  predicate DistinctKeys(e: ActionEnum) {
    forall i, j :: 0 <= i < j < |e| ==> e[i].key != e[j].key
  }

  /** `bitRA[key]`: the bit of `key`, or None when the dictionary lacks it
      (the source then raises KeyError). */
  function BitOf(e: ActionEnum, key: string): (r: Option<Mask>)
    ensures r.None? <==> forall i :: 0 <= i < |e| ==> e[i].key != key
    ensures r.Some? ==> exists i :: 0 <= i < |e| && e[i] == Action(key, r.value)
  {
    if e == [] then None
    else if e[0].key == key then Some(e[0].bit)
    else BitOf(e[1..], key)
  }

  /** Addition and union of masks, named so that the recursive definitions
      below unfold without exposing bit-vector arithmetic to the solver. */
  function Add(a: Mask, b: Mask): Mask { a + b }
  function Or(a: Mask, b: Mask): Mask { a | b }

  /** `sum(bitRA.values())`, wrapped to 32 bits. */
  function SumBits(e: ActionEnum): Mask {
    if e == [] then 0 else Add(e[0].bit, SumBits(e[1..]))
  }

  /** The union of the enumeration's bits. */
  function UnionBits(e: ActionEnum): Mask {
    if e == [] then 0 else Or(e[0].bit, UnionBits(e[1..]))
  }

  /** Two masks share no bit. */
  predicate Disjoint(a: Mask, b: Mask) {
    a & b == 0
  }

  /** No two actions share a bit. */
  predicate DisjointBits(e: ActionEnum) {
    forall i, j :: 0 <= i < j < |e| ==> Disjoint(e[i].bit, e[j].bit)
  }

  lemma AddDisjoint(a: Mask, b: Mask)
    requires Disjoint(a, b)
    ensures Add(a, b) == Or(a, b)
  {
    AddCarryFree(a, b);
  }

  lemma AddCarryFree(a: bv32, b: bv32)
    requires a & b == 0
    ensures a + b == a | b
  {
  }

  lemma OrDisjoint(b: Mask, x: Mask, y: Mask)
    requires Disjoint(b, x) && Disjoint(b, y)
    ensures Disjoint(b, Or(x, y))
  {
  }

  /** A bit disjoint from every action bit is disjoint from their union. */
  lemma {:induction false} DisjointFromUnion(b: Mask, e: ActionEnum)
    requires forall i :: 0 <= i < |e| ==> Disjoint(b, e[i].bit)
    ensures Disjoint(b, UnionBits(e))
  {
    if e != [] {
      DisjointFromUnion(b, e[1..]);
      OrDisjoint(b, e[0].bit, UnionBits(e[1..]));
    }
  }

  /** When no two actions share a bit, the sum of the bits is their union:
      summing the enumeration loses nothing to carries. */
  lemma {:induction false} SumIsUnion(e: ActionEnum)
    requires DisjointBits(e)
    ensures SumBits(e) == UnionBits(e)
  {
    if e != [] {
      DisjointTail(e);
      SumIsUnion(e[1..]);
      DisjointFromUnion(e[0].bit, e[1..]);
      AddDisjoint(e[0].bit, UnionBits(e[1..]));
    }
  }

  lemma DisjointTail(e: ActionEnum)
    requires DisjointBits(e) && e != []
    ensures DisjointBits(e[1..])
    ensures forall i :: 0 <= i < |e| - 1 ==> Disjoint(e[0].bit, e[1..][i].bit)
  {
    var t := e[1..];
    forall i, j | 0 <= i < j < |t| ensures Disjoint(t[i].bit, t[j].bit) {
      assert t[i] == e[i + 1] && t[j] == e[j + 1];
    }
    forall i | 0 <= i < |t| ensures Disjoint(e[0].bit, t[i].bit) {
      assert t[i] == e[i + 1];
    }
  }

  /** The seeded enumeration sums to 255: every one of the eight action bits. */
  lemma RoleActionSum()
    ensures SumBits(RoleAction) == 255
  {
  }

  /** Subtracting a sub-mask clears exactly its bits: `all - neg == all & ~neg`
      whenever every bit of `neg` is in `all`. */
  lemma SubtractSubMask(all: Mask, neg: Mask)
    requires neg & all == neg
    ensures all - neg == all & !neg
  {
  }

  /** `granted - (neg & granted)` clears from `granted` exactly the bits of `neg`. */
  lemma SubtractNegated(granted: Mask, neg: Mask)
    ensures granted - (neg & granted) == granted & !neg
  {
    SubtractSubMask(granted, neg & granted);
  }
}

=== FILE: clickhouse_query.dfy ===
/** The ClickHouse query builders: one filter condition, the conditions of
    a filter dictionary, the `SELECT`, `ALTER TABLE … UPDATE` and `INSERT`
    statements, and how result rows become counts and dictionaries. The
    statements are produced here as text; sending them to the server is
    not part of this model. */
module ClickHouseQuery {
  import opened Base
  import Str
  import opened ClickHouseValues

  // ---------------------------------------------------------------------
  // build_filter_condition

  /** The operators a condition may use. */
  const Operators: seq<string> := ["=", "!=", "LIKE", "NOT LIKE", "IN", "NOT IN"]

  /** The operator argument is one of the supported operator strings. */
  predicate Supported(op: SqlValue) {
    op.SText? && op.s in Operators
  }

  /** `"\"" + column + " BETWEEN " …`, negated for `!=`. */
  function Negated(op: string, cond: string): string {
    if op == "!=" then "NOT (" + cond + ")" else cond
  }

  /** Every item of a list, formatted for SQL. */
  function FormatAll(items: seq<SqlValue>): seq<string> {
    seq(|items|, k requires 0 <= k < |items| => FormatValue(items[k]))
  }

  /** The range condition on a column cast to a date and time. */
  function DateBetween(column: string, start: string, end: string): string {
    "toDateTime(" + column + ") BETWEEN toDateTime('" + start + "') AND toDateTime('" + end + "')"
  }

  /** The range condition on a numeric column. */
  function NumberBetween(column: string, low: SqlValue, high: SqlValue): string {
    column + " BETWEEN " + Text(low) + " AND " + Text(high)
  }

  /** A list or tuple of two items whose first is a date and time. */
  predicate IsDateRange(v: SqlValue) {
    v.IsSequence() && |v.items| == 2 && v.items[0].SDateTime?
  }

  /** A list or tuple of two items whose first is a number. */
  predicate IsNumberRange(v: SqlValue) {
    v.IsSequence() && |v.items| == 2 && v.items[0].IsNumber()
  }

  /** `build_filter_condition(column, value, operator)`: the operator is
      checked first; lists and tuples under `IN` / `NOT IN` become a list of
      formatted values; strings are quoted; two-item ranges of dates or
      numbers become `BETWEEN`; dates are cast; numbers are printed; anything
      else is formatted. A date range whose second item is not a date fails
      on `strftime`. */
  function BuildCondition(column: string, value: SqlValue, op: SqlValue): Result<string> {
    if !Supported(op) then Raise(ValueError("Unsupported operator: " + Text(op)))
    else if op.s == "IN" && value.IsSequence() then
      Ok(column + " IN (" + Str.Join(", ", FormatAll(value.items)) + ")")
    else if op.s == "NOT IN" && value.IsSequence() then
      Ok(column + " NOT IN (" + Str.Join(", ", FormatAll(value.items)) + ")")
    else if value.SText? then
      Ok(column + " " + op.s + " " + FormatValue(value))
    else if IsDateRange(value) then
      if !value.items[1].SDateTime? then Raise(AttributeError("strftime"))
      else Ok(Negated(op.s, DateBetween(column, value.items[0].stamp, value.items[1].stamp)))
    else if value.SDateTime? then
      Ok("toDateTime(" + column + ") " + op.s + " toDateTime(" + FormatValue(SText(value.stamp)) + ")")
    else if IsNumberRange(value) then
      Ok(Negated(op.s, NumberBetween(column, value.items[0], value.items[1])))
    else if value.IsNumber() then
      Ok(column + " " + op.s + " " + Text(value))
    else
      Ok(column + " " + op.s + " " + FormatValue(value))
  }

  /** An unsupported operator is refused whatever the value. */
  lemma UnsupportedOperator(column: string, value: SqlValue, op: SqlValue)
    requires !Supported(op)
    ensures BuildCondition(column, value, op) == Raise(ValueError("Unsupported operator: " + Text(op)))
  {
  }

  /** A condition fails exactly when the operator is unsupported, or when a
      date range outside `IN` / `NOT IN` has a second item that is not a
      date. */
  lemma BuildFailsIff(column: string, value: SqlValue, op: SqlValue)
    ensures BuildCondition(column, value, op).Raise? <==>
      !Supported(op) ||
      (op.s != "IN" && op.s != "NOT IN" && IsDateRange(value) && !value.items[1].SDateTime?)
  {
  }

  /** Reading a list of string literals after its opening parenthesis:
      literals separated by `", "` and closed by `)`; the strings and the
      text after the parenthesis. */
  function ReadList(t: string): Option<(seq<string>, string)>
    decreases |t|
  {
    match ReadLiteral(t)
    case None => None
    case Some(p) =>
      if |p.1| >= 1 && p.1[0] == ')' then Some(([p.0], p.1[1..]))
      else if |p.1| >= 2 && p.1[0] == ',' && p.1[1] == ' ' then
        match ReadList(p.1[2..])
        case None => None
        case Some(q) => Some(([p.0] + q.0, q.1))
      else None
  }

  /** Every string, quoted by `format_value`. */
  function QuotedAll(strs: seq<string>): seq<string> {
    seq(|strs|, k requires 0 <= k < |strs| => FormatValue(SText(strs[k])))
  }

  /** The last quoted string of a list, then its closing parenthesis. */
  lemma ReadListLast(str: string, rest: string)
    requires NoBackslash(str)
    ensures ReadList(FormatValue(SText(str)) + (")" + rest)) == Some(([str], rest))
  {
    PlainValueReadsBack(str, ")" + rest);
    assert (")" + rest)[1..] == rest;
  }

  /** A quoted string followed by `", "` and the rest of the list. */
  lemma ReadListNext(str: string, after: string)
    requires NoBackslash(str)
    ensures ReadList(FormatValue(SText(str)) + (", " + after)) ==
      match ReadList(after)
      case None => None
      case Some(q) => Some(([str] + q.0, q.1))
  {
    PlainValueReadsBack(str, ", " + after);
    assert (", " + after)[2..] == after;
  }

  /** A list of two or more quoted strings is the first, `", "`, and the
      list of the others. */
  lemma JoinQuotedCons(strs: seq<string>, rest: string)
    requires |strs| > 1
    ensures Str.Join(", ", QuotedAll(strs)) + (")" + rest) ==
      FormatValue(SText(strs[0])) + (", " + (Str.Join(", ", QuotedAll(strs[1..])) + (")" + rest)))
  {
    var q := QuotedAll(strs);
    assert QuotedAll(strs[1..]) == q[1..];
    var j := Str.Join(", ", q[1..]);
    assert Str.Join(", ", q) == q[0] + ", " + j;
    Regroup(q[0], ", ", j, ")" + rest);
  }

  lemma Regroup(a: string, b: string, c: string, d: string)
    ensures a + b + c + d == a + (b + (c + d))
  {
  }

  /** A list of quoted strings without backslashes reads back as the
      strings, one literal per string, quotes included. */
  lemma {:induction false} QuotedListReadsBack(strs: seq<string>, rest: string)
    requires strs != []
    requires forall k :: 0 <= k < |strs| ==> NoBackslash(strs[k])
    ensures ReadList(Str.Join(", ", QuotedAll(strs)) + (")" + rest)) == Some((strs, rest))
  {
    if |strs| == 1 {
      assert Str.Join(", ", QuotedAll(strs)) == FormatValue(SText(strs[0]));
      ReadListLast(strs[0], rest);
      assert strs == [strs[0]];
    } else {
      var tail := strs[1..];
      assert forall k :: 0 <= k < |tail| ==> tail[k] == strs[k + 1];
      QuotedListReadsBack(tail, rest);
      JoinQuotedCons(strs, rest);
      ReadListNext(strs[0], Str.Join(", ", QuotedAll(tail)) + (")" + rest));
      assert strs == [strs[0]] + tail;
    }
  }

  /** Under `IN`, a list of strings without backslashes becomes a
      parenthesised list that ClickHouse reads back as exactly those
      strings. */
  lemma InListReadsBack(column: string, strs: seq<string>)
    requires strs != []
    requires forall k :: 0 <= k < |strs| ==> NoBackslash(strs[k])
    ensures var r := BuildCondition(column, SList(seq(|strs|, k requires 0 <= k < |strs| => SText(strs[k]))), SText("IN"));
      r.Ok? && |r.value| >= |column| + 5 && r.value[..|column| + 5] == column + " IN (" &&
      ReadList(r.value[|column| + 5..]) == Some((strs, ""))
  {
    var items := seq(|strs|, k requires 0 <= k < |strs| => SText(strs[k]));
    assert FormatAll(items) == QuotedAll(strs);
    var h := column + " IN (";
    var j := Str.Join(", ", QuotedAll(strs));
    var r := BuildCondition(column, SList(items), SText("IN"));
    assert r == Ok(h + j + ")");
    assert h + j + ")" == h + (j + (")" + ""));
    QuotedListReadsBack(strs, "");
  }

  /** A string operand is quoted under every supported operator (whether or
      not it holds `%`), and, when it holds no backslash, the quoted text
      reads back as the string. */
  lemma StringOperand(column: string, s: string, op: SqlValue)
    requires Supported(op)
    ensures var r := BuildCondition(column, SText(s), op);
      var head := column + " " + op.s + " ";
      r == Ok(head + FormatValue(SText(s))) &&
      (NoBackslash(s) ==> ReadLiteral(r.value[|head|..]) == Some((s, "")))
  {
    var head := column + " " + op.s + " ";
    assert (head + FormatValue(SText(s)))[|head|..] == FormatValue(SText(s)) + "";
    if NoBackslash(s) {
      PlainValueReadsBack(s, "");
    }
  }

  /** A lone backslash compared with `=` gives a condition whose literal
      never closes. */
  lemma BackslashOperand(column: string)
    ensures var r := BuildCondition(column, SText("\\"), SText("="));
      var head := column + " = ";
      r == Ok(head + FormatValue(SText("\\"))) && ReadLiteral(r.value[|head|..]) == None
  {
    assert "=" in Operators;
    StringOperand(column, "\\", SText("="));
    var head := column + " = ";
    assert column + " " + "=" + " " == head;
    assert (head + FormatValue(SText("\\")))[|head|..] == FormatValue(SText("\\"));
    BackslashNeverCloses();
  }

  /** For a two-item range of dates or numbers, `!=` negates the `=`
      condition, and `LIKE` / `NOT LIKE` give the `=` condition. */
  lemma RangeOperators(column: string, value: SqlValue)
    requires IsNumberRange(value) || (IsDateRange(value) && value.items[1].SDateTime?)
    ensures BuildCondition(column, value, SText("=")).Ok?
    ensures BuildCondition(column, value, SText("!=")) == Ok("NOT (" + BuildCondition(column, value, SText("=")).value + ")")
    ensures BuildCondition(column, value, SText("LIKE")) == BuildCondition(column, value, SText("="))
    ensures BuildCondition(column, value, SText("NOT LIKE")) == BuildCondition(column, value, SText("="))
  {
    assert "!=" in Operators && "=" in Operators && "LIKE" in Operators && "NOT LIKE" in Operators;
  }

  // ---------------------------------------------------------------------
  // Filter dictionaries

  /** One entry of a filter dictionary, in insertion order. */
  datatype Filter = Filter(column: string, value: SqlValue)

  /** A two-item tuple is read as `(value, operator)`; anything else is a
      value compared with `=`. */
  function ValueAndOperator(value: SqlValue): (SqlValue, SqlValue) {
    if value.STuple? && |value.items| == 2 then (value.items[0], value.items[1]) else (value, SText("="))
  }

  function FilterCondition(f: Filter): Result<string> {
    var (v, op) := ValueAndOperator(f.value);
    BuildCondition(f.column, v, op)
  }

  /** The conditions of the filters, in order; the first that fails raises. */
  function Conditions(filters: seq<Filter>): Result<seq<string>> {
    if filters == [] then Ok([])
    else
      match Conditions(filters[..|filters| - 1])
      case Raise(e) => Raise(e)
      case Ok(cs) =>
        match FilterCondition(filters[|filters| - 1])
        case Raise(e) => Raise(e)
        case Ok(c) => Ok(cs + [c])
  }

  /** The loop the `select_*` builders run over a filter dictionary. */
  method FilterConditions(filters: seq<Filter>) returns (r: Result<seq<string>>)
    ensures r == Conditions(filters)
  {
    var conditions: seq<string> := [];
    var i := 0;
    while i < |filters|
      invariant 0 <= i <= |filters|
      invariant Conditions(filters[..i]) == Ok(conditions)
    {
      var column := filters[i].column;
      var value := filters[i].value;
      var condition: Result<string>;
      if value.STuple? && |value.items| == 2 {
        condition := BuildCondition(column, value.items[0], value.items[1]);
      } else {
        condition := BuildCondition(column, value, SText("="));
      }
      assert filters[..i + 1][..i] == filters[..i];
      assert condition == FilterCondition(filters[i]);
      if condition.Raise? {
        ConditionsRaiseLonger(filters, i + 1);
        return Raise(condition.exc);
      }
      conditions := conditions + [condition.value];
      i := i + 1;
    }
    assert filters[..i] == filters;
    r := Ok(conditions);
  }

  /** Once a prefix of the filters fails, so does every longer one. */
  lemma {:induction false} ConditionsRaiseLonger(filters: seq<Filter>, n: nat)
    requires n <= |filters| && Conditions(filters[..n]).Raise?
    ensures Conditions(filters) == Raise(Conditions(filters[..n]).exc)
    decreases |filters| - n
  {
    if n < |filters| {
      assert filters[..n + 1][..n] == filters[..n];
      ConditionsRaiseLonger(filters, n + 1);
    } else {
      assert filters[..n] == filters;
    }
  }

  /** When every filter builds, there is one condition per filter, in order. */
  lemma {:induction false} ConditionsOk(filters: seq<Filter>)
    requires forall k :: 0 <= k < |filters| ==> FilterCondition(filters[k]).Ok?
    ensures Conditions(filters).Ok?
    ensures |Conditions(filters).value| == |filters|
    ensures forall k :: 0 <= k < |filters| ==> Conditions(filters).value[k] == FilterCondition(filters[k]).value
  {
    if filters != [] {
      var init := filters[..|filters| - 1];
      assert forall k :: 0 <= k < |init| ==> init[k] == filters[k];
      ConditionsOk(init);
      var cs := Conditions(init).value;
      var c := FilterCondition(filters[|filters| - 1]).value;
      assert Conditions(filters) == Ok(cs + [c]);
      forall k | 0 <= k < |filters| ensures (cs + [c])[k] == FilterCondition(filters[k]).value {
        if k < |init| {
          assert (cs + [c])[k] == cs[k];
        }
      }
    }
  }

  /** When some filter fails, the conditions fail with the error of the
      first failing filter. */
  lemma {:induction false} ConditionsRaise(filters: seq<Filter>, k: nat)
    requires k < |filters| && FilterCondition(filters[k]).Raise?
    requires forall j :: 0 <= j < k ==> FilterCondition(filters[j]).Ok?
    ensures Conditions(filters) == Raise(FilterCondition(filters[k]).exc)
  {
    var init := filters[..|filters| - 1];
    assert forall j :: 0 <= j < |init| ==> init[j] == filters[j];
    if k < |filters| - 1 {
      ConditionsRaise(init, k);
    } else {
      ConditionsOk(init);
    }
  }

  /** A date range passed as a tuple is taken for `(value, operator)`: its
      end date is refused as an operator. As a list it is a range. */
  lemma TupleRangeIsOperator(column: string, start: string, end: string)
    ensures Conditions([Filter(column, STuple([SDateTime(start), SDateTime(end)]))]) ==
      Raise(ValueError("Unsupported operator: " + end))
    ensures Conditions([Filter(column, SList([SDateTime(start), SDateTime(end)]))]) ==
      Ok([DateBetween(column, start, end)])
  {
    var f := Filter(column, STuple([SDateTime(start), SDateTime(end)]));
    assert !Supported(SDateTime(end));
    assert [f][..0] == [];
    var g := Filter(column, SList([SDateTime(start), SDateTime(end)]));
    assert [g][..0] == [];
    assert "=" in Operators;
    assert FilterCondition(g) == Ok(DateBetween(column, start, end));
    assert [] + [DateBetween(column, start, end)] == [DateBetween(column, start, end)];
  }

  /** `" WHERE " + " AND ".join(conditions)` when there are filters. */
  function Where(filters: seq<Filter>, keyword: string): Result<string> {
    if filters == [] then Ok("")
    else
      match Conditions(filters)
      case Raise(e) => Raise(e)
      case Ok(cs) => Ok(keyword + Str.Join(" AND ", cs))
  }

  // ---------------------------------------------------------------------
  // select_and_count

  /** The statement `select_and_count` sends. */
  function CountQuery(table: string, columns: string, filters: seq<Filter>): Result<string> {
    match Where(filters, " WHERE ")
    case Raise(e) => Raise(e)
    case Ok(w) => Ok("SELECT count(" + columns + ") FROM " + table + w)
  }

  /** Without filters there is no `WHERE`; with filters the conditions are
      joined by `AND`, and a failing filter fails the statement. */
  lemma CountQueryFilters(table: string, columns: string, filters: seq<Filter>)
    ensures filters == [] ==> CountQuery(table, columns, filters) == Ok("SELECT count(" + columns + ") FROM " + table)
    ensures filters != [] ==> (CountQuery(table, columns, filters).Raise? <==> Conditions(filters).Raise?)
    ensures filters != [] && Conditions(filters).Ok? ==>
      CountQuery(table, columns, filters) ==
        Ok("SELECT count(" + columns + ") FROM " + table + " WHERE " + Str.Join(" AND ", Conditions(filters).value))
  {
    var head := "SELECT count(" + columns + ") FROM " + table;
    if filters == [] {
      assert head + "" == head;
    } else if Conditions(filters).Ok? {
      var j := Str.Join(" AND ", Conditions(filters).value);
      assert head + (" WHERE " + j) == head + " WHERE " + j;
    }
  }

  /** The first column of the first row, or 0 when there are no rows. */
  function CountFromRows(rows: seq<seq<SqlValue>>): Result<SqlValue> {
    if rows == [] then Ok(SInt(0))
    else if rows[0] == [] then Raise(OtherError("tuple index out of range"))
    else Ok(rows[0][0])
  }

  lemma CountFromRowsMeaning(rows: seq<seq<SqlValue>>)
    ensures rows == [] ==> CountFromRows(rows) == Ok(SInt(0))
    ensures rows != [] && rows[0] != [] ==> CountFromRows(rows) == Ok(rows[0][0])
    ensures CountFromRows(rows).Raise? <==> rows != [] && rows[0] == []
  {
  }

  // ---------------------------------------------------------------------
  // select_with_pagination and select_with_deduplicate_cond

  /** The `columns` argument: a text used as it is, or a list of names. */
  datatype ColumnsArg = ColumnText(text: string) | ColumnList(names: seq<string>)

  function ColumnsText(c: ColumnsArg): string {
    match c
    case ColumnText(t) => t
    case ColumnList(ns) => Str.Join(", ", ns)
  }

  /** The `order_by` argument: none, one column, or a list of columns. An
      empty text or list counts as none. */
  datatype OrderArg = NoOrder | OrderColumn(column: string) | OrderColumns(columns: seq<string>)

  /** Each column followed by the direction. */
  function Directed(columns: seq<string>, direction: string): seq<string> {
    seq(|columns|, k requires 0 <= k < |columns| => columns[k] + " " + direction)
  }

  function OrderClause(order: OrderArg, direction: string): string {
    match order
    case NoOrder => ""
    case OrderColumn(c) => if c == "" then "" else " ORDER BY " + c + " " + direction
    case OrderColumns(cs) => if cs == [] then "" else " ORDER BY " + Str.Join(", ", Directed(cs, direction))
  }

  function LimitClause(offset: Option<int>, pageSize: int): string {
    if offset.Some? then " LIMIT " + IntText(pageSize) + " OFFSET " + IntText(offset.value) + ";" else ""
  }

  /** The statement `select_with_pagination` sends. */
  function PageQuery(table: string, columns: ColumnsArg, filters: seq<Filter>, offset: Option<int>, pageSize: int,
                     order: OrderArg, direction: string): Result<string>
  {
    match Where(filters, " WHERE ")
    case Raise(e) => Raise(e)
    case Ok(w) =>
      Ok("SELECT " + ColumnsText(columns) + " FROM " + table + w + OrderClause(order, direction) + LimitClause(offset, pageSize))
  }

  /** `LIMIT … OFFSET …;` is appended exactly when an offset is given: the
      statement with an offset is the one without, followed by the limit. */
  lemma LimitIffOffset(table: string, columns: ColumnsArg, filters: seq<Filter>, offset: int, pageSize: int,
                       order: OrderArg, direction: string)
    ensures PageQuery(table, columns, filters, Some(offset), pageSize, order, direction).Ok? <==>
      PageQuery(table, columns, filters, None, pageSize, order, direction).Ok?
    ensures PageQuery(table, columns, filters, None, pageSize, order, direction).Ok? ==>
      PageQuery(table, columns, filters, Some(offset), pageSize, order, direction).value ==
        PageQuery(table, columns, filters, None, pageSize, order, direction).value
        + " LIMIT " + IntText(pageSize) + " OFFSET " + IntText(offset) + ";"
  {
    match Where(filters, " WHERE ") {
      case Raise(_) =>
      case Ok(w) =>
        var a := "SELECT " + ColumnsText(columns) + " FROM " + table + w + OrderClause(order, direction);
        var p, q := IntText(pageSize), IntText(offset);
        assert PageQuery(table, columns, filters, None, pageSize, order, direction) == Ok(a + "");
        assert a + "" == a;
        LimitAppended(a, p, q);
    }
  }

  lemma LimitAppended(a: string, p: string, q: string)
    ensures a + (" LIMIT " + p + " OFFSET " + q + ";") == a + " LIMIT " + p + " OFFSET " + q + ";"
  {
  }

  /** An ordering by a list of columns puts the direction after each of
      them; an empty list orders nothing. */
  lemma OrderByList(columns: seq<string>, direction: string)
    ensures columns == [] ==> OrderClause(OrderColumns(columns), direction) == ""
    ensures columns != [] ==>
      OrderClause(OrderColumns(columns), direction) == " ORDER BY " + Str.Join(", ", Directed(columns, direction))
    ensures forall k :: 0 <= k < |columns| ==> Directed(columns, direction)[k] == columns[k] + " " + direction
  {
  }

  /** `dict(zip(names, row))`: pairs up to the shorter of the two, a later
      duplicate name overriding an earlier one. */
  function RowDict(names: seq<string>, row: seq<SqlValue>): map<string, SqlValue>
    decreases |names|
  {
    var n := if |names| < |row| then |names| else |row|;
    if n == 0 then map[]
    else RowDict(names[..n - 1], row[..n - 1])[names[n - 1] := row[n - 1]]
  }

  /** One more name and value: the dictionary of the shorter prefix, with
      the last name set to the last value. */
  lemma RowDictLast(names: seq<string>, row: seq<SqlValue>, n: nat)
    requires n > 0 && n == (if |names| < |row| then |names| else |row|)
    ensures RowDict(names, row) == RowDict(names[..n - 1], row[..n - 1])[names[n - 1] := row[n - 1]]
  {
  }

  /** The keys are the names that have a value beside them. */
  lemma {:induction false} RowDictKeys(names: seq<string>, row: seq<SqlValue>)
    ensures forall name :: name in RowDict(names, row) <==>
      exists i :: 0 <= i < |names| && i < |row| && names[i] == name
    decreases |names|
  {
    var n := if |names| < |row| then |names| else |row|;
    if n > 0 {
      var ns, rs := names[..n - 1], row[..n - 1];
      RowDictLast(names, row, n);
      RowDictKeys(ns, rs);
      forall name
        ensures name in RowDict(names, row) <==> exists i :: 0 <= i < |names| && i < |row| && names[i] == name
      {
        if name in RowDict(ns, rs) {
          var i :| 0 <= i < |ns| && i < |rs| && ns[i] == name;
          assert names[i] == name;
        }
        if exists i :: 0 <= i < |names| && i < |row| && names[i] == name {
          var i :| 0 <= i < |names| && i < |row| && names[i] == name;
          if i < n - 1 {
            assert ns[i] == name;
          }
        }
      }
    }
  }

  /** Each key holds the value beside its last occurrence. */
  lemma {:induction false} RowDictValues(names: seq<string>, row: seq<SqlValue>, i: nat)
    requires i < |names| && i < |row|
    requires forall j :: i < j < |names| && j < |row| ==> names[j] != names[i]
    ensures names[i] in RowDict(names, row) && RowDict(names, row)[names[i]] == row[i]
    decreases |names|
  {
    var n := if |names| < |row| then |names| else |row|;
    RowDictLast(names, row, n);
    if i < n - 1 {
      var ns, rs := names[..n - 1], row[..n - 1];
      assert ns[i] == names[i] && rs[i] == row[i];
      assert names[n - 1] != names[i];
      RowDictValues(ns, rs, i);
    }
  }

  /** The rows of a result, each as a dictionary keyed by the column names. */
  function RowDicts(names: seq<string>, rows: seq<seq<SqlValue>>): seq<map<string, SqlValue>> {
    seq(|rows|, k requires 0 <= k < |rows| => RowDict(names, rows[k]))
  }

  /** The statement `select_with_deduplicate_cond` returns: the rows of one
      table whose id is not in the other, and the filter conditions. */
  function DeduplicateQuery(table: string, other: string, columns: ColumnsArg, filters: seq<Filter>): Result<string> {
    match Where(filters, " AND ")
    case Raise(e) => Raise(e)
    case Ok(w) =>
      Ok("SELECT " + ColumnsText(columns) + " FROM " + table + " WHERE id NOT IN (SELECT id FROM " + other + ")" + w)
  }

  /** The filters are joined to the deduplication condition with `AND`. */
  lemma DeduplicateFilters(table: string, other: string, columns: ColumnsArg, filters: seq<Filter>)
    ensures var head := "SELECT " + ColumnsText(columns) + " FROM " + table + " WHERE id NOT IN (SELECT id FROM " + other + ")";
      (filters == [] ==> DeduplicateQuery(table, other, columns, filters) == Ok(head)) &&
      (filters != [] && Conditions(filters).Ok? ==>
        DeduplicateQuery(table, other, columns, filters) == Ok(head + " AND " + Str.Join(" AND ", Conditions(filters).value))) &&
      (DeduplicateQuery(table, other, columns, filters).Raise? <==> filters != [] && Conditions(filters).Raise?)
  {
    var head := "SELECT " + ColumnsText(columns) + " FROM " + table + " WHERE id NOT IN (SELECT id FROM " + other + ")";
    if filters == [] {
      assert head + "" == head;
    } else if Conditions(filters).Ok? {
      var j := Str.Join(" AND ", Conditions(filters).value);
      assert head + (" AND " + j) == head + " AND " + j;
    }
  }

  // ---------------------------------------------------------------------
  // update_data and insert_data

  /** `col = value` for each entry. */
  function Assignments(entries: seq<Filter>): seq<string> {
    seq(|entries|, k requires 0 <= k < |entries| => entries[k].column + " = " + FormatValue(entries[k].value))
  }

  /** The statement `update_data` sends. */
  function UpdateQuery(table: string, updates: seq<Filter>, conditions: seq<Filter>): string {
    "ALTER TABLE " + table + " UPDATE " + Str.Join(", ", Assignments(updates)) + " WHERE " + Str.Join(" AND ", Assignments(conditions))
  }

  /** With no conditions the statement ends in a bare `WHERE `. */
  lemma UpdateWithoutConditions(table: string, updates: seq<Filter>)
    ensures var q := UpdateQuery(table, updates, []);
      |q| >= 7 && q[|q| - 7..] == " WHERE "
  {
    var head := "ALTER TABLE " + table + " UPDATE " + Str.Join(", ", Assignments(updates));
    assert UpdateQuery(table, updates, []) == head + " WHERE ";
  }

  /** Each assignment of a string without backslashes reads back as the
      string. */
  lemma AssignmentReadsBack(entries: seq<Filter>, k: nat)
    requires k < |entries| && entries[k].value.SText? && NoBackslash(entries[k].value.s)
    ensures var a := Assignments(entries)[k];
      var head := entries[k].column + " = ";
      |a| >= |head| && a[..|head|] == head && ReadLiteral(a[|head|..]) == Some((entries[k].value.s, ""))
  {
    var head := entries[k].column + " = ";
    var v := FormatValue(entries[k].value);
    assert (head + v)[|head|..] == v + "";
    PlainValueReadsBack(entries[k].value.s, "");
  }

  /** The row has every column. */
  predicate Complete(row: map<string, SqlValue>, columns: seq<string>) {
    forall k :: 0 <= k < |columns| ==> columns[k] in row
  }

  /** The first of the columns a row does not have. */
  function FirstMissing(row: map<string, SqlValue>, columns: seq<string>): (c: string)
    requires !Complete(row, columns)
    ensures c in columns && c !in row
  {
    if columns[0] !in row then columns[0]
    else
      assert forall k :: 1 <= k < |columns| ==> columns[1..][k - 1] == columns[k];
      FirstMissing(row, columns[1..])
  }

  /** The values tuple of one row, or the `KeyError` of its first missing
      column. */
  function RowTuple(row: map<string, SqlValue>, columns: seq<string>): Result<string> {
    if !Complete(row, columns) then Raise(KeyError(FirstMissing(row, columns)))
    else Ok("(generateUUIDv4(), " + Str.Join(", ", seq(|columns|, k requires 0 <= k < |columns| && columns[k] in row => FormatValue(row[columns[k]]))) + ")")
  }

  /** The values tuples of all rows, in order; the first failing row raises. */
  function RowTuples(rows: seq<map<string, SqlValue>>, columns: seq<string>): Result<seq<string>> {
    if rows == [] then Ok([])
    else
      match RowTuple(rows[0], columns)
      case Raise(e) => Raise(e)
      case Ok(t) =>
        match RowTuples(rows[1..], columns)
        case Raise(e) => Raise(e)
        case Ok(ts) => Ok([t] + ts)
  }

  /** The statement `insert_data` sends, with the generated id first. */
  function InsertQuery(table: string, rows: seq<map<string, SqlValue>>, columns: seq<string>): Result<string> {
    match RowTuples(rows, columns)
    case Raise(e) => Raise(e)
    case Ok(ts) => Ok("INSERT INTO " + table + " (" + Str.Join(", ", ["id"] + columns) + ") VALUES " + Str.Join(", ", ts) + ";")
  }

  /** When every row has every column there is one tuple per row. */
  lemma {:induction false} RowTuplesOk(rows: seq<map<string, SqlValue>>, columns: seq<string>)
    requires forall i :: 0 <= i < |rows| ==> Complete(rows[i], columns)
    ensures RowTuples(rows, columns).Ok? && |RowTuples(rows, columns).value| == |rows|
  {
    if rows != [] {
      assert forall i :: 0 <= i < |rows[1..]| ==> rows[1..][i] == rows[i + 1];
      RowTuplesOk(rows[1..], columns);
    }
  }

  /** The first row missing a column fails the insert with the first
      column it misses. */
  lemma {:induction false} RowTuplesRaise(rows: seq<map<string, SqlValue>>, columns: seq<string>, i: nat)
    requires i < |rows| && !Complete(rows[i], columns)
    requires forall j :: 0 <= j < i ==> Complete(rows[j], columns)
    ensures RowTuples(rows, columns) == Raise(KeyError(FirstMissing(rows[i], columns)))
  {
    if i > 0 {
      assert forall j :: 0 <= j < i - 1 ==> rows[1..][j] == rows[j + 1];
      assert rows[1..][i - 1] == rows[i];
      RowTuplesRaise(rows[1..], columns, i - 1);
    }
  }

  /** Inserting fails exactly when some row lacks some column, and then with
      a `KeyError` naming the first column missing from the first such row. */
  lemma InsertFailsIff(table: string, rows: seq<map<string, SqlValue>>, columns: seq<string>)
    ensures InsertQuery(table, rows, columns).Raise? <==> exists i :: 0 <= i < |rows| && !Complete(rows[i], columns)
    ensures InsertQuery(table, rows, columns).Raise? ==>
      exists i :: 0 <= i < |rows| && !Complete(rows[i], columns) &&
        (forall j :: 0 <= j < i ==> Complete(rows[j], columns)) &&
        InsertQuery(table, rows, columns).exc == KeyError(FirstMissing(rows[i], columns))
  {
    if exists i :: 0 <= i < |rows| && !Complete(rows[i], columns) {
      var i := FirstIncomplete(rows, columns);
      RowTuplesRaise(rows, columns, i);
    } else {
      RowTuplesOk(rows, columns);
    }
  }

  /** The first row that misses a column. */
  lemma FirstIncomplete(rows: seq<map<string, SqlValue>>, columns: seq<string>) returns (i: nat)
    requires exists i :: 0 <= i < |rows| && !Complete(rows[i], columns)
    ensures i < |rows| && !Complete(rows[i], columns)
    ensures forall j :: 0 <= j < i ==> Complete(rows[j], columns)
  {
    i := 0;
    while Complete(rows[i], columns)
      invariant i < |rows|
      invariant forall j :: 0 <= j < i ==> Complete(rows[j], columns)
      invariant exists m :: i <= m < |rows| && !Complete(rows[m], columns)
      decreases |rows| - i
    {
      i := i + 1;
    }
  }

  /** Inserting no rows still sends a statement, with nothing after
      `VALUES`. */
  lemma InsertNothing(table: string, columns: seq<string>)
    ensures InsertQuery(table, [], columns) == Ok("INSERT INTO " + table + " (" + Str.Join(", ", ["id"] + columns) + ") VALUES ;")
  {
    assert "INSERT INTO " + table + " (" + Str.Join(", ", ["id"] + columns) + ") VALUES " + "" + ";"
      == "INSERT INTO " + table + " (" + Str.Join(", ", ["id"] + columns) + ") VALUES ;";
  }
}

=== FILE: clickhouse_schema.dfy ===
/** The ClickHouse table schema: columns, their `str` form, the kind of
    skipping index each indexed column gets, and the `CREATE TABLE`
    statement a schema generates. */
module ClickHouseSchema {
  import opened Base
  import Str
  import opened ClickHouseValues

  /** A column as declared; `default == SNone` means no default value. */
  datatype Column = Column(name: string, dataType: string, default: SqlValue, isPrimaryKey: bool, isIndex: bool)
  {
    /** `str(column)`. */
    function Definition(): string {
      name + " " + dataType + (if default != SNone then " DEFAULT " + Text(default) else "")
    }

    /** `is_string()`. */
    predicate IsString() {
      Str.Contains(dataType, "String") || Str.Contains(dataType, "LowCardinality(String)")
    }

    /** `is_numeric()`. */
    predicate IsNumeric() {
      Str.Contains(dataType, "Int") || Str.Contains(dataType, "UInt") || Str.Contains(dataType, "Float")
    }

    /** `is_date()`. */
    predicate IsDate() {
      Str.Contains(dataType, "Date") || Str.Contains(dataType, "DateTime")
    }
  }

  /** The definition of a column is its name and type, followed by its
      default exactly when it has one (a `False` or `0` default included). */
  lemma DefinitionShape(c: Column)
    ensures |c.Definition()| >= |c.name| + 1 + |c.dataType|
    ensures c.Definition()[..|c.name| + 1 + |c.dataType|] == c.name + " " + c.dataType
    ensures c.default == SNone <==> |c.Definition()| == |c.name| + 1 + |c.dataType|
    ensures c.default != SNone ==> c.Definition()[|c.name| + 1 + |c.dataType|..] == " DEFAULT " + Text(c.default)
  {
    var head := c.name + " " + c.dataType;
    if c.default != SNone {
      assert c.Definition() == head + (" DEFAULT " + Text(c.default));
    } else {
      assert c.Definition() == head + "";
    }
  }

  /** A text containing `outer` contains every piece of it. */
  lemma ContainsPiece(s: string, outer: string, inner: string, off: nat)
    requires off + |inner| <= |outer| && outer[off..off + |inner|] == inner
    requires Str.Contains(s, outer)
    ensures Str.Contains(s, inner)
  {
    var j := Str.Find(s, outer);
    assert Str.OccursAt(s, outer, j);
    var w := s[j..j + |outer|];
    forall k | 0 <= k < |inner| ensures s[j + off + k] == inner[k] {
      assert s[j + off + k] == w[off + k] == outer[off..off + |inner|][k];
    }
    assert s[j + off..j + off + |inner|] == inner;
    assert Str.OccursAt(s, inner, j + off);
  }

  /** The second test of each predicate adds nothing: "LowCardinality(String)"
      contains "String", "UInt" contains "Int", "DateTime" contains "Date". */
  lemma RedundantTests(c: Column)
    ensures c.IsString() <==> Str.Contains(c.dataType, "String")
    ensures c.IsNumeric() <==> Str.Contains(c.dataType, "Int") || Str.Contains(c.dataType, "Float")
    ensures c.IsDate() <==> Str.Contains(c.dataType, "Date")
  {
    if Str.Contains(c.dataType, "LowCardinality(String)") {
      ContainsPiece(c.dataType, "LowCardinality(String)", "String", 15);
    }
    if Str.Contains(c.dataType, "UInt") {
      ContainsPiece(c.dataType, "UInt", "Int", 1);
    }
    if Str.Contains(c.dataType, "DateTime") {
      ContainsPiece(c.dataType, "DateTime", "Date", 0);
    }
  }

  /** The two kinds of skipping index a column can get. */
  datatype IndexKind = SetIndex | MinMax
  {
    function Text(): string {
      match this
      case SetIndex => "set(0)"
      case MinMax => "minmax"
    }
  }

  /** The error for an indexed column whose type has no index kind. */
  function UnknownIndex(c: Column): Exc {
    ValueError("Unknown index type for column '" + c.name + "' with data type '" + c.dataType + "'")
  }

  /** The index kind of an indexed column: a string column takes a set
      index even when its type is also numeric or a date. */
  function IndexType(c: Column): (r: Result<IndexKind>)
    ensures r == Ok(SetIndex) <==> c.IsString()
    ensures r == Ok(MinMax) <==> !c.IsString() && (c.IsNumeric() || c.IsDate())
    ensures r.Raise? <==> !c.IsString() && !c.IsNumeric() && !c.IsDate()
    ensures r.Raise? ==> r.exc == UnknownIndex(c)
  {
    if c.IsString() then Ok(SetIndex)
    else if c.IsNumeric() || c.IsDate() then Ok(MinMax)
    else Raise(UnknownIndex(c))
  }

  /** The index declaration for a column of the given index type, without
      its separator. */
  function Clause(c: Column, kind: string): string {
    "INDEX " + c.name + "_idx (" + c.name + ") TYPE " + kind + " GRANULARITY 3"
  }

  /** The index declarations for the indexed columns, in order; the first
      column without an index type raises. */
  function IndexClauses(idx: seq<Column>): Result<seq<string>> {
    if idx == [] then Ok([])
    else
      match IndexClauses(idx[..|idx| - 1])
      case Raise(e) => Raise(e)
      case Ok(cs) =>
        match IndexType(idx[|idx| - 1])
        case Raise(e) => Raise(e)
        case Ok(t) => Ok(cs + [Clause(idx[|idx| - 1], t.Text())])
  }

  /** When every indexed column has a kind, there is one declaration per
      column, with that column's kind. */
  lemma {:induction false} IndexClausesOk(idx: seq<Column>)
    requires forall k :: 0 <= k < |idx| ==> IndexType(idx[k]).Ok?
    ensures IndexClauses(idx).Ok?
    ensures |IndexClauses(idx).value| == |idx|
    ensures forall k :: 0 <= k < |idx| ==> IndexClauses(idx).value[k] == Clause(idx[k], IndexType(idx[k]).value.Text())
  {
    if idx != [] {
      var init := idx[..|idx| - 1];
      assert forall k :: 0 <= k < |init| ==> init[k] == idx[k];
      IndexClausesOk(init);
      var last := idx[|idx| - 1];
      var cs := IndexClauses(init).value;
      var c := Clause(last, IndexType(last).value.Text());
      assert IndexClauses(idx) == Ok(cs + [c]);
      forall k | 0 <= k < |idx|
        ensures (cs + [c])[k] == Clause(idx[k], IndexType(idx[k]).value.Text())
      {
        if k < |init| {
          assert (cs + [c])[k] == cs[k];
        }
      }
    }
  }

  /** When some indexed column has no kind, the declarations fail with the
      error of the first such column. */
  lemma {:induction false} IndexClausesRaise(idx: seq<Column>, k: nat)
    requires k < |idx| && IndexType(idx[k]).Raise?
    requires forall j :: 0 <= j < k ==> IndexType(idx[j]).Ok?
    ensures IndexClauses(idx) == Raise(UnknownIndex(idx[k]))
  {
    var init := idx[..|idx| - 1];
    assert forall j :: 0 <= j < |init| ==> init[j] == idx[j];
    if k < |idx| - 1 {
      IndexClausesRaise(init, k);
    } else {
      IndexClausesOk(init);
    }
  }

  /** Some indexed column without a kind, the first one. */
  lemma {:induction false} FirstUnknown(idx: seq<Column>) returns (k: nat)
    requires exists j :: 0 <= j < |idx| && IndexType(idx[j]).Raise?
    ensures k < |idx| && IndexType(idx[k]).Raise?
    ensures forall j :: 0 <= j < k ==> IndexType(idx[j]).Ok?
  {
    var oks := seq(|idx|, j requires 0 <= j < |idx| => IndexType(idx[j]).Ok?);
    var m :| 0 <= m < |idx| && IndexType(idx[m]).Raise?;
    assert !oks[m];
    k := FirstFalse(oks);
    assert !oks[k];
    forall j | 0 <= j < k ensures IndexType(idx[j]).Ok? {
      assert oks[j];
    }
  }

  /** Each part followed by `sep`, as the loop accumulates declarations. */
  function Terminated(parts: seq<string>, sep: string): string {
    if parts == [] then "" else Terminated(parts[..|parts| - 1], sep) + parts[|parts| - 1] + sep
  }

  lemma {:induction false} TerminatedJoin(parts: seq<string>, sep: string)
    requires parts != []
    ensures Terminated(parts, sep) == Str.Join(sep, parts) + sep
  {
    var init := parts[..|parts| - 1];
    var last := parts[|parts| - 1];
    if |parts| > 1 {
      TerminatedJoin(init, sep);
      JoinSnoc(init, last, sep);
      assert parts == init + [last];
    } else {
      assert init == [];
    }
  }

  lemma {:induction false} JoinSnoc(parts: seq<string>, last: string, sep: string)
    requires parts != []
    ensures Str.Join(sep, parts + [last]) == Str.Join(sep, parts) + sep + last
  {
    if |parts| > 1 {
      JoinSnoc(parts[1..], last, sep);
      assert (parts + [last])[1..] == parts[1..] + [last];
    } else {
      assert (parts + [last])[1..] == [last];
    }
  }

  /** The index block of the statement: the accumulated text stripped of
      surrounding whitespace and then of trailing commas. */
  function IndexBlock(parts: seq<string>): string {
    Str.RStripChar(Str.Strip(Terminated(parts, ",\n")), ',')
  }

  /** Text that starts with a non-space keeps its start under `lstrip()`. */
  lemma LStripKeeps(s: string)
    requires s != [] && !Str.IsSpace(s[0])
    ensures Str.LStrip(s) == s
  {
  }

  /** `rstrip()` drops the newline after the last index clause's comma. */
  lemma RStripNewline(x: string, s: string)
    requires x != [] && x[|x| - 1] == '3'
    requires s == x + [',', '\n']
    ensures Str.RStrip(s) == x + [',']
  {
  }

  /** `rstrip(",")` drops that comma and stops at the granularity digit. */
  lemma RStripComma(x: string)
    requires x != [] && x[|x| - 1] == '3'
    ensures Str.RStripChar(x + [','], ',') == x
  {
  }

  /** Stripping removes exactly the final separator: the block is the
      declarations joined by `",\n"`, and empty when there are none. */
  lemma IndexBlockJoin(parts: seq<string>)
    requires forall k :: 0 <= k < |parts| ==> parts[k] != [] && parts[k][0] == 'I' && parts[k][|parts[k]| - 1] == '3'
    ensures IndexBlock(parts) == Str.Join(",\n", parts)
  {
    if parts == [] {
      assert Str.Strip("") == "";
    } else {
      var sep := [',', '\n'];
      assert sep == ",\n";
      TerminatedJoin(parts, sep);
      var x := Str.Join(sep, parts);
      JoinEnds(parts);
      var s := x + sep;
      LStripKeeps(s);
      RStripNewline(x, s);
      RStripComma(x);
    }
  }

  /** A join of declarations starts with the first one's first character and
      ends with the last one's last character. */
  lemma {:induction false} JoinEnds(parts: seq<string>)
    requires parts != []
    requires forall k :: 0 <= k < |parts| ==> parts[k] != [] && parts[k][0] == 'I' && parts[k][|parts[k]| - 1] == '3'
    ensures var x := Str.Join(",\n", parts); x != [] && x[0] == 'I' && x[|x| - 1] == '3'
  {
    if |parts| > 1 {
      JoinEnds(parts[1..]);
      var x := Str.Join(",\n", parts[1..]);
      assert Str.Join(",\n", parts) == parts[0] + ",\n" + x;
    }
  }

  /** The `ORDER BY` clause: present exactly when there are primary keys. */
  function OrderBy(pks: seq<string>): string {
    if pks != [] then " ORDER BY (" + Str.Join(", ", pks) + ")" else ""
  }

  function Definitions(cols: seq<Column>): seq<string> {
    seq(|cols|, k requires 0 <= k < |cols| => cols[k].Definition())
  }

  /** The statement up to the engine: the column definitions, a comma, the
      index block and the engine. */
  function Head(table: string, defs: seq<string>, block: string): string {
    "CREATE TABLE IF NOT EXISTS " + table + " (\n" + Str.Join(",\n", defs) + ",\n" + block + "\n)" + " ENGINE = MergeTree"
  }

  /** The statement `generate_create_table_query` returns for a schema, or
      the error of its first unsupported index column. */
  function CreateTableQuery(table: string, cols: seq<Column>, pks: seq<string>, idx: seq<Column>): Result<string> {
    match IndexClauses(idx)
    case Raise(e) => Raise(e)
    case Ok(cs) => Ok(Head(table, Definitions(cols), IndexBlock(cs)) + OrderBy(pks))
  }

  /** The declaration of every indexed column, when each has a kind. */
  function Declarations(idx: seq<Column>): seq<string>
    requires forall k :: 0 <= k < |idx| ==> IndexType(idx[k]).Ok?
  {
    seq(|idx|, k requires 0 <= k < |idx| && IndexType(idx[k]).Ok? => Clause(idx[k], IndexType(idx[k]).value.Text()))
  }

  /** When every index column has a kind, the index block is their
      declarations joined by `",\n"`: the trailing comma is gone. */
  lemma CreateTableShape(table: string, cols: seq<Column>, pks: seq<string>, idx: seq<Column>)
    requires forall k :: 0 <= k < |idx| ==> IndexType(idx[k]).Ok?
    ensures CreateTableQuery(table, cols, pks, idx) ==
      Ok(Head(table, Definitions(cols), Str.Join(",\n", Declarations(idx))) + OrderBy(pks))
  {
    IndexClausesOk(idx);
    var cs := IndexClauses(idx).value;
    assert cs == Declarations(idx);
    IndexBlockJoin(cs);
  }

  /** With no index columns the index block is empty, and the statement
      keeps a comma after the last column definition, before the engine. */
  lemma NoIndexKeepsComma(table: string, cols: seq<Column>, pks: seq<string>)
    ensures CreateTableQuery(table, cols, pks, []) == Ok(Head(table, Definitions(cols), "") + OrderBy(pks))
    ensures Head(table, Definitions(cols), "") ==
      "CREATE TABLE IF NOT EXISTS " + table + " (\n" + Str.Join(",\n", Definitions(cols)) + ",\n" + "\n)" + " ENGINE = MergeTree"
  {
    EmptyIndexBlock();
    assert IndexClauses([]) == Ok([]);
    var x := "CREATE TABLE IF NOT EXISTS " + table + " (\n" + Str.Join(",\n", Definitions(cols)) + ",\n";
    assert x + "" == x;
  }

  /** With no declarations the index block is empty. */
  lemma EmptyIndexBlock()
    ensures IndexBlock([]) == ""
  {
    assert Terminated([], ",\n") == "";
    assert Str.Strip("") == "";
  }

  /** `s.endswith(t)`. */
  predicate EndsWith(s: string, t: string) {
    |t| <= |s| && s[|s| - |t|..] == t
  }

  lemma EndsWithSuffix(a: string, b: string)
    ensures EndsWith(a + b, b)
  {
    assert (a + b)[|a|..] == b;
  }

  /** The statement ends with the ordering on the primary keys exactly when
      there are primary keys, and otherwise with the engine. */
  lemma OrderByWhenKeys(table: string, cols: seq<Column>, pks: seq<string>, idx: seq<Column>)
    requires CreateTableQuery(table, cols, pks, idx).Ok?
    ensures pks != [] ==> EndsWith(CreateTableQuery(table, cols, pks, idx).value, " ORDER BY (" + Str.Join(", ", pks) + ")")
    ensures pks == [] ==> EndsWith(CreateTableQuery(table, cols, pks, idx).value, " ENGINE = MergeTree")
  {
    var block := IndexBlock(IndexClauses(idx).value);
    var h := Head(table, Definitions(cols), block);
    assert CreateTableQuery(table, cols, pks, idx).value == h + OrderBy(pks);
    if pks == [] {
      var x := "CREATE TABLE IF NOT EXISTS " + table + " (\n" + Str.Join(",\n", Definitions(cols)) + ",\n" + block + "\n)";
      assert h + OrderBy(pks) == x + " ENGINE = MergeTree";
      EndsWithSuffix(x, " ENGINE = MergeTree");
    } else {
      EndsWithSuffix(h, OrderBy(pks));
    }
  }

  /** The statement fails exactly when some index column has no kind, and
      then with the error of the first such column. */
  lemma CreateTableFails(table: string, cols: seq<Column>, pks: seq<string>, idx: seq<Column>)
    ensures CreateTableQuery(table, cols, pks, idx).Raise? <==> exists k :: 0 <= k < |idx| && IndexType(idx[k]).Raise?
    ensures CreateTableQuery(table, cols, pks, idx).Raise? ==>
      exists k :: 0 <= k < |idx| && (forall j :: 0 <= j < k ==> IndexType(idx[j]).Ok?) &&
        CreateTableQuery(table, cols, pks, idx).exc == UnknownIndex(idx[k])
  {
    if exists k :: 0 <= k < |idx| && IndexType(idx[k]).Raise? {
      var k := FirstUnknown(idx);
      IndexClausesRaise(idx, k);
    } else {
      IndexClausesOk(idx);
    }
  }

  /** The names of the primary-key columns, in declaration order. */
  function KeyNames(cols: seq<Column>): seq<string> {
    if cols == [] then []
    else KeyNames(cols[..|cols| - 1]) + (if cols[|cols| - 1].isPrimaryKey then [cols[|cols| - 1].name] else [])
  }

  /** The indexed columns, in declaration order. */
  function Indexed(cols: seq<Column>): seq<Column> {
    if cols == [] then []
    else Indexed(cols[..|cols| - 1]) + (if cols[|cols| - 1].isIndex then [cols[|cols| - 1]] else [])
  }

  /** The indexed columns are exactly the columns marked as indexed. */
  lemma {:induction false} IndexedMeaning(cols: seq<Column>)
    ensures forall c :: c in Indexed(cols) <==> c in cols && c.isIndex
  {
    if cols != [] {
      var init := cols[..|cols| - 1];
      IndexedMeaning(init);
      assert cols == init + [cols[|cols| - 1]];
    }
  }

  /** The primary-key names are the names of the columns marked as keys. */
  lemma {:induction false} KeyNamesMeaning(cols: seq<Column>)
    ensures forall n :: n in KeyNames(cols) <==> exists c :: c in cols && c.isPrimaryKey && c.name == n
  {
    if cols != [] {
      var init := cols[..|cols| - 1];
      KeyNamesMeaning(init);
      assert cols == init + [cols[|cols| - 1]];
    }
  }

  /** The statement for a consistent schema fails exactly when some column
      marked as indexed has no index kind. */
  lemma SchemaFails(table: string, cols: seq<Column>)
    ensures CreateTableQuery(table, cols, KeyNames(cols), Indexed(cols)).Raise? <==>
      exists c :: c in cols && c.isIndex && IndexType(c).Raise?
  {
    var idx := Indexed(cols);
    IndexedMeaning(cols);
    CreateTableFails(table, cols, KeyNames(cols), idx);
    if exists c :: c in cols && c.isIndex && IndexType(c).Raise? {
      var c :| c in cols && c.isIndex && IndexType(c).Raise?;
      assert c in idx;
    }
  }

  /** The statement for a consistent schema ends with the ordering on the
      primary keys exactly when some column is marked as a key. */
  lemma SchemaOrdered(table: string, cols: seq<Column>)
    requires CreateTableQuery(table, cols, KeyNames(cols), Indexed(cols)).Ok?
    ensures (exists c :: c in cols && c.isPrimaryKey) <==>
      EndsWith(CreateTableQuery(table, cols, KeyNames(cols), Indexed(cols)).value,
               " ORDER BY (" + Str.Join(", ", KeyNames(cols)) + ")")
  {
    var pks := KeyNames(cols);
    var q := CreateTableQuery(table, cols, pks, Indexed(cols)).value;
    OrderByWhenKeys(table, cols, pks, Indexed(cols));
    KeysPresent(cols);
    if pks == [] {
      EndsMergeTreeNotOrder(q);
    }
  }

  /** Some column is a primary key exactly when the key names are not empty. */
  lemma {:induction false} KeysPresent(cols: seq<Column>)
    ensures (exists c :: c in cols && c.isPrimaryKey) <==> KeyNames(cols) != []
  {
    if cols != [] {
      var init := cols[..|cols| - 1];
      KeysPresent(init);
      assert cols == init + [cols[|cols| - 1]];
    }
  }

  /** What the statement of a consistent schema promises: it fails exactly
      when some column marked as indexed has no index kind, and it ends
      with the ordering on the keys exactly when some column is a key. */
  predicate SchemaPromise(table: string, cols: seq<Column>, r: Result<string>) {
    && (r.Raise? <==> exists c :: c in cols && c.isIndex && IndexType(c).Raise?)
    && (r.Ok? ==>
         ((exists c :: c in cols && c.isPrimaryKey) <==>
          EndsWith(r.value, " ORDER BY (" + Str.Join(", ", KeyNames(cols)) + ")")))
  }

  /** The statement of a consistent schema keeps that promise. */
  lemma SchemaKept(table: string, cols: seq<Column>)
    ensures SchemaPromise(table, cols, CreateTableQuery(table, cols, KeyNames(cols), Indexed(cols)))
  {
    SchemaFails(table, cols);
    if CreateTableQuery(table, cols, KeyNames(cols), Indexed(cols)).Ok? {
      SchemaOrdered(table, cols);
    }
  }

  /** A statement ending with the engine does not end with an ordering. */
  lemma EndsMergeTreeNotOrder(q: string)
    requires EndsWith(q, " ENGINE = MergeTree")
    ensures !EndsWith(q, " ORDER BY (" + Str.Join(", ", []) + ")")
  {
    var e := " ENGINE = MergeTree";
    var t := " ORDER BY (" + Str.Join(", ", []) + ")";
    assert q[|q| - 1] == e[|e| - 1] == 'e';
    assert t[|t| - 1] == ')';
  }

  /** A table schema: the columns in declaration order, and the primary-key
      names and indexed columns drawn from them. */
  class TableSchema {
    var tableName: string
    var columns: seq<Column>
    var primaryKeyColumns: seq<string>
    var indexColumns: seq<Column>

    /** The key and index lists are drawn from the columns, in order. */
    ghost predicate Valid()
      reads this
    {
      primaryKeyColumns == KeyNames(columns) && indexColumns == Indexed(columns)
    }

    constructor (tableName: string)
      ensures this.tableName == tableName
      ensures columns == [] && primaryKeyColumns == [] && indexColumns == []
      ensures Valid()
    {
      this.tableName := tableName;
      columns := [];
      primaryKeyColumns := [];
      indexColumns := [];
    }

    /** Appends the column; its name to the keys iff it is a primary key,
        and the column to the indexed ones iff it is indexed. */
    method AddColumn(name: string, dataType: string, default: SqlValue, isPrimaryKey: bool, isIndex: bool)
      modifies this
      ensures tableName == old(tableName)
      ensures columns == old(columns) + [Column(name, dataType, default, isPrimaryKey, isIndex)]
      ensures primaryKeyColumns == old(primaryKeyColumns) + (if isPrimaryKey then [name] else [])
      ensures indexColumns == old(indexColumns) + (if isIndex then [Column(name, dataType, default, isPrimaryKey, isIndex)] else [])
      ensures old(Valid()) ==> Valid()
    {
      var column := Column(name, dataType, default, isPrimaryKey, isIndex);
      columns := columns + [column];
      if isPrimaryKey {
        primaryKeyColumns := primaryKeyColumns + [name];
      }
      if isIndex {
        indexColumns := indexColumns + [column];
      }
      assert columns[..|columns| - 1] == old(columns);
    }

    /** `generate_create_table_query`: the index declarations accumulated
        one column at a time, then stripped, then the statement. */
    method GenerateCreateTableQuery() returns (r: Result<string>)
      ensures r == CreateTableQuery(tableName, columns, primaryKeyColumns, indexColumns)
      ensures Valid() ==> SchemaPromise(tableName, columns, r)
    {

      var indexStr := "";
      ghost var done: seq<string> := [];
      var i := 0;
      while i < |indexColumns|
        invariant 0 <= i <= |indexColumns|
        invariant IndexClauses(indexColumns[..i]) == Ok(done)
        invariant indexStr == Terminated(done, ",\n")
      {
        var column := indexColumns[i];
        var indexType: IndexKind;
        if column.IsString() {
          indexType := SetIndex;
        } else if column.IsNumeric() || column.IsDate() {
          indexType := MinMax;
        } else {
          assert indexColumns[..i + 1][..i] == indexColumns[..i];
          PrefixRaise(indexColumns, i + 1);
          r := Raise(UnknownIndex(column));
          if Valid() {
            SchemaKept(tableName, columns);
          }
          return;
        }
        assert IndexType(column) == Ok(indexType);
        indexStr := indexStr + Clause(column, indexType.Text()) + ",\n";
        assert indexColumns[..i + 1][..i] == indexColumns[..i];
        done := done + [Clause(column, indexType.Text())];
        i := i + 1;
      }
      assert indexColumns[..i] == indexColumns;
      indexStr := Str.RStripChar(Str.Strip(indexStr), ',');
      var query := Head(tableName, Definitions(columns), indexStr);
      if primaryKeyColumns != [] {
        var order := " ORDER BY (" + Str.Join(", ", primaryKeyColumns) + ")";
        query := query + order;
      } else {
        assert query == query + OrderBy(primaryKeyColumns);
      }
      r := Ok(query);
      if Valid() {
        SchemaKept(tableName, columns);
      }
    }
  }

  /** Once a prefix of the index columns raises, so does every longer one. */
  lemma {:induction false} PrefixRaise(idx: seq<Column>, n: nat)
    requires n <= |idx| && IndexClauses(idx[..n]).Raise?
    ensures IndexClauses(idx) == Raise(IndexClauses(idx[..n]).exc)
    decreases |idx| - n
  {
    if n < |idx| {
      assert idx[..n + 1][..n] == idx[..n];
      PrefixRaise(idx, n + 1);
    } else {
      assert idx[..n] == idx;
    }
  }
}

=== FILE: clickhouse_values.dfy ===
/** The values the ClickHouse query builders splice into SQL text: how
    Python prints them (`str`), and how `format_value` quotes a string.
    A string literal is read back by ClickHouse's rules: it ends at a lone
    single quote, a doubled quote stands for one quote, and a backslash
    escapes the character after it. */
module ClickHouseValues {
  import opened Base
  import Str

  /** A Python value handed to a query builder. A `datetime` is known by
      its `'%Y-%m-%d %H:%M:%S'` text; a bool is an int in Python's eyes. */
  datatype SqlValue =
    | SNone
    | SBool(b: bool)
    | SInt(i: int)
    | SText(s: string)
    | SDateTime(stamp: string)
    | SList(items: seq<SqlValue>)
    | STuple(items: seq<SqlValue>)
  {
    /** `isinstance(v, (int, float))` (floats are not modelled). */
    predicate IsNumber() {
      SBool? || SInt?
    }

    /** `isinstance(v, (list, tuple))`. */
    predicate IsSequence() {
      SList? || STuple?
    }
  }

  /** `str(i)` for an integer. */
  function IntText(i: int): string {
    if i < 0 then "-" + Str.Decimal(-i) else Str.Decimal(i)
  }

  /** `str(v)` (`quoted == false`) and `repr(v)` (`quoted == true`); only a
      string prints differently under the two. Python's `repr` also escapes
      backslashes, quotes and control characters inside the strings of a
      list, tuple or dictionary and picks `"` when the string holds `'`;
      that escaping is not modelled, the element is put between `'` as it
      is. */
  function Show(v: SqlValue, quoted: bool): string
    decreases v
  {
    match v
    case SNone => "None"
    case SBool(b) => if b then "True" else "False"
    case SInt(i) => IntText(i)
    case SText(s) => if quoted then "'" + s + "'" else s
    case SDateTime(t) => t
    case SList(items) =>
      "[" + Str.Join(", ", seq(|items|, k requires 0 <= k < |items| => Show(items[k], true))) + "]"
    case STuple(items) =>
      if |items| == 1 then "(" + Show(items[0], true) + ",)"
      else "(" + Str.Join(", ", seq(|items|, k requires 0 <= k < |items| => Show(items[k], true))) + ")"
  }

  /** `str(v)`. */
  function Text(v: SqlValue): string {
    Show(v, false)
  }

  // ---------------------------------------------------------------------
  // Reading a string literal back

  /** The character a backslash escape stands for. */
  function Unescape(c: char): char {
    match c
    case 'n' => '\n'
    case 't' => '\t'
    case 'r' => '\r'
    case '0' => 0 as char
    case 'b' => 8 as char
    case 'f' => 12 as char
    case 'a' => 7 as char
    case 'v' => 11 as char
    case _ => c
  }

  function Prepend(c: char, r: Option<(string, string)>): Option<(string, string)> {
    match r
    case None => None
    case Some(p) => Some(([c] + p.0, p.1))
  }

  /** ClickHouse reading the text after an opening quote: the value the
      literal stands for and the text after its closing quote, or None
      when the literal never closes. */
  function ReadBody(t: string): (r: Option<(string, string)>)
    ensures r.Some? ==> |r.value.1| < |t|
    decreases |t|
  {
    if t == [] then None
    else if t[0] == '\'' then
      if |t| >= 2 && t[1] == '\'' then Prepend('\'', ReadBody(t[2..]))
      else Some(([], t[1..]))
    else if t[0] == '\\' then
      if |t| >= 2 then Prepend(Unescape(t[1]), ReadBody(t[2..])) else None
    else Prepend(t[0], ReadBody(t[1..]))
  }

  /** Reading a whole quoted literal. */
  function ReadLiteral(t: string): (r: Option<(string, string)>)
    ensures r.Some? ==> |r.value.1| < |t|
  {
    if t != [] && t[0] == '\'' then ReadBody(t[1..]) else None
  }

  // ---------------------------------------------------------------------
  // format_value as written: quotes doubled

  /** `s` with every single quote doubled, character by character. */
  function Doubled(s: string): string {
    if s == [] then [] else (if s[0] == '\'' then "''" else [s[0]]) + Doubled(s[1..])
  }

  /** `value.replace("'", "''")` doubles every quote. */
  lemma {:induction false} ReplaceDoubles(s: string)
    ensures Str.ReplaceAll(s, "'", "''") == Doubled(s)
  {
    if s != [] {
      ReplaceDoubles(s[1..]);
      if s[0] == '\'' {
        assert "'" <= s;
      } else {
        assert !("'" <= s);
      }
    }
  }

  /** `format_value(v)`: a string in single quotes with its quotes doubled
      and its backslashes left as they are, anything else as `str(v)`. */
  function FormatValue(v: SqlValue): string {
    if v.SText? then "'" + Str.ReplaceAll(v.s, "'", "''") + "'" else Text(v)
  }

  /** Undoing the doubling: a doubled quote becomes one quote. */
  function Undouble(t: string): string
    decreases |t|
  {
    if t == [] then []
    else if |t| >= 2 && t[0] == '\'' && t[1] == '\'' then "'" + Undouble(t[2..])
    else [t[0]] + Undouble(t[1..])
  }

  /** Un-doubling the quoted text gives the string back. */
  lemma {:induction false} UndoubleDoubled(s: string)
    ensures Undouble(Doubled(s)) == s
  {
    if s != [] {
      UndoubleDoubled(s[1..]);
      var head := if s[0] == '\'' then "''" else [s[0]];
      assert Doubled(s) == head + Doubled(s[1..]);
      if s[0] == '\'' {
        assert (head + Doubled(s[1..]))[2..] == Doubled(s[1..]);
      } else {
        assert (head + Doubled(s[1..]))[1..] == Doubled(s[1..]);
      }
      assert s == [s[0]] + s[1..];
    }
  }

  /** The as-written quoting reads back as the string and ends exactly at
      its closing quote (when no quote follows it), for every string
      without a backslash. */
  lemma {:induction false} ReadDoubled(s: string, rest: string)
    requires forall k :: 0 <= k < |s| ==> s[k] != '\\'
    requires rest == [] || rest[0] != '\''
    ensures ReadBody(Doubled(s) + "'" + rest) == Some((s, rest))
  {
    if s == [] {
      assert Doubled(s) + "'" + rest == "'" + rest;
    } else {
      var tail := Doubled(s[1..]) + "'" + rest;
      ReadDoubled(s[1..], rest);
      if s[0] == '\'' {
        assert Doubled(s) + "'" + rest == "''" + tail;
        assert ("''" + tail)[2..] == tail;
      } else {
        assert Doubled(s) + "'" + rest == [s[0]] + tail;
        assert ([s[0]] + tail)[1..] == tail;
      }
      assert s == [s[0]] + s[1..];
    }
  }

  /** A string without quotes is left as it is by the doubling. */
  lemma {:induction false} DoubledPlain(s: string)
    requires forall k :: 0 <= k < |s| ==> s[k] != '\''
    ensures Doubled(s) == s
  {
    if s != [] {
      DoubledPlain(s[1..]);
      assert s == [s[0]] + s[1..];
    }
  }

  /** The string holds no backslash. */
  predicate NoBackslash(s: string) {
    forall k :: 0 <= k < |s| ==> s[k] != '\\'
  }

  /** A string without a backslash, formatted, is one literal standing for
      the string itself, ending at its closing quote. */
  lemma PlainValueReadsBack(s: string, rest: string)
    requires NoBackslash(s)
    requires rest == [] || rest[0] != '\''
    ensures ReadLiteral(FormatValue(SText(s)) + rest) == Some((s, rest))
  {
    ReplaceDoubles(s);
    ReadDoubled(s, rest);
    var body := Doubled(s) + "'" + rest;
    assert FormatValue(SText(s)) + rest == "'" + body;
    assert ("'" + body)[1..] == body;
  }

  lemma ReadQuoteEnd(rest: string)
    requires rest == [] || rest[0] != '\''
    ensures ReadBody("'" + rest) == Some(([], rest))
  {
    assert ("'" + rest)[1..] == rest;
  }

  lemma ReadPlainChar(c: char, t: string)
    requires c != '\'' && c != '\\'
    ensures ReadBody([c] + t) == Prepend(c, ReadBody(t))
  {
    assert ([c] + t)[1..] == t;
  }

  lemma ReadBackslash(c: char, t: string)
    ensures ReadBody(['\\', c] + t) == Prepend(Unescape(c), ReadBody(t))
  {
    assert (['\\', c] + t)[2..] == t;
  }

  /** `format_value("\\")` as written is a backslash between quotes. */
  lemma BackslashAsWritten()
    ensures FormatValue(SText("\\")) == "'" + ['\\', '\'']
  {
    ReplaceDoubles("\\");
    DoubledPlain("\\");
  }

  /** A lone backslash, quoted as written, escapes its closing quote: the
      literal never ends. */
  lemma BackslashNeverCloses()
    ensures ReadLiteral(FormatValue(SText("\\"))) == None
  {
    BackslashAsWritten();
    ReadBackslash('\'', []);
    assert ("'" + ['\\', '\''])[1..] == ['\\', '\''] + [];
  }

  /** Followed by another value, as in an `IN` list, the backslash's
      literal runs up to that value's opening quote, and the other value's
      text is then read as SQL. */
  lemma BackslashSwallowsNext(next: string)
    requires next != [] && next[0] != '\''
    ensures ReadLiteral(FormatValue(SText("\\")) + ", " + FormatValue(SText(next)))
      == Some(("', ", Doubled(next) + "'"))
  {
    BackslashAsWritten();
    ReplaceDoubles(next);
    var d := Doubled(next);
    assert d[0] == next[0];
    var x := FormatValue(SText("\\")) + ", " + FormatValue(SText(next));
    assert x == "'" + ['\\', '\''] + ", " + ("'" + d + "'");
    var u := ", " + ("'" + (d + "'"));
    JoinedAsWritten(d, u);
    ReadPastBackslash(d, u);
  }

  /** After an escaped quote, the literal runs on to the next quote. */
  lemma ReadPastBackslash(d: string, u: string)
    requires d != [] && d[0] != '\''
    requires u == ", " + ("'" + (d + "'"))
    ensures ReadBody(['\\', '\''] + u) == Some(("', ", d + "'"))
  {
    ReadBackslash('\'', u);
    ReadCommaSpace(d + "'");
    var tail := d + "'";
    ReadQuoteEnd(tail);
    assert [','] + ([' '] + []) == ", ";
    assert ReadBody(u) == Some((", ", tail));
    assert ['\''] + ", " == "', ";
  }

  lemma JoinedAsWritten(d: string, u: string)
    requires u == ", " + ("'" + (d + "'"))
    ensures ("'" + ['\\', '\''] + ", " + ("'" + d + "'"))[1..] == ['\\', '\''] + u
  {
    assert "'" + ['\\', '\''] + ", " + ("'" + d + "'") == "'" + (['\\', '\''] + u);
  }

  lemma ReadCommaSpace(t: string)
    ensures ReadBody(", " + ("'" + t)) == Prepend(',', Prepend(' ', ReadBody("'" + t)))
  {
    ReadPlainChar(',', [' '] + ("'" + t));
    assert ", " + ("'" + t) == [','] + ([' '] + ("'" + t));
    ReadPlainChar(' ', "'" + t);
  }

  // ---------------------------------------------------------------------
  // format_value with backslashes escaped too

  /** One character of a quoted literal: a quote and a backslash doubled. */
  function EscapeChar(c: char): string {
    if c == '\'' then "''" else if c == '\\' then "\\\\" else [c]
  }

  /** The body of a quoted literal for `s`. */
  function Escape(s: string): string {
    if s == [] then [] else EscapeChar(s[0]) + Escape(s[1..])
  }

  /** The quoting `format_value` evidently intends: a string in single
      quotes with its quotes and backslashes doubled, anything else as
      `str(v)`. The query builders use `FormatValue`, as the code does. */
  function FormatValueEscaped(v: SqlValue): string {
    if v.SText? then "'" + Escape(v.s) + "'" else Text(v)
  }

  /** Every string, quoted, reads back as itself and its literal ends
      exactly at its closing quote, whatever follows it. */
  lemma {:induction false} ReadEscaped(s: string, rest: string)
    requires rest == [] || rest[0] != '\''
    ensures ReadBody(Escape(s) + "'" + rest) == Some((s, rest))
  {
    if s == [] {
      assert Escape(s) + "'" + rest == "'" + rest;
    } else {
      var tail := Escape(s[1..]) + "'" + rest;
      ReadEscaped(s[1..], rest);
      assert Escape(s) + "'" + rest == EscapeChar(s[0]) + tail;
      if s[0] == '\'' || s[0] == '\\' {
        assert (EscapeChar(s[0]) + tail)[2..] == tail;
      } else {
        assert (EscapeChar(s[0]) + tail)[1..] == tail;
      }
      assert s == [s[0]] + s[1..];
    }
  }

  /** With backslashes escaped too, every formatted string is one literal
      standing for the string itself. */
  lemma FormatValueEscapedReadsBack(s: string, rest: string)
    requires rest == [] || rest[0] != '\''
    ensures ReadLiteral(FormatValueEscaped(SText(s)) + rest) == Some((s, rest))
  {
    ReadEscaped(s, rest);
    var body := Escape(s) + "'" + rest;
    assert FormatValueEscaped(SText(s)) + rest == "'" + body;
    assert ("'" + body)[1..] == body;
  }

  /** Both quotings agree on strings without a backslash. */
  lemma {:induction false} EscapeWithoutBackslash(s: string)
    requires forall k :: 0 <= k < |s| ==> s[k] != '\\'
    ensures Escape(s) == Doubled(s)
  {
    if s != [] {
      EscapeWithoutBackslash(s[1..]);
    }
  }
}

=== FILE: db_errors.dfy ===
/** The database-failure handling the document retrievals share. Their
    `except PyMongoError as pme:` clause is meant to raise a ValueError
    chained to the driver's error; as written its log line first evaluates
    `str(e)`, where `e` is a local of the function bound only by the later
    `except Exception as e:` clause, so Python raises UnboundLocalError
    instead, and the sibling clause does not catch an exception raised in
    a handler. */
module DbErrors {
  import opened Base

  const RetrieveFailed := "Database error while retrieve document"

  /** What the handler means to raise. */
  const RetrieveError := ValueError(RetrieveFailed)

  /** A retrieval's result as the handler is written: the database error it
      means to raise becomes an UnboundLocalError about `e`. */
  function AsWritten<T>(r: Result<T>): Result<T> {
    if r == Raise(RetrieveError) then Raise(UnboundLocalError("e")) else r
  }

  /** As written, a database failure never reaches the caller as the
      intended ValueError, and every other result is unchanged. */
  lemma AsWrittenMisreports<T>(r: Result<T>)
    ensures AsWritten(r) != Raise(RetrieveError)
    ensures r == Raise(RetrieveError) ==> AsWritten(r) == Raise(UnboundLocalError("e"))
    ensures r != Raise(RetrieveError) ==> AsWritten(r) == r
  {
  }
}

=== FILE: delete_worker.dfy ===
/** The queued file-deletion task: every file document whose reference
    table and reference id are the task's is removed, and for each one the
    task organisation's used storage is decreased by the file's size, with
    an upsert that creates the organisation document when there is none.
    The object-store removal that precedes each update is not modelled. */
module DeleteWorker {
  import opened Base
  import opened Records
  import opened DbErrors

  /** The task fields the worker reads: `data.get("table")`,
      `data.get("id")` and `data.get("org_id")`. */
  datatype DeleteTask = DeleteTask(table: Option<Value>, refId: Option<Value>, orgId: string)

  /** `{field: v}` in a `$match` against a file field that holds a string or
      nothing: a missing or null task value matches a null or missing field,
      a string matches that string, and any other value matches no file. */
  predicate FieldMatches(v: Option<Value>, field: Option<string>) {
    match v
    case None => field.None?
    case Some(VNull) => field.None?
    case Some(VStr(t)) => field == Some(t)
    case Some(_) => false
  }

  /** The file is selected by the task's query filter. */
  predicate Matches(task: DeleteTask, f: FileDoc) {
    FieldMatches(task.table, f.refkeyTable) && FieldMatches(task.refId, f.refkeyId)
  }

  /** The aggregate's result: the matching files, in collection order. */
  function Selected(task: DeleteTask, files: seq<FileDoc>): (r: seq<FileDoc>)
    ensures |r| <= |files|
  {
    if files == [] then []
    else (if Matches(task, files[0]) then [files[0]] else []) + Selected(task, files[1..])
  }

  /** The files the task does not select, in collection order. */
  function Unmatched(task: DeleteTask, files: seq<FileDoc>): (r: seq<FileDoc>)
    ensures |r| <= |files|
  {
    if files == [] then []
    else (if Matches(task, files[0]) then [] else [files[0]]) + Unmatched(task, files[1..])
  }

  /** The selection holds exactly the matching files, and the files it
      leaves are exactly the others. */
  lemma {:induction false} SelectedMembers(task: DeleteTask, files: seq<FileDoc>)
    ensures forall f :: f in Selected(task, files) <==> f in files && Matches(task, f)
    ensures forall f :: f in Unmatched(task, files) <==> f in files && !Matches(task, f)
    ensures |Selected(task, files)| + |Unmatched(task, files)| == |files|
  {
    if files != [] {
      SelectedMembers(task, files[1..]);
      assert files == [files[0]] + files[1..];
    }
  }

  // ---------------------------------------------------------------------
  // The organisation's used storage

  /** The used storage the first organisation document with that id
      records: 0 when there is no such document or it has no `usedstorage`
      field, as `$inc` counts it. */
  function UsedOf(orgs: seq<Org>, orgId: string): int {
    if orgs == [] then 0
    else if orgs[0].id == orgId then orgs[0].usedStorage.GetOr(0)
    else UsedOf(orgs[1..], orgId)
  }

  /** `update_one({"_id": orgId}, {"$inc": {"usedstorage": delta}}, upsert=True)`:
      the first organisation with that id is updated, or a document holding
      only the id and the used storage is appended. */
  function IncUsed(orgs: seq<Org>, orgId: string, delta: int): seq<Org> {
    if orgs == [] then [Org(orgId, None, None, Some(delta))]
    else if orgs[0].id == orgId then [orgs[0].(usedStorage := Some(orgs[0].usedStorage.GetOr(0) + delta))] + orgs[1..]
    else [orgs[0]] + IncUsed(orgs[1..], orgId, delta)
  }

  /** After the update the organisation's used storage has grown by
      `delta`; an existing document keeps its place and its other fields,
      a missing one is appended with only the id and the used storage, and
      every organisation with another id keeps its document. */
  lemma {:induction false} IncUsedMeaning(orgs: seq<Org>, orgId: string, delta: int)
    ensures UsedOf(IncUsed(orgs, orgId, delta), orgId) == UsedOf(orgs, orgId) + delta
    ensures (forall i :: 0 <= i < |orgs| ==> orgs[i].id != orgId) ==>
      IncUsed(orgs, orgId, delta) == orgs + [Org(orgId, None, None, Some(delta))]
    ensures forall i :: 0 <= i < |orgs| && orgs[i].id == orgId ==>
      |IncUsed(orgs, orgId, delta)| == |orgs|
    ensures |IncUsed(orgs, orgId, delta)| >= |orgs|
    ensures forall i :: 0 <= i < |orgs| && orgs[i].id != orgId ==> IncUsed(orgs, orgId, delta)[i] == orgs[i]
  {
    if orgs != [] && orgs[0].id != orgId {
      var r := IncUsed(orgs, orgId, delta);
      IncUsedMeaning(orgs[1..], orgId, delta);
      assert r == [orgs[0]] + IncUsed(orgs[1..], orgId, delta);
      forall i | 0 <= i < |orgs| && orgs[i].id != orgId ensures r[i] == orgs[i] {
        if i > 0 { assert orgs[1..][i - 1] == orgs[i]; }
      }
      if forall i :: 0 <= i < |orgs| ==> orgs[i].id != orgId {
        assert forall i :: 0 <= i < |orgs[1..]| ==> orgs[1..][i].id != orgId by {
          forall i | 0 <= i < |orgs[1..]| ensures orgs[1..][i].id != orgId { assert orgs[1..][i] == orgs[i + 1]; }
        }
        assert [orgs[0]] + (orgs[1..] + [Org(orgId, None, None, Some(delta))]) == orgs + [Org(orgId, None, None, Some(delta))];
      }
      forall i | 0 <= i < |orgs| && orgs[i].id == orgId ensures |r| == |orgs| {
        assert orgs[1..][i - 1] == orgs[i];
      }
    }
  }

  /** Two increments of the same organisation are one increment by their sum:
      the first one's upsert creates the document the second one updates. */
  lemma {:induction false} IncTwice(orgs: seq<Org>, orgId: string, a: int, b: int)
    ensures IncUsed(IncUsed(orgs, orgId, a), orgId, b) == IncUsed(orgs, orgId, a + b)
  {
    if orgs != [] && orgs[0].id != orgId {
      IncTwice(orgs[1..], orgId, a, b);
      var once := IncUsed(orgs, orgId, a);
      assert once[0] == orgs[0] && once[1..] == IncUsed(orgs[1..], orgId, a);
    } else if orgs != [] {
      var once := IncUsed(orgs, orgId, a);
      assert once[1..] == orgs[1..];
    }
  }

  /** The sum of the sizes of the files, last one added last. */
  function SumSizes(xs: seq<FileDoc>): int {
    if xs == [] then 0 else SumSizes(xs[..|xs| - 1]) + xs[|xs| - 1].size
  }

  /** The organisations after the loop's storage updates for `xs`, one per
      file, in order. */
  function DecrementAll(orgs: seq<Org>, orgId: string, xs: seq<FileDoc>): seq<Org> {
    if xs == [] then orgs
    else IncUsed(DecrementAll(orgs, orgId, xs[..|xs| - 1]), orgId, -xs[|xs| - 1].size)
  }

  /** The per-file decrements add up to one decrement by the total size. */
  lemma DecrementAllLast(orgs: seq<Org>, orgId: string, xs: seq<FileDoc>)
    requires xs != []
    ensures DecrementAll(orgs, orgId, xs)
         == IncUsed(DecrementAll(orgs, orgId, xs[..|xs| - 1]), orgId, -xs[|xs| - 1].size)
    ensures SumSizes(xs) == SumSizes(xs[..|xs| - 1]) + xs[|xs| - 1].size
  {
  }

  lemma {:induction false} DecrementAllSum(orgs: seq<Org>, orgId: string, xs: seq<FileDoc>)
    requires xs != []
    ensures DecrementAll(orgs, orgId, xs) == IncUsed(orgs, orgId, -SumSizes(xs))
  {
    var prev, last := xs[..|xs| - 1], xs[|xs| - 1].size;
    DecrementAllLast(orgs, orgId, xs);
    if prev == [] {
      assert DecrementAll(orgs, orgId, prev) == orgs && SumSizes(prev) == 0;
    } else {
      DecrementAllSum(orgs, orgId, prev);
      IncTwice(orgs, orgId, -SumSizes(prev), -last);
    }
  }


  /** After the storage updates for `xs` the organisation's used storage is
      its previous value (0 if absent) minus the total size; organisations
      with another id keep their documents; with no file nothing changes. */
  lemma DecrementAllMeaning(orgs: seq<Org>, orgId: string, xs: seq<FileDoc>)
    ensures UsedOf(DecrementAll(orgs, orgId, xs), orgId) == UsedOf(orgs, orgId) - SumSizes(xs)
    ensures |DecrementAll(orgs, orgId, xs)| >= |orgs|
    ensures forall i :: 0 <= i < |orgs| && orgs[i].id != orgId ==> DecrementAll(orgs, orgId, xs)[i] == orgs[i]
    ensures xs == [] ==> DecrementAll(orgs, orgId, xs) == orgs
  {
    if xs != [] {
      DecrementAllSum(orgs, orgId, xs);
      IncUsedMeaning(orgs, orgId, -SumSizes(xs));
    }
  }

  // ---------------------------------------------------------------------
  // The file documents

  /** The ids of the files. */
  function IdsOf(files: seq<FileDoc>): set<string> {
    set f | f in files :: f.id
  }

  /** No two file documents share an `_id`, as the database guarantees. */
  predicate Distinct(files: seq<FileDoc>) {
    files == [] || (files[0].id !in IdsOf(files[1..]) && Distinct(files[1..]))
  }

  /** `delete_one({"_id": id})`: the first file with that id is removed. */
  function DeleteOne(files: seq<FileDoc>, id: string): (r: seq<FileDoc>)
    ensures |r| == |files| || |r| == |files| - 1
  {
    if files == [] then []
    else if files[0].id == id then files[1..]
    else [files[0]] + DeleteOne(files[1..], id)
  }

  /** The files whose id is not in `ids`, in order. */
  function Keep(files: seq<FileDoc>, ids: set<string>): seq<FileDoc> {
    if files == [] then []
    else (if files[0].id in ids then [] else [files[0]]) + Keep(files[1..], ids)
  }

  lemma {:induction false} KeepIn(files: seq<FileDoc>, ids: set<string>)
    ensures forall f :: f in Keep(files, ids) ==> f in files
  {
    if files != [] {
      KeepIn(files[1..], ids);
    }
  }

  lemma {:induction false} TailIds(files: seq<FileDoc>)
    requires files != []
    ensures IdsOf(files) == {files[0].id} + IdsOf(files[1..])
  {
    assert files == [files[0]] + files[1..];
  }

  /** The files after the loop's deletions for `xs`, one per file, in order. */
  function DeleteAll(files: seq<FileDoc>, xs: seq<FileDoc>): seq<FileDoc> {
    if xs == [] then files
    else DeleteOne(DeleteAll(files, xs[..|xs| - 1]), xs[|xs| - 1].id)
  }

  lemma {:induction false} KeepNone(files: seq<FileDoc>, ids: set<string>)
    requires IdsOf(files) !! ids
    ensures Keep(files, ids) == files
  {
    if files != [] {
      TailIds(files);
      KeepNone(files[1..], ids);
    }
  }

  lemma {:induction false} KeepSame(files: seq<FileDoc>, a: set<string>, b: set<string>)
    requires a * IdsOf(files) == b * IdsOf(files)
    ensures Keep(files, a) == Keep(files, b)
  {
    if files != [] {
      var f, rest := files[0], files[1..];
      TailIds(files);
      assert a * IdsOf(rest) == (a * IdsOf(files)) * IdsOf(rest);
      assert b * IdsOf(rest) == (b * IdsOf(files)) * IdsOf(rest);
      KeepSame(rest, a, b);
      assert f in files;
      assert f.id in IdsOf(files);
      assert (f.id in a) == (f.id in a * IdsOf(files)) && (f.id in b) == (f.id in b * IdsOf(files));
      assert Keep(files, a) == (if f.id in a then [] else [f]) + Keep(rest, a);
      assert Keep(files, b) == (if f.id in b then [] else [f]) + Keep(rest, b);
    }
  }

  lemma {:induction false} KeepKeep(files: seq<FileDoc>, a: set<string>, b: set<string>)
    ensures Keep(Keep(files, a), b) == Keep(files, a + b)
  {
    if files != [] {
      var f, rest := files[0], files[1..];
      KeepKeep(rest, a, b);
      if f.id in a {
        assert Keep(files, a) == Keep(rest, a);
        assert Keep(files, a + b) == Keep(rest, a + b);
      } else {
        var k := Keep(files, a);
        assert k == [f] + Keep(rest, a);
        assert k[0] == f && k[1..] == Keep(rest, a);
        assert Keep(k, b) == (if f.id in b then [] else [f]) + Keep(Keep(rest, a), b);
        assert Keep(files, a + b) == (if f.id in b then [] else [f]) + Keep(rest, a + b);
      }
    }
  }

  lemma {:induction false} KeepDistinct(files: seq<FileDoc>, ids: set<string>)
    requires Distinct(files)
    ensures Distinct(Keep(files, ids))
  {
    if files != [] {
      var f, rest := files[0], files[1..];
      KeepDistinct(rest, ids);
      var k := Keep(files, ids);
      if f.id !in ids {
        assert k == [f] + Keep(rest, ids);
        assert k[0] == f && k[1..] == Keep(rest, ids);
        KeepIn(rest, ids);
        forall g | g in k[1..] ensures g.id in IdsOf(rest) {
          assert g in rest;
        }
        assert f.id !in IdsOf(k[1..]);
      } else {
        assert k == Keep(rest, ids);
      }
    }
  }

  /** On distinct ids, deleting the first file with an id deletes every
      file with it. */
  lemma {:induction false} DeleteOneKeeps(files: seq<FileDoc>, id: string)
    requires Distinct(files)
    ensures DeleteOne(files, id) == Keep(files, {id})
  {
    if files != [] {
      if files[0].id == id {
        KeepNone(files[1..], {id});
      } else {
        DeleteOneKeeps(files[1..], id);
      }
    }
  }

  /** The ids of the first `n` files of `xs`. */
  lemma IdsOfGrows(xs: seq<FileDoc>, n: nat)
    requires n < |xs|
    ensures IdsOf(xs[..n + 1]) == IdsOf(xs[..n]) + {xs[n].id}
  {
    assert xs[..n + 1] == xs[..n] + [xs[n]];
  }

  /** On distinct ids, the loop's deletions for `xs` remove exactly the
      files whose id is one of theirs. */
  lemma {:induction false} DeleteAllKeeps(files: seq<FileDoc>, xs: seq<FileDoc>)
    requires Distinct(files)
    ensures DeleteAll(files, xs) == Keep(files, IdsOf(xs))
  {
    if xs == [] {
      assert IdsOf(xs) == {};
      KeepNone(files, {});
    } else {
      var n := |xs|;
      DeleteAllKeeps(files, xs[..n - 1]);
      KeepDistinct(files, IdsOf(xs[..n - 1]));
      DeleteOneKeeps(Keep(files, IdsOf(xs[..n - 1])), xs[n - 1].id);
      KeepKeep(files, IdsOf(xs[..n - 1]), {xs[n - 1].id});
      IdsOfGrows(xs, n - 1);
      assert xs[..n] == xs;
    }
  }

  /** On distinct ids, keeping the files whose id is not a selected file's
      keeps exactly the unmatched files. */
  lemma {:induction false} KeepSelected(task: DeleteTask, files: seq<FileDoc>)
    requires Distinct(files)
    ensures Keep(files, IdsOf(Selected(task, files))) == Unmatched(task, files)
  {
    if files != [] {
      var f, rest := files[0], files[1..];
      KeepSelected(task, rest);
      var s, s' := IdsOf(Selected(task, files)), IdsOf(Selected(task, rest));
      SelectedMembers(task, rest);
      assert s' <= IdsOf(rest);
      assert s == (if Matches(task, f) then {f.id} else {}) + s' by {
        assert Selected(task, files) == (if Matches(task, f) then [f] else []) + Selected(task, rest);
      }
      KeepSame(rest, s, s');
    }
  }

  // ---------------------------------------------------------------------
  // The task

  /** Where the database raises `PyMongoError`, if it does: at the
      aggregate, or at the storage update or the deletion for the `i`-th
      selected file. */
  datatype Failure = AggregateFails | UpdateFails(i: nat) | DeleteFails(i: nat)

  /** The failure happens: a failure at a file the selection does not
      have is never reached. */
  predicate Reached(f: Failure, count: nat) {
    f.AggregateFails? || f.i < count
  }

  /** The result and the new organisations and files of the loop over the
      selected files `xs`. The writes done before a failing call stay done. */
  function LoopOutcome(orgs: seq<Org>, files: seq<FileDoc>, orgId: string, xs: seq<FileDoc>, fails: Option<Failure>): (Result<int>, seq<Org>, seq<FileDoc>) {
    if fails.None? || !Reached(fails.value, |xs|) then
      (Ok(|xs|), DecrementAll(orgs, orgId, xs), DeleteAll(files, xs))
    else
      match fails.value
      case AggregateFails => (Raise(RetrieveError), orgs, files)
      case UpdateFails(i) =>
        (Raise(RetrieveError), DecrementAll(orgs, orgId, xs[..i]), DeleteAll(files, xs[..i]))
      case DeleteFails(i) =>
        (Raise(RetrieveError), DecrementAll(orgs, orgId, xs[..i + 1]), DeleteAll(files, xs[..i]))
  }

  /** The result and the new organisations and files of `process_task`. */
  function Outcome(orgs: seq<Org>, files: seq<FileDoc>, task: DeleteTask, fails: Option<Failure>): (Result<int>, seq<Org>, seq<FileDoc>) {
    LoopOutcome(orgs, files, task.orgId, Selected(task, files), fails)
  }


  /** `process_task` as written, with the handler of `DbErrors`. */
  function OutcomeAsWritten(orgs: seq<Org>, files: seq<FileDoc>, task: DeleteTask, fails: Option<Failure>): (Result<int>, seq<Org>, seq<FileDoc>) {
    var (r, orgs', files') := Outcome(orgs, files, task, fails);
    (AsWritten(r), orgs', files')
  }

  /** As written, a database failure never reaches the caller as the
      documented ValueError: it surfaces as UnboundLocalError, after the
      same writes. */
  lemma DbFailureAsWritten(orgs: seq<Org>, files: seq<FileDoc>, task: DeleteTask, fails: Option<Failure>)
    requires fails.Some? && Reached(fails.value, |Selected(task, files)|)
    ensures OutcomeAsWritten(orgs, files, task, fails).0 == Raise(UnboundLocalError("e"))
    ensures OutcomeAsWritten(orgs, files, task, fails).1 == Outcome(orgs, files, task, fails).1
    ensures OutcomeAsWritten(orgs, files, task, fails).2 == Outcome(orgs, files, task, fails).2
  {
  }

  /** The task fails exactly when one of its database calls fails, and then
      with "Database error while retrieve document"; a failing aggregate
      changes nothing, and a failing deletion leaves the storage of that
      file already given back. */
  lemma DbFailureReported(orgs: seq<Org>, files: seq<FileDoc>, task: DeleteTask, fails: Option<Failure>)
    ensures Outcome(orgs, files, task, fails).0.Raise? <==>
      fails.Some? && Reached(fails.value, |Selected(task, files)|)
    ensures Outcome(orgs, files, task, fails).0.Raise? ==>
      Outcome(orgs, files, task, fails).0 == Raise(RetrieveError)
    ensures fails == Some(AggregateFails) ==>
      Outcome(orgs, files, task, fails) == (Raise(RetrieveError), orgs, files)
    ensures fails.Some? && fails.value.DeleteFails? && Reached(fails.value, |Selected(task, files)|) ==>
      UsedOf(Outcome(orgs, files, task, fails).1, task.orgId)
        == UsedOf(orgs, task.orgId) - SumSizes(Selected(task, files)[..fails.value.i + 1])
  {
    if fails.Some? && fails.value.DeleteFails? && Reached(fails.value, |Selected(task, files)|) {
      DecrementAllMeaning(orgs, task.orgId, Selected(task, files)[..fails.value.i + 1]);
    }
  }

  /** Without a database failure the task returns the number of selected
      files, and the organisation's used storage drops by their total size. */
  lemma ProcessStorage(orgs: seq<Org>, files: seq<FileDoc>, task: DeleteTask)
    ensures Outcome(orgs, files, task, None).0 == Ok(|Selected(task, files)|)
    ensures |Outcome(orgs, files, task, None).1| >= |orgs|
    ensures UsedOf(Outcome(orgs, files, task, None).1, task.orgId)
         == UsedOf(orgs, task.orgId) - SumSizes(Selected(task, files))
    ensures forall i :: 0 <= i < |orgs| && orgs[i].id != task.orgId ==> Outcome(orgs, files, task, None).1[i] == orgs[i]
  {
    DecrementAllMeaning(orgs, task.orgId, Selected(task, files));
  }

  /** Without a database failure, and with distinct file ids, exactly the
      selected files are deleted: the rest stay, in order. */
  lemma ProcessDeletes(orgs: seq<Org>, files: seq<FileDoc>, task: DeleteTask)
    requires Distinct(files)
    ensures Outcome(orgs, files, task, None).2 == Unmatched(task, files)
  {
    DeleteAllKeeps(files, Selected(task, files));
    KeepSelected(task, files);
  }

  /** `process_task(data)`: select the files, then for each one decrease the
      organisation's used storage and delete its document. */
  method ProcessTask(db: Database, task: DeleteTask, fails: Option<Failure>) returns (r: Result<int>)
    modifies db`orgs, db`files
    ensures (r, db.orgs, db.files) == Outcome(old(db.orgs), old(db.files), task, fails)
  {
    if fails == Some(AggregateFails) {
      r := Raise(RetrieveError);
      return;
    }
    var results := Selected(task, db.files);
    r := RemoveAll(db, task.orgId, results, fails);
  }

  /** The `for x in results` loop. */
  method RemoveAll(db: Database, orgId: string, results: seq<FileDoc>, fails: Option<Failure>) returns (r: Result<int>)
    requires fails != Some(AggregateFails)
    modifies db`orgs, db`files
    ensures (r, db.orgs, db.files) == LoopOutcome(old(db.orgs), old(db.files), orgId, results, fails)
  {
    ghost var orgs0, files0 := db.orgs, db.files;
    var i := 0;
    while i < |results|
      invariant i <= |results|
      invariant fails.None? || fails.value.i >= i
      invariant db.orgs == DecrementAll(orgs0, orgId, results[..i])
      invariant db.files == DeleteAll(files0, results[..i])
    {
      var x := results[i];
      assert results[..i + 1][..i] == results[..i];
      if fails == Some(UpdateFails(i)) {
        r := Raise(RetrieveError);
        return;
      }
      db.orgs := IncUsed(db.orgs, orgId, -x.size);
      if fails == Some(DeleteFails(i)) {
        r := Raise(RetrieveError);
        return;
      }
      db.files := DeleteOne(db.files, x.id);
      i := i + 1;
    }
    assert results[..i] == results;
    r := Ok(|results|);
  }
}

=== FILE: dms_browse.dfy ===
/** Browsing the document store: files keyed by their reference name,
    the folder list with its Trash entry, a page of files, and the
    organisation's storage figures. The database answers a query through
    `evaluate` (its matching, sorting and regular expressions are not
    modelled) and the object store signs download links through `url`. */
module DmsBrowse {
  import opened Base
  import opened Records
  import opened DbErrors
  import QueryFilter
  import Pagination
  import DeleteWorker

  /** One value of `browse_by_key`'s answer. */
  datatype Entry = Entry(
    id: string, folderId: string, folderPath: string, filename: string,
    mimeType: string, originalName: string, size: int,
    metadata: map<string, string>, url: string)

  function EntryOf(x: FileDoc, url: string -> string): Entry {
    Entry(x.id, x.folderId, x.folderPath, x.filename, x.mimeType, x.originalName, x.size, x.metadata, url(x.filename))
  }

  /** `retData` after the loop over `xs`, later files last. The key is the
      file's `refkey_name`: `None` (Python's `None`, stored for an upload
      sent without a reference name) is a key like any other. */
  function ByName(xs: seq<FileDoc>, url: string -> string): map<Option<string>, Entry> {
    if xs == [] then map[]
    else
      var last := xs[|xs| - 1];
      ByName(xs[..|xs| - 1], url)[last.refkeyName := EntryOf(last, url)]
  }

  /** The keys are exactly the reference names of the files, `None`
      included. */
  lemma {:induction false} ByNameKeys(xs: seq<FileDoc>, url: string -> string)
    ensures forall k :: k in ByName(xs, url) <==> exists x :: x in xs && x.refkeyName == k
  {
    if xs != [] {
      var n := |xs|;
      ByNameKeys(xs[..n - 1], url);
      assert xs == xs[..n - 1] + [xs[n - 1]];
      forall k | exists x :: x in xs && x.refkeyName == k
        ensures k in ByName(xs, url)
      {
        var x :| x in xs && x.refkeyName == k;
        if x != xs[n - 1] {
          assert x in xs[..n - 1];
        }
      }
    }
  }

  /** A file whose reference name no later file shares gives that key its
      value: of files sharing a name (or all lacking one), the last one
      wins. */
  lemma {:induction false} ByNameLastWins(xs: seq<FileDoc>, url: string -> string, j: nat)
    requires j < |xs|
    requires forall j' :: j < j' < |xs| ==> xs[j'].refkeyName != xs[j].refkeyName
    ensures xs[j].refkeyName in ByName(xs, url)
    ensures ByName(xs, url)[xs[j].refkeyName] == EntryOf(xs[j], url)
  {
    var n := |xs|;
    if j < n - 1 {
      ByNameLastWins(xs[..n - 1], url, j);
    }
  }

  /** One more file: its entry is set under its reference name. */
  lemma ByNameStep(xs: seq<FileDoc>, i: nat, url: string -> string)
    requires i < |xs|
    ensures ByName(xs[..i + 1], url) == ByName(xs[..i], url)[xs[i].refkeyName := EntryOf(xs[i], url)]
  {
    var seen := xs[..i + 1];
    assert seen[..i] == xs[..i] && seen[i] == xs[i];
  }

  /** `browse_by_key`'s answer: the database error, otherwise the files
      keyed by reference name. */
  function BrowseOutcome(xs: seq<FileDoc>, url: string -> string, dbFails: bool): Result<map<Option<string>, Entry>> {
    if dbFails then Raise(RetrieveError)
    else Ok(ByName(xs, url))
  }

  /** `browse_by_key(filters)`: build the query, run it, and key every file
      by its reference name. */
  method BrowseByKey(evaluate: Doc -> seq<FileDoc>, filters: Option<Doc>, url: string -> string, dbFails: bool)
    returns (r: Result<map<Option<string>, Entry>>)
    ensures r == BrowseOutcome(evaluate(QueryFilter.Query(filters)), url, dbFails)
  {
    var q := QueryFilter.BuildQuery(filters);
    if dbFails {
      return Raise(RetrieveError);
    }
    var results := evaluate(q);
    var retData: map<Option<string>, Entry> := map[];
    var i := 0;
    while i < |results|
      invariant i <= |results|
      invariant retData == ByName(results[..i], url)
    {
      var x := results[i];
      ByNameStep(results, i, url);
      retData := retData[x.refkeyName := EntryOf(x, url)];
      i := i + 1;
    }
    assert results[..i] == results;
    r := Ok(retData);
  }

  /** As written, a failing aggregate surfaces as UnboundLocalError. */
  lemma BrowseDbFailureAsWritten(xs: seq<FileDoc>, url: string -> string)
    ensures AsWritten(BrowseOutcome(xs, url, true)) == Raise(UnboundLocalError("e"))
  {
  }

  // ---------------------------------------------------------------------
  // list_folder

  /** One entry of the folder list. */
  datatype FolderItem = FolderItem(id: string, value: string)

  const Trash := FolderItem("delete", "Trash")

  /** `"pid" not in filters` with `filters` None. */
  const NotIterable := "argument of type 'NoneType' is not iterable"

  /** The folder list: each folder as its id and name, in order, then the
      Trash entry unless the filters choose a parent folder. A missing
      filter dictionary cannot be searched for `pid`. */
  function ListFolderOutcome(folders: seq<Folder>, filters: Option<Doc>, dbFails: bool): Result<seq<FolderItem>> {
    if dbFails then Raise(RetrieveError)
    else if filters.None? then Raise(TypeError(NotIterable))
    else Ok(Items(folders) + (if "pid" in filters.value then [] else [Trash]))
  }

  /** Each folder as its id and name. */
  function Items(folders: seq<Folder>): (r: seq<FolderItem>)
    ensures |r| == |folders|
  {
    seq(|folders|, k requires 0 <= k < |folders| => FolderItem(folders[k].id, folders[k].name))
  }

  /** The list has one entry per folder, in order, followed by Trash
      exactly when `pid` is not a filter key; only the missing dictionary
      and the database fail. */
  lemma ListFolderMeaning(folders: seq<Folder>, filters: Option<Doc>, dbFails: bool)
    ensures ListFolderOutcome(folders, filters, dbFails).Ok? <==> !dbFails && filters.Some?
    ensures ListFolderOutcome(folders, filters, dbFails).Ok? ==>
      var items := ListFolderOutcome(folders, filters, dbFails).value;
      && (|items| == |folders| + 1 <==> "pid" !in filters.value)
      && |items| >= |folders|
      && (forall k :: 0 <= k < |folders| ==> items[k] == FolderItem(folders[k].id, folders[k].name))
      && (|items| > |folders| ==> items[|folders|] == Trash)
  {
    if !dbFails && filters.Some? {
      var items := ListFolderOutcome(folders, filters, dbFails).value;
      var listed := Items(folders);
      assert items == listed + (if "pid" in filters.value then [] else [Trash]);
      assert forall k :: 0 <= k < |folders| ==> items[k] == listed[k];
    }
  }

  /** `list_folder(filters)`. */
  method ListFolder(evaluate: Doc -> seq<Folder>, filters: Option<Doc>, dbFails: bool) returns (r: Result<seq<FolderItem>>)
    ensures r == ListFolderOutcome(evaluate(QueryFilter.Query(filters)), filters, dbFails)
  {
    var q := QueryFilter.BuildQuery(filters);
    if dbFails {
      return Raise(RetrieveError);
    }
    var results := evaluate(q);
    var retData: seq<FolderItem> := [];
    var i := 0;
    while i < |results|
      invariant i <= |results|
      invariant |retData| == i
      invariant forall k :: 0 <= k < i ==> retData[k] == FolderItem(results[k].id, results[k].name)
    {
      retData := retData + [FolderItem(results[i].id, results[i].name)];
      i := i + 1;
    }
    assert retData == Items(results);
    if filters.None? {
      return Raise(TypeError(NotIterable));
    }
    if "pid" !in filters.value {
      retData := retData + [Trash];
    } else {
      assert retData == Items(results) + [];
    }
    r := Ok(retData);
  }

  /** As written, a failing aggregate surfaces as UnboundLocalError. */
  lemma ListFolderDbFailureAsWritten(folders: seq<Folder>, filters: Option<Doc>)
    ensures AsWritten(ListFolderOutcome(folders, filters, true)) == Raise(UnboundLocalError("e"))
  {
  }

  // ---------------------------------------------------------------------
  // list_file

  /** One row of `list_file`: the projected fields and the download link. */
  datatype Row = Row(
    id: string, filename: string, mimeType: string, originalName: string, size: int,
    folderId: string, folderPath: string, metadata: map<string, string>,
    doctype: string, refkeyName: Option<string>, url: string)

  function RowOf(x: FileDoc, url: string -> string): Row {
    Row(x.id, x.filename, x.mimeType, x.originalName, x.size, x.folderId, x.folderPath,
        x.metadata, x.doctype, x.refkeyName, url(x.filename))
  }

  /** `list_file`'s answer: the requested page of the matched files with
      their links, and the pagination block over all of them. */
  function ListFileOutcome(matched: seq<FileDoc>, page: nat, perPage: nat, url: string -> string, dbFails: bool)
    : Result<(seq<Row>, Pagination.PageInfo)>
    requires page >= 1 && perPage >= 1
  {
    if dbFails then Raise(RetrieveError)
    else
      var (rows, info) := Pagination.Listing(matched, page, perPage);
      Ok((Rows(rows, url), info))
  }

  /** Each file as its row. */
  function Rows(xs: seq<FileDoc>, url: string -> string): (r: seq<Row>)
    ensures |r| == |xs|
  {
    seq(|xs|, k requires 0 <= k < |xs| => RowOf(xs[k], url))
  }

  /** The page holds at most `per_page` rows, each the matched file at
      position `skip + k` with its link, and the block counts every match. */
  lemma ListFileMeaning(matched: seq<FileDoc>, page: nat, perPage: nat, url: string -> string)
    requires page >= 1 && perPage >= 1
    ensures var r := ListFileOutcome(matched, page, perPage, url, false);
      && r.Ok?
      && |r.value.0| <= perPage
      && (forall k :: 0 <= k < |r.value.0| ==>
            Pagination.Skip(page, perPage) + k < |matched|
            && r.value.0[k] == RowOf(matched[Pagination.Skip(page, perPage) + k], url))
      && r.value.1 == Pagination.PageInfo(page, perPage, |matched|, Pagination.TotalPages(|matched|, perPage))
  {
  }

  /** `list_file(filters, page, per_page, ...)`: a page of the matching
      files, with a link added to each. */
  method ListFile(evaluate: Doc -> seq<FileDoc>, filters: Option<Doc>, page: nat, perPage: nat,
                  url: string -> string, dbFails: bool)
    returns (r: Result<(seq<Row>, Pagination.PageInfo)>)
    requires page >= 1 && perPage >= 1
    ensures r == ListFileOutcome(evaluate(QueryFilter.Query(filters)), page, perPage, url, dbFails)
  {
    var q := QueryFilter.BuildQuery(filters);
    if dbFails {
      return Raise(RetrieveError);
    }
    var (results, info) := Pagination.Listing(evaluate(q), page, perPage);
    var rows: seq<Row> := [];
    var i := 0;
    while i < |results|
      invariant i <= |results|
      invariant |rows| == i
      invariant forall k :: 0 <= k < i ==> rows[k] == RowOf(results[k], url)
    {
      rows := rows + [RowOf(results[i], url)];
      i := i + 1;
    }
    assert rows == Rows(results, url);
    r := Ok((rows, info));
  }

  /** As written, a failing aggregate surfaces as UnboundLocalError. */
  lemma ListFileDbFailureAsWritten(matched: seq<FileDoc>, page: nat, perPage: nat, url: string -> string)
    requires page >= 1 && perPage >= 1
    ensures AsWritten(ListFileOutcome(matched, page, perPage, url, true)) == Raise(UnboundLocalError("e"))
  {
  }

  // ---------------------------------------------------------------------
  // check_storage

  const OrgNotFound := "Organization not found"

  /** What the storage check raises when the database fails; its handler
      names the driver's error `pme` and raises this. */
  const FindFailed := "Database error occurred while find document."

  /** `check_storage()`: the organisation's `storage` and `usedstorage`,
      read in that order, each a KeyError when the document lacks it;
      `dbFails` says whether the `find_one` fails. */
  function CheckStorage(orgs: seq<Org>, orgId: string, dbFails: bool): (r: Result<(int, int)>)
    ensures r == Raise(ValueError(FindFailed)) <==> dbFails
    ensures r == Raise(ValueError(OrgNotFound)) <==> !dbFails && forall i :: 0 <= i < |orgs| ==> orgs[i].id != orgId
    ensures r == Raise(KeyError("storage")) <==>
      !dbFails && FindOrg(orgs, orgId).Some? && FindOrg(orgs, orgId).value.storage.None?
    ensures r == Raise(KeyError("usedstorage")) <==>
      (!dbFails && FindOrg(orgs, orgId).Some? && FindOrg(orgs, orgId).value.storage.Some? && FindOrg(orgs, orgId).value.usedStorage.None?)
    ensures r.Ok? ==>
      (FindOrg(orgs, orgId).Some? &&
       r.value == (FindOrg(orgs, orgId).value.storage.value, FindOrg(orgs, orgId).value.usedStorage.value))
  {
    if dbFails then Raise(ValueError(FindFailed))
    else match FindOrg(orgs, orgId)
    case None => Raise(ValueError(OrgNotFound))
    case Some(o) =>
      if o.storage.None? then Raise(KeyError("storage"))
      else if o.usedStorage.None? then Raise(KeyError("usedstorage"))
      else Ok((o.storage.value, o.usedStorage.value))
  }

  /** The organisation the storage update finds first is the one
      `FindOrg` finds, with its used storage moved by `delta`. */
  lemma {:induction false} IncUsedFound(orgs: seq<Org>, orgId: string, delta: int)
    ensures FindOrg(orgs, orgId).Some? ==>
      FindOrg(DeleteWorker.IncUsed(orgs, orgId, delta), orgId)
        == Some(FindOrg(orgs, orgId).value.(usedStorage := Some(FindOrg(orgs, orgId).value.usedStorage.GetOr(0) + delta)))
    ensures FindOrg(orgs, orgId).None? ==>
      FindOrg(DeleteWorker.IncUsed(orgs, orgId, delta), orgId) == Some(Org(orgId, None, None, Some(delta)))
  {
    if orgs != [] && orgs[0].id != orgId {
      IncUsedFound(orgs[1..], orgId, delta);
      assert DeleteWorker.IncUsed(orgs, orgId, delta)[1..] == DeleteWorker.IncUsed(orgs[1..], orgId, delta);
    }
  }

  /** After a deletion task that meets no database failure, the storage
      check of an organisation that had both figures reports the same
      quota and a used storage lower by the total size of the deleted
      files. */
  lemma CheckStorageAfterDelete(orgs: seq<Org>, files: seq<FileDoc>, task: DeleteWorker.DeleteTask, o: Org, after: seq<Org>)
    requires DeleteWorker.Selected(task, files) != []
    requires FindOrg(orgs, task.orgId) == Some(o) && o.storage.Some? && o.usedStorage.Some?
    requires after == DeleteWorker.Outcome(orgs, files, task, None).1
    ensures CheckStorage(orgs, task.orgId, false) == Ok((o.storage.value, o.usedStorage.value))
    ensures CheckStorage(after, task.orgId, false).Ok?
    ensures CheckStorage(after, task.orgId, false).value.0 == o.storage.value
    ensures CheckStorage(after, task.orgId, false).value.1
        == o.usedStorage.value - DeleteWorker.SumSizes(DeleteWorker.Selected(task, files))
  {
    var d := DeleteAfter(orgs, files, task);
    StorageAfterInc(orgs, task.orgId, d, o);
    assert CheckStorage(after, task.orgId, false) == Ok((o.storage.value, o.usedStorage.value + d));
    assert o.usedStorage.value + d == o.usedStorage.value - DeleteWorker.SumSizes(DeleteWorker.Selected(task, files));
  }

  /** The storage check after the update of an organisation that had both
      figures: the same quota and the used storage moved by `delta`. */
  lemma StorageAfterInc(orgs: seq<Org>, orgId: string, delta: int, o: Org)
    requires FindOrg(orgs, orgId) == Some(o) && o.storage.Some? && o.usedStorage.Some?
    ensures CheckStorage(DeleteWorker.IncUsed(orgs, orgId, delta), orgId, false)
      == Ok((o.storage.value, o.usedStorage.value + delta))
  {
    IncUsedFound(orgs, orgId, delta);
  }

  /** Had the organisation no document, the upsert leaves one without a
      quota, and the storage check then raises a KeyError for `storage`. */
  lemma CheckStorageAfterUpsert(orgs: seq<Org>, files: seq<FileDoc>, task: DeleteWorker.DeleteTask, after: seq<Org>)
    requires DeleteWorker.Selected(task, files) != []
    requires CheckStorage(orgs, task.orgId, false) == Raise(ValueError(OrgNotFound))
    requires after == DeleteWorker.Outcome(orgs, files, task, None).1
    ensures CheckStorage(after, task.orgId, false) == Raise(KeyError("storage"))
  {
    var d := DeleteAfter(orgs, files, task);
    IncUsedFound(orgs, task.orgId, d);
  }

  /** The organisations after a task that meets no failure, as one
      storage update by minus the total size. */
  lemma DeleteAfter(orgs: seq<Org>, files: seq<FileDoc>, task: DeleteWorker.DeleteTask) returns (d: int)
    requires DeleteWorker.Selected(task, files) != []
    ensures d == -DeleteWorker.SumSizes(DeleteWorker.Selected(task, files))
    ensures DeleteWorker.Outcome(orgs, files, task, None).1 == DeleteWorker.IncUsed(orgs, task.orgId, d)
  {
    d := -DeleteWorker.SumSizes(DeleteWorker.Selected(task, files));
    DeleteWorker.DecrementAllSum(orgs, task.orgId, DeleteWorker.Selected(task, files));
  }


}

=== FILE: dms_upload.dfy ===
/** Document upload: the file's type is checked against two allow-lists,
    the doctype's folder template is turned into a chain of folders, one
    per level, reusing the folders that already exist, and the file's size
    is added to the organisation's used storage. The object store itself is
    left out: its only effect here is that a refused `put_object` aborts the
    upload after the folders were made. */
module DmsUpload {
  import opened Base
  import opened Records
  import Str

  const AllowedMimeTypes: seq<string> := ["application/pdf", "image/jpeg", "image/png", "text/plain"]
  const AllowedExtensions: seq<string> := [".pdf", ".jpg", ".png", ".txt"]

  const InvalidFileType := "Invalid file type"
  const UnsupportedExtension := "Unsupported file extension"
  const OrgNotFound := "Organization not found"
  const DoctypeNotFound := "Doctype not found"
  const UploadFailed := "Error uploading file."

  /** The folder name of a template level whose metadata value is empty. */
  const EmptyValue := "_Empty_"
  const LevelSeparator := ">>"
  const PathSeparator := " >> "

  // ---------------------------------------------------------------------
  // File names and types
  // ---------------------------------------------------------------------

  /** The text after the last `/` (all of it when there is none). */
  function LastComponent(s: string): (r: string)
    ensures |r| <= |s| && r == s[|s| - |r|..]
    ensures forall k :: 0 <= k < |r| ==> r[k] != '/'
  {
    if s == [] || s[|s| - 1] == '/' then []
    else LastComponent(s[..|s| - 1]) + [s[|s| - 1]]
  }

  /** `Path(filename).name`: the last component once trailing `/` are
      dropped. It differs from `pathlib` where `pathlib` normalises the
      path first: a name ending in `/.` (such as `x.pdf/.`) gives `.` here
      and `x.pdf` there. */
  function BaseName(filename: string): string {
    LastComponent(Str.RStripChar(filename, '/'))
  }

  /** `name.rfind('.')`. */
  function LastDot(name: string): (r: int)
    ensures r == -1 ==> forall k :: 0 <= k < |name| ==> name[k] != '.'
    ensures r != -1 ==> 0 <= r < |name| && name[r] == '.'
    ensures forall k :: r < k < |name| ==> name[k] != '.'
  {
    if name == [] then -1
    else if name[|name| - 1] == '.' then |name| - 1
    else LastDot(name[..|name| - 1])
  }

  /** `PurePath.suffix` of a name: from its last dot on, unless that dot
      begins or ends the name. */
  function Suffix(name: string): string {
    var i := LastDot(name);
    if 0 < i < |name| - 1 then name[i..] else ""
  }

  /** `get_file_extension(file)`: the lower-cased suffix of the file name. */
  function FileExtension(filename: string): string {
    Str.Lower(Suffix(BaseName(filename)))
  }

  /** For an extension `e` made of a dot and at least one other character,
      none of them a dot (every allowed extension is one), the file name
      has extension `e` exactly when its last component is longer than `e`
      and ends, up to case, in `e`. */
  lemma ExtensionIs(filename: string, e: string)
    requires |e| >= 2 && e[0] == '.' && forall k :: 1 <= k < |e| ==> e[k] != '.'
    ensures var name := BaseName(filename);
      FileExtension(filename) == e <==> |name| > |e| && Str.Lower(name[|name| - |e|..]) == e
  {
    ExtensionOfName(BaseName(filename), e);
  }

  lemma ExtensionOfName(name: string, e: string)
    requires |e| >= 2 && e[0] == '.' && forall k :: 1 <= k < |e| ==> e[k] != '.'
    ensures Str.Lower(Suffix(name)) == e <==> |name| > |e| && Str.Lower(name[|name| - |e|..]) == e
  {
    if Str.Lower(Suffix(name)) == e {
      ExtensionEndsName(name, e);
    }
    if |name| > |e| && Str.Lower(name[|name| - |e|..]) == e {
      EndingIsExtension(name, e);
    }
  }

  lemma ExtensionEndsName(name: string, e: string)
    requires |e| >= 2 && Str.Lower(Suffix(name)) == e
    ensures |name| > |e| && Str.Lower(name[|name| - |e|..]) == e
  {
    var i := LastDot(name);
    assert 0 < i < |name| - 1;
    assert |name[i..]| == |e|;
  }

  lemma EndingIsExtension(name: string, e: string)
    requires |e| >= 2 && e[0] == '.' && forall k :: 1 <= k < |e| ==> e[k] != '.'
    requires |name| > |e| && Str.Lower(name[|name| - |e|..]) == e
    ensures Str.Lower(Suffix(name)) == e
  {
    var i0 := |name| - |e|;
    var tail := name[i0..];
    assert Str.LowerChar(tail[0]) == '.';
    assert name[i0] == '.';
    forall k | i0 < k < |name| ensures name[k] != '.' {
      assert Str.LowerChar(tail[k - i0]) == e[k - i0];
    }
    assert LastDot(name) == i0;
  }

  /** The type checks of `upload_file_to_minio`, MIME type first: the
      extension the stored object takes, or the refusal. `mimeType` is the
      type the content sniffer reports. */
  function CheckFile(mimeType: string, filename: string): (r: Result<string>)
    ensures r.Ok? <==> mimeType in AllowedMimeTypes && FileExtension(filename) in AllowedExtensions
    ensures r.Ok? ==> r.value == FileExtension(filename)
    ensures mimeType !in AllowedMimeTypes ==> r == Raise(ValueError(InvalidFileType))
    ensures mimeType in AllowedMimeTypes && !r.Ok? ==> r == Raise(ValueError(UnsupportedExtension))
  {
    if mimeType !in AllowedMimeTypes then Raise(ValueError(InvalidFileType))
    else
      var ext := FileExtension(filename);
      if ext !in AllowedExtensions then Raise(ValueError(UnsupportedExtension)) else Ok(ext)
  }

  // ---------------------------------------------------------------------
  // Storage accounting
  // ---------------------------------------------------------------------

  /** `get_storage_org(collection)`: the `usedstorage` of the organisation
      `find_one` returns (the first with the id), 0 when the field is
      absent; "Organization not found" when no organisation has the id. */
  function GetStorageOrg(orgs: seq<Org>, orgId: string): (r: Result<int>)
    ensures r.Raise? <==> OrgIndex(orgs, orgId).None?
    ensures r.Raise? ==> r == Raise(ValueError(OrgNotFound))
    ensures r.Ok? ==> var k := OrgIndex(orgs, orgId).value;
      (orgs[k].usedStorage == Some(r.value) || (orgs[k].usedStorage.None? && r.value == 0))
  {
    match OrgIndex(orgs, orgId)
    case None => Raise(ValueError(OrgNotFound))
    case Some(k) => Ok(orgs[k].usedStorage.GetOr(0))
  }

  /** `find_one_and_update({"_id": org_id}, {"$set": {"usedstorage": used}})`. */
  function SetUsedStorage(orgs: seq<Org>, orgId: string, used: int): (r: seq<Org>)
    ensures |r| == |orgs|
    ensures OrgIndex(orgs, orgId).None? ==> r == orgs
    ensures OrgIndex(orgs, orgId).Some? ==>
      var k := OrgIndex(orgs, orgId).value;
      r[k] == orgs[k].(usedStorage := Some(used)) && forall i :: 0 <= i < |orgs| && i != k ==> r[i] == orgs[i]
  {
    match OrgIndex(orgs, orgId)
    case None => orgs
    case Some(k) => orgs[k := orgs[k].(usedStorage := Some(used))]
  }

  // ---------------------------------------------------------------------
  // Folder names
  // ---------------------------------------------------------------------

  /** The characters `re.sub(r'[^a-zA-Z0-9_ \n\.]', '', name)` keeps. */
  predicate FolderChar(c: char) {
    ('a' <= c <= 'z') || ('A' <= c <= 'Z') || ('0' <= c <= '9') || c == '_' || c == ' ' || c == '\n' || c == '.'
  }

  /** The name with every other character removed, order kept. */
  function Sanitize(s: string): string {
    if s == [] then []
    else if FolderChar(s[0]) then [s[0]] + Sanitize(s[1..])
    else Sanitize(s[1..])
  }

  /** Sanitising keeps exactly the folder characters: the result holds
      only such characters, and a name made of them is left as it is. */
  lemma {:induction false} SanitizeMeaning(s: string)
    ensures |Sanitize(s)| <= |s|
    ensures forall k :: 0 <= k < |Sanitize(s)| ==> FolderChar(Sanitize(s)[k])
    ensures (forall k :: 0 <= k < |s| ==> FolderChar(s[k])) ==> Sanitize(s) == s
  {
    if s != [] {
      SanitizeMeaning(s[1..]);
    }
  }

  /** Sanitising twice removes nothing more. */
  lemma SanitizeIdempotent(s: string)
    ensures Sanitize(Sanitize(s)) == Sanitize(s)
  {
    SanitizeMeaning(s);
    SanitizeMeaning(Sanitize(s));
  }

  /** The folder name of one template level: the cleaned level name, or the
      metadata value under it (`_Empty_` for an empty value). */
  function SegmentName(part: string, metadata: map<string, string>): string {
    var key := Sanitize(Str.Strip(part));
    if key !in metadata then key
    else if metadata[key] == "" then EmptyValue
    else metadata[key]
  }

  /** The folder names of the template levels, in order. */
  function SegmentNames(parts: seq<string>, metadata: map<string, string>): (r: seq<string>)
    ensures |r| == |parts|
  {
    if parts == [] then [] else [SegmentName(parts[0], metadata)] + SegmentNames(parts[1..], metadata)
  }

  /** The `k`-th folder name is the name of the `k`-th template level. */
  lemma {:induction false} SegmentNamesAt(parts: seq<string>, metadata: map<string, string>, k: nat)
    requires k < |parts|
    ensures SegmentNames(parts, metadata)[k] == SegmentName(parts[k], metadata)
  {
    if k > 0 {
      SegmentNamesAt(parts[1..], metadata, k - 1);
    }
  }

  /** The folder names of a template, one per `>>`-separated level. */
  function FolderNames(template: string, metadata: map<string, string>): (r: seq<string>)
    ensures |r| == |Str.Split(template, LevelSeparator)| >= 1
  {
    SegmentNames(Str.Split(template, LevelSeparator), metadata)
  }

  // ---------------------------------------------------------------------
  // The folder chain
  // ---------------------------------------------------------------------

  /** The folder answers the lookup `{folder_name, level, org_id, pid}`. */
  predicate FolderMatches(f: Folder, name: string, level: int, orgId: string, pid: Option<string>) {
    f.name == name && f.level == level && f.orgId == orgId && f.pid == pid
  }

  /** The position of the first folder answering the lookup (`getFolder[0]`). */
  function FindFolder(folders: seq<Folder>, name: string, level: int, orgId: string, pid: Option<string>): (r: Option<nat>)
    ensures r.None? <==> forall i :: 0 <= i < |folders| ==> !FolderMatches(folders[i], name, level, orgId, pid)
    ensures r.Some? ==> r.value < |folders| && FolderMatches(folders[r.value], name, level, orgId, pid)
    ensures r.Some? ==> forall i :: 0 <= i < r.value ==> !FolderMatches(folders[i], name, level, orgId, pid)
  {
    if folders == [] then None
    else if FolderMatches(folders[0], name, level, orgId, pid) then Some(0)
    else match FindFolder(folders[1..], name, level, orgId, pid)
      case None => None
      case Some(k) => Some(k + 1)
  }

  /** One level of `create_folders`: reuse the first matching folder, or
      add one with id `newId`; the folder's id becomes the next `pid`. */
  function FolderStep(folders: seq<Folder>, name: string, level: int, orgId: string, pid: Option<string>, newId: string): (seq<Folder>, string) {
    match FindFolder(folders, name, level, orgId, pid)
    case Some(k) => (folders, folders[k].id)
    case None => (folders + [Folder(newId, name, level, orgId, pid)], newId)
  }

  /** The folders after making the chain for `names` below `pid`, starting
      after level `level`, and the id of each folder of the chain; `ids(l)`
      is the id a folder created at level `l` receives. */
  function Chain(folders: seq<Folder>, names: seq<string>, level: nat, orgId: string, pid: Option<string>, ids: nat -> string): (r: (seq<Folder>, seq<string>))
    ensures |r.1| == |names| && folders <= r.0
    decreases |names|
  {
    if names == [] then (folders, [])
    else
      var (next, id) := FolderStep(folders, names[0], level + 1, orgId, pid, ids(level + 1));
      var (rest, path) := Chain(next, names[1..], level + 1, orgId, Some(id), ids);
      (rest, [id] + path)
  }

  /** Making the chain from its `n`-th name on is one step followed by the
      chain from the next name on. */
  lemma ChainAdvance(folders: seq<Folder>, names: seq<string>, level: nat, orgId: string, pid: Option<string>, ids: nat -> string, n: nat)
    requires n < |names|
    ensures var (next, id) := FolderStep(folders, names[n], level + 1, orgId, pid, ids(level + 1));
      var rest := Chain(next, names[n + 1..], level + 1, orgId, Some(id), ids);
      Chain(folders, names[n..], level, orgId, pid, ids) == (rest.0, [id] + rest.1)
  {
    assert names[n..][0] == names[n] && names[n..][1..] == names[n + 1..];
  }

  /** The loop step of `create_folders`: with the chain from level `level`
      on known to end in `out` with ids `path[level..]`, the step at that level
      returns `path[level]` and leaves the rest of the chain to do. */
  lemma ChainLevelStep(folders: seq<Folder>, names: seq<string>, level: nat, orgId: string, pid: Option<string>,
                       ids: nat -> string, out: seq<Folder>, path: seq<string>)
    requires level < |names| == |path|
    requires Chain(folders, names[level..], level, orgId, pid, ids) == (out, path[level..])
    ensures var (next, id) := FolderStep(folders, names[level], level + 1, orgId, pid, ids(level + 1));
      id == path[level] && Chain(next, names[level + 1..], level + 1, orgId, Some(id), ids) == (out, path[level + 1..])
  {
    ChainAdvance(folders, names, level, orgId, pid, ids, level);
    var (next, id) := FolderStep(folders, names[level], level + 1, orgId, pid, ids(level + 1));
    var rest := Chain(next, names[level + 1..], level + 1, orgId, Some(id), ids);
    assert [id] + rest.1 == path[level..];
    assert rest.1 == ([id] + rest.1)[1..] == path[level..][1..] == path[level + 1..];
    assert id == ([id] + rest.1)[0] == path[level];
  }

  /** A prefix one longer is the prefix and the next element. */
  lemma PrefixGrows<T>(s: seq<T>, i: nat)
    requires i < |s|
    ensures s[..i + 1] == s[..i] + [s[i]]
  {
  }

  /** The parent of the `k`-th folder of a chain that hangs below `start`. */
  function Parent(start: Option<string>, path: seq<string>, k: nat): Option<string>
    requires k <= |path|
  {
    if k == 0 then start else Some(path[k - 1])
  }

  /** The folder a chain ends in: its last folder, or `start` for no levels. */
  function Last(start: Option<string>, path: seq<string>): Option<string> {
    if path == [] then start else Some(path[|path| - 1])
  }

  /** The `k`-th folder of the chain, as it is stored. */
  function ChainFolder(path: seq<string>, names: seq<string>, level: nat, orgId: string, start: Option<string>, k: nat): Folder
    requires k < |path| && k < |names|
  {
    Folder(path[k], names[k], level + k + 1, orgId, Parent(start, path, k))
  }

  /** A step keeps the folders it found and ends with a folder that answers
      its own lookup and carries the returned id. */
  lemma StepFinds(folders: seq<Folder>, name: string, level: int, orgId: string, pid: Option<string>, newId: string)
    ensures var (next, id) := FolderStep(folders, name, level, orgId, pid, newId);
      && folders <= next && |next| <= |folders| + 1
      && FindFolder(next, name, level, orgId, pid).Some?
      && next[FindFolder(next, name, level, orgId, pid).value].id == id
      && Folder(id, name, level, orgId, pid) in next
      && (|next| > |folders| ==> next[|folders|] == Folder(newId, name, level, orgId, pid) && id == newId)
  {
    var (next, id) := FolderStep(folders, name, level, orgId, pid, newId);
    match FindFolder(folders, name, level, orgId, pid)
    case Some(k) =>
      assert folders[k] == Folder(id, name, level, orgId, pid);
    case None =>
      var j := FindFolder(next, name, level, orgId, pid);
      assert FolderMatches(next[|folders|], name, level, orgId, pid);
      assert j.Some? && j.value == |folders|;
  }

  /** The chain has one folder per name, at levels `level + 1` onwards, each
      below the previous one (the first below `start`), and the existing
      folders are kept. */
  lemma {:induction false} ChainShape(folders: seq<Folder>, names: seq<string>, level: nat, orgId: string, start: Option<string>, ids: nat -> string)
    ensures var (out, path) := Chain(folders, names, level, orgId, start, ids);
      && |path| == |names| && folders <= out && |out| <= |folders| + |names|
      && (forall k :: 0 <= k < |names| ==> ChainFolder(path, names, level, orgId, start, k) in out)
    decreases |names|
  {
    if names != [] {
      var (next, id) := FolderStep(folders, names[0], level + 1, orgId, start, ids(level + 1));
      StepFinds(folders, names[0], level + 1, orgId, start, ids(level + 1));
      ChainShape(next, names[1..], level + 1, orgId, Some(id), ids);
      var (out, rest) := Chain(next, names[1..], level + 1, orgId, Some(id), ids);
      var path := [id] + rest;
      assert Chain(folders, names, level, orgId, start, ids) == (out, path);
      assert ChainFolder(path, names, level, orgId, start, 0) == Folder(id, names[0], level + 1, orgId, start);
      forall k | 1 <= k < |names|
        ensures ChainFolder(path, names, level, orgId, start, k) == ChainFolder(rest, names[1..], level + 1, orgId, Some(id), k - 1)
      {
        ChainFolderShift(id, rest, names, level, orgId, start, k);
      }
    }
  }

  /** The folders of a chain after its first are the folders of the chain
      that starts below the first. */
  lemma ChainFolderShift(id: string, rest: seq<string>, names: seq<string>, level: nat, orgId: string, start: Option<string>, k: nat)
    requires 1 <= k < |names| && |rest| == |names| - 1
    ensures ChainFolder([id] + rest, names, level, orgId, start, k) == ChainFolder(rest, names[1..], level + 1, orgId, Some(id), k - 1)
  {
    var path := [id] + rest;
    assert path[k] == rest[k - 1] && names[k] == names[1..][k - 1];
    assert Parent(start, path, k) == Parent(Some(id), rest, k - 1) by {
      if k > 1 {
        assert path[k - 1] == rest[k - 2];
      }
    }
  }

  /** Every folder the chain adds is one of the chain's folders. */
  lemma {:induction false} ChainAddsOnlyChain(folders: seq<Folder>, names: seq<string>, level: nat, orgId: string, start: Option<string>, ids: nat -> string)
    ensures var (out, path) := Chain(folders, names, level, orgId, start, ids);
      forall j :: |folders| <= j < |out| ==>
        exists k :: 0 <= k < |names| && k < |path| && out[j] == ChainFolder(path, names, level, orgId, start, k)
    decreases |names|
  {
    if names != [] {
      var (next, id) := FolderStep(folders, names[0], level + 1, orgId, start, ids(level + 1));
      StepFinds(folders, names[0], level + 1, orgId, start, ids(level + 1));
      ChainAddsOnlyChain(next, names[1..], level + 1, orgId, Some(id), ids);
      ChainShape(next, names[1..], level + 1, orgId, Some(id), ids);
      var (out, rest) := Chain(next, names[1..], level + 1, orgId, Some(id), ids);
      var path := [id] + rest;
      assert Chain(folders, names, level, orgId, start, ids) == (out, path);
      forall j | |folders| <= j < |out|
        ensures exists k :: 0 <= k < |names| && k < |path| && out[j] == ChainFolder(path, names, level, orgId, start, k)
      {
        if j < |next| {
          assert out[j] == next[j] == ChainFolder(path, names, level, orgId, start, 0);
        } else {
          var k' :| 0 <= k' < |names[1..]| && k' < |rest| && out[j] == ChainFolder(rest, names[1..], level + 1, orgId, Some(id), k');
          ChainFolderShift(id, rest, names, level, orgId, start, k' + 1);
        }
      }
    }
  }

  /** The first match in a prefix is the first match in the whole. */
  lemma FindFirstInPrefix(a: seq<Folder>, b: seq<Folder>, name: string, level: int, orgId: string, pid: Option<string>)
    requires a <= b && FindFolder(a, name, level, orgId, pid).Some?
    ensures FindFolder(b, name, level, orgId, pid) == FindFolder(a, name, level, orgId, pid)
  {
    var k := FindFolder(a, name, level, orgId, pid).value;
    assert FolderMatches(b[k], name, level, orgId, pid);
  }

  /** Making a chain again in any collection that extends the one the first
      run left changes nothing and returns the same folders. */
  lemma {:induction false} ChainReuse(folders: seq<Folder>, names: seq<string>, level: nat, orgId: string, start: Option<string>,
                                      ids: nat -> string, g: seq<Folder>, ids2: nat -> string)
    requires Chain(folders, names, level, orgId, start, ids).0 <= g
    ensures Chain(g, names, level, orgId, start, ids2) == (g, Chain(folders, names, level, orgId, start, ids).1)
    decreases |names|
  {
    if names != [] {
      var (next, id) := FolderStep(folders, names[0], level + 1, orgId, start, ids(level + 1));
      StepFinds(folders, names[0], level + 1, orgId, start, ids(level + 1));
      ChainShape(next, names[1..], level + 1, orgId, Some(id), ids);
      var out := Chain(next, names[1..], level + 1, orgId, Some(id), ids).0;
      assert next <= out <= g;
      FindFirstInPrefix(next, g, names[0], level + 1, orgId, start);
      var k := FindFolder(next, names[0], level + 1, orgId, start).value;
      assert g[k] == next[k];
      assert FolderStep(g, names[0], level + 1, orgId, start, ids2(level + 1)) == (g, id);
      ChainReuse(next, names[1..], level + 1, orgId, Some(id), ids, g, ids2);
    }
  }

  /** Making the same chain twice: the second run creates no folder and
      ends in the same folders. */
  lemma ChainIdempotent(folders: seq<Folder>, names: seq<string>, level: nat, orgId: string, start: Option<string>,
                        ids: nat -> string, ids2: nat -> string)
    ensures var (out, path) := Chain(folders, names, level, orgId, start, ids);
      Chain(out, names, level, orgId, start, ids2) == (out, path)
  {
    ChainReuse(folders, names, level, orgId, start, ids, Chain(folders, names, level, orgId, start, ids).0, ids2);
  }

  // ---------------------------------------------------------------------
  // create_folders
  // ---------------------------------------------------------------------

  /** What `create_folders` returns: the last folder's id and the folder
      names, level by level. */
  datatype Chained = Chained(pid: Option<string>, names: seq<string>)

  /** The first doctype with that id. */
  function FindDoctype(doctypes: seq<Doctype>, id: string): (r: Option<Doctype>)
    ensures r.None? <==> forall i :: 0 <= i < |doctypes| ==> doctypes[i].id != id
    ensures r.Some? ==> r.value in doctypes && r.value.id == id
    ensures r.Some? ==> exists k :: 0 <= k < |doctypes| && doctypes[k] == r.value && forall i :: 0 <= i < k ==> doctypes[i].id != id
  {
    if doctypes == [] then None
    else if doctypes[0].id == id then Some(doctypes[0])
    else FindDoctype(doctypes[1..], id)
  }

  /** `create_folders(mongo, values, pidFolder)`: the result and the folders
      collection afterwards. */
  function CreateFoldersOutcome(doctypes: seq<Doctype>, folders: seq<Folder>, orgId: string, doctypeId: string,
                                metadata: map<string, string>, start: Option<string>, ids: nat -> string): (r: (Result<Chained>, seq<Folder>))
    ensures r.0.Raise? <==> FindDoctype(doctypes, doctypeId).None?
    ensures r.0.Raise? ==> r == (Raise(ValueError(DoctypeNotFound)), folders)
    ensures r.0.Ok? ==> r.0.value.pid.Some? && |r.0.value.names| >= 1
  {
    match FindDoctype(doctypes, doctypeId)
    case None => (Raise(ValueError(DoctypeNotFound)), folders)
    case Some(d) =>
      var names := FolderNames(d.folder, metadata);
      var (out, path) := Chain(folders, names, 0, orgId, start, ids);
      (Ok(Chained(Last(start, path), names)), out)
  }

  /** A successful `create_folders` names one folder level per template
      level, makes the chain of those names below `start` (whose shape
      `ChainShape` states) and returns the id of its last folder. */
  lemma CreateFoldersResult(doctypes: seq<Doctype>, folders: seq<Folder>, orgId: string, doctypeId: string,
                            metadata: map<string, string>, start: Option<string>, ids: nat -> string)
    requires CreateFoldersOutcome(doctypes, folders, orgId, doctypeId, metadata, start, ids).0.Ok?
    ensures var (r, out) := CreateFoldersOutcome(doctypes, folders, orgId, doctypeId, metadata, start, ids);
      var d := FindDoctype(doctypes, doctypeId).value;
      var path := Chain(folders, r.value.names, 0, orgId, start, ids).1;
      && r.value.names == FolderNames(d.folder, metadata)
      && |path| == |r.value.names| == |Str.Split(d.folder, LevelSeparator)|
      && r.value.pid == Some(path[|path| - 1])
      && out == Chain(folders, r.value.names, 0, orgId, start, ids).0
  {
  }

  /** A second `create_folders` with the same doctype and metadata creates
      no folder and returns the same result. */
  lemma CreateFoldersIdempotent(doctypes: seq<Doctype>, folders: seq<Folder>, orgId: string, doctypeId: string,
                                metadata: map<string, string>, start: Option<string>, ids: nat -> string, ids2: nat -> string)
    ensures var (r, out) := CreateFoldersOutcome(doctypes, folders, orgId, doctypeId, metadata, start, ids);
      CreateFoldersOutcome(doctypes, out, orgId, doctypeId, metadata, start, ids2) == (r, out)
  {
    match FindDoctype(doctypes, doctypeId)
    case None =>
    case Some(d) =>
      ChainIdempotent(folders, FolderNames(d.folder, metadata), 0, orgId, start, ids, ids2);
  }

  // ---------------------------------------------------------------------
  // upload_file_to_minio
  // ---------------------------------------------------------------------

  /** The upload form: the file's name, declared content type, the MIME
      type the content sniffer reports, its size in bytes, and the metadata. */
  datatype UploadRequest = UploadRequest(
    filename: string, contentType: string, mimeType: string, size: nat,
    doctype: string, metadata: map<string, string>,
    refkeyId: Option<string>, refkeyTable: Option<string>, refkeyName: Option<string>)

  /** The answer of a successful upload. */
  datatype Uploaded = Uploaded(filename: string, id: string, folderPath: string)

  /** The collections an upload touches. */
  datatype DmsState = DmsState(orgs: seq<Org>, folders: seq<Folder>, files: seq<FileDoc>)

  /** The `_dmsfile` document of an upload. */
  function StoredFile(req: UploadRequest, fileId: string, ext: string, folderId: string, names: seq<string>, orgId: string): FileDoc {
    FileDoc(fileId, fileId + ext, req.contentType, req.filename, req.size,
            folderId, Str.Join(PathSeparator, names), orgId, req.metadata,
            req.doctype, req.refkeyId, req.refkeyTable, req.refkeyName)
  }

  /** `upload_file_to_minio(file, payload)` for the organisation `orgId`:
      type checks, the organisation's used storage, the folder chain, the
      object store (which may refuse), the file document and the new used
      storage. `fileId` is the upload's fresh UUID and `folderIds` the ids
      new folders receive. */
  function UploadOutcome(s: DmsState, doctypes: seq<Doctype>, orgId: string, req: UploadRequest,
                         fileId: string, folderIds: nat -> string, storeRefuses: bool): (Result<Uploaded>, DmsState)
  {
    match CheckFile(req.mimeType, req.filename)
    case Raise(e) => (Raise(e), s)
    case Ok(ext) =>
      match GetStorageOrg(s.orgs, orgId)
      case Raise(e) => (Raise(e), s)
      case Ok(used) =>
        var c := CreateFoldersOutcome(doctypes, s.folders, orgId, req.doctype, req.metadata, None, folderIds);
        StoreUpload(s.(folders := c.1), c.0, orgId, req, ext, used, fileId, storeRefuses)
  }

  /** The part of the upload after `create_folders` returned `chain` and
      left the folders of `s`: the object store, the file document and the
      new used storage. */
  function StoreUpload(s: DmsState, chain: Result<Chained>, orgId: string, req: UploadRequest, ext: string, used: int,
                       fileId: string, storeRefuses: bool): (r: (Result<Uploaded>, DmsState))
    requires chain.Ok? ==> chain.value.pid.Some?
    ensures r.0.Raise? ==> r.1 == s
    ensures r.0.Ok? <==> chain.Ok? && !storeRefuses
    ensures r.0.Ok? ==> r.1.folders == s.folders && |r.1.files| == |s.files| + 1
    ensures r.0.Ok? ==> r.1.orgs == SetUsedStorage(s.orgs, orgId, used + req.size)
  {
    if chain.Raise? then (Raise(chain.exc), s)
    else if storeRefuses then (Raise(ValueError(UploadFailed)), s)
    else
      var doc := StoredFile(req, fileId, ext, chain.value.pid.value, chain.value.names, orgId);
      (Ok(Uploaded(doc.filename, fileId, doc.folderPath)),
       DmsState(SetUsedStorage(s.orgs, orgId, used + req.size), s.folders, s.files + [doc]))
  }

  /** The refusals, in the order the upload meets them: a refused type or
      extension, a missing organisation or a missing doctype change nothing. */
  lemma UploadRefusals(s: DmsState, doctypes: seq<Doctype>, orgId: string, req: UploadRequest,
                       fileId: string, folderIds: nat -> string, storeRefuses: bool)
    ensures req.mimeType !in AllowedMimeTypes ==>
      UploadOutcome(s, doctypes, orgId, req, fileId, folderIds, storeRefuses) == (Raise(ValueError(InvalidFileType)), s)
    ensures req.mimeType in AllowedMimeTypes && FileExtension(req.filename) !in AllowedExtensions ==>
      UploadOutcome(s, doctypes, orgId, req, fileId, folderIds, storeRefuses) == (Raise(ValueError(UnsupportedExtension)), s)
    ensures CheckFile(req.mimeType, req.filename).Ok? && (forall i :: 0 <= i < |s.orgs| ==> s.orgs[i].id != orgId) ==>
      UploadOutcome(s, doctypes, orgId, req, fileId, folderIds, storeRefuses) == (Raise(ValueError(OrgNotFound)), s)
    ensures CheckFile(req.mimeType, req.filename).Ok? && GetStorageOrg(s.orgs, orgId).Ok? &&
            (forall i :: 0 <= i < |doctypes| ==> doctypes[i].id != req.doctype) ==>
      UploadOutcome(s, doctypes, orgId, req, fileId, folderIds, storeRefuses) == (Raise(ValueError(DoctypeNotFound)), s)
  {
    match CheckFile(req.mimeType, req.filename)
    case Raise(e) =>
    case Ok(ext) =>
      match GetStorageOrg(s.orgs, orgId)
      case Raise(e) =>
      case Ok(used) =>
        UploadAfterChecks(s, doctypes, orgId, req, fileId, folderIds, storeRefuses);
        if FindDoctype(doctypes, req.doctype).None? {
          var c := CreateFoldersOutcome(doctypes, s.folders, orgId, req.doctype, req.metadata, None, folderIds);
          assert c == (Raise(ValueError(DoctypeNotFound)), s.folders);
          assert s.(folders := c.1) == s;
        }
  }

  /** An upload succeeds exactly when the checks pass, the organisation and
      the doctype exist and the object store accepts the file; a failed one,
      whatever the reason, adds no file and changes no organisation (a
      refusing object store leaves the folders already made). */
  lemma UploadSucceedsIff(s: DmsState, doctypes: seq<Doctype>, orgId: string, req: UploadRequest,
                          fileId: string, folderIds: nat -> string, storeRefuses: bool)
    ensures UploadOutcome(s, doctypes, orgId, req, fileId, folderIds, storeRefuses).0.Ok? <==>
      CheckFile(req.mimeType, req.filename).Ok? && GetStorageOrg(s.orgs, orgId).Ok? &&
      FindDoctype(doctypes, req.doctype).Some? && !storeRefuses
    ensures UploadOutcome(s, doctypes, orgId, req, fileId, folderIds, storeRefuses).0.Raise? ==>
      UploadOutcome(s, doctypes, orgId, req, fileId, folderIds, storeRefuses).1.orgs == s.orgs &&
      UploadOutcome(s, doctypes, orgId, req, fileId, folderIds, storeRefuses).1.files == s.files
  {
    match CheckFile(req.mimeType, req.filename)
    case Raise(e) =>
    case Ok(ext) =>
      match GetStorageOrg(s.orgs, orgId)
      case Raise(e) =>
      case Ok(used) =>
        UploadAfterChecks(s, doctypes, orgId, req, fileId, folderIds, storeRefuses);
        if FindDoctype(doctypes, req.doctype).None? {
          var c := CreateFoldersOutcome(doctypes, s.folders, orgId, req.doctype, req.metadata, None, folderIds);
          assert c == (Raise(ValueError(DoctypeNotFound)), s.folders);
          assert s.(folders := c.1) == s;
        }
  }

  /** Past the type checks and the organisation lookup, the upload is the
      store step with the extension and the used storage they returned. */
  lemma UploadAfterChecks(s: DmsState, doctypes: seq<Doctype>, orgId: string, req: UploadRequest,
                          fileId: string, folderIds: nat -> string, storeRefuses: bool)
    requires CheckFile(req.mimeType, req.filename).Ok? && GetStorageOrg(s.orgs, orgId).Ok?
    ensures UploadOutcome(s, doctypes, orgId, req, fileId, folderIds, storeRefuses)
         == StoreUpload(s.(folders := CreateFoldersOutcome(doctypes, s.folders, orgId, req.doctype, req.metadata, None, folderIds).1),
                        CreateFoldersOutcome(doctypes, s.folders, orgId, req.doctype, req.metadata, None, folderIds).0,
                        orgId, req, CheckFile(req.mimeType, req.filename).value,
                        GetStorageOrg(s.orgs, orgId).value, fileId, storeRefuses)
  {
  }

  /** A successful upload passed the type checks and found the organisation. */
  lemma UploadPassedChecks(s: DmsState, doctypes: seq<Doctype>, orgId: string, req: UploadRequest,
                           fileId: string, folderIds: nat -> string)
    requires UploadOutcome(s, doctypes, orgId, req, fileId, folderIds, false).0.Ok?
    ensures CheckFile(req.mimeType, req.filename).Ok? && GetStorageOrg(s.orgs, orgId).Ok?
  {
  }

    /** The used-storage update a successful upload makes (`StoreUpload`
      writes `SetUsedStorage` of the value `get_storage_org` read plus the
      file's size): the first organisation with the id gets its used
      storage, 0 when absent, plus the size, and no other organisation
      changes. */
  lemma UploadAccounting(orgs: seq<Org>, orgId: string, size: int)
    requires GetStorageOrg(orgs, orgId).Ok?
    ensures OrgIndex(orgs, orgId).Some?
    ensures var k := OrgIndex(orgs, orgId).value;
      SetUsedStorage(orgs, orgId, GetStorageOrg(orgs, orgId).value + size)
        == orgs[k := orgs[k].(usedStorage := Some(orgs[k].usedStorage.GetOr(0) + size))]
  {
    var ix := OrgIndex(orgs, orgId);
    assert ix.Some?;
    var k := ix.value;
    var used := GetStorageOrg(orgs, orgId).value;
    assert used == orgs[k].usedStorage.GetOr(0);
  }

  /** A successful upload adds exactly one file document, stored as
      `<uuid><extension>` in the folder chain's last folder, with the folder
      names joined by " >> " as its path, and leaves the folders
      `create_folders` left. */
  lemma UploadStoresFile(s: DmsState, doctypes: seq<Doctype>, orgId: string, req: UploadRequest,
                         fileId: string, folderIds: nat -> string)
    requires UploadOutcome(s, doctypes, orgId, req, fileId, folderIds, false).0.Ok?
    ensures CreateFoldersOutcome(doctypes, s.folders, orgId, req.doctype, req.metadata, None, folderIds).0.Ok?
    ensures var c := CreateFoldersOutcome(doctypes, s.folders, orgId, req.doctype, req.metadata, None, folderIds);
      var (r, s') := UploadOutcome(s, doctypes, orgId, req, fileId, folderIds, false);
      var ext := FileExtension(req.filename);
      && s'.folders == c.1
      && s'.files == s.files + [StoredFile(req, fileId, ext, c.0.value.pid.value, c.0.value.names, orgId)]
      && r.value == Uploaded(fileId + ext, fileId, Str.Join(PathSeparator, c.0.value.names))
  {
    UploadPassedChecks(s, doctypes, orgId, req, fileId, folderIds);
    UploadAfterChecks(s, doctypes, orgId, req, fileId, folderIds, false);
  }

  /** Two uploads under the same doctype and metadata land in the same
      folder, and the second creates no folder. */
  lemma UploadsShareFolders(s: DmsState, doctypes: seq<Doctype>, orgId: string, req1: UploadRequest, req2: UploadRequest,
                            id1: string, id2: string, ids1: nat -> string, ids2: nat -> string)
    requires req1.doctype == req2.doctype && req1.metadata == req2.metadata
    requires UploadOutcome(s, doctypes, orgId, req1, id1, ids1, false).0.Ok?
    requires var s1 := UploadOutcome(s, doctypes, orgId, req1, id1, ids1, false).1;
      UploadOutcome(s1, doctypes, orgId, req2, id2, ids2, false).0.Ok?
    ensures var s1 := UploadOutcome(s, doctypes, orgId, req1, id1, ids1, false).1;
      var s2 := UploadOutcome(s1, doctypes, orgId, req2, id2, ids2, false).1;
      && s2.folders == s1.folders
      && |s1.files| == |s.files| + 1 && |s2.files| == |s1.files| + 1
      && s2.files[|s1.files|].folderId == s1.files[|s.files|].folderId
      && s2.files[|s1.files|].folderPath == s1.files[|s.files|].folderPath
  {
    var s1 := UploadOutcome(s, doctypes, orgId, req1, id1, ids1, false).1;
    UploadStoresFile(s, doctypes, orgId, req1, id1, ids1);
    UploadStoresFile(s1, doctypes, orgId, req2, id2, ids2);
    CreateFoldersIdempotent(doctypes, s.folders, orgId, req1.doctype, req1.metadata, None, ids1, ids2);
  }

  // ---------------------------------------------------------------------
  // The upload service
  // ---------------------------------------------------------------------

  /** The DMS upload service and the caller context `set_context` records. */
  class UploadService {
    var userId: string
    var orgId: string

    constructor (userId: string, orgId: string)
      ensures this.userId == userId && this.orgId == orgId
    {
      this.userId := userId;
      this.orgId := orgId;
    }

    /** `set_context(user_id, org_id)`. */
    method SetContext(userId: string, orgId: string)
      modifies this
      ensures this.userId == userId && this.orgId == orgId
    {
      this.userId := userId;
      this.orgId := orgId;
    }

    /** `create_folders(mongo, values, pidFolder)`. */
    method CreateFolders(db: Database, doctypeId: string, metadata: map<string, string>, start: Option<string>, ids: nat -> string)
      returns (r: Result<Chained>)
      modifies db`folders
      ensures (r, db.folders) == CreateFoldersOutcome(db.doctypes, old(db.folders), orgId, doctypeId, metadata, start, ids)
    {
      var doctype := FindDoctype(db.doctypes, doctypeId);
      if doctype.None? {
        return Raise(ValueError(DoctypeNotFound));
      }
      var parts := Str.Split(doctype.value.folder, LevelSeparator);
      var pid, folderString := ChainLevels(db, parts, metadata, start, ids);
      r := Ok(Chained(pid, folderString));
    }

    /** The loop of `create_folders` over the template levels: name the
        level, then find or create its folder below the previous one. */
    method ChainLevels(db: Database, parts: seq<string>, metadata: map<string, string>, start: Option<string>, ids: nat -> string)
      returns (pid: Option<string>, folderString: seq<string>)
      modifies db`folders
      ensures var target := Chain(old(db.folders), SegmentNames(parts, metadata), 0, orgId, start, ids);
        db.folders == target.0 && pid == Last(start, target.1) && folderString == SegmentNames(parts, metadata)
    {
      ghost var names := SegmentNames(parts, metadata);
      ghost var target := Chain(db.folders, names, 0, orgId, start, ids);
      folderString := [];
      var level: nat := 0;
      pid := start;
      while level < |parts|
        invariant level <= |parts| == |names| == |target.1|
        invariant folderString == names[..level]
        invariant pid == Last(start, target.1[..level])
        invariant Chain(db.folders, names[level..], level, orgId, pid, ids) == (target.0, target.1[level..])
      {
        var name := SegmentName(parts[level], metadata);
        SegmentNamesAt(parts, metadata, level);
        PrefixGrows(names, level);
        PrefixGrows(target.1, level);
        ChainLevelStep(db.folders, names, level, orgId, pid, ids, target.0, target.1);
        level := level + 1;
        folderString := folderString + [name];
        var id := FindOrCreate(db, name, level, pid, ids(level));
        pid := Some(id);
      }
      assert folderString == names && target.1[..level] == target.1;
    }

    /** One level of `create_folders`: the first folder answering the
        lookup, or a new folder with id `newId`. */
    method FindOrCreate(db: Database, name: string, level: int, pid: Option<string>, newId: string) returns (id: string)
      modifies db`folders
      ensures (db.folders, id) == FolderStep(old(db.folders), name, level, orgId, pid, newId)
    {
      var found := FindFolder(db.folders, name, level, orgId, pid);
      if found.None? {
        db.folders := db.folders + [Folder(newId, name, level, orgId, pid)];
        id := newId;
      } else {
        id := db.folders[found.value].id;
      }
    }

    /** `upload_file_to_minio(file, payload)`. */
    method UploadFileToMinio(db: Database, req: UploadRequest, fileId: string, folderIds: nat -> string, storeRefuses: bool)
      returns (r: Result<Uploaded>)
      modifies db`orgs, db`folders, db`files
      ensures (r, DmsState(db.orgs, db.folders, db.files)) ==
              UploadOutcome(DmsState(old(db.orgs), old(db.folders), old(db.files)), db.doctypes, orgId, req, fileId, folderIds, storeRefuses)
    {
      ghost var s := DmsState(db.orgs, db.folders, db.files);
      var checked := CheckFile(req.mimeType, req.filename);
      if checked.Raise? {
        assert UploadOutcome(s, db.doctypes, orgId, req, fileId, folderIds, storeRefuses) == (Raise(checked.exc), s);
        return Raise(checked.exc);
      }
      var used := GetStorageOrg(db.orgs, orgId);
      if used.Raise? {
        assert UploadOutcome(s, db.doctypes, orgId, req, fileId, folderIds, storeRefuses) == (Raise(used.exc), s);
        return Raise(used.exc);
      }
      UploadAfterChecks(s, db.doctypes, orgId, req, fileId, folderIds, storeRefuses);
      r := FoldersAndStore(db, req, checked.value, used.value, fileId, folderIds, storeRefuses);
    }

    /** The upload after its checks: `create_folders`, then the store. */
    method FoldersAndStore(db: Database, req: UploadRequest, ext: string, used: int, fileId: string, folderIds: nat -> string, storeRefuses: bool)
      returns (r: Result<Uploaded>)
      modifies db`orgs, db`folders, db`files
      ensures (r, DmsState(db.orgs, db.folders, db.files)) ==
              StoreUpload(DmsState(old(db.orgs), CreateFoldersOutcome(db.doctypes, old(db.folders), orgId, req.doctype, req.metadata, None, folderIds).1, old(db.files)),
                          CreateFoldersOutcome(db.doctypes, old(db.folders), orgId, req.doctype, req.metadata, None, folderIds).0,
                          orgId, req, ext, used, fileId, storeRefuses)
    {
      var chain := CreateFolders(db, req.doctype, req.metadata, None, folderIds);
      r := Store(db, chain, req, ext, used, fileId, storeRefuses);
    }

    /** The upload after `create_folders`: the object store, the file
        document and the used storage. */
    method Store(db: Database, chain: Result<Chained>, req: UploadRequest, ext: string, used: int, fileId: string, storeRefuses: bool)
      returns (r: Result<Uploaded>)
      requires chain.Ok? ==> chain.value.pid.Some?
      modifies db`orgs, db`files
      ensures (r, DmsState(db.orgs, db.folders, db.files)) ==
              StoreUpload(DmsState(old(db.orgs), db.folders, old(db.files)), chain, orgId, req, ext, used, fileId, storeRefuses)
    {
      if chain.Raise? {
        return Raise(chain.exc);
      }
      if storeRefuses {
        return Raise(ValueError(UploadFailed));
      }
      var doc := StoredFile(req, fileId, ext, chain.value.pid.value, chain.value.names, orgId);
      db.files := db.files + [doc];
      db.orgs := SetUsedStorage(db.orgs, orgId, used + req.size);
      r := Ok(Uploaded(doc.filename, fileId, doc.folderPath));
    }
  }
}

=== FILE: email.dfy ===
/** Sending mail over SMTP: filling an HTML template's placeholders, taking
    the subject from its `<title>`, composing the headers of a message, the
    list of recipients handed to the server, and how the connection is
    secured. Reading the template file, the attachment and the SMTP session
    itself are not part of this model. */
module Email {
  import opened Base
  import Str

  // ---------------------------------------------------------------------
  // Templates

  /** The template after replacing every occurrence of each placeholder,
      one placeholder after the other, by its replacement. */
  function Substituted(template: string, placeHolders: seq<string>, replacements: seq<string>): string
    requires |replacements| >= |placeHolders|
  {
    if placeHolders == [] then template
    else
      var n := |placeHolders| - 1;
      Str.ReplaceAll(Substituted(template, placeHolders[..n], replacements), placeHolders[n], replacements[n])
  }

  /** `_processPlaceHolder`: a replacement list shorter than the placeholder
      list fails on the first placeholder without a replacement. */
  method ProcessPlaceHolder(template: string, placeHolders: seq<string>, replacements: seq<string>)
    returns (r: Result<string>)
    ensures |replacements| >= |placeHolders| ==> r == Ok(Substituted(template, placeHolders, replacements))
    ensures |replacements| < |placeHolders| ==> r == Raise(OtherError("list index out of range"))
  {
    var text := template;
    var i := 0;
    while i < |placeHolders|
      invariant 0 <= i <= |placeHolders| && i <= |replacements|
      invariant text == Substituted(template, placeHolders[..i], replacements)
    {
      if i >= |replacements| {
        return Raise(OtherError("list index out of range"));
      }
      assert placeHolders[..i + 1][..i] == placeHolders[..i];
      text := Str.ReplaceAll(text, placeHolders[i], replacements[i]);
      i := i + 1;
    }
    assert placeHolders[..i] == placeHolders;
    return Ok(text);
  }

  /** Substituting two lists of placeholders is substituting the first list
      and then the second. */
  lemma {:induction false} SubstitutedAppend(template: string, ph1: seq<string>, rp1: seq<string>, ph2: seq<string>, rp2: seq<string>)
    requires |rp1| == |ph1| && |rp2| >= |ph2|
    ensures Substituted(template, ph1 + ph2, rp1 + rp2) == Substituted(Substituted(template, ph1, rp1), ph2, rp2)
    decreases |ph2|
  {
    if ph2 == [] {
      assert ph1 + ph2 == ph1;
      SubstitutedLonger(template, ph1, rp1, rp2);
    } else {
      var n := |ph2| - 1;
      assert (ph1 + ph2)[..|ph1| + n] == ph1 + ph2[..n];
      SubstitutedAppend(template, ph1, rp1, ph2[..n], rp2);
      assert (rp1 + rp2)[|ph1| + n] == rp2[n];
    }
  }

  /** Only the replacements of the placeholders present matter. */
  lemma {:induction false} SubstitutedLonger(template: string, ph: seq<string>, rp: seq<string>, extra: seq<string>)
    requires |rp| >= |ph|
    ensures Substituted(template, ph, rp + extra) == Substituted(template, ph, rp)
  {
    if ph != [] {
      SubstitutedLonger(template, ph[..|ph| - 1], rp, extra);
    }
  }

  /** A non-empty text replaced in itself becomes the replacement. */
  lemma ReplaceWhole(p: string, r: string)
    requires p != []
    ensures Str.ReplaceAll(p, p, r) == r
  {
    assert p[|p|..] == [];
    assert r + [] == r;
  }

  /** Later placeholders are replaced in the text earlier replacements put
      in: a template that is the first placeholder, whose replacement is the
      second placeholder, ends as the second replacement. */
  lemma ChainedPlaceholders(p1: string, p2: string, r2: string)
    requires p1 != [] && p2 != []
    ensures Substituted(p1, [p1, p2], [p2, r2]) == r2
  {
    var ph := [p1, p2];
    var rp := [p2, r2];
    assert ph[..1] == [p1];
    assert ph[..1][..0] == [];
    assert Substituted(p1, ph[..1][..0], rp) == p1;
    ReplaceWhole(p1, p2);
    assert Substituted(p1, ph[..1], rp) == p2;
    ReplaceWhole(p2, r2);
  }

  /** `s[a:b]` for indices inside `s`: empty when `b <= a`. */
  function Slice(s: string, a: nat, b: nat): string
    requires a <= |s| && b <= |s|
  {
    if b <= a then "" else s[a..b]
  }

  /** The subject as `loadHtmlEmailTemplate` takes it: a `<title>` counts
      only after index 0 (the test is `tb > 0`), and the text runs to the
      first `</title>`. */
  function Subject(body: string): string {
    var tb := Str.Find(body, "<title>");
    if tb > 0 then
      var te := Str.Find(body, "</title>");
      if te > 0 then Slice(body, tb + 7, te) else ""
    else ""
  }

  /** The subject as evidently intended: a `<title>` found anywhere, index
      0 included. */
  function SubjectIntended(body: string): string {
    var tb := Str.Find(body, "<title>");
    if tb >= 0 then
      var te := Str.Find(body, "</title>");
      if te > 0 then Slice(body, tb + 7, te) else ""
    else ""
  }

  /** A template that starts with its `<title>` gets an empty subject as
      written. */
  lemma TitleAtStartIgnored(title: string, rest: string)
    ensures Subject("<title>" + title + "</title>" + rest) == ""
  {
    var body := "<title>" + title + "</title>" + rest;
    assert body[0..7] == "<title>";
    Str.FindFromFirst(body, "<title>", 0, 0);
  }

  /** The subject is the text between the first `<title>` and the first
      `</title>` after it: as intended wherever the title stands, and as
      written whenever something comes before the `<title>`. */
  lemma SubjectBetween(pre: string, title: string, post: string)
    requires Str.CleanPart(pre, "<title>")
    requires Str.CleanPart(pre + "<title>" + title, "</title>")
    ensures SubjectIntended(pre + "<title>" + title + "</title>" + post) == title
    ensures pre != [] ==> Subject(pre + "<title>" + title + "</title>" + post) == title
  {
    var head := pre + "<title>" + title;
    var body := head + "</title>" + post;
    assert body == pre + "<title>" + (title + "</title>" + post);
    Str.FindPrefixed(pre, "<title>", title + "</title>" + post);
    Str.FindPrefixed(head, "</title>", post);
    assert body[|pre| + 7..|head|] == title;
  }

  /** Without a `<title>` the subject is empty. */
  lemma NoTitleNoSubject(body: string)
    requires !Str.Contains(body, "<title>")
    ensures SubjectIntended(body) == "" && Subject(body) == ""
  {
  }

  /** `loadHtmlEmailTemplate` once the file is read: the placeholders are
      filled first, and the subject is taken from the filled body. */
  method LoadHtmlEmailTemplate(body: string, placeHolders: seq<string>, replacements: seq<string>)
    returns (r: Result<(string, string)>)
    ensures |replacements| >= |placeHolders| ==>
      r.Ok? && r.value.1 == Substituted(body, placeHolders, replacements) && r.value.0 == Subject(r.value.1)
    ensures |replacements| < |placeHolders| ==> r == Raise(OtherError("list index out of range"))
  {
    var filled := ProcessPlaceHolder(body, placeHolders, replacements);
    if filled.Raise? {
      return Raise(filled.exc);
    }
    var text := filled.value;
    var subject := "";
    var tb := Str.Find(text, "<title>");
    if tb > 0 {
      tb := tb + 7;
      var te := Str.Find(text, "</title>");
      if te > 0 {
        subject := Slice(text, tb, te);
      }
    }
    return Ok((subject, text));
  }

  // ---------------------------------------------------------------------
  // Headers and recipients

  /** An address field given as one string or as a list of strings. */
  datatype Addresses = One(text: string) | Many(list: seq<string>)

  /** The fields of a message to send. */
  datatype Mail = Mail(
    to: Addresses,
    cc: Option<Addresses>,
    replyTo: Option<Addresses>,
    bcc: Option<Addresses>,
    subject: string,
    bodyMail: string)

  /** The headers `body_msg` sets, and the blind copies it hands back. */
  datatype Headers = Headers(
    from: string,
    subject: string,
    to: string,
    cc: Option<string>,
    replyTo: Option<string>,
    bcc: Option<string>)

  /** The `To` header: a list joined with `","`. */
  function ToHeader(to: Addresses): string {
    match to
    case One(s) => s
    case Many(xs) => Str.Join(",", xs)
  }

  /** The `To` header as evidently intended: a list joined by `", "`, the
      separator the recipients are split on. */
  function ToHeaderIntended(to: Addresses): string {
    match to
    case One(s) => s
    case Many(xs) => Str.Join(", ", xs)
  }

  /** The `Cc` and `Reply-To` headers: absent for an empty string or list. */
  function CopyHeader(a: Option<Addresses>): Option<string> {
    match a
    case None => None
    case Some(One(s)) => if s != "" then Some(s) else None
    case Some(Many(xs)) => if |xs| > 0 then Some(Str.Join(", ", xs)) else None
  }

  /** The blind copies: an empty list gives none, but any string, the empty
      one included, is kept. */
  function BccRecipients(a: Option<Addresses>): Option<string> {
    match a
    case None => None
    case Some(One(s)) => Some(s)
    case Some(Many(xs)) => if |xs| > 0 then Some(Str.Join(", ", xs)) else None
  }

  /** `body_msg` without the body part and the attachment. */
  function Compose(sender: string, m: Mail): Headers {
    Headers(sender, m.subject, ToHeader(m.to), CopyHeader(m.cc), CopyHeader(m.replyTo), BccRecipients(m.bcc))
  }

  /** `body_msg` with the `To` list joined as evidently intended. */
  function ComposeIntended(sender: string, m: Mail): Headers {
    Compose(sender, m).(to := ToHeaderIntended(m.to))
  }

  /** A header field split into addresses. */
  function SplitAddresses(s: string): seq<string> {
    Str.Split(s, ", ")
  }

  /** The recipients `send_email` hands to the server: `To`, then `Cc`, then
      the blind copies when they are not empty, each split on `", "`. */
  function Recipients(h: Headers): seq<string> {
    SplitAddresses(h.to)
    + (if h.cc.Some? then SplitAddresses(h.cc.value) else [])
    + (if h.bcc.Some? && h.bcc.value != "" then SplitAddresses(h.bcc.value) else [])
  }

  /** An address that splits cleanly: it holds no `", "`. */
  predicate Address(a: string) {
    a != "" && Str.CleanPart(a, ", ") && !Str.Contains(a, ", ")
  }

  lemma SplitJoinAddresses(xs: seq<string>)
    requires |xs| > 0 && forall k :: 0 <= k < |xs| ==> Address(xs[k])
    ensures SplitAddresses(Str.Join(", ", xs)) == xs
  {
    Str.SplitJoin(", ", xs);
  }

  /** With the `To` list joined as intended, lists of clean addresses reach
      the server as exactly the `To`, `Cc` and blind-copy addresses, in that
      order. */
  lemma RecipientsOfLists(sender: string, m: Mail, to: seq<string>, cc: seq<string>, bcc: seq<string>)
    requires m.to == Many(to) && m.cc == Some(Many(cc)) && m.bcc == Some(Many(bcc))
    requires |to| > 0 && |cc| > 0 && |bcc| > 0
    requires forall k :: 0 <= k < |to| ==> Address(to[k])
    requires forall k :: 0 <= k < |cc| ==> Address(cc[k])
    requires forall k :: 0 <= k < |bcc| ==> Address(bcc[k])
    ensures Recipients(ComposeIntended(sender, m)) == to + cc + bcc
  {
    SplitJoinAddresses(to);
    SplitJoinAddresses(cc);
    SplitJoinAddresses(bcc);
    JoinNonEmpty(bcc);
  }

  lemma JoinNonEmpty(xs: seq<string>)
    requires |xs| > 0 && xs[0] != ""
    ensures Str.Join(", ", xs) != ""
  {
    if |xs| > 1 {
      assert Str.Join(", ", xs) == xs[0] + ", " + Str.Join(", ", xs[1..]);
    }
  }

  /** Text with no comma followed by a space. */
  predicate NoCommaSpace(s: string) {
    forall j :: 0 <= j < |s| - 1 ==> !(s[j] == ',' && s[j + 1] == ' ')
  }

  /** Addresses without commas, none starting with a space, joined by `","`
      hold no `", "`. */
  lemma {:induction false} CommaJoinNoCommaSpace(xs: seq<string>)
    requires forall k :: 0 <= k < |xs| ==> ',' !in xs[k] && (xs[k] == [] || xs[k][0] != ' ')
    ensures NoCommaSpace(Str.Join(",", xs))
    ensures |xs| > 0 ==> (Str.Join(",", xs) == [] || Str.Join(",", xs)[0] != ' ')
  {
    if |xs| > 1 {
      var rest := Str.Join(",", xs[1..]);
      CommaJoinNoCommaSpace(xs[1..]);
      var s := xs[0] + "," + rest;
      assert Str.Join(",", xs) == s;
      forall j | 0 <= j < |s| - 1
        ensures !(s[j] == ',' && s[j + 1] == ' ')
      {
        if j < |xs[0]| {
          assert s[j] == xs[0][j];
        } else if j > |xs[0]| {
          assert s[j] == rest[j - |xs[0]| - 1] && s[j + 1] == rest[j - |xs[0]|];
        } else if rest != [] {
          assert s[j + 1] == rest[0];
        }
      }
      if xs[0] == [] {
        assert s[0] == ',';
      } else {
        assert s[0] == xs[0][0];
      }
    }
  }

  /** Text with no `", "` splits into itself alone. */
  lemma NoCommaSpaceSplit(s: string)
    requires NoCommaSpace(s)
    ensures SplitAddresses(s) == [s]
  {
    forall j | 0 <= j ensures !Str.OccursAt(s, ", ", j) {
      if j + 2 <= |s| {
        assert s[j..j + 2][0] == s[j] && s[j..j + 2][1] == s[j + 1];
      }
    }
    assert Str.Find(s, ", ") == -1;
  }

  /** As written, a `To` list of two or more plain addresses reaches the
      server as one recipient: the addresses joined by `","`. */
  lemma ToListMergedAsWritten(to: seq<string>)
    requires |to| >= 2
    requires forall k :: 0 <= k < |to| ==> ',' !in to[k] && (to[k] == [] || to[k][0] != ' ')
    ensures SplitAddresses(ToHeader(Many(to))) == [Str.Join(",", to)]
  {
    CommaJoinNoCommaSpace(to);
    NoCommaSpaceSplit(Str.Join(",", to));
  }

  /** As written, lists of clean addresses without commas reach the server
      as the `To` addresses merged into one, then exactly the `Cc` and
      blind-copy addresses. */
  lemma RecipientsOfListsAsWritten(sender: string, m: Mail, to: seq<string>, cc: seq<string>, bcc: seq<string>)
    requires m.to == Many(to) && m.cc == Some(Many(cc)) && m.bcc == Some(Many(bcc))
    requires |to| > 0 && |cc| > 0 && |bcc| > 0
    requires forall k :: 0 <= k < |to| ==> ',' !in to[k] && (to[k] == [] || to[k][0] != ' ')
    requires forall k :: 0 <= k < |cc| ==> Address(cc[k])
    requires forall k :: 0 <= k < |bcc| ==> Address(bcc[k])
    ensures Recipients(Compose(sender, m)) == [Str.Join(",", to)] + cc + bcc
  {
    CommaJoinNoCommaSpace(to);
    NoCommaSpaceSplit(Str.Join(",", to));
    SplitJoinAddresses(cc);
    SplitJoinAddresses(bcc);
    JoinNonEmpty(bcc);
  }

  /** An empty `Cc` string or list adds no `Cc` header and no recipient. */
  lemma EmptyCopyOmitted(sender: string, m: Mail)
    requires m.cc == Some(One("")) || m.cc == Some(Many([]))
    ensures Compose(sender, m).cc == None
    ensures Recipients(Compose(sender, m)) == SplitAddresses(ToHeader(m.to)) +
      (if BccRecipients(m.bcc).Some? && BccRecipients(m.bcc).value != "" then SplitAddresses(BccRecipients(m.bcc).value) else [])
  {
  }

  /** A string of blind copies is always kept, the empty string included;
      the empty one then adds no recipient. */
  lemma BccStringKept(sender: string, m: Mail, s: string)
    requires m.bcc == Some(One(s))
    ensures Compose(sender, m).bcc == Some(s)
    ensures s == "" ==> (Recipients(Compose(sender, m)) ==
      SplitAddresses(ToHeader(m.to)) + (if CopyHeader(m.cc).Some? then SplitAddresses(CopyHeader(m.cc).value) else []))
  {
  }

  // ---------------------------------------------------------------------
  // The SMTP session

  /** How the session is opened: over SSL or not, and whether STARTTLS is
      sent afterwards. */
  datatype Transport = Transport(ssl: bool, startTls: bool)

  /** Port 465 opens an SSL connection, any other a plain one; STARTTLS is
      sent whenever it is asked for, on either. */
  function Connect(port: int, useTls: bool): (t: Transport)
    ensures t.ssl <==> port == 465
    ensures t.startTls <==> useTls
  {
    Transport(port == 465, useTls)
  }

  /** What can go wrong in the session. */
  datatype SmtpFailure = AuthenticationFailed | ConnectFailed | OtherSmtpError

  /** The message of the `ValueError` each failure is reported as. */
  function FailureMessage(f: SmtpFailure): string {
    match f
    case AuthenticationFailed => "Failed to authenticate with the SMTP server. Check your credentials."
    case ConnectFailed => "Failed to connect to the SMTP server. Check the server address and port."
    case OtherSmtpError => "An SMTP error occurred"
  }

  /** `send_email`'s result: `True`, or a `ValueError` for the failure. */
  function SendOutcome(failure: Option<SmtpFailure>): (r: Result<bool>)
    ensures failure.None? <==> r == Ok(true)
    ensures failure.Some? ==> r.Raise? && r.exc.ValueError?
  {
    match failure
    case None => Ok(true)
    case Some(f) => Raise(ValueError(FailureMessage(f)))
  }
}

=== FILE: feature_crud.dfy ===
/** Grant administration for features: switching one action bit of a role's
    grant row on or off, and the three-state permission matrix shown to an
    administrator (1 = assigned, 2 = unassigned, 0 = disabled). */
module FeatureCrud {
  import opened Base
  import opened Bits
  import opened Records

  // ---------------------------------------------------------------------
  // The bit toggle

  /** The new permission of an existing row: `bit | permission`, unless that
      changes nothing, in which case `permission - bit`. */
  function Toggle(permission: Mask, bit: Mask): Mask {
    var res := bit | permission;
    if res == permission then permission - bit else res
  }

  /** A toggle clears the action's bits when the row holds all of them and
      sets them otherwise; no bit outside the action's changes. */
  lemma ToggleMeaning(permission: Mask, bit: Mask)
    ensures Covers(permission, bit) ==> Toggle(permission, bit) == permission & !bit
    ensures !Covers(permission, bit) ==> Toggle(permission, bit) == permission | bit
    ensures Toggle(permission, bit) & !bit == permission & !bit
  {
    UnionUnchanged(permission, bit);
    if Covers(permission, bit) {
      SubtractSubMask(permission, bit);
      ClearTwice(permission, bit);
    } else {
      SetThenMask(permission, bit);
    }
  }

  lemma UnionUnchanged(p: bv32, b: bv32)
    ensures b | p == p ==> p & b == b
    ensures p & b == b ==> b | p == p
  {
    if b | p == p {
      UnionAbsorbs(p, b);
    } else {
      AndBelow(p, b);
    }
  }

  lemma UnionAbsorbs(p: bv32, b: bv32)
    requires b | p == p
    ensures p & b == b
  {
  }

  lemma AndBelow(p: bv32, b: bv32)
    requires b | p != p
    ensures p & b != b
  {
  }

  lemma ClearTwice(p: bv32, b: bv32)
    ensures (p & !b) & !b == p & !b
  {
  }

  lemma SetThenMask(p: bv32, b: bv32)
    ensures (p | b) & !b == p & !b
  {
  }

  /** The action bit is a single bit. */
  predicate SingleBit(bit: Mask) {
    bit != 0 && bit & (bit - 1) == 0
  }

  /** For a one-bit action the toggle is exclusive or. */
  lemma ToggleIsXor(permission: Mask, bit: Mask)
    requires SingleBit(bit)
    ensures Toggle(permission, bit) == permission ^ bit
  {
    ToggleMeaning(permission, bit);
    SingleBitAllOrNothing(permission, bit);
    if Covers(permission, bit) {
      ClearIsXor(permission, bit);
    } else {
      SetIsXor(permission, bit);
    }
  }

  lemma SingleBitAllOrNothing(p: bv32, b: bv32)
    requires b != 0 && b & (b - 1) == 0
    ensures p & b == b || p & b == 0
  {
  }

  lemma ClearIsXor(p: bv32, b: bv32)
    requires p & b == b
    ensures p & !b == p ^ b
  {
  }

  lemma SetIsXor(p: bv32, b: bv32)
    requires p & b == 0
    ensures p | b == p ^ b
  {
  }

  /** Toggling the same action twice restores the permission whenever the
      row held all or none of the action's bits, in particular for every
      one-bit action. */
  lemma ToggleTwice(permission: Mask, bit: Mask)
    requires Covers(permission, bit) || permission & bit == 0
    ensures Toggle(Toggle(permission, bit), bit) == permission
  {
    if bit == 0 {
      ToggleNothing(permission);
    } else if Covers(permission, bit) {
      ToggleTwiceHeld(permission, bit);
    } else {
      ToggleTwiceAbsent(permission, bit);
    }
  }

  lemma ToggleNothing(permission: Mask)
    ensures Toggle(permission, 0) == permission
  {
    ToggleMeaning(permission, 0);
    ClearNothing(permission);
  }

  lemma ToggleTwiceHeld(permission: Mask, bit: Mask)
    requires bit != 0 && Covers(permission, bit)
    ensures Toggle(Toggle(permission, bit), bit) == permission
  {
    ToggleMeaning(permission, bit);
    var once := permission & !bit;
    ClearThenSet(permission, bit);
    ToggleMeaning(once, bit);
  }

  lemma ToggleTwiceAbsent(permission: Mask, bit: Mask)
    requires permission & bit == 0 && !Covers(permission, bit)
    ensures Toggle(Toggle(permission, bit), bit) == permission
  {
    ToggleMeaning(permission, bit);
    var once := permission | bit;
    SetThenClear(permission, bit);
    ToggleMeaning(once, bit);
  }

  lemma ClearNothing(p: bv32)
    ensures p & !0 == p
  {
  }

  lemma ClearThenSet(p: bv32, b: bv32)
    requires p & b == b
    ensures b != 0 ==> (p & !b) & b != b
    ensures (p & !b) | b == p
    ensures b == 0 ==> p & !b == p
  {
  }

  lemma SetThenClear(p: bv32, b: bv32)
    requires p & b != b && p & b == 0
    ensures (p | b) & b == b
    ensures (p | b) & !b == p
  {
  }

  /** An example, beside the general `ToggleTwice`: an action of two bits
      of which the row holds one does not come back; the first toggle sets
      both bits, the second clears both. */
  lemma ToggleTwicePartial()
    ensures Toggle(1, 3) == 3 && Toggle(Toggle(1, 3), 3) == 0
  {
  }

  // ---------------------------------------------------------------------
  // set_permission

  /** The request: a feature, a role and the action key to switch. */
  datatype PermissionRequest = PermissionRequest(fId: string, rId: string, keyAction: string)

  /** What `set_permission` returns: the updated row, or the request itself
      when a row was inserted. */
  datatype Written = Updated(row: Grant) | Inserted(request: PermissionRequest)

  /** `find_one({"r_id": rId, "f_id": fId})`: the position of the first such row. */
  function RowIndex(grants: seq<Grant>, rId: string, fId: string): (r: Option<nat>)
    ensures r.None? <==> forall i :: 0 <= i < |grants| ==> !(grants[i].roleId == rId && grants[i].featureId == fId)
    ensures r.Some? ==> r.value < |grants| && grants[r.value].roleId == rId && grants[r.value].featureId == fId
    ensures r.Some? ==> forall i :: 0 <= i < r.value ==> !(grants[i].roleId == rId && grants[i].featureId == fId)
  {
    if grants == [] then None
    else if grants[0].roleId == rId && grants[0].featureId == fId then Some(0)
    else match RowIndex(grants[1..], rId, fId)
      case None => None
      case Some(k) => Some(k + 1)
  }

  const FeatureNotFound: Exc := ValueError("Feature not found")
  const ActionNotPermitted: Exc := ValueError("Action not permitted")

  /** The checks `set_permission` makes before writing, in the order it
      makes them: the feature must exist, the caller's tier must have an
      entry in `negasiperm`, the action key must be in the enumeration, and
      the action's bit must not be withheld from the tier. The result is the
      action's bit or the error raised. */
  function PermittedBit(features: seq<Feature>, authority: Mask, req: PermissionRequest, bitRA: ActionEnum)
    : Result<Mask>
  {
    match FindFeature(features, req.fId)
    case None => Raise(FeatureNotFound)
    case Some(f) =>
      if TierKey(authority) !in f.negasiperm then Raise(TierKeyError(authority))
      else match BitOf(bitRA, req.keyAction)
        case None => Raise(KeyError(req.keyAction))
        case Some(bit) =>
          if f.negasiperm[TierKey(authority)] & bit != 0 then Raise(ActionNotPermitted)
          else Ok(bit)
  }

  /** The outcome of `set_permission` on grant table `grants`, for a caller
      of tier `authority` in organisation `orgId`: the result and the new
      grant table. `freshId` is the identifier `uuid4` draws for an insert. */
  function SetPermissionOutcome(
    grants: seq<Grant>, features: seq<Feature>, authority: Mask, orgId: string,
    req: PermissionRequest, bitRA: ActionEnum, freshId: string): (Result<Written>, seq<Grant>)
  {
    match PermittedBit(features, authority, req, bitRA)
    case Raise(e) => (Raise(e), grants)
    case Ok(bit) => WriteOutcome(grants, orgId, req, bit, freshId)
  }

  /** The write of a permitted action: toggle the first row of the role on
      the feature, or insert a row holding just the action's bit. */
  function WriteOutcome(grants: seq<Grant>, orgId: string, req: PermissionRequest, bit: Mask, freshId: string)
    : (Result<Written>, seq<Grant>)
  {
    match RowIndex(grants, req.rId, req.fId)
    case Some(k) =>
      var row := grants[k].(permission := Toggle(grants[k].permission, bit));
      (Ok(Updated(row)), grants[k := row])
    case None =>
      (Ok(Inserted(req)), grants + [Grant(freshId, orgId, req.rId, req.fId, bit)])
  }

  /** Every refusal leaves the grant table as it was. */
  lemma RefusalWritesNothing(
    grants: seq<Grant>, features: seq<Feature>, authority: Mask, orgId: string,
    req: PermissionRequest, bitRA: ActionEnum, freshId: string)
    ensures var (r, after) := SetPermissionOutcome(grants, features, authority, orgId, req, bitRA, freshId);
      r.Raise? ==> after == grants
  {
  }

  /** The refusals, each with its cause: an unknown feature, a tier missing
      from `negasiperm` (an error, not a zero mask), an unknown action key,
      and an action bit withheld from the caller's tier. */
  lemma Refusals(
    grants: seq<Grant>, features: seq<Feature>, authority: Mask, orgId: string,
    req: PermissionRequest, bitRA: ActionEnum, freshId: string)
    ensures var r := SetPermissionOutcome(grants, features, authority, orgId, req, bitRA, freshId).0;
      && (r == Raise(FeatureNotFound) <==> FindFeature(features, req.fId).None?)
      && ((FindFeature(features, req.fId).Some? && TierKey(authority) !in FindFeature(features, req.fId).value.negasiperm)
          ==> r == Raise(TierKeyError(authority)))
      && (r == Raise(ActionNotPermitted) <==>
            exists f, bit :: FindFeature(features, req.fId) == Some(f) && TierKey(authority) in f.negasiperm
              && BitOf(bitRA, req.keyAction) == Some(bit) && f.negasiperm[TierKey(authority)] & bit != 0)
  {
    var r := SetPermissionOutcome(grants, features, authority, orgId, req, bitRA, freshId).0;
    if r == Raise(ActionNotPermitted) {
      var f := FindFeature(features, req.fId).value;
      var bit := BitOf(bitRA, req.keyAction).value;
      assert FindFeature(features, req.fId) == Some(f) && BitOf(bitRA, req.keyAction) == Some(bit);
    }
  }

  /** A permitted action on an existing row rewrites that row's permission
      with the toggle and touches no other row; otherwise exactly one row is
      appended, holding just the action's bit and the caller's organisation. */
  lemma PermittedWrite(
    grants: seq<Grant>, features: seq<Feature>, authority: Mask, orgId: string,
    req: PermissionRequest, bitRA: ActionEnum, freshId: string, f: Feature, bit: Mask)
    requires FindFeature(features, req.fId) == Some(f) && TierKey(authority) in f.negasiperm
    requires BitOf(bitRA, req.keyAction) == Some(bit) && f.negasiperm[TierKey(authority)] & bit == 0
    ensures var (r, after) := SetPermissionOutcome(grants, features, authority, orgId, req, bitRA, freshId);
      match RowIndex(grants, req.rId, req.fId)
      case Some(k) =>
        && |after| == |grants|
        && after[k].permission == Toggle(grants[k].permission, bit)
        && after[k].(permission := grants[k].permission) == grants[k]
        && (forall i :: 0 <= i < |grants| && i != k ==> after[i] == grants[i])
        && r == Ok(Updated(after[k]))
      case None =>
        && after[..|grants|] == grants
        && after == grants + [Grant(freshId, orgId, req.rId, req.fId, bit)]
        && r == Ok(Inserted(req))
  {
  }

  /** Switching the same one-bit action twice on an existing row restores the grant table. */
  lemma SetPermissionTwice(
    grants: seq<Grant>, features: seq<Feature>, authority: Mask, orgId: string,
    req: PermissionRequest, bitRA: ActionEnum, freshId: string, bit: Mask)
    requires RowIndex(grants, req.rId, req.fId).Some?
    requires BitOf(bitRA, req.keyAction) == Some(bit) && SingleBit(bit)
    ensures var once := SetPermissionOutcome(grants, features, authority, orgId, req, bitRA, freshId).1;
      SetPermissionOutcome(once, features, authority, orgId, req, bitRA, freshId).1 == grants
  {
    var (r, once) := SetPermissionOutcome(grants, features, authority, orgId, req, bitRA, freshId);
    if r.Ok? {
      var k := RowIndex(grants, req.rId, req.fId).value;
      SingleBitAllOrNothing(grants[k].permission, bit);
      ToggleTwice(grants[k].permission, bit);
      assert RowIndex(once, req.rId, req.fId) == Some(k) by {
        RowIndexAfterWrite(grants, k, once[k], req.rId, req.fId);
      }
      assert once[k := grants[k]] == grants;
    }
  }

  /** Rewriting the permission of the first matching row keeps it the first matching row. */
  lemma RowIndexAfterWrite(grants: seq<Grant>, k: nat, row: Grant, rId: string, fId: string)
    requires RowIndex(grants, rId, fId) == Some(k)
    requires row.roleId == rId && row.featureId == fId
    ensures RowIndex(grants[k := row], rId, fId) == Some(k)
  {
    assert grants[k := row][k] == row;
  }

  // ---------------------------------------------------------------------
  // get_all: the permission matrix of one role

  /** The `filters` argument as the listing route builds it: absent (None),
      an empty dictionary, or `{"r_id": rId}`. */
  datatype Filters = NoFilters | ByRole(rId: Option<string>)

  /** `$match: filters or {}` over the grant rows. */
  function Selected(grants: seq<Grant>, filters: Filters): (r: seq<Grant>)
    ensures |r| <= |grants|
    ensures forall g :: g in r <==> g in grants && (filters.ByRole? && filters.rId.Some? ==> g.roleId == filters.rId.value)
  {
    if grants == [] then []
    else
      var keep := !(filters.ByRole? && filters.rId.Some?) || grants[0].roleId == filters.rId.value;
      (if keep then [grants[0]] else []) + Selected(grants[1..], filters)
  }

  /** `rolesFeature.get(fId)` after `rolesFeature[i['f_id']] = i['permission']`
      over `rows`: the permission of the last row on the feature. */
  function LastPermission(rows: seq<Grant>, fId: string): Option<Mask> {
    if rows == [] then None
    else if rows[|rows| - 1].featureId == fId then Some(rows[|rows| - 1].permission)
    else LastPermission(rows[..|rows| - 1], fId)
  }

  /** The last row wins: the recorded permission is that of a row on the
      feature with no later row on the same feature, and there is one
      exactly when some row is on the feature. */
  lemma {:induction false} LastRowWins(rows: seq<Grant>, fId: string)
    ensures LastPermission(rows, fId).None? <==> forall i :: 0 <= i < |rows| ==> rows[i].featureId != fId
    ensures LastPermission(rows, fId).Some? ==>
      exists i :: 0 <= i < |rows| && rows[i].featureId == fId && rows[i].permission == LastPermission(rows, fId).value
        && forall j :: i < j < |rows| ==> rows[j].featureId != fId
  {
    if rows != [] {
      var init := rows[..|rows| - 1];
      LastRowWins(init, fId);
      forall i | 0 <= i < |init| ensures init[i] == rows[i] { }
      if rows[|rows| - 1].featureId != fId && LastPermission(rows, fId).Some? {
        var i :| 0 <= i < |init| && init[i].featureId == fId && init[i].permission == LastPermission(init, fId).value
          && forall j :: i < j < |init| ==> init[j].featureId != fId;
        assert rows[i] == init[i];
      }
    }
  }

  /** The action bit and the mask share a bit (`bit & mask` is truthy). */
  predicate Shares(mask: Mask, bit: Mask) {
    mask & bit != 0
  }

  /** The state of one action of one feature: 1 assigned, 2 unassigned,
      0 disabled. `dataawal` is the placeholder role whose default is
      disabled; `granted` is the last grant row's permission on the feature;
      `neg` is the mask withheld from the caller's tier. */
  function ActionState(bit: Mask, dataawal: bool, granted: Option<Mask>, neg: Mask): int {
    if Shares(neg, bit) then 0
    else if granted.Some? then (if Shares(granted.value, bit) then 1 else 2)
    else if dataawal then 0
    else 2
  }

  /** What each state means. */
  lemma ActionStateMeaning(bit: Mask, dataawal: bool, granted: Option<Mask>, neg: Mask)
    ensures var st := ActionState(bit, dataawal, granted, neg);
      && (st == 0 <==> Shares(neg, bit) || (granted.None? && dataawal))
      && (st == 1 <==> !Shares(neg, bit) && granted.Some? && Shares(granted.value, bit))
      && (st == 2 <==> !Shares(neg, bit) && (granted.Some? ==> !Shares(granted.value, bit)) && (granted.None? ==> !dataawal))
  {
  }

  /** A withheld action is shown disabled whatever the grant rows say, so an
      assigned action is never one withheld from the caller's tier. */
  lemma WithheldIsDisabled(bit: Mask, dataawal: bool, granted: Option<Mask>, neg: Mask)
    requires Shares(neg, bit)
    ensures ActionState(bit, dataawal, granted, neg) == 0
  {
  }

  /** One cell of the matrix: an action key and its state. */
  datatype Cell = Cell(action: string, state: int)

  /** One feature's row: its id, its name and a cell per action, in
      enumeration order. */
  datatype MatrixRow = MatrixRow(id: string, featureName: string, cells: seq<Cell>)

  function Cells(bitRA: ActionEnum, dataawal: bool, granted: Option<Mask>, neg: Mask): (r: seq<Cell>)
    ensures |r| == |bitRA|
    ensures forall k :: 0 <= k < |r| ==> r[k] == Cell(bitRA[k].key, ActionState(bitRA[k].bit, dataawal, granted, neg))
  {
    seq(|bitRA|, k requires 0 <= k < |bitRA| => Cell(bitRA[k].key, ActionState(bitRA[k].bit, dataawal, granted, neg)))
  }

  const NotSubscriptable: Exc := TypeError("'NoneType' object is not subscriptable")

  /** The row the loop appends for feature `f`, None for a hidden feature, or
      the error the body raises: `filters["r_id"]` first, then the tier's
      `negasiperm` entry. */
  function FeatureRow(f: Feature, rows: seq<Grant>, authority: Mask, filters: Filters, bitRA: ActionEnum)
    : Result<Option<MatrixRow>>
  {
    if !Visible(f, authority) then Ok(None)
    else match RowChecks(f, authority, filters)
      case Raise(e) => Raise(e)
      case Ok(dataawal) =>
        Ok(Some(MatrixRow(f.id, f.name, Cells(bitRA, dataawal, LastPermission(rows, f.id), f.negasiperm[TierKey(authority)]))))
  }

  /** The lookups the loop body makes for a visible feature, in order: the
      role filter, then the tier's `negasiperm` entry. The result says
      whether the filtered role is the `dataawal` placeholder. */
  function RowChecks(f: Feature, authority: Mask, filters: Filters): (r: Result<bool>)
    ensures r.Ok? ==> TierKey(authority) in f.negasiperm
  {
    if filters.NoFilters? then Raise(NotSubscriptable)
    else if filters.rId.None? then Raise(KeyError("r_id"))
    else if TierKey(authority) !in f.negasiperm then Raise(TierKeyError(authority))
    else Ok(filters.rId.value == "dataawal")
  }

  /** The matrix over `features` in order: the first error raised, or the
      rows of the visible features. */
  function Matrix(features: seq<Feature>, rows: seq<Grant>, authority: Mask, filters: Filters, bitRA: ActionEnum)
    : Result<seq<MatrixRow>>
  {
    if features == [] then Ok([])
    else
      var init := features[..|features| - 1];
      match Matrix(init, rows, authority, filters, bitRA)
      case Raise(e) => Raise(e)
      case Ok(prev) =>
        match FeatureRow(features[|features| - 1], rows, authority, filters, bitRA)
        case Raise(e) => Raise(e)
        case Ok(None) => Ok(prev)
        case Ok(Some(row)) => Ok(prev + [row])
  }

  /** One more feature extends the matrix by that feature's row. */
  lemma MatrixStep(features: seq<Feature>, n: nat, rows: seq<Grant>, authority: Mask, filters: Filters, bitRA: ActionEnum)
    requires n < |features|
    ensures Matrix(features[..n + 1], rows, authority, filters, bitRA) ==
      match Matrix(features[..n], rows, authority, filters, bitRA)
      case Raise(e) => Raise(e)
      case Ok(prev) =>
        match FeatureRow(features[n], rows, authority, filters, bitRA)
        case Raise(e) => Raise(e)
        case Ok(None) => Ok(prev)
        case Ok(Some(row)) => Ok(prev + [row])
  {
    assert features[..n + 1][..n] == features[..n];
  }

  /** An error raised at some feature ends the listing with that error. */
  lemma {:induction false} ErrorStops(features: seq<Feature>, m: nat, rows: seq<Grant>, authority: Mask, filters: Filters, bitRA: ActionEnum)
    requires m <= |features|
    requires Matrix(features[..m], rows, authority, filters, bitRA).Raise?
    ensures Matrix(features, rows, authority, filters, bitRA) == Matrix(features[..m], rows, authority, filters, bitRA)
    decreases |features| - m
  {
    if m < |features| {
      var init := features[..|features| - 1];
      assert init[..m] == features[..m];
      ErrorStops(init, m, rows, authority, filters, bitRA);
    } else {
      assert features[..m] == features;
    }
  }

  /** The matrix succeeds exactly when no visible feature meets a missing
      role filter or a tier without `negasiperm` entry, and then it has one
      row per visible feature, in order, with that feature's id and name. */
  lemma {:induction false} MatrixShape(features: seq<Feature>, rows: seq<Grant>, authority: Mask, filters: Filters, bitRA: ActionEnum)
    ensures Matrix(features, rows, authority, filters, bitRA).Ok? <==>
      forall f :: f in features && Visible(f, authority) ==>
        filters.ByRole? && filters.rId.Some? && TierKey(authority) in f.negasiperm
    ensures Matrix(features, rows, authority, filters, bitRA).Ok? ==>
      var m := Matrix(features, rows, authority, filters, bitRA).value;
      var vis := VisibleFeatures(features, authority);
      |m| == |vis| && forall k :: 0 <= k < |m| ==> m[k].id == vis[k].id && m[k].featureName == vis[k].name
  {
    if features != [] {
      var init := features[..|features| - 1];
      var last := features[|features| - 1];
      assert features == init + [last];
      MatrixShape(init, rows, authority, filters, bitRA);
    }
  }

  /** Without visible features the matrix is empty, whatever the filters. */
  lemma {:induction false} NothingVisible(features: seq<Feature>, rows: seq<Grant>, authority: Mask, filters: Filters, bitRA: ActionEnum)
    requires forall i :: 0 <= i < |features| ==> !Visible(features[i], authority)
    ensures Matrix(features, rows, authority, filters, bitRA) == Ok([])
  {
    if features != [] {
      var init := features[..|features| - 1];
      assert forall i :: 0 <= i < |init| ==> init[i] == features[i];
      NothingVisible(init, rows, authority, filters, bitRA);
    }
  }

  /** The feature service with its caller context. */
  class FeatureService {
    var orgId: string
    var authority: Mask

    constructor (orgId: string, authority: Mask)
      ensures this.orgId == orgId && this.authority == authority
    {
      this.orgId := orgId;
      this.authority := authority;
    }

    /** `set_context`: the caller's organisation and tier. */
    method SetContext(orgId: string, authority: Mask)
      modifies this
      ensures this.orgId == orgId && this.authority == authority
    {
      this.orgId := orgId;
      this.authority := authority;
    }

    /** `set_permission`: refuse, toggle the first matching row, or insert one. */
    method SetPermission(db: Database, req: PermissionRequest, bitRA: ActionEnum, freshId: string)
      returns (r: Result<Written>)
      modifies db`grants
      ensures r == SetPermissionOutcome(old(db.grants), db.features, authority, orgId, req, bitRA, freshId).0
      ensures db.grants == SetPermissionOutcome(old(db.grants), db.features, authority, orgId, req, bitRA, freshId).1
    {
      var permitted := PermittedBit(db.features, authority, req, bitRA);
      if permitted.Raise? {
        return Raise(permitted.exc);
      }
      var bit := permitted.value;
      r := WritePermission(db, req, bit, freshId);
    }

    /** The update or insert that ends a permitted `set_permission`. */
    method WritePermission(db: Database, req: PermissionRequest, bit: Mask, freshId: string)
      returns (r: Result<Written>)
      modifies db`grants
      ensures r == WriteOutcome(old(db.grants), orgId, req, bit, freshId).0
      ensures db.grants == WriteOutcome(old(db.grants), orgId, req, bit, freshId).1
    {
      var existing := RowIndex(db.grants, req.rId, req.fId);
      if existing.Some? {
        var k := existing.value;
        var row := db.grants[k].(permission := Toggle(db.grants[k].permission, bit));
        db.grants := db.grants[k := row];
        return Ok(Updated(row));
      }
      db.grants := db.grants + [Grant(freshId, orgId, req.rId, req.fId, bit)];
      return Ok(Inserted(req));
    }

    /** `get_all(filters)`: the permission matrix of the filtered role over
        every feature visible to the caller's tier. */
    method GetAll(db: Database, filters: Filters, bitRA: ActionEnum) returns (r: Result<seq<MatrixRow>>)
      ensures r == Matrix(db.features, Selected(db.grants, filters), authority, filters, bitRA)
    {
      var rows := Selected(db.grants, filters);
      var rolesFeature := RolesFeature(rows);
      var features := db.features;
      var results: seq<MatrixRow> := [];
      var n := 0;
      while n < |features|
        invariant 0 <= n <= |features|
        invariant Matrix(features[..n], rows, authority, filters, bitRA) == Ok(results)
      {
        MatrixStep(features, n, rows, authority, filters, bitRA);
        var entry := LoopBody(features[n], rows, rolesFeature, filters, bitRA);
        if entry.Raise? {
          ErrorStops(features, n + 1, rows, authority, filters, bitRA);
          return Raise(entry.exc);
        }
        if entry.value.Some? {
          results := results + [entry.value.value];
        }
        n := n + 1;
      }
      assert features[..n] == features;
      r := Ok(results);
    }

    /** The body of the second loop of `get_all` for feature `f`. */
    method LoopBody(f: Feature, rows: seq<Grant>, rolesFeature: map<string, Mask>, filters: Filters, bitRA: ActionEnum)
      returns (entry: Result<Option<MatrixRow>>)
      requires forall fId :: LastPermission(rows, fId) == if |rows| > 0 && fId in rolesFeature then Some(rolesFeature[fId]) else None
      ensures entry == FeatureRow(f, rows, authority, filters, bitRA)
    {
      if !Visible(f, authority) {
        return Ok(None);
      }
      var checks := RowChecks(f, authority, filters);
      if checks.Raise? {
        return Raise(checks.exc);
      }
      var dataawal := checks.value;
      var granted := if |rows| > 0 && f.id in rolesFeature then Some(rolesFeature[f.id]) else None;
      assert granted == LastPermission(rows, f.id);
      var cells := FeatureCells(bitRA, dataawal, granted, f.negasiperm[TierKey(authority)]);
      return Ok(Some(MatrixRow(f.id, f.name, cells)));
    }

    /** The first loop of `get_all`: `rolesFeature[i['f_id']] = i['permission']` over the rows. */
    method RolesFeature(rows: seq<Grant>) returns (rolesFeature: map<string, Mask>)
      ensures forall fId :: LastPermission(rows, fId) == if |rows| > 0 && fId in rolesFeature then Some(rolesFeature[fId]) else None
    {
      rolesFeature := map[];
      var i := 0;
      while i < |rows|
        invariant 0 <= i <= |rows|
        invariant forall fId :: LastPermission(rows[..i], fId) == if fId in rolesFeature then Some(rolesFeature[fId]) else None
      {
        assert rows[..i + 1][..i] == rows[..i];
        rolesFeature := rolesFeature[rows[i].featureId := rows[i].permission];
        i := i + 1;
      }
      assert rows[..i] == rows;
    }

    /** The three passes over the enumeration that fill one feature's row:
        the default, the granted bits, then the withheld bits. */
    method FeatureCells(bitRA: ActionEnum, dataawal: bool, granted: Option<Mask>, neg: Mask) returns (cells: seq<Cell>)
      ensures cells == Cells(bitRA, dataawal, granted, neg)
    {
      var defaultStatus := if dataawal then 0 else 2;
      var states: seq<int> := [];
      for k := 0 to |bitRA|
        invariant |states| == k
        invariant forall j :: 0 <= j < k ==> states[j] == defaultStatus
      {
        states := states + [defaultStatus];
      }
      if granted.Some? {
        for k := 0 to |bitRA|
          invariant |states| == |bitRA|
          invariant forall j :: 0 <= j < k ==> states[j] == if Shares(granted.value, bitRA[j].bit) then 1 else 2
          invariant forall j :: k <= j < |bitRA| ==> states[j] == defaultStatus
        {
          states := states[k := if Shares(granted.value, bitRA[k].bit) then 1 else 2];
        }
      }
      if neg != 0 {
        for k := 0 to |bitRA|
          invariant |states| == |bitRA|
          invariant forall j :: 0 <= j < k ==> states[j] == ActionState(bitRA[j].bit, dataawal, granted, neg)
          invariant forall j :: k <= j < |bitRA| ==> states[j] == ActionState(bitRA[j].bit, dataawal, granted, 0)
        {
          states := states[k := if Shares(neg, bitRA[k].bit) then 0 else states[k]];
        }
      }
      cells := seq(|bitRA|, k requires 0 <= k < |bitRA| => Cell(bitRA[k].key, states[k]));
    }
  }
}

=== FILE: forgot_password.dfy ===
/** Password recovery: a one-time password is kept under `otp:{email}` for
    five minutes; presenting it once exchanges it for a reset token kept
    under `reset_token:{email}` for fifteen minutes; presenting that token
    once sets the new password and revokes every refresh token of the
    user. */
module ForgotPassword {
  import opened Base
  import opened Records
  import opened Utility
  import opened Jwt
  import opened KeyValue
  import Str

  /** `is_valid_user(username)`: the id of the first user whose user name or
      e-mail address matches, when that user is active; None stands for
      `False`. */
  function IsValidUser(users: seq<User>, login: string): (r: Option<string>)
    ensures r.Some? <==> FindUserByLogin(users, login).Some? && FindUserByLogin(users, login).value.status == Active
    ensures r.Some? ==> r.value == FindUserByLogin(users, login).value.id
  {
    match FindUserByLogin(users, login)
    case None => None
    case Some(u) => if u.status != Active then None else Some(u.id)
  }

  /** Python's truth test on the result: an empty id counts as `False` too. */
  predicate Truthy(r: Option<string>) {
    r.Some? && r.value != ""
  }

  function OtpKey(email: string): string { "otp:" + email }
  function ResetKey(email: string): string { "reset_token:" + email }

  const OtpTtl: nat := 300
  const ResetTtl: nat := 900
  const UserNotFound: Exc := ValueError("User not found")
  const InvalidOtp: Exc := ValueError("Invalid or expired OTP")
  const InvalidReset: Exc := ValueError("Invalid or expired reset token")
  const ResetFailed: Exc := ValueError("Reset password failed")

  /** `str(random.randint(100000, 999999))` for the random draw `d`. */
  function Otp(d: nat): string {
    Str.Decimal(100000 + d % 900000)
  }

  /** Every one-time password has six digits. */
  lemma OtpSixDigits(d: nat)
    ensures |Otp(d)| == 6
    ensures forall k :: 0 <= k < 6 ==> '0' <= Otp(d)[k] <= '9'
  {
    var n := 100000 + d % 900000;
    DecimalLength(n, 5);
  }

  function Pow10(e: nat): nat {
    if e == 0 then 1 else 10 * Pow10(e - 1)
  }

  lemma {:induction false} DecimalLength(n: nat, e: nat)
    requires Pow10(e) <= n < 10 * Pow10(e)
    ensures |Str.Decimal(n)| == e + 1
  {
    if e > 0 {
      DecimalLength(n / 10, e - 1);
    }
  }

  /** The task `send_otp` puts on the `otp_tasks` queue. */
  function OtpTask(email: string, otp: string): Doc {
    map["email" := VStr(email), "otp" := VStr(otp), "subject" := VStr("Request Forgot Password"),
        "body" := VStr("Berikut kode OTP Anda: " + otp)]
  }

  // ---------------------------------------------------------------------
  // Specification

  /** `send_otp`: the key-store after it and the queued task. */
  function SendOtpOutcome(entries: map<string, Entry>, users: seq<User>, email: string, d: nat)
    : (Result<Doc>, map<string, Entry>)
  {
    if !Truthy(IsValidUser(users, email)) then (Raise(UserNotFound), entries)
    else (Ok(OtpTask(email, Otp(d))), entries[OtpKey(email) := Entry(Text(Otp(d)), OtpTtl)])
  }

  /** The stored value is the non-empty text `s` (`stored and stored == s`). */
  predicate StoredIs(entries: map<string, Entry>, key: string, s: string) {
    Lookup(entries, key) == Some(Text(s)) && s != ""
  }

  /** `verify_otp`: the reset token drawn, and the key-store after it. */
  function VerifyOtpOutcome(entries: map<string, Entry>, email: string, otp: string, r: nat)
    : (Result<string>, map<string, Entry>)
  {
    if !StoredIs(entries, OtpKey(email), otp) then (Raise(InvalidOtp), entries)
    else
      var token := GenerateUuid(r);
      (Ok(token), (entries - {OtpKey(email)})[ResetKey(email) := Entry(Text(token), ResetTtl)])
  }

  /** `reset_password`: the users and the key-store after it. */
  function ResetPasswordOutcome(entries: map<string, Entry>, users: seq<User>, email: string, resetToken: string,
                                newPassword: string, freshSalt: string)
    : (Result<()>, seq<User>, map<string, Entry>)
  {
    if !StoredIs(entries, ResetKey(email), resetToken) then (Raise(InvalidReset), users, entries)
    else
      var id := IsValidUser(users, email);
      if !Truthy(id) then (Raise(UserNotFound), users, entries)
      else match UserIndex(users, id.value)
        case None => (Raise(ResetFailed), users, entries)
        case Some(k) =>
          (Ok(()), users[k := users[k].(password := Some(HashPassword(newPassword, None, freshSalt)))],
           RevokeAll(entries, id.value) - {ResetKey(email)})
  }

  // ---------------------------------------------------------------------
  // The operations

  method SendOtp(store: KeyStore, users: seq<User>, email: string, d: nat) returns (r: Result<Doc>)
    modifies store
    ensures (r, store.entries) == SendOtpOutcome(old(store.entries), users, email, d)
  {
    if !Truthy(IsValidUser(users, email)) {
      return Raise(UserNotFound);
    }
    var otp := Otp(d);
    store.entries := store.entries[OtpKey(email) := Entry(Text(otp), OtpTtl)];
    r := Ok(OtpTask(email, otp));
  }

  method VerifyOtp(store: KeyStore, email: string, otp: string, rnd: nat) returns (r: Result<string>)
    modifies store
    ensures (r, store.entries) == VerifyOtpOutcome(old(store.entries), email, otp, rnd)
  {
    var stored := Lookup(store.entries, OtpKey(email));
    if stored == Some(Text(otp)) && otp != "" {
      var token := GenerateUuid(rnd);
      store.entries := store.entries - {OtpKey(email)};
      store.entries := store.entries[ResetKey(email) := Entry(Text(token), ResetTtl)];
      return Ok(token);
    }
    r := Raise(InvalidOtp);
  }

  method ResetPassword(store: KeyStore, db: Database, email: string, resetToken: string, newPassword: string, freshSalt: string)
    returns (r: Result<()>)
    modifies store, db`users
    ensures (r, db.users, store.entries) ==
      ResetPasswordOutcome(old(store.entries), old(db.users), email, resetToken, newPassword, freshSalt)
  {
    var stored := Lookup(store.entries, ResetKey(email));
    if !(stored == Some(Text(resetToken)) && resetToken != "") {
      return Raise(InvalidReset);
    }
    var id := IsValidUser(db.users, email);
    if !Truthy(id) {
      return Raise(UserNotFound);
    }
    var hashed := HashPassword(newPassword, None, freshSalt);
    var k := UserIndex(db.users, id.value);
    if k.None? {
      return Raise(ResetFailed);
    }
    db.users := db.users[k.value := db.users[k.value].(password := Some(hashed))];
    store.entries := RevokeAll(store.entries, id.value);
    store.entries := store.entries - {ResetKey(email)};
    r := Ok(());
  }

  // ---------------------------------------------------------------------
  // Properties

  /** An unknown or inactive user gets "User not found" and nothing is
      stored; otherwise a six-digit code is stored for five minutes and is
      the code in the queued task. */
  lemma SendOtpStores(entries: map<string, Entry>, users: seq<User>, email: string, d: nat)
    ensures var (r, entries') := SendOtpOutcome(entries, users, email, d);
      && (r.Raise? <==> !Truthy(IsValidUser(users, email)))
      && (r.Raise? ==> r.exc == UserNotFound && entries' == entries)
      && (r.Ok? ==>
            && OtpKey(email) in entries' && entries'[OtpKey(email)].ttl == OtpTtl
            && StoredIs(entries', OtpKey(email), Otp(d)) && |Otp(d)| == 6
            && r.value["otp"] == VStr(Otp(d))
            && forall k :: k != OtpKey(email) ==> Lookup(entries', k) == Lookup(entries, k))
  {
    OtpSixDigits(d);
  }

  /** The code is accepted exactly when it is the stored one; then it is
      spent and a fifteen-minute reset token takes its place; otherwise the
      store is unchanged. */
  lemma VerifyOtpIff(entries: map<string, Entry>, email: string, otp: string, rnd: nat)
    ensures var (r, entries') := VerifyOtpOutcome(entries, email, otp, rnd);
      && (r.Ok? <==> Lookup(entries, OtpKey(email)) == Some(Text(otp)) && otp != "")
      && (r.Raise? ==> r.exc == InvalidOtp && entries' == entries)
      && (r.Ok? ==>
            && OtpKey(email) !in entries'
            && StoredIs(entries', ResetKey(email), r.value) && entries'[ResetKey(email)].ttl == ResetTtl
            && |r.value| == 32)
  {
    KeysDiffer(email);
  }

  /** `otp:` and `reset_token:` keys never coincide. */
  lemma KeysDiffer(email: string)
    ensures OtpKey(email) != ResetKey(email)
  {
    assert OtpKey(email)[0] == 'o' && ResetKey(email)[0] == 'r';
  }

  /** A code works once: the same code presented again is refused. */
  lemma OtpSingleUse(entries: map<string, Entry>, email: string, otp: string, r1: nat, r2: nat)
    requires VerifyOtpOutcome(entries, email, otp, r1).0.Ok?
    ensures VerifyOtpOutcome(VerifyOtpOutcome(entries, email, otp, r1).1, email, otp, r2).0 == Raise(InvalidOtp)
  {
    VerifyOtpIff(entries, email, otp, r1);
  }

  /** The code sent is the code that verifies, when nothing else touched
      the key between the two calls. */
  lemma SentCodeVerifies(entries: map<string, Entry>, users: seq<User>, email: string, d: nat, rnd: nat)
    requires Truthy(IsValidUser(users, email))
    ensures VerifyOtpOutcome(SendOtpOutcome(entries, users, email, d).1, email, Otp(d), rnd).0.Ok?
  {
    OtpSixDigits(d);
  }

  /** A reset with a token that is not the stored one changes nothing. */
  lemma ResetRefusedUnchanged(entries: map<string, Entry>, users: seq<User>, email: string, resetToken: string,
                              newPassword: string, freshSalt: string)
    requires !StoredIs(entries, ResetKey(email), resetToken)
    ensures ResetPasswordOutcome(entries, users, email, resetToken, newPassword, freshSalt) == (Raise(InvalidReset), users, entries)
  {
  }

  /** An accepted reset rewrites the hash of the first user with the
      matched user's id, and only it, to one that accepts the new password
      and nothing else; it spends the reset token and leaves no refresh
      token of the user behind. */
  lemma ResetPasswordEffect(entries: map<string, Entry>, users: seq<User>, email: string, resetToken: string,
                            newPassword: string, freshSalt: string, other: string)
    requires newPassword != ""
    requires ResetPasswordOutcome(entries, users, email, resetToken, newPassword, freshSalt).0.Ok?
    ensures FindUserByLogin(users, email).Some? && UserIndex(users, FindUserByLogin(users, email).value.id).Some?
    ensures var (_, users', entries') := ResetPasswordOutcome(entries, users, email, resetToken, newPassword, freshSalt);
      var id := FindUserByLogin(users, email).value.id;
      var k := UserIndex(users, id).value;
      && |users'| == |users|
      && (forall i :: 0 <= i < |users| && i != k ==> users'[i] == users[i])
      && users'[k] == users[k].(password := users'[k].password)
      && (CheckPassword(other, users'[k].password) <==> other == newPassword)
      && ResetKey(email) !in entries'
      && (forall key :: key in entries' ==> !SessionOf(entries'[key], id))
  {
    if other == newPassword {
      CheckOwnHash(newPassword, None, freshSalt);
    }
    if CheckPassword(other, Some(HashPassword(newPassword, None, freshSalt))) {
      CheckOnlyOwnHash(newPassword, other, None, freshSalt);
    }
  }
}

=== FILE: index_list.dfy ===
/** The index list of the document store: the named indexes an
    organisation defines for its documents. An index is created with the
    caller's identity, read and updated by its id (a missing id is "Index
    not found"), and listed a page at a time with the same filter
    translation as the other listings. */
module IndexList {
  import opened Base
  import opened Records
  import opened DbErrors
  import QueryFilter
  import Pagination

  /** `IndexList`, the creation payload. */
  datatype NewIndex = NewIndex(name: string, description: Option<string>, kind: string, status: Option<Status>)

  /** `IndexListUpdate`, the update payload. */
  datatype IndexUpdate = IndexUpdate(description: Option<string>, kind: string, status: Option<Status>)

  const NotFound: Exc := ValueError("Index not found")
  const CreateFailed: Exc := ValueError("Database error occurred while creating document.")

  function OptText(s: Option<string>): Value {
    if s.Some? then VStr(s.value) else VNull
  }

  function OptStatus(s: Option<Status>): Value {
    if s.Some? then VStr(StatusName(s.value)) else VNull
  }

  /** `data.model_dump()` of a creation payload. */
  function DumpNew(data: NewIndex): Doc {
    map["name" := VStr(data.name), "description" := OptText(data.description),
        "type" := VStr(data.kind), "status" := OptStatus(data.status)]
  }

  /** `data.model_dump()` of an update payload. */
  function DumpUpdate(data: IndexUpdate): Doc {
    map["description" := OptText(data.description), "type" := VStr(data.kind), "status" := OptStatus(data.status)]
  }

  /** The dictionary `create` inserts and returns: the payload with the new
      id, the author, the creation time and the organisation added. */
  function Created(data: NewIndex, id: string, userId: string, orgId: string, now: int): Doc {
    DumpNew(data)["_id" := VStr(id)]["rec_by" := VStr(userId)]["rec_date" := VInt(now)]["org_id" := VStr(orgId)]
  }

  /** The `$set` of an update: the payload with the editor and the time. */
  function Stamped(payload: Doc, userId: string, now: int): Doc {
    payload["mod_by" := VStr(userId)]["mod_date" := VInt(now)]
  }

  /** The position of the first index with that id, if any. */
  function IndexOf(xs: seq<IndexDoc>, id: string): (r: Option<nat>)
    ensures r.None? <==> forall i :: 0 <= i < |xs| ==> xs[i].id != id
    ensures r.Some? ==> r.value < |xs| && xs[r.value].id == id
    ensures r.Some? ==> forall i :: 0 <= i < r.value ==> xs[i].id != id
  {
    if xs == [] then None
    else if xs[0].id == id then Some(0)
    else match IndexOf(xs[1..], id)
      case None => None
      case Some(k) => Some(k + 1)
  }

  /** `find_one({"_id": id})`, with the not-found check of `get_by_id`. */
  function Find(xs: seq<IndexDoc>, id: string): (r: Result<Doc>)
    ensures r.Raise? <==> forall i :: 0 <= i < |xs| ==> xs[i].id != id
    ensures r.Raise? ==> r.exc == NotFound
    ensures r.Ok? ==> exists i :: 0 <= i < |xs| && xs[i].id == id && xs[i].fields == r.value
  {
    match IndexOf(xs, id)
    case None => Raise(NotFound)
    case Some(k) => Ok(xs[k].fields)
  }

  /** `find_one_and_update({"_id": id}, {"$set": obj}, return_document=True)`
      with the not-found check: the first index with that id gets every
      key of `obj`, and the answer is the document after the update. */
  function SetOutcome(xs: seq<IndexDoc>, id: string, obj: Doc): (Result<Doc>, seq<IndexDoc>) {
    match IndexOf(xs, id)
    case None => (Raise(NotFound), xs)
    case Some(k) =>
      var updated := xs[k].(fields := xs[k].fields + obj);
      (Ok(updated.fields), xs[k := updated])
  }

  /** Every stored dictionary holds its own id under `_id`. */
  predicate WellKeyed(xs: seq<IndexDoc>) {
    forall i :: 0 <= i < |xs| ==> "_id" in xs[i].fields && xs[i].fields["_id"] == VStr(xs[i].id)
  }

  class IndexService {
    var userId: string
    var orgId: string

    constructor (userId: string, orgId: string)
      ensures this.userId == userId && this.orgId == orgId
    {
      this.userId := userId;
      this.orgId := orgId;
    }

    /** `set_context`: the caller's user and organisation. */
    method SetContext(userId: string, orgId: string)
      modifies this
      ensures this.userId == userId && this.orgId == orgId
    {
      this.userId := userId;
      this.orgId := orgId;
    }

    /** `create(data)` with the drawn id `newId` and the clock reading `now`;
        an id already taken is the database's duplicate-key error. */
    method Create(db: Database, data: NewIndex, newId: string, now: int) returns (r: Result<Doc>)
      modifies db`indexes
      ensures r.Raise? <==> IndexOf(old(db.indexes), newId).Some?
      ensures r.Raise? ==> r.exc == CreateFailed && db.indexes == old(db.indexes)
      ensures r.Ok? ==>
        && r.value == Created(data, newId, userId, orgId, now)
        && db.indexes == old(db.indexes) + [IndexDoc(newId, r.value)]
    {
      if IndexOf(db.indexes, newId).Some? {
        return Raise(CreateFailed);
      }
      var obj := Created(data, newId, userId, orgId, now);
      db.indexes := db.indexes + [IndexDoc(newId, obj)];
      r := Ok(obj);
    }

    /** `get_by_id(index_id)`. */
    method GetById(db: Database, id: string) returns (r: Result<Doc>)
      ensures r == Find(db.indexes, id)
    {
      var k := IndexOf(db.indexes, id);
      if k.None? {
        return Raise(NotFound);
      }
      r := Ok(db.indexes[k.value].fields);
    }

    /** The update both `update_by_id` and `update_status` perform. */
    method SetFields(db: Database, id: string, obj: Doc) returns (r: Result<Doc>)
      modifies db`indexes
      ensures (r, db.indexes) == SetOutcome(old(db.indexes), id, obj)
    {
      var k := IndexOf(db.indexes, id);
      if k.None? {
        return Raise(NotFound);
      }
      var updated := db.indexes[k.value].(fields := db.indexes[k.value].fields + obj);
      db.indexes := db.indexes[k.value := updated];
      r := Ok(updated.fields);
    }

    /** `update_by_id(index_id, data)`. */
    method UpdateById(db: Database, id: string, data: IndexUpdate, now: int) returns (r: Result<Doc>)
      modifies db`indexes
      ensures (r, db.indexes) == SetOutcome(old(db.indexes), id, Stamped(DumpUpdate(data), userId, now))
    {
      r := SetFields(db, id, Stamped(DumpUpdate(data), userId, now));
    }

    /** `update_status(index_id, UpdateStatus(status=s))`: the payload is the
        status alone. */
    method UpdateStatus(db: Database, id: string, status: Status, now: int) returns (r: Result<Doc>)
      modifies db`indexes
      ensures (r, db.indexes) == SetOutcome(old(db.indexes), id, Stamped(StatusPayload(status), userId, now))
    {
      r := SetFields(db, id, Stamped(StatusPayload(status), userId, now));
    }
  }

  function StatusPayload(status: Status): Doc {
    map["status" := VStr(StatusName(status))]
  }

  /** The created document holds the payload's name and type, its id,
      author and organisation. */
  lemma CreatedFields(data: NewIndex, id: string, userId: string, orgId: string, now: int)
    ensures var d := Created(data, id, userId, orgId, now);
      && d["name"] == VStr(data.name) && d["type"] == VStr(data.kind)
      && d["_id"] == VStr(id) && d["rec_by"] == VStr(userId) && d["org_id"] == VStr(orgId)
  {
  }

  /** An index appended under an id no earlier index has is what a read of
      that id finds, and it keeps the list well keyed when its dictionary
      holds the id. */
  lemma {:induction false} CreateThenGet(xs: seq<IndexDoc>, d: Doc, id: string)
    requires IndexOf(xs, id).None?
    ensures Find(xs + [IndexDoc(id, d)], id) == Ok(d)
    ensures WellKeyed(xs) && "_id" in d && d["_id"] == VStr(id) ==> WellKeyed(xs + [IndexDoc(id, d)])
  {
    var ys := xs + [IndexDoc(id, d)];
    assert ys[|xs|].id == id;
    assert forall i :: 0 <= i < |xs| ==> ys[i] == xs[i];
  }

  /** Two index lists with the same ids in the same order find every id at
      the same position. */
  lemma {:induction false} IndexOfSameIds(xs: seq<IndexDoc>, ys: seq<IndexDoc>, id: string)
    requires |xs| == |ys| && forall i :: 0 <= i < |xs| ==> xs[i].id == ys[i].id
    ensures IndexOf(xs, id) == IndexOf(ys, id)
  {
    if xs != [] && xs[0].id != id {
      IndexOfSameIds(xs[1..], ys[1..], id);
    }
  }

  /** An update answers with what a later read finds: every key of the
      `$set` with its new value and every other key as it was. A missing
      id changes nothing. */
  lemma UpdateThenGet(xs: seq<IndexDoc>, id: string, obj: Doc)
    ensures SetOutcome(xs, id, obj).0.Raise? <==> Find(xs, id).Raise?
    ensures SetOutcome(xs, id, obj).0.Raise? ==>
      SetOutcome(xs, id, obj) == (Raise(NotFound), xs)
    ensures SetOutcome(xs, id, obj).0.Ok? ==>
      Find(SetOutcome(xs, id, obj).1, id) == SetOutcome(xs, id, obj).0
    ensures SetOutcome(xs, id, obj).0.Ok? ==>
      && (forall k :: k in obj ==> k in SetOutcome(xs, id, obj).0.value && SetOutcome(xs, id, obj).0.value[k] == obj[k])
      && (forall k :: k in Find(xs, id).value && k !in obj ==>
            k in SetOutcome(xs, id, obj).0.value && SetOutcome(xs, id, obj).0.value[k] == Find(xs, id).value[k])
  {
    if IndexOf(xs, id).Some? {
      IndexOfSameIds(xs, SetOutcome(xs, id, obj).1, id);
    }
  }

  /** No other id reads differently after an update. */
  lemma UpdateLeavesOthers(xs: seq<IndexDoc>, id: string, obj: Doc, other: string)
    requires other != id
    ensures Find(SetOutcome(xs, id, obj).1, other) == Find(xs, other)
  {
    if IndexOf(xs, id).Some? {
      IndexOfSameIds(xs, SetOutcome(xs, id, obj).1, other);
    }
  }

  /** An update that does not touch `_id` keeps every index well keyed;
      the payloads of both updates leave it alone. */
  lemma SetKeepsKeys(xs: seq<IndexDoc>, id: string, obj: Doc)
    requires WellKeyed(xs) && "_id" !in obj
    ensures WellKeyed(SetOutcome(xs, id, obj).1)
  {
  }

  lemma PayloadsKeepId(data: IndexUpdate, status: Status, userId: string, now: int)
    ensures "_id" !in Stamped(DumpUpdate(data), userId, now)
    ensures "_id" !in Stamped(StatusPayload(status), userId, now)
  {
  }

  /** Marking an index deleted: afterwards it reads with status "DELETE"
      and the editor who marked it. */
  lemma DeleteMarks(xs: seq<IndexDoc>, id: string, userId: string, now: int)
    requires Find(xs, id).Ok?
    ensures var (r, ys) := SetOutcome(xs, id, Stamped(StatusPayload(Deleted), userId, now));
      && r.Ok? && Find(ys, id) == r
      && r.value["status"] == VStr("DELETE") && r.value["mod_by"] == VStr(userId)
  {
    UpdateThenGet(xs, id, Stamped(StatusPayload(Deleted), userId, now));
  }

  // ---------------------------------------------------------------------
  // get_all

  /** The fields the listing projects besides `id`. */
  const Selected: set<string> := {"name", "description", "type", "status"}

  /** One listed index: `id` from `_id` and the selected fields it has. */
  function Project(x: IndexDoc): Doc {
    (map k | k in x.fields && k in Selected :: x.fields[k])["id" := VStr(x.id)]
  }

  /** A listed index shows its id and exactly the selected fields it
      stores, with their stored values, and nothing else (no author, no
      organisation, no dates). */
  lemma ProjectMeaning(x: IndexDoc)
    ensures "id" in Project(x) && Project(x)["id"] == VStr(x.id)
    ensures forall k :: k in Selected ==> (k in Project(x) <==> k in x.fields)
    ensures forall k :: k in Selected && k in x.fields ==> Project(x)[k] == x.fields[k]
    ensures forall k :: k in Project(x) ==> k == "id" || k in Selected
  {
  }

  function Projected(xs: seq<IndexDoc>): seq<Doc> {
    seq(|xs|, k requires 0 <= k < |xs| => Project(xs[k]))
  }

  /** `get_all`'s answer for the sorted matches: the requested page,
      projected, and its pagination figures. */
  function GetAllOutcome(matched: seq<IndexDoc>, page: nat, perPage: nat, dbFails: bool)
    : Result<(seq<Doc>, Pagination.PageInfo)>
    requires page >= 1 && perPage >= 1
  {
    if dbFails then Raise(RetrieveError)
    else
      var (rows, info) := Pagination.Listing(matched, page, perPage);
      Ok((Projected(rows), info))
  }

  /** The listing fails only with the database; otherwise it holds at most
      `per_page` entries, the projections of the page's indexes in order,
      and counts every match. */
  lemma GetAllMeaning(matched: seq<IndexDoc>, page: nat, perPage: nat, dbFails: bool)
    requires page >= 1 && perPage >= 1
    ensures GetAllOutcome(matched, page, perPage, dbFails).Ok? <==> !dbFails
    ensures dbFails ==> GetAllOutcome(matched, page, perPage, dbFails) == Raise(RetrieveError)
    ensures GetAllOutcome(matched, page, perPage, dbFails).Ok? ==>
      var (data, info) := GetAllOutcome(matched, page, perPage, dbFails).value;
      var rows := Pagination.PageOf(matched, page, perPage);
      && |data| == |rows| <= perPage
      && (forall k :: 0 <= k < |rows| ==> data[k] == Project(rows[k]))
      && info == Pagination.PageInfo(page, perPage, |matched|, Pagination.TotalPages(|matched|, perPage))
  {
  }

  /** `get_all(filters, page, per_page)`: build the query, run it, and
      page the result. */
  method GetAll(evaluate: Doc -> seq<IndexDoc>, filters: Option<Doc>, page: nat, perPage: nat, dbFails: bool)
    returns (r: Result<(seq<Doc>, Pagination.PageInfo)>)
    requires page >= 1 && perPage >= 1
    ensures r == GetAllOutcome(evaluate(QueryFilter.Query(filters)), page, perPage, dbFails)
  {
    var q := QueryFilter.BuildQuery(filters);
    if dbFails {
      return Raise(RetrieveError);
    }
    var (rows, info) := Pagination.Listing(evaluate(q), page, perPage);
    r := Ok((Projected(rows), info));
  }

  /** As written, a failing aggregate or count surfaces as UnboundLocalError. */
  lemma GetAllDbFailureAsWritten(matched: seq<IndexDoc>, page: nat, perPage: nat)
    requires page >= 1 && perPage >= 1
    ensures AsWritten(GetAllOutcome(matched, page, perPage, true)) == Raise(UnboundLocalError("e"))
  {
  }
}

=== FILE: json.dfy ===
/** `json.dumps` and `json.loads` for the tasks put on Redis queues: objects
    whose fields all hold strings, in insertion order, written with Python's
    default separators (`", "` between members, `": "` after keys). */
module Json {
  import opened Base
  import Str

  /** A task: its fields and their string values, in insertion order. */
  type Task = seq<(string, string)>

  /** How `json.dumps` writes one character inside a string literal. */
  function EscapeChar(c: char): (r: string)
    ensures |r| >= 1
    ensures r[0] == '\\' <==> c in "\"\\\n\r\t"
    ensures r[0] != '"'
  {
    if c == '"' then "\\\""
    else if c == '\\' then "\\\\"
    else if c == '\n' then "\\n"
    else if c == '\r' then "\\r"
    else if c == '\t' then "\\t"
    else [c]
  }

  /** The characters of a string literal between its quotes. */
  function Escape(s: string): string {
    if s == [] then [] else EscapeChar(s[0]) + Escape(s[1..])
  }

  /** A string literal. */
  function Quote(s: string): string {
    "\"" + Escape(s) + "\""
  }

  /** One member, `"key": "value"`. */
  function Member(f: (string, string)): string {
    Quote(f.0) + ": " + Quote(f.1)
  }

  /** The members of an object, in order. */
  function Members(t: Task): (r: seq<string>)
    ensures |r| == |t|
    ensures forall i :: 0 <= i < |t| ==> r[i] == Member(t[i])
  {
    if t == [] then [] else [Member(t[0])] + Members(t[1..])
  }

  /** `json.dumps(data)`. */
  function Dumps(t: Task): (r: string)
    ensures |r| >= 2 && r[0] == '{' && r[|r| - 1] == '}'
  {
    "{" + Str.Join(", ", Members(t)) + "}"
  }

  /** The character an escape `\c` stands for, if `c` is one `Escape` writes
      or `/`. */
  function Unescape(c: char): Option<char> {
    if c == '"' then Some('"')
    else if c == '\\' then Some('\\')
    else if c == '/' then Some('/')
    else if c == 'n' then Some('\n')
    else if c == 'r' then Some('\r')
    else if c == 't' then Some('\t')
    else None
  }

  /** Reads the inside of a string literal up to its closing quote: the
      characters it stands for and the text after the quote. */
  function ReadChars(s: string): (r: Option<(string, string)>)
    ensures r.Some? ==> |r.value.1| < |s|
    decreases |s|
  {
    if s == [] then None
    else if s[0] == '"' then Some(([], s[1..]))
    else if s[0] == '\\' then
      if |s| < 2 then None
      else match Unescape(s[1])
        case None => None
        case Some(c) =>
          match ReadChars(s[2..])
          case None => None
          case Some(p) => Some(([c] + p.0, p.1))
    else
      match ReadChars(s[1..])
      case None => None
      case Some(p) => Some(([s[0]] + p.0, p.1))
  }

  /** Reads a string literal at the start of `s`. */
  function ReadString(s: string): (r: Option<(string, string)>)
    ensures r.Some? ==> |r.value.1| < |s|
  {
    if s != [] && s[0] == '"' then ReadChars(s[1..]) else None
  }

  /** Reads the members of an object up to and including its closing brace,
      which must end the text. */
  function ReadMembers(s: string): Option<Task>
    decreases |s|
  {
    match ReadString(s)
    case None => None
    case Some((k, r1)) =>
      if |r1| < 2 || r1[..2] != ": " then None
      else match ReadString(r1[2..])
        case None => None
        case Some((v, r2)) =>
          if r2 == "}" then Some([(k, v)])
          else if |r2| < 2 || r2[..2] != ", " then None
          else match ReadMembers(r2[2..])
            case None => None
            case Some(more) => Some([(k, v)] + more)
  }

  /** `json.loads(text)` for the text of an object of string fields written
      as `Dumps` writes it; None for any other text. */
  function Loads(s: string): Option<Task> {
    if s == "{}" then Some([])
    else if s != [] && s[0] == '{' then ReadMembers(s[1..])
    else None
  }

  /** One escaped character, then text that reads back. */
  lemma ReadEscapedChar(c: char, tail: string)
    ensures ReadChars(EscapeChar(c) + tail) ==
      match ReadChars(tail)
      case None => None
      case Some(p) => Some(([c] + p.0, p.1))
  {
    var e := EscapeChar(c);
    if e[0] == '\\' {
      assert (e + tail)[2..] == tail;
      assert (e + tail)[1] == e[1];
    } else {
      assert (e + tail)[1..] == tail;
    }
  }

  /** The escaped characters are read back up to the closing quote. */
  lemma {:induction false} ReadEscaped(x: string, q: string)
    requires q != [] && q[0] == '"'
    ensures ReadChars(Escape(x) + q) == Some((x, q[1..]))
  {
    if x == [] {
      assert Escape(x) + q == q;
    } else {
      var e := EscapeChar(x[0]);
      var tail := Escape(x[1..]) + q;
      ReadEscaped(x[1..], q);
      assert Escape(x) + q == e + tail;
      ReadEscapedChar(x[0], tail);
      assert [x[0]] + x[1..] == x;
    }
  }

  /** A string literal reads back as the string, whatever it holds. */
  lemma ReadQuoted(x: string, rest: string)
    ensures ReadString(Quote(x) + rest) == Some((x, rest))
  {
    var q := "\"" + rest;
    assert Quote(x) + rest == "\"" + (Escape(x) + q);
    ReadEscaped(x, q);
    assert q[1..] == rest;
  }

  /** A member followed by `after` reads back as its key and value. */
  lemma ReadMember(f: (string, string), after: string)
    ensures ReadString(Member(f) + after) == Some((f.0, ": " + (Quote(f.1) + after)))
    ensures ReadString(Quote(f.1) + after) == Some((f.1, after))
  {
    assert Member(f) + after == Quote(f.0) + (": " + (Quote(f.1) + after));
    ReadQuoted(f.0, ": " + (Quote(f.1) + after));
    ReadQuoted(f.1, after);
  }

  /** The last member, then the closing brace. */
  lemma ReadLastMember(f: (string, string))
    ensures ReadMembers(Member(f) + "}") == Some([f])
  {
    ReadMember(f, "}");
    var r1 := ": " + (Quote(f.1) + "}");
    assert r1[..2] == ": " && r1[2..] == Quote(f.1) + "}";
  }

  /** A member, `", "`, then the text of the following members. */
  lemma ReadNextMember(f: (string, string), more: string)
    ensures ReadMembers(Member(f) + (", " + more)) ==
      match ReadMembers(more)
      case None => None
      case Some(fs) => Some([f] + fs)
  {
    var after := ", " + more;
    ReadMember(f, after);
    var r1 := ": " + (Quote(f.1) + after);
    assert r1[..2] == ": " && r1[2..] == Quote(f.1) + after;
    assert after != "}" && after[..2] == ", " && after[2..] == more;
  }

  /** The members of a non-empty task and the closing brace read back as
      the task. */
  lemma {:induction false} ReadMembersBack(t: Task)
    requires t != []
    ensures ReadMembers(Str.Join(", ", Members(t)) + "}") == Some(t)
  {
    var ms := Members(t);
    if |t| == 1 {
      assert Str.Join(", ", ms) + "}" == Member(t[0]) + "}";
      ReadLastMember(t[0]);
      assert [t[0]] == t;
    } else {
      var more := Str.Join(", ", ms[1..]) + "}";
      assert t == [t[0]] + t[1..];
      Str.JoinCons(", ", ms, "}");
      assert Members(t[1..]) == ms[1..];
      ReadMembersBack(t[1..]);
      ReadNextMember(t[0], more);
    }
  }

  /** `json.loads(json.dumps(data)) == data`. */
  lemma LoadsDumps(t: Task)
    ensures Loads(Dumps(t)) == Some(t)
  {
    if t == [] {
      assert Dumps(t) == "{}";
    } else {
      var j := Str.Join(", ", Members(t));
      assert Dumps(t) == "{" + (j + "}");
      assert Dumps(t) != "{}" by {
        assert |j| > 0 by {
          if |t| > 1 {
            assert j == Members(t)[0] + ", " + Str.Join(", ", Members(t)[1..]);
          }
        }
      }
      ReadMembersBack(t);
      assert Dumps(t)[1..] == j + "}";
    }
  }

  /** Different tasks are written as different texts. */
  lemma DumpsInjective(t: Task, u: Task)
    requires Dumps(t) == Dumps(u)
    ensures t == u
  {
    LoadsDumps(t);
    LoadsDumps(u);
  }
}

=== FILE: jwt.dfy ===
/** Access and refresh tokens: a copy of the claims plus an `exp` claim
    (section 4.1.4 of RFC 7519), signed with the service key, and the
    dependency that turns a bearer token back into the current user.

    Signing is modelled as a free constructor: a token the service signed
    carries its claims and expiry, anything else is text no key signed.
    Times are whole seconds since the epoch. */
module Jwt {
  import opened Base
  import Bits

  /** The claims the login route puts in both tokens. */
  datatype Claims = Claims(sub: string, id: string, roles: Value, authority: Bits.Mask, orgId: string)

  datatype Token = Token(claims: Claims, exp: int)

  /** A token as it travels: signed by the service, or any other text. */
  datatype Wire = Signed(token: Token) | Unsigned(text: string)

  /** `jwt_access_expired_in` (minutes) and `jwt_refresh_expired_in` (days). */
  datatype JwtConfig = JwtConfig(accessMinutes: nat, refreshDays: nat)

  /** `create_access_token(data, expire_in)`: the token and the configured
      lifetime in minutes. A non-zero `expire_in` is replaced by the
      configured lifetime; zero makes the token expire at once. */
  function CreateAccessToken(claims: Claims, expireIn: int, now: int, cfg: JwtConfig): (Wire, nat) {
    var minutes := if expireIn != 0 then cfg.accessMinutes else 0;
    (Signed(Token(claims, now + 60 * minutes)), cfg.accessMinutes)
  }

  /** `create_refresh_token(data, expire_in)`, the same rule in days. */
  function CreateRefreshToken(claims: Claims, expireIn: int, now: int, cfg: JwtConfig): (Wire, nat) {
    var days := if expireIn != 0 then cfg.refreshDays else 0;
    (Signed(Token(claims, now + 86400 * days)), cfg.refreshDays)
  }

  /** Why `jwt.decode` refuses a token. */
  datatype Decoded = Claimed(token: Token) | Expired | Invalid

  /** `decode_jwt_token(token)`: the signed token while its `exp` is not in
      the past. */
  function Decode(w: Wire, now: int): Decoded {
    match w
    case Unsigned(_) => Invalid
    case Signed(t) => if t.exp < now then Expired else Claimed(t)
  }

  /** Issued tokens keep the caller's claims, expire the configured time
      after issue (or at once for `expire_in == 0`), decode to those claims
      until then and are refused as expired afterwards; the lifetime returned
      is the configured one whatever the argument. */
  lemma IssuedTokens(claims: Claims, expireIn: int, now: int, cfg: JwtConfig, later: int)
    ensures var (w, life) := CreateAccessToken(claims, expireIn, now, cfg);
      && life == cfg.accessMinutes
      && w.Signed? && w.token.claims == claims
      && w.token.exp == (if expireIn == 0 then now else now + 60 * cfg.accessMinutes)
      && (Decode(w, later) == Claimed(w.token) <==> later <= w.token.exp)
      && (Decode(w, later) == Expired <==> later > w.token.exp)
    ensures var (w, life) := CreateRefreshToken(claims, expireIn, now, cfg);
      && life == cfg.refreshDays
      && w.Signed? && w.token.claims == claims
      && w.token.exp == (if expireIn == 0 then now else now + 86400 * cfg.refreshDays)
      && (Decode(w, later) == Claimed(w.token) <==> later <= w.token.exp)
  {
  }

  /** The returned lifetime never depends on `expire_in`. */
  lemma LifetimeIgnoresArgument(claims: Claims, e1: int, e2: int, now: int, cfg: JwtConfig)
    ensures CreateAccessToken(claims, e1, now, cfg).1 == CreateAccessToken(claims, e2, now, cfg).1
    ensures CreateRefreshToken(claims, e1, now, cfg).1 == CreateRefreshToken(claims, e2, now, cfg).1
  {
  }

  /** `CurrentUser` as `get_current_user` builds it. */
  datatype CurrentUser = CurrentUser(
    name: string, id: string, roles: Value, authority: Bits.Mask, orgId: string,
    token: Wire, logId: string)

  /** The outcome of the dependency: the user, or a 401 with its detail. */
  datatype Caller = Authenticated(user: CurrentUser) | Unauthorized(detail: string)

  const Unauthenticated := 401
  const TokenExpired := "Token expired."
  const CouldNotValidate := "Could not validate credentials"

  /** `get_current_user(ctx, token)`. Nothing but the signature and the
      expiry decides; no store of revoked tokens is consulted. */
  function GetCurrentUser(w: Wire, now: int, logId: string): Caller {
    match Decode(w, now)
    case Expired => Unauthorized(TokenExpired)
    case Invalid => Unauthorized(CouldNotValidate)
    case Claimed(t) =>
      Authenticated(CurrentUser(t.claims.sub, t.claims.id, t.claims.roles, t.claims.authority, t.claims.orgId, w, logId))
  }

  /** An access token the service issued admits its holder, with the claims
      copied unchanged, until it expires, and is refused with "Token
      expired." afterwards; text the service did not sign is refused with
      "Could not validate credentials". */
  lemma CurrentUserOfIssued(claims: Claims, expireIn: int, now: int, cfg: JwtConfig, later: int, logId: string, text: string)
    ensures var w := CreateAccessToken(claims, expireIn, now, cfg).0;
      && (later <= w.token.exp ==>
            GetCurrentUser(w, later, logId) ==
              Authenticated(CurrentUser(claims.sub, claims.id, claims.roles, claims.authority, claims.orgId, w, logId)))
      && (later > w.token.exp ==> GetCurrentUser(w, later, logId) == Unauthorized(TokenExpired))
    ensures GetCurrentUser(Unsigned(text), later, logId) == Unauthorized(CouldNotValidate)
  {
  }
}

=== FILE: key_value.dfy ===
/** The Redis key space the authentication services share: refresh tokens
    under the user name that logged in, one-time passwords under
    `otp:{email}` and reset tokens under `reset_token:{email}`. Expiry is
    recorded as the time-to-live each write sets; the passing of time is
    not modelled. */
module KeyValue {
  import opened Base
  import opened Jwt

  /** The text stored under a key: a token the service issued, or other text. */
  datatype Stored = Session(token: Wire) | Text(text: string)

  /** A key's value and the time-to-live, in seconds, its write set. */
  datatype Entry = Entry(value: Stored, ttl: nat)

  class KeyStore {
    var entries: map<string, Entry>

    constructor ()
      ensures entries == map[]
    {
      entries := map[];
    }
  }

  /** The stored value under `key`, if any (`conn.get(key)`). */
  function Lookup(entries: map<string, Entry>, key: string): Option<Stored> {
    if key in entries then Some(entries[key].value) else None
  }

  /** The entry holds a refresh token issued to user `userId`. */
  predicate SessionOf(e: Entry, userId: string) {
    e.value.Session? && e.value.token.Signed? && e.value.token.token.claims.id == userId
  }

  /** `revoke_all_refresh_tokens(user_id, conn)`: every key holding a refresh
      token of that user is deleted, and no other key. */
  function RevokeAll(entries: map<string, Entry>, userId: string): (r: map<string, Entry>)
    ensures forall k :: k in r <==> k in entries && !SessionOf(entries[k], userId)
    ensures forall k :: k in r ==> r[k] == entries[k]
  {
    map k | k in entries && !SessionOf(entries[k], userId) :: entries[k]
  }
}

=== FILE: menu.dfy ===
/** The side menu: the menu items a caller may see, given the grant rows of
    all of the caller's roles combined, with the parents of shown items and
    the whole list ordered by `sortnumber`. */
module Menu {
  import opened Base
  import opened Bits
  import opened Records
  import opened Sorting
  import PermissionCheck

  // ---------------------------------------------------------------------
  // Combining the roles' grant rows

  /** `$match: {"r_id": {"$in": roles}}` over the grant rows. */
  function RoleRows(grants: seq<Grant>, roles: seq<string>): (r: seq<Grant>)
    ensures forall g :: g in r <==> g in grants && g.roleId in roles
  {
    if grants == [] then []
    else (if grants[0].roleId in roles then [grants[0]] else []) + RoleRows(grants[1..], roles)
  }

  /** `rolesFeature.get(fId)` after the first loop: the union of the
      permissions of the rows on the feature, None when there is none. */
  function Combined(rows: seq<Grant>, fId: string): Option<Mask> {
    if rows == [] then None
    else
      var last := rows[|rows| - 1];
      var prev := Combined(rows[..|rows| - 1], fId);
      if last.featureId != fId then prev
      else match prev
        case None => Some(last.permission)
        case Some(p) => Some(Or(last.permission, p))
  }

  /** The combined permission exists exactly when some row is on the
      feature, and it holds every bit of every such row. */
  lemma {:induction false} CombinedCovers(rows: seq<Grant>, fId: string)
    ensures Combined(rows, fId).None? <==> forall i :: 0 <= i < |rows| ==> rows[i].featureId != fId
    ensures Combined(rows, fId).Some? ==>
      forall i :: 0 <= i < |rows| && rows[i].featureId == fId ==> Covers(Combined(rows, fId).value, rows[i].permission)
  {
    if rows != [] {
      var init := rows[..|rows| - 1];
      var last := rows[|rows| - 1];
      CombinedCovers(init, fId);
      forall i | 0 <= i < |init| ensures init[i] == rows[i] { }
      if last.featureId == fId && Combined(init, fId).Some? {
        var p := Combined(init, fId).value;
        OrCoversBoth(last.permission, p);
        forall i | 0 <= i < |rows| && rows[i].featureId == fId
          ensures Covers(Or(last.permission, p), rows[i].permission)
        {
          if i < |init| {
            CoversTransitive(Or(last.permission, p), p, rows[i].permission);
          }
        }
      } else if last.featureId == fId {
        CoversSelf(last.permission);
      }
    }
  }

  /** ... and no bit besides: a mask holding every row's bits holds the
      combined permission. */
  lemma {:induction false} CombinedLeast(rows: seq<Grant>, fId: string, m: Mask)
    requires forall i :: 0 <= i < |rows| && rows[i].featureId == fId ==> Covers(m, rows[i].permission)
    ensures Combined(rows, fId).Some? ==> Covers(m, Combined(rows, fId).value)
  {
    if rows != [] {
      var init := rows[..|rows| - 1];
      var last := rows[|rows| - 1];
      forall i | 0 <= i < |init| && init[i].featureId == fId ensures Covers(m, init[i].permission) {
        assert init[i] == rows[i];
      }
      CombinedLeast(init, fId, m);
      if last.featureId == fId && Combined(init, fId).Some? {
        OrCoveredBy(last.permission, Combined(init, fId).value, m);
      }
    }
  }

  lemma OrCoversBoth(a: bv32, b: bv32)
    ensures Covers(Or(a, b), a) && Covers(Or(a, b), b)
  {
  }

  lemma CoversTransitive(a: bv32, b: bv32, c: bv32)
    requires Covers(a, b) && Covers(b, c)
    ensures Covers(a, c)
  {
    AndAssoc(a, b, c);
  }

  lemma AndAssoc(a: bv32, b: bv32, c: bv32)
    ensures (a & b) & c == a & (b & c)
  {
  }

  lemma CoversSelf(a: bv32)
    ensures Covers(a, a)
  {
  }

  lemma OrCoveredBy(a: bv32, b: bv32, m: bv32)
    requires Covers(m, a) && Covers(m, b)
    ensures Covers(m, Or(a, b))
  {
  }

  // ---------------------------------------------------------------------
  // One menu item

  /** An entry of the returned list. Feature entries carry the feature name
      as `id` and the menu item's id as `menuId`; parent entries carry the
      item's own id and no `menuId`. */
  datatype MenuEntry = MenuEntry(
    id: string, menuId: Option<string>, value: string, details: string,
    icon: string, parent: string, sortnumber: int)

  function Icon(name: string): string {
    "mdi mdi-" + name
  }

  /** The label of the `_organization` entry for the caller's tier: the
      lowest of the partner (1), client (2) and customer (4) bits decides. */
  function OrgLabel(authority: Mask): (r: Option<string>)
    ensures r.None? <==> authority & 7 == 0
  {
    if authority & 1 != 0 then Some("Partner")
    else if authority & 2 != 0 then Some("Client")
    else if authority & 4 != 0 then Some("Customer")
    else None
  }

  /** The entry a shown feature item becomes. */
  function FeatureEntry(item: MenuItem, f: Feature, authority: Mask): MenuEntry {
    var e := MenuEntry(f.name, Some(item.id), item.value, item.details, Icon(item.icon), item.parent, item.sortnumber);
    if f.name == "_organization" && OrgLabel(authority).Some? then
      e.(value := OrgLabel(authority).value, details := OrgLabel(authority).value)
    else e
  }

  /** Only the `_organization` entry is relabelled, and only its value and
      details change. */
  lemma FeatureEntryRelabel(item: MenuItem, f: Feature, authority: Mask)
    ensures var e := FeatureEntry(item, f, authority);
      && e.id == f.name && e.menuId == Some(item.id) && e.parent == item.parent
      && e.sortnumber == item.sortnumber && e.icon == "mdi mdi-" + item.icon
      && (f.name != "_organization" || OrgLabel(authority).None? ==> e.value == item.value && e.details == item.details)
      && (f.name == "_organization" && OrgLabel(authority).Some? ==> e.value == OrgLabel(authority).value == e.details)
  {
  }

  /** A top-level item without a feature is a parent entry. */
  predicate IsParentItem(item: MenuItem) {
    item.parent == "" && item.feature == ""
  }

  function ParentEntry(item: MenuItem): MenuEntry {
    MenuEntry(item.id, None, item.value, item.details, Icon(item.icon), "", item.sortnumber)
  }

  /** `rf - (neg & rf)`: the combined permission without the tier's withheld bits. */
  function Effective(rf: Mask, neg: Mask): Mask {
    rf - (neg & rf)
  }

  lemma EffectiveClears(rf: Mask, neg: Mask)
    ensures Effective(rf, neg) == rf & !neg
  {
    SubtractNegated(rf, neg);
  }

  /** The test the source writes `bitRA['view'] & rf - (neg & rf)`; the
      subtraction binds tighter than the conjunction. */
  predicate ViewShown(view: Mask, rf: Mask, neg: Mask) {
    Meets(view, Effective(rf, neg))
  }

  /** The view bit is among the combined bits that are not withheld. */
  predicate ViewHeld(view: Mask, rf: Mask, neg: Mask) {
    Meets(view, rf & !neg)
  }

  lemma ViewShownMeaning(view: Mask, rf: Mask, neg: Mask)
    ensures ViewShown(view, rf, neg) <==> ViewHeld(view, rf, neg)
  {
    EffectiveClears(rf, neg);
  }

  /** What the second loop makes of one item: its feature entry, nothing, or
      the error of `bitRA['view']` or of the tier's `negasiperm` entry. */
  function ItemEntry(item: MenuItem, features: seq<Feature>, rows: seq<Grant>, authority: Mask, bitRA: ActionEnum)
    : (r: Result<Option<MenuEntry>>)
    ensures r.Ok? && r.value.Some? ==> r.value.value.menuId == Some(item.id) && r.value.value.sortnumber == item.sortnumber
  {
    if item.feature == "" then Ok(None)
    else match FindFeature(features, item.feature)
      case None => Ok(None)
      case Some(f) =>
        if !Visible(f, authority) then Ok(None)
        else match Combined(rows, f.id)
          case None => Ok(None)
          case Some(rf) => Shown(item, f, rf, authority, bitRA)
  }

  /** The view test of a visible item whose feature the roles hold rows on. */
  function Shown(item: MenuItem, f: Feature, rf: Mask, authority: Mask, bitRA: ActionEnum): Result<Option<MenuEntry>> {
    match BitOf(bitRA, "view")
    case None => Raise(KeyError("view"))
    case Some(view) =>
      if TierKey(authority) !in f.negasiperm then Raise(TierKeyError(authority))
      else if ViewShown(view, rf, f.negasiperm[TierKey(authority)]) then Ok(Some(FeatureEntry(item, f, authority)))
      else Ok(None)
  }

  /** An item is shown exactly when its feature exists and is visible to the
      caller's tier, the roles hold rows on it, and their combined
      permission, less the bits withheld from the tier, has the view bit. */
  lemma ItemShownIff(item: MenuItem, features: seq<Feature>, rows: seq<Grant>, authority: Mask, bitRA: ActionEnum)
    ensures ItemEntry(item, features, rows, authority, bitRA).Ok? && ItemEntry(item, features, rows, authority, bitRA).value.Some?
      <==>
      item.feature != "" && FindFeature(features, item.feature).Some?
      && Visible(FindFeature(features, item.feature).value, authority)
      && Combined(rows, item.feature).Some? && BitOf(bitRA, "view").Some?
      && TierKey(authority) in FindFeature(features, item.feature).value.negasiperm
      && ViewHeld(BitOf(bitRA, "view").value, Combined(rows, item.feature).value, FindFeature(features, item.feature).value.negasiperm[TierKey(authority)])
  {
    if item.feature != "" && FindFeature(features, item.feature).Some? {
      var f := FindFeature(features, item.feature).value;
      if Combined(rows, f.id).Some? && BitOf(bitRA, "view").Some? && TierKey(authority) in f.negasiperm {
        ViewShownMeaning(BitOf(bitRA, "view").value, Combined(rows, f.id).value, f.negasiperm[TierKey(authority)]);
      }
    }
  }

  /** The errors: an unknown `view` key, then a tier without `negasiperm`
      entry, each only once some visible item's feature has rows. */
  lemma ItemRaisesIff(item: MenuItem, features: seq<Feature>, rows: seq<Grant>, authority: Mask, bitRA: ActionEnum)
    ensures ItemEntry(item, features, rows, authority, bitRA).Raise? <==>
      item.feature != "" && FindFeature(features, item.feature).Some?
      && Visible(FindFeature(features, item.feature).value, authority)
      && Combined(rows, item.feature).Some?
      && (BitOf(bitRA, "view").None? || TierKey(authority) !in FindFeature(features, item.feature).value.negasiperm)
  {
  }

  /** An example of a gap the general `ViewShownMeaning` and
      `PermissionCheck.AuthorizedIffCursorCovers` leave open: the route
      guard ignores the bits withheld from the caller's tier, while the
      menu honours them; with the view bit withheld, the guard admits a
      view of the feature whose menu item is not shown. */
  lemma GuardIgnoresWithheldBits()
    ensures var f := Feature("f", "reports", 1, map["1" := 1]);
      var grants := [Grant("g", "o", "r", "f", 1)];
      var item := MenuItem("m", "f", "", "Reports", "", "chart", 1);
      && PermissionCheck.Authorized(grants, ["r"], "f", 1)
      && ItemEntry(item, [f], RoleRows(grants, ["r"]), 1, RoleAction) == Ok(None)
  {
    var f := Feature("f", "reports", 1, map["1" := 1]);
    var grants := [Grant("g", "o", "r", "f", 1)];
    assert PermissionCheck.Matches(grants[0], ["r"], "f");
    var rows := RoleRows(grants, ["r"]);
    assert rows == grants;
    assert rows[..0] == [];
    assert Combined(rows, "f") == Some(1);
    assert FindFeature([f], "f") == Some(f);
    assert BitOf(RoleAction, "view") == Some(1);
    assert Visible(f, 1);
    ViewShownMeaning(1, 1, 1);
    WithheldNotHeld(1, 1, 1);
    var item := MenuItem("m", "f", "", "Reports", "", "chart", 1);
    assert TierKey(1) == "1";
    assert f.negasiperm[TierKey(1)] == 1;
    assert Shown(item, f, 1, 1, RoleAction) == Ok(None);
    assert ItemEntry(item, [f], rows, 1, RoleAction) == Ok(None);
  }

  /** A view bit the tier withholds is never held, whatever the roles
      grant. */
  lemma WithheldNotHeld(view: Mask, rf: Mask, neg: Mask)
    requires view & neg == view
    ensures !ViewHeld(view, rf, neg)
  {
    assert view & (rf & !neg) == 0 by {
      assert view & (rf & !neg) == rf & ((view & neg) & !neg);
    }
  }

  // ---------------------------------------------------------------------
  // The whole menu

  /** The state of the second loop: the shown entries, the parent entries
      seen, and the parents named by a shown entry. */
  datatype Scan = Scan(menu: seq<MenuEntry>, parents: seq<MenuEntry>, parentIds: set<string>)

  /** One step of the second loop. */
  function ScanStep(sc: Scan, item: MenuItem, features: seq<Feature>, rows: seq<Grant>, authority: Mask, bitRA: ActionEnum)
    : Result<Scan>
  {
    var sc1 := if IsParentItem(item) then sc.(parents := sc.parents + [ParentEntry(item)]) else sc;
    match ItemEntry(item, features, rows, authority, bitRA)
    case Raise(e) => Raise(e)
    case Ok(None) => Ok(sc1)
    case Ok(Some(e)) =>
      Ok(sc1.(menu := sc1.menu + [e], parentIds := if item.parent != "" then sc1.parentIds + {item.parent} else sc1.parentIds))
  }

  /** The second loop over `items`. */
  function ScanItems(items: seq<MenuItem>, features: seq<Feature>, rows: seq<Grant>, authority: Mask, bitRA: ActionEnum)
    : Result<Scan>
  {
    if items == [] then Ok(Scan([], [], {}))
    else match ScanItems(items[..|items| - 1], features, rows, authority, bitRA)
      case Raise(e) => Raise(e)
      case Ok(sc) => ScanStep(sc, items[|items| - 1], features, rows, authority, bitRA)
  }

  /** The third loop: the parent entries some shown entry names. */
  function UsedParents(parents: seq<MenuEntry>, ids: set<string>): (r: seq<MenuEntry>)
    ensures forall e :: e in r <==> e in parents && e.id in ids
  {
    if parents == [] then []
    else
      var last := parents[|parents| - 1];
      UsedParents(parents[..|parents| - 1], ids) + (if last.id in ids then [last] else [])
  }

  function SortKey(e: MenuEntry): int { e.sortnumber }
  function ItemKey(item: MenuItem): int { item.sortnumber }

  /** `get_all()`: the menu for a caller of tier `authority` holding `roles`. */
  function SideMenu(menus: seq<MenuItem>, features: seq<Feature>, grants: seq<Grant>, authority: Mask, roles: seq<string>, bitRA: ActionEnum)
    : Result<seq<MenuEntry>>
  {
    match ScanItems(SortBy(menus, ItemKey), features, RoleRows(grants, roles), authority, bitRA)
    case Raise(e) => Raise(e)
    case Ok(sc) => Ok(SortBy(sc.menu + UsedParents(sc.parents, sc.parentIds), SortKey))
  }

  /** What the second loop keeps: every shown entry comes from a shown item,
      every parent entry from a top-level item without feature, and every
      parent named is the parent of a shown entry. */
  predicate ScanSound(sc: Scan, items: seq<MenuItem>, features: seq<Feature>, rows: seq<Grant>, authority: Mask, bitRA: ActionEnum) {
    && (forall e :: e in sc.menu ==> exists item :: item in items && ItemEntry(item, features, rows, authority, bitRA) == Ok(Some(e)))
    && (forall e :: e in sc.menu ==> e.menuId.Some?)
    && (forall e :: e in sc.parents ==> e.menuId.None?)
    && (forall pid :: pid in sc.parentIds ==> exists e :: e in sc.menu && e.parent == pid)
  }

  lemma {:induction false} ScanItemsSound(items: seq<MenuItem>, features: seq<Feature>, rows: seq<Grant>, authority: Mask, bitRA: ActionEnum)
    ensures ScanItems(items, features, rows, authority, bitRA).Ok? ==>
      ScanSound(ScanItems(items, features, rows, authority, bitRA).value, items, features, rows, authority, bitRA)
  {
    if items != [] {
      var init := items[..|items| - 1];
      var last := items[|items| - 1];
      ScanItemsSound(init, features, rows, authority, bitRA);
      if ScanItems(items, features, rows, authority, bitRA).Ok? {
        assert forall item :: item in init ==> item in items;
        ScanStepSound(ScanItems(init, features, rows, authority, bitRA).value, init, last, items, features, rows, authority, bitRA);
      }
    }
  }

  /** One step keeps the scan sound, for any item list holding the items
      scanned so far and the new one. */
  lemma ScanStepSound(sc: Scan, init: seq<MenuItem>, last: MenuItem, items: seq<MenuItem>,
                      features: seq<Feature>, rows: seq<Grant>, authority: Mask, bitRA: ActionEnum)
    requires ScanSound(sc, init, features, rows, authority, bitRA)
    requires (forall item :: item in init ==> item in items) && last in items
    requires ScanStep(sc, last, features, rows, authority, bitRA).Ok?
    ensures ScanSound(ScanStep(sc, last, features, rows, authority, bitRA).value, items, features, rows, authority, bitRA)
  {
    var sc2 := ScanStep(sc, last, features, rows, authority, bitRA).value;
    forall pid | pid in sc2.parentIds ensures exists e :: e in sc2.menu && e.parent == pid {
      if pid in sc.parentIds {
        var e :| e in sc.menu && e.parent == pid;
        assert e in sc2.menu;
      } else {
        var e := ItemEntry(last, features, rows, authority, bitRA).value.value;
        assert e in sc2.menu && e.parent == last.parent;
      }
    }
  }

  /** The menu is ordered by `sortnumber`, stably: it is a permutation of
      the shown entries followed by the named parents, and entries with the
      same `sortnumber` keep that order. */
  lemma SideMenuOrdered(menus: seq<MenuItem>, features: seq<Feature>, grants: seq<Grant>, authority: Mask, roles: seq<string>, bitRA: ActionEnum)
    requires SideMenu(menus, features, grants, authority, roles, bitRA).Ok?
    ensures var out := SideMenu(menus, features, grants, authority, roles, bitRA).value;
      var sc := ScanItems(SortBy(menus, ItemKey), features, RoleRows(grants, roles), authority, bitRA).value;
      var all := sc.menu + UsedParents(sc.parents, sc.parentIds);
      && SortedBy(out, SortKey)
      && multiset(out) == multiset(all)
      && forall k :: WithKey(out, SortKey, k) == WithKey(all, SortKey, k)
  {
    var sc := ScanItems(SortBy(menus, ItemKey), features, RoleRows(grants, roles), authority, bitRA).value;
    SortByCorrect(sc.menu + UsedParents(sc.parents, sc.parentIds), SortKey);
  }

  lemma SameElements<T>(a: seq<T>, b: seq<T>)
    requires multiset(a) == multiset(b)
    ensures forall x :: x in a <==> x in b
  {
    forall x ensures x in a <==> x in b {
      assert x in a <==> x in multiset(a);
      assert x in b <==> x in multiset(b);
    }
  }

  /** Every feature entry of the menu is an item the caller may view, and
      every parent entry is named as parent by a feature entry of the menu. */
  lemma SideMenuParents(menus: seq<MenuItem>, features: seq<Feature>, grants: seq<Grant>, authority: Mask, roles: seq<string>, bitRA: ActionEnum)
    requires SideMenu(menus, features, grants, authority, roles, bitRA).Ok?
    ensures var out := SideMenu(menus, features, grants, authority, roles, bitRA).value;
      && (forall e :: e in out && e.menuId.Some? ==>
            exists item :: item in menus && ItemEntry(item, features, RoleRows(grants, roles), authority, bitRA) == Ok(Some(e)))
      && (forall e :: e in out && e.menuId.None? ==> exists c :: c in out && c.menuId.Some? && c.parent == e.id)
  {
    var items := SortBy(menus, ItemKey);
    var rows := RoleRows(grants, roles);
    var sc := ScanItems(items, features, rows, authority, bitRA).value;
    var all := sc.menu + UsedParents(sc.parents, sc.parentIds);
    var out := SortBy(all, SortKey);
    SortByCorrect(all, SortKey);
    SortByCorrect(menus, ItemKey);
    ScanItemsSound(items, features, rows, authority, bitRA);
    SameElements(out, all);
    SameElements(items, menus);
    forall e | e in out && e.menuId.None? ensures exists c :: c in out && c.menuId.Some? && c.parent == e.id {
      assert e !in sc.menu;
      assert e.id in sc.parentIds;
      var c :| c in sc.menu && c.parent == e.id;
      assert c in all;
    }
  }

  /** What the second loop gathers: the entry of every shown item, with its
      parent among the named ones, and the parent entry of every top-level
      item without feature. */
  predicate ScanComplete(sc: Scan, items: seq<MenuItem>, features: seq<Feature>, rows: seq<Grant>, authority: Mask, bitRA: ActionEnum) {
    && (forall item :: (item in items && ItemEntry(item, features, rows, authority, bitRA).Ok?
                        && ItemEntry(item, features, rows, authority, bitRA).value.Some?) ==>
          && ItemEntry(item, features, rows, authority, bitRA).value.value in sc.menu
          && (item.parent != "" ==> item.parent in sc.parentIds))
    && (forall item :: item in items && IsParentItem(item) ==> ParentEntry(item) in sc.parents)
  }

  lemma {:induction false} ScanItemsComplete(items: seq<MenuItem>, features: seq<Feature>, rows: seq<Grant>, authority: Mask, bitRA: ActionEnum)
    ensures ScanItems(items, features, rows, authority, bitRA).Ok? ==>
      ScanComplete(ScanItems(items, features, rows, authority, bitRA).value, items, features, rows, authority, bitRA)
  {
    if items != [] {
      var init := items[..|items| - 1];
      var last := items[|items| - 1];
      ScanItemsComplete(init, features, rows, authority, bitRA);
      if ScanItems(items, features, rows, authority, bitRA).Ok? {
        assert items == init + [last];
        ScanStepComplete(ScanItems(init, features, rows, authority, bitRA).value, init, last, features, rows, authority, bitRA);
      }
    }
  }

  /** One step keeps everything gathered so far and gathers the new item. */
  lemma ScanStepComplete(sc: Scan, init: seq<MenuItem>, last: MenuItem,
                         features: seq<Feature>, rows: seq<Grant>, authority: Mask, bitRA: ActionEnum)
    requires ScanComplete(sc, init, features, rows, authority, bitRA)
    requires ScanStep(sc, last, features, rows, authority, bitRA).Ok?
    ensures ScanComplete(ScanStep(sc, last, features, rows, authority, bitRA).value, init + [last], features, rows, authority, bitRA)
  {
    var sc2 := ScanStep(sc, last, features, rows, authority, bitRA).value;
    assert sc.menu <= sc2.menu && sc.parents <= sc2.parents && sc.parentIds <= sc2.parentIds;
    forall item | item in init + [last] && IsParentItem(item) ensures ParentEntry(item) in sc2.parents {
      if item != last {
        assert item in init;
      }
    }
  }

  /** The menu hides nothing the code shows: the entry of every item the
      caller may view is in it, and so is the parent entry of every
      top-level item that some shown item names as its parent. */
  lemma SideMenuComplete(menus: seq<MenuItem>, features: seq<Feature>, grants: seq<Grant>, authority: Mask, roles: seq<string>, bitRA: ActionEnum)
    requires SideMenu(menus, features, grants, authority, roles, bitRA).Ok?
    ensures var out := SideMenu(menus, features, grants, authority, roles, bitRA).value;
      var rows := RoleRows(grants, roles);
      && (forall item :: (item in menus && ItemEntry(item, features, rows, authority, bitRA).Ok?
                          && ItemEntry(item, features, rows, authority, bitRA).value.Some?) ==>
            ItemEntry(item, features, rows, authority, bitRA).value.value in out)
      && (forall p, item :: (p in menus && IsParentItem(p) && item in menus && item.parent == p.id && p.id != ""
                             && ItemEntry(item, features, rows, authority, bitRA).Ok?
                             && ItemEntry(item, features, rows, authority, bitRA).value.Some?) ==>
            ParentEntry(p) in out)
  {
    var items := SortBy(menus, ItemKey);
    var rows := RoleRows(grants, roles);
    var sc := ScanItems(items, features, rows, authority, bitRA).value;
    var all := sc.menu + UsedParents(sc.parents, sc.parentIds);
    var out := SortBy(all, SortKey);
    SortByCorrect(all, SortKey);
    SortByCorrect(menus, ItemKey);
    ScanItemsComplete(items, features, rows, authority, bitRA);
    SameElements(out, all);
    SameElements(items, menus);
    forall p, item | p in menus && IsParentItem(p) && item in menus && item.parent == p.id && p.id != ""
        && ItemEntry(item, features, rows, authority, bitRA).Ok?
        && ItemEntry(item, features, rows, authority, bitRA).value.Some?
      ensures ParentEntry(p) in out
    {
      assert p in items && item in items;
      assert ParentEntry(p) in sc.parents && ParentEntry(p).id in sc.parentIds;
      assert ParentEntry(p) in all;
    }
  }

  // ---------------------------------------------------------------------
  // The service

  /** The menu service with its caller context. */
  class MenuService {
    var authority: Mask
    var roles: seq<string>

    constructor (authority: Mask, roles: seq<string>)
      ensures this.authority == authority && this.roles == roles
    {
      this.authority := authority;
      this.roles := roles;
    }

    /** `set_context`: the caller's tier and roles. */
    method SetContext(authority: Mask, roles: seq<string>)
      modifies this
      ensures this.authority == authority && this.roles == roles
    {
      this.authority := authority;
      this.roles := roles;
    }

    /** `get_all()`. */
    method GetAll(db: Database, bitRA: ActionEnum) returns (r: Result<seq<MenuEntry>>)
      ensures r == SideMenu(db.menus, db.features, db.grants, authority, roles, bitRA)
    {
      var items := SortBy(db.menus, ItemKey);
      var rows := RoleRows(db.grants, roles);
      var rolesFeature := CombineRoles(rows);
      var scan := ScanLoop(items, db.features, rows, rolesFeature, bitRA);
      if scan.Raise? {
        return Raise(scan.exc);
      }
      var sc := scan.value;
      var used := NamedParents(sc.parents, sc.parentIds);
      r := Ok(SortBy(sc.menu + used, SortKey));
    }

    /** The second loop: the shown entries, the parent entries and the
        parents named, or the first error. */
    method ScanLoop(items: seq<MenuItem>, features: seq<Feature>, rows: seq<Grant>, rolesFeature: map<string, Mask>, bitRA: ActionEnum)
      returns (r: Result<Scan>)
      requires forall fId :: Combined(rows, fId) == if fId in rolesFeature then Some(rolesFeature[fId]) else None
      ensures r == ScanItems(items, features, rows, authority, bitRA)
    {
      var sc := Scan([], [], {});
      var n := 0;
      while n < |items|
        invariant 0 <= n <= |items|
        invariant ScanItems(items[..n], features, rows, authority, bitRA) == Ok(sc)
      {
        assert items[..n + 1][..n] == items[..n];
        var step := Step(sc, items[n], features, rows, rolesFeature, bitRA);
        if step.Raise? {
          ScanErrorStops(items, n + 1, features, rows, authority, bitRA);
          return Raise(step.exc);
        }
        sc := step.value;
        n := n + 1;
      }
      assert items[..n] == items;
      return Ok(sc);
    }

    /** The third loop: keep the parent entries some shown entry names. */
    method NamedParents(parents: seq<MenuEntry>, ids: set<string>) returns (used: seq<MenuEntry>)
      ensures used == UsedParents(parents, ids)
    {
      used := [];
      for k := 0 to |parents|
        invariant used == UsedParents(parents[..k], ids)
      {
        assert parents[..k + 1][..k] == parents[..k];
        if parents[k].id in ids {
          used := used + [parents[k]];
        }
      }
      assert parents[..|parents|] == parents;
    }

    /** The first loop: OR together the permissions of the rows per feature. */
    method CombineRoles(rows: seq<Grant>) returns (rolesFeature: map<string, Mask>)
      ensures forall fId :: Combined(rows, fId) == if fId in rolesFeature then Some(rolesFeature[fId]) else None
    {
      rolesFeature := map[];
      for i := 0 to |rows|
        invariant forall fId :: Combined(rows[..i], fId) == if fId in rolesFeature then Some(rolesFeature[fId]) else None
      {
        assert rows[..i + 1][..i] == rows[..i];
        var g := rows[i];
        if g.featureId !in rolesFeature {
          rolesFeature := rolesFeature[g.featureId := g.permission];
        } else {
          rolesFeature := rolesFeature[g.featureId := Or(g.permission, rolesFeature[g.featureId])];
        }
      }
      assert rows[..|rows|] == rows;
    }

    /** One pass of the second loop. */
    method Step(sc: Scan, item: MenuItem, features: seq<Feature>, rows: seq<Grant>, rolesFeature: map<string, Mask>, bitRA: ActionEnum)
      returns (r: Result<Scan>)
      requires forall fId :: Combined(rows, fId) == if fId in rolesFeature then Some(rolesFeature[fId]) else None
      ensures r == ScanStep(sc, item, features, rows, authority, bitRA)
    {
      var sc1 := sc;
      if item.parent == "" && item.feature == "" {
        sc1 := sc.(parents := sc.parents + [ParentEntry(item)]);
      }
      var entry := ItemStep(item, features, rows, rolesFeature, bitRA);
      if entry.Raise? {
        return Raise(entry.exc);
      }
      if entry.value.None? {
        return Ok(sc1);
      }
      var ids := if item.parent != "" then sc1.parentIds + {item.parent} else sc1.parentIds;
      return Ok(sc1.(menu := sc1.menu + [entry.value.value], parentIds := ids));
    }

    /** The feature join and view test for one item. */
    method ItemStep(item: MenuItem, features: seq<Feature>, rows: seq<Grant>, rolesFeature: map<string, Mask>, bitRA: ActionEnum)
      returns (r: Result<Option<MenuEntry>>)
      requires forall fId :: Combined(rows, fId) == if fId in rolesFeature then Some(rolesFeature[fId]) else None
      ensures r == ItemEntry(item, features, rows, authority, bitRA)
    {
      if item.feature == "" {
        return Ok(None);
      }
      var doc := FindFeature(features, item.feature);
      if doc.None? {
        return Ok(None);
      }
      var f := doc.value;
      if !Visible(f, authority) {
        return Ok(None);
      }
      if f.id !in rolesFeature {
        assert Combined(rows, f.id).None?;
        return Ok(None);
      }
      assert Combined(rows, f.id) == Some(rolesFeature[f.id]);
      r := Shown(item, f, rolesFeature[f.id], authority, bitRA);
    }
  }

  /** An error raised at some item ends the menu with that error. */
  lemma {:induction false} ScanErrorStops(items: seq<MenuItem>, m: nat, features: seq<Feature>, rows: seq<Grant>, authority: Mask, bitRA: ActionEnum)
    requires m <= |items|
    requires ScanItems(items[..m], features, rows, authority, bitRA).Raise?
    ensures ScanItems(items, features, rows, authority, bitRA) == ScanItems(items[..m], features, rows, authority, bitRA)
    decreases |items| - m
  {
    if m < |items| {
      var init := items[..|items| - 1];
      assert init[..m] == items[..m];
      ScanErrorStops(init, m, features, rows, authority, bitRA);
    } else {
      assert items[..m] == items;
    }
  }
}

=== FILE: middleware.dfy ===
/** The two HTTP middlewares every request passes through: the one that turns
    an escaping exception into a JSON error reply, and the one that tags the
    request with a log id and the response with its processing time. */
module Middleware {
  import opened Base

  /** The JSON body of every reply: `status` and `message`. */
  datatype ApiResponse = ApiResponse(status: int, message: string)

  /** What `handle_exceptions` answers: the handler's own response when it
      returned, or an error reply built from the exception it raised. */
  datatype Reply<R> = Passed(response: R) | ErrorReply(statusCode: int, body: ApiResponse)

  /** The `status` field of every error body. */
  const ErrorStatus := 4

  /** `BusinessError(message, code=400)`: the code defaults to 400. */
  function NewBusinessError(message: string, code: Option<int>): (e: Exc)
    ensures e.BusinessError? && e.message == message && e.Text() == message
    ensures code.None? ==> e.code == 400
    ensures code.Some? ==> e.code == code.value
  {
    BusinessError(message, code.GetOr(400))
  }

  /** The exceptions the middleware handles by a branch of their own. */
  predicate Handled(e: Exc) {
    e.BusinessError? || e.ValueError? || e.ConnectionError? || e.PermissionError?
  }

  /** The reply for an exception: its status code and message, chosen by
      the first `except` clause that matches. */
  function ReplyFor<R>(e: Exc, production: bool): Reply<R> {
    match e
    case BusinessError(m, code) => ErrorReply(code, ApiResponse(ErrorStatus, m))
    case ValueError(m) => ErrorReply(400, ApiResponse(ErrorStatus, e.Text()))
    case ConnectionError(_) => ErrorReply(503, ApiResponse(ErrorStatus, "Service unavailable."))
    case PermissionError(_) => ErrorReply(403, ApiResponse(ErrorStatus, "Access denied."))
    case _ => ErrorReply(500, ApiResponse(ErrorStatus, if production then "Internal server error" else e.Text()))
  }

  /** `handle_exceptions`: the handler's outcome, as the client sees it;
      `production` is whether `app_env` is `"production"`. */
  function HandleExceptions<R>(outcome: Result<R>, production: bool): (r: Reply<R>)
    ensures outcome.Ok? <==> r.Passed?
    ensures outcome.Ok? ==> r.response == outcome.value
    ensures r.ErrorReply? ==> r.body.status == ErrorStatus
  {
    match outcome
    case Ok(v) => Passed(v)
    case Raise(e) => ReplyFor(e, production)
  }

  /** A business error is answered with its own code and its own message. */
  lemma BusinessReply<R>(message: string, code: Option<int>, production: bool)
    ensures var r := HandleExceptions<R>(Raise(NewBusinessError(message, code)), production);
      r == ErrorReply(code.GetOr(400), ApiResponse(ErrorStatus, message))
  {
  }

  /** Apart from business errors, which choose their own code, the status code
      tells which kind of exception was raised: 400 a `ValueError`, 503 a
      `ConnectionError`, 403 a `PermissionError` and 500 any other. */
  lemma {:induction false} StatusIdentifiesKind<R>(e: Exc, production: bool)
    requires !e.BusinessError?
    ensures var r := HandleExceptions<R>(Raise(e), production);
      r.ErrorReply? &&
      (r.statusCode == 400 <==> e.ValueError?) &&
      (r.statusCode == 503 <==> e.ConnectionError?) &&
      (r.statusCode == 403 <==> e.PermissionError?) &&
      (r.statusCode == 500 <==> !Handled(e))
  {
    match e
    case ValueError(_) =>
    case ConnectionError(_) =>
    case PermissionError(_) =>
    case KeyError(_) =>
    case TypeError(_) =>
    case AttributeError(_) =>
    case OtherError(_) =>
    case UnboundLocalError(_) =>
  }

  /** Only a validation error or a business error shows the client its own
      text; connection and permission failures hide theirs, and unhandled
      errors hide theirs in production. */
  lemma MessageExposure<R>(e: Exc, production: bool)
    ensures var r := HandleExceptions<R>(Raise(e), production);
      (e.BusinessError? || e.ValueError? || (!Handled(e) && !production)) ==> r.body.message == e.Text()
    ensures var r := HandleExceptions<R>(Raise(e), production);
      e.ConnectionError? ==> r.body.message == "Service unavailable."
    ensures var r := HandleExceptions<R>(Raise(e), production);
      e.PermissionError? ==> r.body.message == "Access denied."
    ensures var r := HandleExceptions<R>(Raise(e), production);
      (!Handled(e) && production) ==> r.body.message == "Internal server error"
  {
  }

  /** A request: its headers and, for the log, its HTTP method and path. */
  datatype Request = Request(headers: map<string, string>, verb: string, path: string)

  /** A response: its status code and headers. */
  datatype Response = Response(statusCode: int, headers: map<string, string>)

  /** The id a request is logged under: its `log_id` header when it has one,
      otherwise `generated`, a freshly generated UUID. */
  function LogId(req: Request, generated: string): (id: string)
    ensures "log_id" in req.headers ==> id == req.headers["log_id"]
    ensures "log_id" !in req.headers ==> id == generated
  {
    if "log_id" in req.headers then req.headers["log_id"] else generated
  }

  /** The entry logged when a request arrives. */
  datatype RequestLog = RequestLog(logId: string, verb: string, url: string)

  /** The entry logged when its response leaves. */
  datatype ResponseLog = ResponseLog(logId: string, processTime: string, statusCode: int)

  /** Both log entries and the response handed back. */
  datatype Traced = Traced(requestLog: RequestLog, responseLog: ResponseLog, response: Response)

  /** `add_process_time_and_log`: the inner response with `X-Process-Time`
      set to `elapsed`, both log entries tagged with the request's log id.
      The generated id, the clock and the handler's response are parameters. */
  function AddProcessTimeAndLog(req: Request, generated: string, inner: Response, elapsed: string): (t: Traced)
    ensures t.requestLog.logId == t.responseLog.logId == LogId(req, generated)
    ensures t.requestLog.verb == req.verb && t.requestLog.url == req.path
    ensures t.responseLog.processTime == elapsed && t.responseLog.statusCode == inner.statusCode
    ensures t.response.statusCode == inner.statusCode
    ensures "X-Process-Time" in t.response.headers && t.response.headers["X-Process-Time"] == elapsed
    ensures forall h :: h in inner.headers && h != "X-Process-Time" ==> h in t.response.headers && t.response.headers[h] == inner.headers[h]
    ensures t.response.headers.Keys == inner.headers.Keys + {"X-Process-Time"}
  {
    var id := LogId(req, generated);
    Traced(
      RequestLog(id, req.verb, req.path),
      ResponseLog(id, elapsed, inner.statusCode),
      Response(inner.statusCode, inner.headers["X-Process-Time" := elapsed]))
  }

  /** A client that sends a `log_id` finds its own id in both log entries,
      whatever id would have been generated. */
  lemma ClientLogIdKept(req: Request, generated1: string, generated2: string, inner: Response, elapsed: string)
    requires "log_id" in req.headers
    ensures AddProcessTimeAndLog(req, generated1, inner, elapsed) == AddProcessTimeAndLog(req, generated2, inner, elapsed)
    ensures AddProcessTimeAndLog(req, generated1, inner, elapsed).responseLog.logId == req.headers["log_id"]
  {
  }
}

=== FILE: mongodb.dfy ===
/** The MongoDB connection's database set-up: for each configured collection,
    the indexes it asks for are created, and its initial records get their
    `_id` from their `id` (or a new UUID) and are inserted in one unordered
    batch, duplicates being skipped. */
module MongoDb {
  import opened Base

  /** One entry of a collection's `index` list: a field name, a dictionary
      from index names to field lists, or anything else (ignored). */
  datatype IndexItem = Simple(field: string) | Compound(entries: seq<(string, seq<string>)>) | Ignored

  /** An index as `create_index` records it: its keys with their directions,
      and its name when one is given. */
  datatype IndexSpec = IndexSpec(keys: seq<(string, int)>, name: Option<string>)

  /** The ascending key list `[(field, 1) for field in fields]`. */
  function Ascending(fields: seq<string>): (r: seq<(string, int)>)
    ensures |r| == |fields|
    ensures forall i :: 0 <= i < |fields| ==> r[i] == (fields[i], 1)
  {
    if fields == [] then [] else [(fields[0], 1)] + Ascending(fields[1..])
  }

  /** The named compound indexes of a dictionary entry list, in order. */
  function CompoundSpecs(entries: seq<(string, seq<string>)>): (r: seq<IndexSpec>)
    ensures |r| == |entries|
  {
    if entries == [] then []
    else [IndexSpec(Ascending(entries[0].1), Some(entries[0].0))] + CompoundSpecs(entries[1..])
  }

  /** The indexes one `index` item creates. */
  function SpecsOf(item: IndexItem): seq<IndexSpec> {
    match item
    case Simple(f) => [IndexSpec([(f, 1)], None)]
    case Compound(entries) => CompoundSpecs(entries)
    case Ignored => []
  }

  /** The indexes an `index` list creates, in order. */
  function IndexSpecs(items: seq<IndexItem>): seq<IndexSpec> {
    if items == [] then [] else IndexSpecs(items[..|items| - 1]) + SpecsOf(items[|items| - 1])
  }

  /** A simple item makes one unnamed single-field ascending index; a
      dictionary item makes one index per entry, named by its key, over its
      fields in order, each ascending. */
  lemma {:induction false} IndexSpecsMeaning(items: seq<IndexItem>)
    ensures forall s :: s in IndexSpecs(items) ==> forall k :: 0 <= k < |s.keys| ==> s.keys[k].1 == 1
    ensures forall s :: s in IndexSpecs(items) && s.name.None? ==> exists f :: Simple(f) in items && s.keys == [(f, 1)]
    ensures forall s :: s in IndexSpecs(items) && s.name.Some? ==>
      exists i, e :: (0 <= i < |items| && items[i].Compound? && e in items[i].entries &&
        s.name.value == e.0 && s.keys == Ascending(e.1))
  {
    if items != [] {
      var init := items[..|items| - 1];
      var last := items[|items| - 1];
      IndexSpecsMeaning(init);
      CompoundSpecsMeaning(if last.Compound? then last.entries else []);
      forall s | s in IndexSpecs(items) && s.name.None?
        ensures exists f :: Simple(f) in items && s.keys == [(f, 1)]
      {
        if s in IndexSpecs(init) {
          var f :| Simple(f) in init && s.keys == [(f, 1)];
          assert Simple(f) in items;
        } else {
          assert Simple(last.field) in items;
        }
      }
      forall s | s in IndexSpecs(items) && s.name.Some?
        ensures exists i, e :: (0 <= i < |items| && items[i].Compound? && e in items[i].entries &&
          s.name.value == e.0 && s.keys == Ascending(e.1))
      {
        if s in IndexSpecs(init) {
          var i, e :| 0 <= i < |init| && init[i].Compound? && e in init[i].entries &&
            s.name.value == e.0 && s.keys == Ascending(e.1);
          assert items[i] == init[i];
        } else {
          var e :| e in last.entries && s == IndexSpec(Ascending(e.1), Some(e.0));
          assert items[|items| - 1] == last;
        }
      }
    }
  }

  /** Every compound index carries its entry's name and ascending fields. */
  lemma {:induction false} CompoundSpecsMeaning(entries: seq<(string, seq<string>)>)
    ensures forall s :: s in CompoundSpecs(entries) ==> exists e :: e in entries && s == IndexSpec(Ascending(e.1), Some(e.0))
    ensures forall s :: s in CompoundSpecs(entries) ==> forall k :: 0 <= k < |s.keys| ==> s.keys[k].1 == 1
  {
    if entries != [] {
      CompoundSpecsMeaning(entries[1..]);
      forall s | s in CompoundSpecs(entries)
        ensures exists e :: e in entries && s == IndexSpec(Ascending(e.1), Some(e.0))
      {
        if s in CompoundSpecs(entries[1..]) {
          var e :| e in entries[1..] && s == IndexSpec(Ascending(e.1), Some(e.0));
          assert e in entries;
        } else {
          assert entries[0] in entries;
        }
      }
    }
  }

  /** The number of indexes an `index` list creates: one per simple item and
      one per dictionary entry. */
  function IndexCount(items: seq<IndexItem>): nat {
    if items == [] then 0
    else IndexCount(items[..|items| - 1]) + (match items[|items| - 1]
      case Simple(_) => 1
      case Compound(entries) => |entries|
      case Ignored => 0)
  }

  lemma {:induction false} IndexSpecsCount(items: seq<IndexItem>)
    ensures |IndexSpecs(items)| == IndexCount(items)
  {
    if items != [] {
      IndexSpecsCount(items[..|items| - 1]);
    }
  }

  /** A collection: its indexes, in creation order, and its documents. */
  datatype Collection = Collection(indexes: seq<IndexSpec>, docs: seq<Doc>)

  /** The collection stored under `name`; a missing one is empty. */
  function Coll(cols: map<string, Collection>, name: string): Collection {
    if name in cols then cols[name] else Collection([], [])
  }

  /** The collections after `specs` are created on `name`, in order. */
  function WithIndexes(cols: map<string, Collection>, name: string, specs: seq<IndexSpec>): (r: map<string, Collection>)
    ensures specs == [] ==> r == cols
    ensures Coll(r, name).indexes == Coll(cols, name).indexes + specs
    ensures Coll(r, name).docs == Coll(cols, name).docs
    ensures forall n :: n != name ==> (n in r <==> n in cols) && (n in r ==> r[n] == cols[n])
  {
    if specs == [] then cols
    else cols[name := Coll(cols, name).(indexes := Coll(cols, name).indexes + specs)]
  }

  /** The document has an `_id` equal to `id`. */
  predicate HasId(d: Doc, id: Value) {
    "_id" in d && d["_id"] == id
  }

  /** Some document of `docs` has `_id` equal to `id`. */
  predicate IdTaken(docs: seq<Doc>, id: Value) {
    exists i :: 0 <= i < |docs| && HasId(docs[i], id)
  }

  /** No two documents share an `_id`, and each has one. */
  predicate UniqueIds(docs: seq<Doc>) {
    (forall i :: 0 <= i < |docs| ==> "_id" in docs[i]) &&
    (forall i, j :: 0 <= i < j < |docs| ==> docs[i]["_id"] != docs[j]["_id"])
  }

  /** `insert_many(batch, ordered=False)`: each document is inserted unless
      its `_id` is already taken, by an earlier document or one inserted
      before it in the batch; the rejected ones are reported in one error
      after the others have been inserted. */
  function InsertUnordered(docs: seq<Doc>, batch: seq<Doc>): seq<Doc>
    requires forall k :: 0 <= k < |batch| ==> "_id" in batch[k]
    decreases |batch|
  {
    if batch == [] then docs
    else InsertUnordered(if IdTaken(docs, batch[0]["_id"]) then docs else docs + [batch[0]], batch[1..])
  }

  /** The unordered insert keeps every document already stored, adds only
      batch documents, leaves every batch `_id` taken, and keeps `_id`s
      unique. */
  lemma {:induction false} InsertUnorderedMeaning(docs: seq<Doc>, batch: seq<Doc>)
    requires forall k :: 0 <= k < |batch| ==> "_id" in batch[k]
    ensures docs <= InsertUnordered(docs, batch)
    ensures forall d :: d in InsertUnordered(docs, batch) ==> d in docs || d in batch
    ensures forall k :: 0 <= k < |batch| ==> IdTaken(InsertUnordered(docs, batch), batch[k]["_id"])
    ensures UniqueIds(docs) ==> UniqueIds(InsertUnordered(docs, batch))
    decreases |batch|
  {
    if batch != [] {
      var next := if IdTaken(docs, batch[0]["_id"]) then docs else docs + [batch[0]];
      var r := InsertUnordered(next, batch[1..]);
      assert forall k :: 1 <= k < |batch| ==> batch[1..][k - 1] == batch[k];
      InsertUnorderedMeaning(next, batch[1..]);
      assert IdTaken(next, batch[0]["_id"]) by {
        if !IdTaken(docs, batch[0]["_id"]) {
          assert HasId(next[|docs|], batch[0]["_id"]);
        }
      }
      TakenStaysTaken(next, r, batch[0]["_id"]);
      forall k | 1 <= k < |batch| ensures IdTaken(r, batch[k]["_id"]) {
        assert batch[k] == batch[1..][k - 1];
      }
      if UniqueIds(docs) && !IdTaken(docs, batch[0]["_id"]) {
        forall i | 0 <= i < |docs| ensures docs[i]["_id"] != batch[0]["_id"] {
          assert !HasId(docs[i], batch[0]["_id"]);
        }
        assert UniqueIds(next);
      }
    }
  }

  /** An `_id` taken in a prefix stays taken. */
  lemma TakenStaysTaken(docs: seq<Doc>, more: seq<Doc>, id: Value)
    requires docs <= more && IdTaken(docs, id)
    ensures IdTaken(more, id)
  {
    var i :| 0 <= i < |docs| && HasId(docs[i], id);
    assert more[i] == docs[i];
  }

  /** Inserting into an empty collection a batch with distinct `_id`s keeps
      every document. */
  lemma {:induction false} InsertDistinctKeepsAll(docs: seq<Doc>, batch: seq<Doc>)
    requires forall k :: 0 <= k < |batch| ==> "_id" in batch[k]
    requires forall k :: 0 <= k < |batch| ==> !IdTaken(docs, batch[k]["_id"])
    requires forall j, k :: 0 <= j < k < |batch| ==> batch[j]["_id"] != batch[k]["_id"]
    ensures InsertUnordered(docs, batch) == docs + batch
    decreases |batch|
  {
    if batch != [] {
      var next := docs + [batch[0]];
      forall k | 0 <= k < |batch[1..]| ensures !IdTaken(next, batch[1..][k]["_id"]) {
        assert batch[1..][k] == batch[k + 1];
        var v := batch[k + 1]["_id"];
        assert !IdTaken(docs, v);
        assert batch[0]["_id"] != v;
        forall i | 0 <= i < |next| ensures !HasId(next[i], v) {
          if i < |docs| {
            assert next[i] == docs[i];
          } else {
            assert next[i] == batch[0];
          }
        }
      }
      InsertDistinctKeepsAll(next, batch[1..]);
      assert next + batch[1..] == docs + batch;
    }
  }

  /** The record after `_id` is set: its `id` moved to `_id`, or `uuid` as a
      new `_id` when it has no `id`. */
  function Normalise(d: Doc, uuid: string): (r: Doc)
    ensures "_id" in r && "id" !in r
    ensures "id" in d ==> r["_id"] == d["id"]
    ensures "id" !in d ==> r["_id"] == VStr(uuid)
    ensures forall k :: k != "_id" && k != "id" ==> (k in r <==> k in d) && (k in r ==> r[k] == d[k])
  {
    if "id" !in d then d["_id" := VStr(uuid)]
    else d["_id" := d["id"]] - {"id"}
  }

  /** Normalising a record twice replaces an `_id` it got from `id`: a
      second pass gives it a new UUID. */
  lemma NormaliseTwice(d: Doc, u1: string, u2: string)
    ensures Normalise(Normalise(d, u1), u2)["_id"] == VStr(u2)
  {
  }

  /** The records of collection number `c` after normalisation; `uuid(c, i)`
      is the UUID generated for record `i`. */
  function NormaliseAll(records: seq<Doc>, c: nat, uuid: (nat, nat) -> string): (r: seq<Doc>)
    ensures |r| == |records|
    ensures forall i :: 0 <= i < |records| ==> r[i] == Normalise(records[i], uuid(c, i))
  {
    seq(|records|, i requires 0 <= i < |records| => Normalise(records[i], uuid(c, i)))
  }

  /** A collection's configuration: its `index` and `data` entries, each of
      which may be missing. */
  datatype CollectionConfig = CollectionConfig(index: Option<seq<IndexItem>>, data: Option<seq<Doc>>)

  /** The collections after one configured collection is processed. */
  function Apply(cols: map<string, Collection>, name: string, cfg: CollectionConfig, c: nat, uuid: (nat, nat) -> string): map<string, Collection> {
    var indexed := WithIndexes(cols, name, IndexSpecs(cfg.index.GetOr([])));
    var data := cfg.data.GetOr([]);
    if data == [] then indexed
    else indexed[name := Coll(indexed, name).(docs := InsertUnordered(Coll(indexed, name).docs, NormaliseAll(data, c, uuid)))]
  }

  /** The collections after the first `n` configured collections are processed. */
  function Created(cols: map<string, Collection>, config: seq<(string, CollectionConfig)>, n: nat, uuid: (nat, nat) -> string): map<string, Collection>
    requires n <= |config|
  {
    if n == 0 then cols
    else var m := Created(cols, config, n - 1, uuid); Apply(m, config[n - 1].0, config[n - 1].1, n - 1, uuid)
  }

  /** Processing a collection touches that collection only; it keeps every
      document already there and every index already made. */
  lemma ApplyLocal(cols: map<string, Collection>, name: string, cfg: CollectionConfig, c: nat, uuid: (nat, nat) -> string)
    ensures var r := Apply(cols, name, cfg, c, uuid);
      forall n :: n != name ==> (n in r <==> n in cols) && (n in r ==> r[n] == cols[n])
    ensures Coll(cols, name).docs <= Coll(Apply(cols, name, cfg, c, uuid), name).docs
    ensures Coll(Apply(cols, name, cfg, c, uuid), name).indexes ==
      Coll(cols, name).indexes + IndexSpecs(cfg.index.GetOr([]))
  {
    var data := cfg.data.GetOr([]);
    if data != [] {
      var indexed := WithIndexes(cols, name, IndexSpecs(cfg.index.GetOr([])));
      InsertUnorderedMeaning(Coll(indexed, name).docs, NormaliseAll(data, c, uuid));
    }
  }

  /** After processing, every initial record of the collection is stored
      under its normalised `_id`, and `_id`s stay unique. */
  lemma ApplyStoresRecords(cols: map<string, Collection>, name: string, cfg: CollectionConfig, c: nat, uuid: (nat, nat) -> string)
    requires cfg.data.Some?
    ensures var docs := Coll(Apply(cols, name, cfg, c, uuid), name).docs;
      forall i :: 0 <= i < |cfg.data.value| ==> IdTaken(docs, Normalise(cfg.data.value[i], uuid(c, i))["_id"])
    ensures UniqueIds(Coll(cols, name).docs) ==> UniqueIds(Coll(Apply(cols, name, cfg, c, uuid), name).docs)
  {
    var data := cfg.data.value;
    if data != [] {
      var indexed := WithIndexes(cols, name, IndexSpecs(cfg.index.GetOr([])));
      InsertUnorderedMeaning(Coll(indexed, name).docs, NormaliseAll(data, c, uuid));
    }
  }

  /** Processing one more configured collection. */
  lemma CreatedNext(cols: map<string, Collection>, config: seq<(string, CollectionConfig)>, c: nat, uuid: (nat, nat) -> string)
    requires c < |config|
    ensures Created(cols, config, c + 1, uuid) == Apply(Created(cols, config, c, uuid), config[c].0, config[c].1, c, uuid)
  {
  }

  /** `IndexSpecs` of one more item. */
  lemma IndexSpecsSnoc(items: seq<IndexItem>, k: nat)
    requires k < |items|
    ensures IndexSpecs(items[..k + 1]) == IndexSpecs(items[..k]) + SpecsOf(items[k])
  {
    assert items[..k + 1][..k] == items[..k];
  }

  /** `CompoundSpecs` of one more entry. */
  lemma {:induction false} CompoundSpecsSnoc(entries: seq<(string, seq<string>)>, j: nat)
    requires j < |entries|
    ensures CompoundSpecs(entries[..j + 1]) == CompoundSpecs(entries[..j]) + [IndexSpec(Ascending(entries[j].1), Some(entries[j].0))]
  {
    if j > 0 {
      assert entries[..j + 1][1..] == entries[1..][..j];
      assert entries[..j][1..] == entries[1..][..j - 1];
      CompoundSpecsSnoc(entries[1..], j - 1);
    }
  }

  /** Creating `a` and then `b` is creating `a + b`. */
  lemma WithIndexesAppend(cols: map<string, Collection>, name: string, a: seq<IndexSpec>, b: seq<IndexSpec>)
    ensures WithIndexes(WithIndexes(cols, name, a), name, b) == WithIndexes(cols, name, a + b)
  {
    if a == [] {
      assert a + b == b;
    } else if b == [] {
      assert a + b == a;
    } else {
      assert Coll(cols, name).indexes + a + b == Coll(cols, name).indexes + (a + b);
    }
  }

  /** A database: its collections by name. */
  class MongoDatabase {
    var collections: map<string, Collection>

    constructor (collections: map<string, Collection>)
      ensures this.collections == collections
    {
      this.collections := collections;
    }

    /** `collection.create_index(...)` on the collection `name`. */
    method CreateIndex(name: string, spec: IndexSpec)
      modifies this
      ensures collections == WithIndexes(old(collections), name, [spec])
    {
      collections := collections[name := Coll(collections, name).(indexes := Coll(collections, name).indexes + [spec])];
    }

    /** `collection.insert_many(batch, ordered=False)` on the collection `name`. */
    method InsertMany(name: string, batch: seq<Doc>)
      requires forall k :: 0 <= k < |batch| ==> "_id" in batch[k]
      modifies this
      ensures collections == old(collections)[name := Coll(old(collections), name).(docs := InsertUnordered(Coll(old(collections), name).docs, batch))]
    {
      collections := collections[name := Coll(collections, name).(docs := InsertUnordered(Coll(collections, name).docs, batch))];
    }

    /** Creates the named compound indexes of one dictionary item on
        collection `name`. */
    method CreateCompound(name: string, entries: seq<(string, seq<string>)>)
      modifies this
      ensures collections == WithIndexes(old(collections), name, CompoundSpecs(entries))
    {
      var j := 0;
      while j < |entries|
        invariant 0 <= j <= |entries|
        invariant collections == WithIndexes(old(collections), name, CompoundSpecs(entries[..j]))
      {
        var spec := IndexSpec(Ascending(entries[j].1), Some(entries[j].0));
        CompoundSpecsSnoc(entries, j);
        WithIndexesAppend(old(collections), name, CompoundSpecs(entries[..j]), [spec]);
        CreateIndex(name, spec);
        j := j + 1;
      }
      assert entries[..j] == entries;
    }

    /** Creates the indexes of one `index` list on collection `name`. */
    method CreateIndexes(name: string, items: seq<IndexItem>)
      modifies this
      ensures collections == WithIndexes(old(collections), name, IndexSpecs(items))
    {
      var k := 0;
      while k < |items|
        invariant 0 <= k <= |items|
        invariant collections == WithIndexes(old(collections), name, IndexSpecs(items[..k]))
      {
        IndexSpecsSnoc(items, k);
        WithIndexesAppend(old(collections), name, IndexSpecs(items[..k]), SpecsOf(items[k]));
        match items[k] {
          case Simple(f) =>
            CreateIndex(name, IndexSpec([(f, 1)], None));
          case Compound(entries) =>
            CreateCompound(name, entries);
          case Ignored =>
            assert IndexSpecs(items[..k]) + [] == IndexSpecs(items[..k]);
        }
        k := k + 1;
      }
      assert items[..k] == items;
    }

    /** One configured collection: its indexes, then, when it has initial
        records, their normalisation and unordered insert. */
    method ProcessCollection(name: string, cfg: CollectionConfig, c: nat, uuid: (nat, nat) -> string)
      modifies this
      ensures collections == Apply(old(collections), name, cfg, c, uuid)
    {
      CreateIndexes(name, cfg.index.GetOr([]));
      var data := cfg.data.GetOr([]);
      if data != [] {
        var records := new Doc[|data|](i => if 0 <= i < |data| then data[i] else map[]);
        assert records[..] == data;
        NormaliseRecords(records, c, uuid);
        InsertMany(name, records[..]);
      }
    }

    /** The loop over the configured collections, in order. */
    method CreateCollections(config: seq<(string, CollectionConfig)>, uuid: (nat, nat) -> string)
      modifies this
      ensures collections == Created(old(collections), config, |config|, uuid)
    {
      var c := 0;
      while c < |config|
        invariant 0 <= c <= |config|
        invariant collections == Created(old(collections), config, c, uuid)
      {
        CreatedNext(old(collections), config, c, uuid);
        ProcessCollection(config[c].0, config[c].1, c, uuid);
        c := c + 1;
      }
    }
  }

  /** `MongoConn`: the database selected when the connection was opened, if
      any. */
  class MongoConn {
    var db: MongoDatabase?

    /** A connection opened with (`db != null`) or without a database name. */
    constructor (db: MongoDatabase?)
      ensures this.db == db
    {
      this.db := db;
    }

    /** `get_database()`: the selected database, or None when none was. */
    function GetDatabase(): (r: MongoDatabase?)
      reads this
      ensures r == null <==> db == null
      ensures r == db
    {
      db
    }

    /** `create_database(config_json)`: nothing when no database is selected;
        otherwise each configured collection, in order, gets its indexes and
        then its normalised initial records. `uuid(c, i)` is the UUID
        generated for record `i` of collection `c`. */
    method CreateDatabase(config: seq<(string, CollectionConfig)>, uuid: (nat, nat) -> string)
      modifies db
      ensures db != null ==> db.collections == Created(old(db.collections), config, |config|, uuid)
    {
      if db == null {
        return;
      }
      db.CreateCollections(config, uuid);
    }
  }

  /** The loop that gives each initial record its `_id`, in place. */
  method NormaliseRecords(records: array<Doc>, c: nat, uuid: (nat, nat) -> string)
    modifies records
    ensures records[..] == NormaliseAll(old(records[..]), c, uuid)
  {
    var i := 0;
    while i < records.Length
      invariant 0 <= i <= records.Length
      invariant forall k :: 0 <= k < i ==> records[k] == Normalise(old(records[k]), uuid(c, k))
      invariant forall k :: i <= k < records.Length ==> records[k] == old(records[k])
    {
      var d := records[i];
      if "id" !in d {
        records[i] := d["_id" := VStr(uuid(c, i))];
      } else {
        records[i] := d["_id" := d["id"]] - {"id"};
      }
      i := i + 1;
    }
  }
}

=== FILE: org_init.dfy ===
/** The tenant bootstrap: the first ("owner") organisation, its "Admin"
    role with one grant row per feature the organisation's tier can see,
    and its administrator user. */
module OrgInit {
  import opened Base
  import opened Bits
  import opened Records
  import opened Utility
  import PermissionCheck

  /** The parts of the request the bootstrap reads. */
  datatype OrgRequest = OrgRequest(authority: Mask)
  datatype UserRequest = UserRequest(username: string, email: string, password: string, status: Status)

  /** The identifiers and the salt the bootstrap draws: `uuid4` for the
      organisation, the role and the user, and `gensalt` for the password.
      The seeding draws `ids(k)` for its `k`-th row. */
  datatype Draws = Draws(orgId: string, roleId: string, userId: string, salt: string)

  /** `{"status": 0, "data": ...}` or `{"status": 4, "message": ...}`. */
  datatype Outcome = Created(org: Org, role: Role, user: User) | Refused(message: string)

  const OwnerExists := "The owner already exists, and there is only one owner in the structure."
  const OwnerUserExists := "The owner user already exists, please fill other username or email."

  /** `find_one({"authority": 1})`: an organisation whose tier is exactly 1. */
  function HasOwner(orgs: seq<Org>): (r: bool)
    ensures r <==> exists i :: 0 <= i < |orgs| && orgs[i].authority == Some(1)
  {
    if orgs == [] then false
    else orgs[0].authority == Some(1) || (assert forall i :: 1 <= i < |orgs| ==> orgs[i] == orgs[1..][i - 1]; HasOwner(orgs[1..]))
  }

  /** `find_one({"username": name})`: only the user name is compared. */
  function UsernameTaken(users: seq<User>, name: string): (r: bool)
    ensures r <==> exists i :: 0 <= i < |users| && users[i].username == name
  {
    if users == [] then false
    else users[0].username == name || (assert forall i :: 1 <= i < |users| ==> users[i] == users[1..][i - 1]; UsernameTaken(users[1..], name))
  }

  // ---------------------------------------------------------------------
  // Seeding the role's grant rows (init_role_in_feature)

  /** The bits a seeded row grants: every action but those withheld. */
  function Remaining(total: Mask, neg: Mask): Mask {
    total - neg
  }

  /** The row the seeding builds for one feature after `rows`: none when
      the feature is hidden from the tier, a KeyError when it has no entry
      for the tier, else `total - negasiperm[str(tier)]`. */
  function SeedStep(rows: seq<Grant>, f: Feature, orgId: string, tier: Mask, roleId: string, total: Mask, ids: nat -> string)
    : Result<seq<Grant>>
  {
    if !Visible(f, tier) then Ok(rows)
    else if TierKey(tier) !in f.negasiperm then Raise(TierKeyError(tier))
    else Ok(rows + [Grant(ids(|rows|), orgId, roleId, f.id, Remaining(total, f.negasiperm[TierKey(tier)]))])
  }

  /** The rows the seeding loop builds: one per feature whose `authority`
      has a bit of the organisation's tier (`$bitsAnySet`), in order. */
  function SeedRows(features: seq<Feature>, orgId: string, tier: Mask, roleId: string, total: Mask, ids: nat -> string)
    : Result<seq<Grant>>
  {
    if features == [] then Ok([])
    else match SeedRows(features[..|features| - 1], orgId, tier, roleId, total, ids)
      case Raise(e) => Raise(e)
      case Ok(rows) => SeedStep(rows, features[|features| - 1], orgId, tier, roleId, total, ids)
  }

  /** `insert_many` of an empty list raises. */
  const EmptyInsert: Exc := TypeError("documents must be a non-empty list")

  /** The outcome of the seeding: the inserted rows or the error it reports
      (as status 4, which its caller ignores). */
  function SeedOutcome(features: seq<Feature>, orgId: string, tier: Mask, roleId: string, total: Mask, ids: nat -> string)
    : Result<seq<Grant>>
  {
    match SeedRows(features, orgId, tier, roleId, total, ids)
    case Raise(e) => Raise(e)
    case Ok(rows) => if rows == [] then Raise(EmptyInsert) else Ok(rows)
  }

  /** The seeding fails exactly when some visible feature lacks an entry
      for the tier. */
  lemma {:induction false} SeedRowsOk(features: seq<Feature>, orgId: string, tier: Mask, roleId: string, total: Mask, ids: nat -> string)
    ensures SeedRows(features, orgId, tier, roleId, total, ids).Ok? <==>
      forall f :: f in features && Visible(f, tier) ==> TierKey(tier) in f.negasiperm
  {
    if features != [] {
      var init := features[..|features| - 1];
      var last := features[|features| - 1];
      assert features == init + [last];
      SeedRowsOk(init, orgId, tier, roleId, total, ids);
    }
  }

  /** The seeded rows are exactly the visible features, in order, each
      carrying the new organisation, the new role and `total - neg`. */
  predicate SeededAs(rows: seq<Grant>, vis: seq<Feature>, orgId: string, tier: Mask, roleId: string, total: Mask) {
    && |rows| == |vis|
    && forall k :: 0 <= k < |rows| ==>
         && rows[k].featureId == vis[k].id && rows[k].orgId == orgId && rows[k].roleId == roleId
         && TierKey(tier) in vis[k].negasiperm
         && rows[k].permission == Remaining(total, vis[k].negasiperm[TierKey(tier)])
  }

  lemma {:induction false} SeedRowsShape(features: seq<Feature>, orgId: string, tier: Mask, roleId: string, total: Mask, ids: nat -> string)
    requires SeedRows(features, orgId, tier, roleId, total, ids).Ok?
    ensures SeededAs(SeedRows(features, orgId, tier, roleId, total, ids).value, VisibleFeatures(features, tier), orgId, tier, roleId, total)
  {
    if features != [] {
      var init := features[..|features| - 1];
      var last := features[|features| - 1];
      SeedRowsShape(init, orgId, tier, roleId, total, ids);
      var rows := SeedRows(init, orgId, tier, roleId, total, ids).value;
      var vis := VisibleFeatures(init, tier);
      if Visible(last, tier) {
        var g := Grant(ids(|rows|), orgId, roleId, last.id, Remaining(total, last.negasiperm[TierKey(tier)]));
        SeededAppend(rows, vis, g, last, orgId, tier, roleId, total);
      }
    }
  }

  lemma SeededAppend(rows: seq<Grant>, vis: seq<Feature>, g: Grant, f: Feature, orgId: string, tier: Mask, roleId: string, total: Mask)
    requires SeededAs(rows, vis, orgId, tier, roleId, total)
    requires TierKey(tier) in f.negasiperm
    requires g.featureId == f.id && g.orgId == orgId && g.roleId == roleId && g.permission == Remaining(total, f.negasiperm[TierKey(tier)])
    ensures SeededAs(rows + [g], vis + [f], orgId, tier, roleId, total)
  {
  }

  /** With the seeded enumeration, every visible feature whose withheld
      bits are action bits gets all the other action bits: `255 - neg ==
      255 & ~neg`. */
  lemma SeededPermission(neg: Mask)
    requires neg & 255 == neg
    ensures Remaining(SumBits(RoleAction), neg) == 255 & !neg
  {
    RoleActionSum();
    SubtractSubMask(255, neg);
  }

  /** The seeding loop as `init_role_in_feature` evidently intends it, with
      the ROLEACTION enumeration read from the database: build the rows,
      then insert them all. The bootstrap as written never gets this far
      (see `InitOwnerOrgOutcome`). */
  method SeedRoleGrants(db: Database, orgId: string, tier: Mask, roleId: string, bitRA: ActionEnum, ids: nat -> string)
    returns (status: Result<seq<Grant>>)
    modifies db`grants
    ensures status == SeedOutcome(db.features, orgId, tier, roleId, SumBits(bitRA), ids)
    ensures db.grants == old(db.grants) + (if status.Ok? then status.value else [])
  {
    var total := SumBits(bitRA);
    var features := db.features;
    var initialData: seq<Grant> := [];
    var n := 0;
    while n < |features|
      invariant 0 <= n <= |features|
      invariant SeedRows(features[..n], orgId, tier, roleId, total, ids) == Ok(initialData)
    {
      assert features[..n + 1][..n] == features[..n];
      var f := features[n];
      var step := SeedStep(initialData, f, orgId, tier, roleId, total, ids);
      if step.Raise? {
        SeedErrorStops(features, n + 1, orgId, tier, roleId, total, ids);
        return step;
      }
      initialData := step.value;
      n := n + 1;
    }
    assert features[..n] == features;
    if initialData == [] {
      return Raise(EmptyInsert);
    }
    db.grants := db.grants + initialData;
    status := Ok(initialData);
  }

  lemma {:induction false} SeedErrorStops(features: seq<Feature>, m: nat, orgId: string, tier: Mask, roleId: string, total: Mask, ids: nat -> string)
    requires m <= |features|
    requires SeedRows(features[..m], orgId, tier, roleId, total, ids).Raise?
    ensures SeedRows(features, orgId, tier, roleId, total, ids) == SeedRows(features[..m], orgId, tier, roleId, total, ids)
    decreases |features| - m
  {
    if m < |features| {
      var init := features[..|features| - 1];
      assert init[..m] == features[..m];
      SeedErrorStops(init, m, orgId, tier, roleId, total, ids);
    } else {
      assert features[..m] == features;
    }
  }

  /** With the seeding corrected, the Admin role is admitted by the guard to
      every action bit of a visible feature that is not withheld from the tier. */
  lemma AdminAdmittedWhenSeeded(features: seq<Feature>, grants: seq<Grant>, orgId: string, tier: Mask, roleId: string,
                                ids: nat -> string, f: Feature, required: Mask)
    requires f in features && Visible(f, tier) && TierKey(tier) in f.negasiperm
    requires SeedOutcome(features, orgId, tier, roleId, SumBits(RoleAction), ids).Ok?
    requires f.negasiperm[TierKey(tier)] & 255 == f.negasiperm[TierKey(tier)]
    requires Covers(255 & !f.negasiperm[TierKey(tier)], required)
    ensures PermissionCheck.Authorized(grants + SeedOutcome(features, orgId, tier, roleId, SumBits(RoleAction), ids).value,
                                       [roleId], f.id, required)
  {
    var total := SumBits(RoleAction);
    var rows := SeedOutcome(features, orgId, tier, roleId, total, ids).value;
    assert rows == SeedRows(features, orgId, tier, roleId, total, ids).value;
    var neg := f.negasiperm[TierKey(tier)];
    var k := SeededRowOf(features, orgId, tier, roleId, total, ids, f);
    SeededCovers(neg, required);
    AdmittedByRow(grants, rows, k, roleId, f.id, required);
  }

  /** A row of the role on the feature that covers the bits admits the role,
      whatever rows come before it. */
  lemma AdmittedByRow(grants: seq<Grant>, rows: seq<Grant>, k: nat, roleId: string, fId: string, required: Mask)
    requires k < |rows| && rows[k].roleId == roleId && rows[k].featureId == fId
    requires Covers(rows[k].permission, required)
    ensures PermissionCheck.Authorized(grants + rows, [roleId], fId, required)
  {
    var all := grants + rows;
    assert all[|grants| + k] == rows[k];
    assert PermissionCheck.Matches(all[|grants| + k], [roleId], fId);
  }

  /** The row seeded for a visible feature. */
  lemma SeededRowOf(features: seq<Feature>, orgId: string, tier: Mask, roleId: string, total: Mask,
                    ids: nat -> string, f: Feature) returns (k: nat)
    requires f in features && Visible(f, tier) && TierKey(tier) in f.negasiperm
    requires SeedRows(features, orgId, tier, roleId, total, ids).Ok?
    ensures var rows := SeedRows(features, orgId, tier, roleId, total, ids).value;
      && k < |rows| && rows[k].featureId == f.id && rows[k].roleId == roleId
      && rows[k].permission == Remaining(total, f.negasiperm[TierKey(tier)])
  {
    SeedRowsShape(features, orgId, tier, roleId, total, ids);
    var vis := VisibleFeatures(features, tier);
    assert f in vis;
    k :| 0 <= k < |vis| && vis[k] == f;
  }

  lemma SeededCovers(neg: Mask, required: Mask)
    requires neg & 255 == neg
    requires Covers(255 & !neg, required)
    ensures Covers(Remaining(SumBits(RoleAction), neg), required)
  {
    SeededPermission(neg);
  }

  // ---------------------------------------------------------------------
  // init_owner_org

  /** The outcome of the bootstrap and the new organisations, roles, users
      and grant rows. */
  datatype State = State(orgs: seq<Org>, roles: seq<Role>, users: seq<User>, grants: seq<Grant>)

  /** `init_role_in_feature` as written calls `get_enum("ROLEACTION")`,
      one argument short of `get_enum(mongo, enum_id)`; the TypeError is
      caught and reported as status 4, which `init_role` ignores, and no
      grant row is written. */
  const GetEnumArity: Exc := TypeError("get_enum() missing 1 required positional argument: 'enum_id'")

  function InitOwnerOrgOutcome(s: State, orgReq: OrgRequest, userReq: UserRequest, draws: Draws): (Outcome, State)
  {
    if HasOwner(s.orgs) then (Refused(OwnerExists), s)
    else if UsernameTaken(s.users, userReq.username) then (Refused(OwnerUserExists), s)
    else
      var org := Org(draws.orgId, Some(orgReq.authority), None, None);
      var role := Role(draws.roleId, "Admin", org.id);
      var (salt, hash) := SaltedHash(userReq.password, draws.salt);
      var user := User(draws.userId, userReq.username, userReq.email, Some(hash), Some(salt), VStr(role.id), userReq.status, org.id);
      (Created(org, role, user), State(s.orgs + [org], s.roles + [role], s.users + [user], s.grants))
  }

  /** As written, a bootstrap that goes ahead leaves its new Admin role
      without a grant row, so the route guard refuses the owner every action
      on every feature. */
  lemma AdminLocksOutAsWritten(s: State, orgReq: OrgRequest, userReq: UserRequest, draws: Draws, fId: string, required: Mask)
    requires InitOwnerOrgOutcome(s, orgReq, userReq, draws).0.Created?
    requires forall i :: 0 <= i < |s.grants| ==> s.grants[i].roleId != draws.roleId
    ensures var (r, s') := InitOwnerOrgOutcome(s, orgReq, userReq, draws);
      s'.grants == s.grants && !PermissionCheck.Authorized(s'.grants, [r.role.id], fId, required)
  {
    var (r, s') := InitOwnerOrgOutcome(s, orgReq, userReq, draws);
    assert r.role.id == draws.roleId;
    assert forall i :: 0 <= i < |s'.grants| ==> !PermissionCheck.Matches(s'.grants[i], [r.role.id], fId);
  }

  /** `init_owner_org` as written: after the checks, the organisation and
      its Admin role are inserted; then `init_user` raises on the pair
      assignment from `hash_password` (see `UnpackError`), and the handler
      answers status 4 with the error's text. Were the unpacking to succeed,
      this would be `InitOwnerOrgOutcome`. */
  function InitOwnerOrgOutcomeAsWritten(s: State, orgReq: OrgRequest, userReq: UserRequest, draws: Draws): (Outcome, State)
  {
    if HasOwner(s.orgs) then (Refused(OwnerExists), s)
    else if UsernameTaken(s.users, userReq.username) then (Refused(OwnerUserExists), s)
    else
      match UnpackError(BcryptTextLength)
      case Some(e) =>
        var org := Org(draws.orgId, Some(orgReq.authority), None, None);
        var role := Role(draws.roleId, "Admin", org.id);
        (Refused(e.Text()), State(s.orgs + [org], s.roles + [role], s.users, s.grants))
      case None => InitOwnerOrgOutcome(s, orgReq, userReq, draws)
  }

  /** As written, a bootstrap that passes its checks creates no user: it
      answers the unpacking error and leaves the new organisation and role
      behind. When the request asks for the owner tier, every later
      bootstrap is then refused, so the owner organisation never gets a
      user. */
  lemma InitStrandsOwnerAsWritten(s: State, orgReq: OrgRequest, userReq: UserRequest, draws: Draws,
                                  orgReq2: OrgRequest, userReq2: UserRequest, draws2: Draws)
    requires !HasOwner(s.orgs) && !UsernameTaken(s.users, userReq.username)
    ensures var (r, s') := InitOwnerOrgOutcomeAsWritten(s, orgReq, userReq, draws);
      && r == Refused(TooManyToUnpack)
      && s'.users == s.users && s'.grants == s.grants
      && |s'.orgs| == |s.orgs| + 1 && s'.orgs[|s.orgs|].id == draws.orgId
      && s'.roles == s.roles + [Role(draws.roleId, "Admin", draws.orgId)]
    ensures orgReq.authority == 1 ==>
      var s' := InitOwnerOrgOutcomeAsWritten(s, orgReq, userReq, draws).1;
      InitOwnerOrgOutcomeAsWritten(s', orgReq2, userReq2, draws2).0 == Refused(OwnerExists)
  {
    SaltedHashRaisesAsWritten();
    var s' := InitOwnerOrgOutcomeAsWritten(s, orgReq, userReq, draws).1;
    assert s'.orgs[|s.orgs|].authority == Some(orgReq.authority);
  }

  /** The owner check comes first, then the user name check; a refusal
      writes nothing. */
  lemma InitRefusals(s: State, orgReq: OrgRequest, userReq: UserRequest, draws: Draws)
    ensures var (r, s') := InitOwnerOrgOutcome(s, orgReq, userReq, draws);
      && (r == Refused(OwnerExists) <==> exists i :: 0 <= i < |s.orgs| && s.orgs[i].authority == Some(1))
      && (r == Refused(OwnerUserExists) <==>
            !(exists i :: 0 <= i < |s.orgs| && s.orgs[i].authority == Some(1))
            && exists i :: 0 <= i < |s.users| && s.users[i].username == userReq.username)
      && (r.Refused? ==> s' == s)
  {
  }

  /** A bootstrap that goes ahead appends one organisation with the
      request's tier (not forced to the owner tier), one "Admin" role of that
      organisation and one user holding that role, whose password is the
      request's and nothing else; the grant rows are left as they were. */
  lemma InitCreates(s: State, orgReq: OrgRequest, userReq: UserRequest, draws: Draws, other: string)
    requires InitOwnerOrgOutcome(s, orgReq, userReq, draws).0.Created?
    ensures var (r, s') := InitOwnerOrgOutcome(s, orgReq, userReq, draws);
      && s'.orgs == s.orgs + [r.org] && s'.roles == s.roles + [r.role] && s'.users == s.users + [r.user]
      && r.org.authority == Some(orgReq.authority) && r.org.id == draws.orgId
      && r.role.name == "Admin" && r.role.orgId == r.org.id
      && r.user.roles == VStr(r.role.id) && r.user.orgId == r.org.id && r.user.username == userReq.username
      && (CheckPassword(other, r.user.password) <==> other == userReq.password && other != "")
      && s'.grants == s.grants
  {
    var (salt, hash) := SaltedHash(userReq.password, draws.salt);
    if other == userReq.password && other != "" {
      CheckOwnHash(other, Some(draws.salt), draws.salt);
    }
    if CheckPassword(other, Some(hash)) {
      CheckOnlyOwnHash(userReq.password, other, Some(draws.salt), draws.salt);
    }
  }

  /** Only an owner request of tier 1 closes the bootstrap: after it, every
      later bootstrap is refused. */
  lemma OwnerClosesBootstrap(s: State, orgReq: OrgRequest, userReq: UserRequest, draws: Draws,
                             userReq2: UserRequest, orgReq2: OrgRequest, draws2: Draws)
    requires orgReq.authority == 1
    requires InitOwnerOrgOutcome(s, orgReq, userReq, draws).0.Created?
    ensures var s' := InitOwnerOrgOutcome(s, orgReq, userReq, draws).1;
      InitOwnerOrgOutcome(s', orgReq2, userReq2, draws2).0 == Refused(OwnerExists)
  {
    var s' := InitOwnerOrgOutcome(s, orgReq, userReq, draws).1;
    assert s'.orgs[|s.orgs|].authority == Some(1);
  }

  /** The bootstrap, as the organisation service runs it: checks, then the
      organisation, the role (whose grant seeding fails, see
      `GetEnumArity`), then the user. */
  method InitOwnerOrg(db: Database, orgReq: OrgRequest, userReq: UserRequest, draws: Draws)
    returns (r: Outcome)
    modifies db`orgs, db`roles, db`users
    ensures (r, State(db.orgs, db.roles, db.users, db.grants)) ==
      InitOwnerOrgOutcome(old(State(db.orgs, db.roles, db.users, db.grants)), orgReq, userReq, draws)
  {
    if HasOwner(db.orgs) {
      return Refused(OwnerExists);
    }
    if UsernameTaken(db.users, userReq.username) {
      return Refused(OwnerUserExists);
    }
    var org := Org(draws.orgId, Some(orgReq.authority), None, None);
    db.orgs := db.orgs + [org];
    var role := Role(draws.roleId, "Admin", org.id);
    db.roles := db.roles + [role];
    var user := InitUser(db, org, role, userReq, draws);
    r := Created(org, role, user);
  }

  /** `init_user`: hash the password with a fresh salt and insert the user. */
  method InitUser(db: Database, org: Org, role: Role, userReq: UserRequest, draws: Draws) returns (user: User)
    modifies db`users
    ensures var (salt, hash) := SaltedHash(userReq.password, draws.salt);
      user == User(draws.userId, userReq.username, userReq.email, Some(hash), Some(salt), VStr(role.id), userReq.status, org.id)
    ensures db.users == old(db.users) + [user]
  {
    var (salt, hash) := SaltedHash(userReq.password, draws.salt);
    user := User(draws.userId, userReq.username, userReq.email, Some(hash), Some(salt), VStr(role.id), userReq.status, org.id);
    db.users := db.users + [user];
  }
}

=== FILE: pagination.dfy ===
/** The pagination every listing shares: `skip = (page - 1) * per_page`,
    `limit = per_page` and `total_pages = (total + per_page - 1) // per_page`.
    The routes admit only `page >= 1` and `per_page >= 1`. */
module Pagination {

  /** The `$skip` of a page. */
  function Skip(page: nat, perPage: nat): nat
    requires page >= 1
  {
    (page - 1) * perPage
  }

  /** `total_pages`: the ceiling of `total / per_page`. */
  function TotalPages(total: nat, perPage: nat): (n: nat)
    requires perPage >= 1
    ensures n * perPage >= total
    ensures n == 0 || (n - 1) * perPage < total
  {
    CeilingDivision(total, perPage);
    (total + perPage - 1) / perPage
  }

  lemma CeilingDivision(total: nat, perPage: nat)
    requires perPage >= 1
    ensures var n := (total + perPage - 1) / perPage;
      n * perPage >= total && (n == 0 || (n - 1) * perPage < total)
  {
    var a := total + perPage - 1;
    var n := a / perPage;
    var r := a % perPage;
    assert a == n * perPage + r && 0 <= r < perPage;
    if n > 0 {
      assert (n - 1) * perPage == n * perPage - perPage;
    }
  }

  /** The `$skip`/`$limit` stages applied to the matched documents. */
  function PageOf<T>(items: seq<T>, page: nat, perPage: nat): (r: seq<T>)
    requires page >= 1
    ensures |r| <= perPage
  {
    var lo := if Skip(page, perPage) <= |items| then Skip(page, perPage) else |items|;
    var hi := if lo + perPage <= |items| then lo + perPage else |items|;
    items[lo..hi]
  }

  /** A page is non-empty exactly when its number is at most `total_pages`,
      and the item at position `i` sits on page `i / per_page + 1`, at
      position `i % per_page`. */
  lemma PagesCoverItems<T>(items: seq<T>, page: nat, perPage: nat, i: nat)
    requires page >= 1 && perPage >= 1
    ensures |PageOf(items, page, perPage)| > 0 <==> page <= TotalPages(|items|, perPage)
    ensures i < |items| ==>
      var p := i / perPage + 1;
      i % perPage < |PageOf(items, p, perPage)| && PageOf(items, p, perPage)[i % perPage] == items[i]
  {
    PageNonEmpty(items, page, perPage);
    if i < |items| {
      ItemOnPage(items, perPage, i);
    }
  }

  /** A page is non-empty exactly when it starts before the last item. */
  lemma PageNonEmpty<T>(items: seq<T>, page: nat, perPage: nat)
    requires page >= 1 && perPage >= 1
    ensures |PageOf(items, page, perPage)| > 0 <==> page <= TotalPages(|items|, perPage)
  {
    var n := TotalPages(|items|, perPage);
    var skip := Skip(page, perPage);
    assert |PageOf(items, page, perPage)| > 0 <==> skip < |items|;
    if page <= n {
      MulMonotone(page - 1, n - 1, perPage);
      assert skip <= (n - 1) * perPage;
    } else {
      MulMonotone(n, page - 1, perPage);
      assert skip >= n * perPage;
    }
  }

  /** The item at position `i` is on page `i / per_page + 1`. */
  lemma ItemOnPage<T>(items: seq<T>, perPage: nat, i: nat)
    requires perPage >= 1 && i < |items|
    ensures var p := i / perPage + 1;
      i % perPage < |PageOf(items, p, perPage)| && PageOf(items, p, perPage)[i % perPage] == items[i]
  {
    var q, r := i / perPage, i % perPage;
    PageStart(i, perPage);
    var lo := Skip(q + 1, perPage);
    var hi := if lo + perPage <= |items| then lo + perPage else |items|;
    assert PageOf(items, q + 1, perPage) == items[lo..hi];
  }

  /** Page `i / per_page + 1` starts `i % per_page` items before `i`. */
  lemma PageStart(i: nat, perPage: nat)
    requires perPage >= 1
    ensures Skip(i / perPage + 1, perPage) + i % perPage == i
    ensures i % perPage < perPage
  {
    var q := i / perPage;
    assert Skip(q + 1, perPage) == q * perPage;
  }

  lemma MulMonotone(a: nat, b: nat, c: nat)
    requires a <= b
    ensures a * c <= b * c
  {
  }

  /** The `pagination` block of a listing's answer. */
  datatype PageInfo = PageInfo(currentPage: nat, itemsPerPage: nat, totalItems: nat, totalPages: nat)

  /** A listing's answer over the documents its filter matched, in the
      order of the requested sort: the page and its `pagination` block. */
  function Listing<T>(matched: seq<T>, page: nat, perPage: nat): (r: (seq<T>, PageInfo))
    requires page >= 1 && perPage >= 1
    ensures |r.0| <= perPage
    ensures r.1.totalItems == |matched| && r.1.totalPages * perPage >= |matched|
    ensures r.1.totalPages == 0 || (r.1.totalPages - 1) * perPage < |matched|
  {
    (PageOf(matched, page, perPage), PageInfo(page, perPage, |matched|, TotalPages(|matched|, perPage)))
  }
}

=== FILE: permission_check.dfy ===
/** The route guard: a caller holding `roles` may perform an action on a
    feature when one grant row of one of those roles on that feature holds
    every bit the action requires. Nothing but the grant rows is consulted. */
module PermissionCheck {
  import opened Base
  import opened Bits
  import opened Records

  /** The row belongs to one of the roles and to the feature. */
  predicate Matches(g: Grant, roles: seq<string>, fId: string) {
    g.roleId in roles && g.featureId == fId
  }

  /** `find({"r_id": {"$in": roles}, "f_id": fId})`: the matching rows in natural order. */
  function Matching(grants: seq<Grant>, roles: seq<string>, fId: string): (r: seq<Grant>)
    ensures forall x :: x in r <==> x in grants && Matches(x, roles, fId)
    ensures |r| <= |grants|
  {
    if grants == [] then []
    else (if Matches(grants[0], roles, fId) then [grants[0]] else []) + Matching(grants[1..], roles, fId)
  }

  /** Some row of `rows` holds every required bit. */
  predicate SomeRowCovers(rows: seq<Grant>, required: Mask) {
    exists i :: 0 <= i < |rows| && Covers(rows[i].permission, required)
  }

  /** The authorisation the guard is meant to decide. */
  predicate Authorized(grants: seq<Grant>, roles: seq<string>, fId: string, required: Mask) {
    exists i :: 0 <= i < |grants| && Matches(grants[i], roles, fId) && Covers(grants[i].permission, required)
  }

  /** The cursor covers exactly when the grant table authorises. */
  lemma AuthorizedIffCursorCovers(grants: seq<Grant>, roles: seq<string>, fId: string, required: Mask)
    ensures Authorized(grants, roles, fId, required) <==> SomeRowCovers(Matching(grants, roles, fId), required)
  {
    var cursor := Matching(grants, roles, fId);
    if Authorized(grants, roles, fId, required) {
      var i :| 0 <= i < |grants| && Matches(grants[i], roles, fId) && Covers(grants[i].permission, required);
      assert grants[i] in cursor;
      var j :| 0 <= j < |cursor| && cursor[j] == grants[i];
    }
    if SomeRowCovers(cursor, required) {
      var j :| 0 <= j < |cursor| && Covers(cursor[j].permission, required);
      assert cursor[j] in grants;
      var i :| 0 <= i < |grants| && grants[i] == cursor[j];
    }
  }

  /** Both handlers of the source log through `self.logger`, which the
      checker never sets, so every lookup error surfaces as this one. */
  const LoggerMissing: Exc := AttributeError("'PermissionChecker' object has no attribute 'logger'")

  /** What the guard returns when the cursor fails instead of delivering row
      `failAt` (or instead of reporting its end, when `failAt == |cursor|`). */
  function Decision(cursor: seq<Grant>, required: Mask, failAt: Option<nat>): Result<bool> {
    var fault := failAt.Some? && failAt.value <= |cursor|;
    var seen := if fault then cursor[..failAt.value] else cursor;
    if SomeRowCovers(seen, required) then Ok(true)
    else if fault then Raise(LoggerMissing)
    else Ok(false)
  }

  /** `has_permission(roles, f_id, required)`: scan the matching rows and
      return true at the first one that holds every required bit. */
  method HasPermission(db: Database, roles: seq<string>, fId: string, required: Mask, failAt: Option<nat>)
    returns (r: Result<bool>)
    ensures r == Decision(Matching(db.grants, roles, fId), required, failAt)
    ensures failAt.None? ==> r == Ok(Authorized(db.grants, roles, fId, required))
  {
    var cursor := Matching(db.grants, roles, fId);
    AuthorizedIffCursorCovers(db.grants, roles, fId, required);
    var i := 0;
    while i < |cursor|
      invariant 0 <= i <= |cursor|
      invariant failAt.Some? ==> i <= failAt.value
      invariant !SomeRowCovers(cursor[..i], required)
    {
      if failAt == Some(i) {
        return Raise(LoggerMissing);
      }
      if Covers(cursor[i].permission, required) {
        FoundBeforeFault(cursor, required, failAt, i);
        return Ok(true);
      }
      ExtendUncovered(cursor, required, i);
      i := i + 1;
    }
    assert cursor[..i] == cursor;
    if failAt == Some(|cursor|) {
      return Raise(LoggerMissing);
    }
    return Ok(false);
  }

  lemma ExtendUncovered(cursor: seq<Grant>, required: Mask, i: nat)
    requires i < |cursor| && !Covers(cursor[i].permission, required)
    requires !SomeRowCovers(cursor[..i], required)
    ensures !SomeRowCovers(cursor[..i + 1], required)
  {
    var next := cursor[..i + 1];
    forall j | 0 <= j < i + 1 ensures !Covers(next[j].permission, required) {
      if j < i {
        assert next[j] == cursor[..i][j];
      }
    }
  }

  lemma FoundBeforeFault(cursor: seq<Grant>, required: Mask, failAt: Option<nat>, i: nat)
    requires i < |cursor| && Covers(cursor[i].permission, required)
    requires failAt.Some? ==> i < failAt.value
    ensures Decision(cursor, required, failAt) == Ok(true)
  {
    if failAt.Some? && failAt.value <= |cursor| {
      assert cursor[..failAt.value][i] == cursor[i];
    }
  }

  /** A lookup error is never turned into a refusal: when the cursor fails,
      the guard either found a covering row before the failure or raises. */
  lemma FaultNeverDenies(cursor: seq<Grant>, required: Mask, k: nat)
    requires k <= |cursor|
    ensures Decision(cursor, required, Some(k)) != Ok(false)
    ensures Decision(cursor, required, Some(k)) == Ok(true) <==> SomeRowCovers(cursor[..k], required)
  {
  }

  /** As written, a cursor that fails before a covering row makes the guard
      raise the AttributeError about the missing logger. */
  lemma FaultRaisesAsWritten(cursor: seq<Grant>, required: Mask, k: nat)
    requires k <= |cursor| && !SomeRowCovers(cursor[..k], required)
    ensures Decision(cursor, required, Some(k)) == Raise(LoggerMissing)
  {
  }

  /** What the `PyMongoError` handler means to raise. */
  const CheckFailed: Exc := ValueError("Database error occurred while checking permission.")

  /** The guard as its handler evidently intends: the lookup error is
      reported as `CheckFailed` rather than as the missing logger. */
  function DecisionIntended(cursor: seq<Grant>, required: Mask, failAt: Option<nat>): (r: Result<bool>)
    ensures r.Raise? ==> r.exc == CheckFailed
  {
    match Decision(cursor, required, failAt)
    case Ok(b) => Ok(b)
    case Raise(_) => Raise(CheckFailed)
  }

  /** As intended, a lookup error before a covering row raises the
      ValueError, a covering row before it authorises, and without an error
      the answer is the one the guard gives as written. */
  lemma FaultReportedIntended(cursor: seq<Grant>, required: Mask, failAt: Option<nat>)
    ensures failAt.None? ==> DecisionIntended(cursor, required, failAt) == Decision(cursor, required, failAt)
    ensures failAt.Some? && failAt.value <= |cursor| ==>
      (DecisionIntended(cursor, required, failAt) == Raise(CheckFailed) <==> !SomeRowCovers(cursor[..failAt.value], required))
    ensures failAt.Some? && failAt.value <= |cursor| ==>
      DecisionIntended(cursor, required, failAt) != Ok(false)
  {
  }

  /** Deny by default: a caller without roles is refused. */
  lemma NoRolesDenied(grants: seq<Grant>, fId: string, required: Mask)
    ensures !Authorized(grants, [], fId, required)
  {
  }

  /** Bits held by two different rows do not add up: roles r1 and r2 hold
      bits 1 and 2 on the same feature, and bits 1|2 are still refused. */
  lemma RowsDoNotCombine()
    ensures var grants := [Grant("g1", "o", "r1", "f", 1), Grant("g2", "o", "r2", "f", 2)];
      !Authorized(grants, ["r1", "r2"], "f", 3)
      && Covers(grants[0].permission | grants[1].permission, 3)
  {
    var grants := [Grant("g1", "o", "r1", "f", 1), Grant("g2", "o", "r2", "f", 2)];
    forall i | 0 <= i < |grants| ensures !Covers(grants[i].permission, 3) {
      assert grants[i].permission == 1 || grants[i].permission == 2;
    }
  }

  /** With nothing required the guard only asks for some matching row. */
  lemma ZeroRequired(grants: seq<Grant>, roles: seq<string>, fId: string)
    ensures Authorized(grants, roles, fId, 0) <==> exists i :: 0 <= i < |grants| && Matches(grants[i], roles, fId)
  {
  }

  /** More roles and more grant rows never withdraw an authorisation. */
  lemma {:induction false} Monotone(grants: seq<Grant>, grants': seq<Grant>, roles: seq<string>, roles': seq<string>, fId: string, required: Mask)
    requires forall g :: g in grants ==> g in grants'
    requires forall r :: r in roles ==> r in roles'
    requires Authorized(grants, roles, fId, required)
    ensures Authorized(grants', roles', fId, required)
  {
    var i :| 0 <= i < |grants| && Matches(grants[i], roles, fId) && Covers(grants[i].permission, required);
    assert grants[i] in grants';
    var j :| 0 <= j < |grants'| && grants'[j] == grants[i];
    assert Matches(grants'[j], roles', fId);
  }
}

=== FILE: query_filter.dfy ===
/** The query filter the document listings build from the caller's
    filters: a string value written `regex:<pattern>` becomes a
    case-insensitive regular-expression match on `<pattern>`, every other
    value an equality match on itself. */
module QueryFilter {
  import opened Base
  import Str

  const RegexPrefix := "regex:"

  /** The value is a string that starts with `regex:`. */
  predicate IsRegex(v: Value) {
    v.VStr? && RegexPrefix <= v.s
  }

  /** The `$regex` clause a pattern becomes. */
  function RegexClause(pattern: string): Value {
    VDict(map["$regex" := VStr(pattern), "$options" := VStr("i")])
  }

  /** `value.split("regex:", 1)[1]`: the text after the first `regex:`. */
  function AfterPrefix(s: string): string
    requires Str.Contains(s, RegexPrefix)
  {
    s[Str.Find(s, RegexPrefix) + |RegexPrefix|..]
  }

  /** What one filter value becomes in the query. For a value that starts
      with `regex:` the first occurrence is that prefix, so the pattern is
      everything after it. */
  function Translate(v: Value): (r: Value)
    ensures IsRegex(v) ==> r == RegexClause(v.s[|RegexPrefix|..])
    ensures !IsRegex(v) ==> r == v
  {
    if IsRegex(v) then
      assert Str.OccursAt(v.s, RegexPrefix, 0);
      RegexClause(AfterPrefix(v.s))
    else v
  }

  /** Two filter strings that give the same query value are the same
      string: prefixing the pattern with `regex:` again gives the value back. */
  lemma TranslateInjectiveOnStrings(s1: string, s2: string)
    requires Translate(VStr(s1)) == Translate(VStr(s2))
    ensures s1 == s2
  {
    var v1, v2 := VStr(s1), VStr(s2);
    if IsRegex(v1) && IsRegex(v2) {
      assert RegexClause(s1[6..]) == RegexClause(s2[6..]);
      assert VStr(s1[6..]) == RegexClause(s1[6..]).fields["$regex"];
      assert s1 == RegexPrefix + s1[6..] && s2 == RegexPrefix + s2[6..];
    }
  }

  /** The query filter of a call: empty when there are no filters. */
  function Query(filters: Option<Doc>): (q: Doc)
    ensures filters.None? ==> q == map[]
    ensures filters.Some? ==> q.Keys == filters.value.Keys
    ensures filters.Some? ==> forall k :: k in q ==> q[k] == Translate(filters.value[k])
  {
    match filters
    case None => map[]
    case Some(f) => map k | k in f :: Translate(f[k])
  }

  /** The loop that fills `query_filter` key by key (`if filters:` skips
      it for None and for an empty dictionary). */
  method BuildQuery(filters: Option<Doc>) returns (q: Doc)
    ensures q == Query(filters)
  {
    q := map[];
    if filters.Some? && filters.value != map[] {
      var f := filters.value;
      var todo := f.Keys;
      while todo != {}
        invariant todo <= f.Keys
        invariant q == map k | k in f.Keys - todo :: Translate(f[k])
        decreases todo
      {
        var key :| key in todo;
        q := q[key := Translate(f[key])];
        todo := todo - {key};
      }
    }
  }
}

=== FILE: records.dfy ===
/** The documents the services keep in the document database, and the
    database itself as one object whose collections the services update in
    place. Only the fields some modelled operation reads or writes are kept;
    audit fields (`rec_by`, `rec_date`, `mod_by`, `mod_date`) are left out. */
module Records {
  import opened Base
  import opened Bits
  import opened Utility
  import Str

  /** The status enumeration the records carry. */
  datatype Status = Active | Inactive | Deleted | Unset

  /** The text a status is stored and filtered as (the enumeration's own
      values are not part of this model; its name stands for it). */
  function StatusName(s: Status): string {
    match s
    case Active => "ACTIVE"
    case Inactive => "INACTIVE"
    case Deleted => "DELETE"
    case Unset => ""
  }

  /** `str(authority)`: the key of a tier in `negasiperm`. */
  function TierKey(authority: Mask): string {
    Str.Decimal(authority as nat)
  }

  /** The error of `negasiperm[str(authority)]` when the tier has no entry. */
  function TierKeyError(authority: Mask): Exc {
    KeyError(TierKey(authority))
  }

  /** A `_features` document: `authority` is the mask of organisation tiers
      that may see the feature, `negasiperm` maps a tier's decimal text to the action bits
      withheld from that tier. */
  datatype Feature = Feature(id: string, name: string, authority: Mask, negasiperm: map<string, Mask>)

  /** The feature is visible to the caller's tier (`authority & feature['authority']`). */
  predicate Visible(f: Feature, authority: Mask) {
    authority & f.authority != 0
  }

  /** A `_featureonrole` row: the action bits role `roleId` holds on feature `featureId`. */
  datatype Grant = Grant(id: string, orgId: string, roleId: string, featureId: string, permission: Mask)

  /** An `_organization` document; fields the source reads with a default or
      may find missing are optional. */
  datatype Org = Org(id: string, authority: Option<Mask>, storage: Option<int>, usedStorage: Option<int>)

  /** A `_role` document. */
  datatype Role = Role(id: string, name: string, orgId: string)

  /** A `_user` document. `roles` is a list of role ids for users made by the
      user service and a single role id for the bootstrap administrator;
      `salt` is present only for users made by the bootstrap. */
  datatype User = User(
    id: string, username: string, email: string,
    password: Option<Hash>, salt: Option<string>,
    roles: Value, status: Status, orgId: string)

  /** A `_menu` document. */
  datatype MenuItem = MenuItem(
    id: string, feature: string, parent: string,
    value: string, details: string, icon: string, sortnumber: int)

  /** A `_dmsdoctype` document: `folder` is the folder template, levels separated by `>>`. */
  datatype Doctype = Doctype(id: string, folder: string)

  /** A `_dmsfolder` document. */
  datatype Folder = Folder(id: string, name: string, level: int, orgId: string, pid: Option<string>)

  /** A `_dmsfile` document; `mimeType`, `originalName` and `size` are the
      fields of its `filestat`. */
  datatype FileDoc = FileDoc(
    id: string, filename: string, mimeType: string, originalName: string, size: int,
    folderId: string, folderPath: string, orgId: string, metadata: map<string, string>,
    doctype: string, refkeyId: Option<string>, refkeyTable: Option<string>, refkeyName: Option<string>)

  /** An `_api_credentials` document. */
  datatype Credential = Credential(
    id: string, keyName: string, status: Status, orgId: string,
    clientId: string, secretHash: Hash)

  /** An `_dmsindexlist` document: the `_id` it is found by and the whole
      stored dictionary (which holds the same id under `_id`). */
  datatype IndexDoc = IndexDoc(id: string, fields: Doc)

  /** The document database: one sequence per collection, in natural order. */
  class Database {
    var features: seq<Feature>
    var grants: seq<Grant>
    var orgs: seq<Org>
    var roles: seq<Role>
    var users: seq<User>
    var menus: seq<MenuItem>
    var doctypes: seq<Doctype>
    var folders: seq<Folder>
    var files: seq<FileDoc>
    var credentials: seq<Credential>
    var indexes: seq<IndexDoc>

    /** An empty database. */
    constructor ()
      ensures features == [] && grants == [] && orgs == [] && roles == [] && users == []
      ensures menus == [] && doctypes == [] && folders == [] && files == []
      ensures credentials == [] && indexes == []
    {
      features, grants, orgs, roles, users := [], [], [], [], [];
      menus, doctypes, folders, files := [], [], [], [];
      credentials, indexes := [], [];
    }
  }

  /** `find_one({"_id": id})` over features: the first feature with that id. */
  function FindFeature(features: seq<Feature>, id: string): (r: Option<Feature>)
    ensures r.None? <==> forall i :: 0 <= i < |features| ==> features[i].id != id
    ensures r.Some? ==> r.value in features && r.value.id == id
    ensures r.Some? ==> exists k :: 0 <= k < |features| && features[k] == r.value && forall i :: 0 <= i < k ==> features[i].id != id
  {
    if features == [] then None
    else if features[0].id == id then Some(features[0])
    else FindFeature(features[1..], id)
  }

  /** `find_one({"_id": id})` over organisations. */
  function FindOrg(orgs: seq<Org>, id: string): (r: Option<Org>)
    ensures r.None? <==> forall i :: 0 <= i < |orgs| ==> orgs[i].id != id
    ensures r.Some? ==> r.value in orgs && r.value.id == id
    ensures r.Some? ==> exists k :: 0 <= k < |orgs| && orgs[k] == r.value && forall i :: 0 <= i < k ==> orgs[i].id != id
  {
    if orgs == [] then None
    else if orgs[0].id == id then Some(orgs[0])
    else FindOrg(orgs[1..], id)
  }

  /** The position of the first organisation with that id, if any. */
  function OrgIndex(orgs: seq<Org>, id: string): (r: Option<nat>)
    ensures r.None? <==> forall i :: 0 <= i < |orgs| ==> orgs[i].id != id
    ensures r.Some? ==> r.value < |orgs| && orgs[r.value].id == id
    ensures r.Some? ==> forall i :: 0 <= i < r.value ==> orgs[i].id != id
  {
    if orgs == [] then None
    else if orgs[0].id == id then Some(0)
    else match OrgIndex(orgs[1..], id)
      case None => None
      case Some(k) => Some(k + 1)
  }

  /** `find_one({"$or": [{"username": name}, {"email": name}]})` over users:
      the first user whose user name or e-mail address is `name`. */
  function FindUserByLogin(users: seq<User>, name: string): (r: Option<User>)
    ensures r.None? <==> forall i :: 0 <= i < |users| ==> users[i].username != name && users[i].email != name
    ensures r.Some? ==> r.value in users && (r.value.username == name || r.value.email == name)
    ensures r.Some? ==>
      exists k :: 0 <= k < |users| && users[k] == r.value &&
                  forall i :: 0 <= i < k ==> users[i].username != name && users[i].email != name
  {
    if users == [] then None
    else if users[0].username == name || users[0].email == name then Some(users[0])
    else FindUserByLogin(users[1..], name)
  }

  /** The position of the first user with that id, if any. */
  function UserIndex(users: seq<User>, id: string): (r: Option<nat>)
    ensures r.None? <==> forall i :: 0 <= i < |users| ==> users[i].id != id
    ensures r.Some? ==> r.value < |users| && users[r.value].id == id
    ensures r.Some? ==> forall i :: 0 <= i < r.value ==> users[i].id != id
  {
    if users == [] then None
    else if users[0].id == id then Some(0)
    else match UserIndex(users[1..], id)
      case None => None
      case Some(k) => Some(k + 1)
  }

  /** The visible features, in order. */
  function VisibleFeatures(features: seq<Feature>, authority: Mask): (r: seq<Feature>)
    ensures forall f :: f in r <==> f in features && Visible(f, authority)
  {
    if features == [] then []
    else
      var init := features[..|features| - 1];
      var last := features[|features| - 1];
      assert features == init + [last];
      VisibleFeatures(init, authority) + (if Visible(last, authority) then [last] else [])
  }

  /** The visible features of two lists one after the other are those of
      the first followed by those of the second: the filter keeps the
      collection's order. */
  lemma {:induction false} VisibleFeaturesAppend(a: seq<Feature>, b: seq<Feature>, authority: Mask)
    ensures VisibleFeatures(a + b, authority) == VisibleFeatures(a, authority) + VisibleFeatures(b, authority)
    decreases |b|
  {
    if b == [] {
      assert a + b == a;
    } else {
      var init := b[..|b| - 1];
      var last := b[|b| - 1];
      assert (a + b)[..|a + b| - 1] == a + init;
      assert (a + b)[|a + b| - 1] == last;
      VisibleFeaturesAppend(a, init, authority);
    }
  }
}

=== FILE: redis_queue.dfy ===
/** The Redis-backed task queue: tasks are written as JSON, pushed at the
    head of a Redis list and popped from its tail, so they come out in the
    order they went in. */
module RedisQueue {
  import opened Base
  import opened Json

  /** The lists of a Redis server, by key; a missing key is an empty list. */
  class RedisLists {
    var lists: map<string, seq<string>>

    constructor ()
      ensures lists == map[]
    {
      lists := map[];
    }
  }

  /** The list stored under `key`, head first. */
  function Items(lists: map<string, seq<string>>, key: string): seq<string> {
    if key in lists then lists[key] else []
  }

  /** The entries of a list in the order they are popped from its tail:
      oldest push first. */
  function Pending(items: seq<string>): (r: seq<string>)
    ensures |r| == |items|
    ensures forall i :: 0 <= i < |items| ==> r[i] == items[|items| - 1 - i]
  {
    if items == [] then [] else [items[|items| - 1]] + Pending(items[..|items| - 1])
  }

  /** Pushing at the head puts the entry last in line. */
  lemma {:induction false} PendingPush(x: string, items: seq<string>)
    ensures Pending([x] + items) == Pending(items) + [x]
  {
    if items != [] {
      var l := [x] + items;
      assert l[..|l| - 1] == [x] + items[..|items| - 1];
      PendingPush(x, items[..|items| - 1]);
    }
  }

  /** Popping from the tail takes the entry first in line. */
  lemma PendingPop(items: seq<string>)
    requires items != []
    ensures Pending(items)[0] == items[|items| - 1]
    ensures Pending(items[..|items| - 1]) == Pending(items)[1..]
  {
  }

  /** The texts of tasks, in order. */
  function DumpsAll(ts: seq<Task>): (r: seq<string>)
    ensures |r| == |ts|
    ensures forall i :: 0 <= i < |ts| ==> r[i] == Dumps(ts[i])
  {
    if ts == [] then [] else [Dumps(ts[0])] + DumpsAll(ts[1..])
  }

  /** `RedisQueueManager`: a queue name on a Redis connection. Managers
      created on the same connection and name share one queue. */
  class RedisQueueManager {
    const conn: RedisLists
    const queueName: string

    constructor (conn: RedisLists, queueName: string)
      ensures this.conn == conn && this.queueName == queueName
    {
      this.conn := conn;
      this.queueName := queueName;
    }

    /** The tasks waiting, as text, first to be dequeued first. */
    ghost function Waiting(): seq<string>
      reads this, conn
    {
      Pending(Items(conn.lists, queueName))
    }

    /** `enqueue_task(data)`: `LPUSH` of `json.dumps(data)`. */
    method EnqueueTask(data: Task)
      modifies conn
      ensures Items(conn.lists, queueName) == [Dumps(data)] + Items(old(conn.lists), queueName)
      ensures forall k :: k != queueName ==> Items(conn.lists, k) == Items(old(conn.lists), k)
      ensures Waiting() == old(Waiting()) + [Dumps(data)]
    {
      PendingPush(Dumps(data), Items(conn.lists, queueName));
      conn.lists := conn.lists[queueName := [Dumps(data)] + Items(conn.lists, queueName)];
    }

    /** `dequeue_task()`: `RPOP`, then `json.loads` of the popped text, or
        None when the queue is empty or the popped text is empty. */
    method DequeueTask() returns (r: Option<Task>)
      modifies conn
      ensures old(Waiting()) == [] ==> r == None && conn.lists == old(conn.lists)
      ensures old(Waiting()) != [] ==>
        Waiting() == old(Waiting())[1..] &&
        r == (if old(Waiting())[0] == "" then None else Loads(old(Waiting())[0]))
      ensures forall k :: k != queueName ==> Items(conn.lists, k) == Items(old(conn.lists), k)
    {
      var items := Items(conn.lists, queueName);
      if items == [] {
        r := None;
      } else {
        var task := items[|items| - 1];
        PendingPop(items);
        conn.lists := conn.lists[queueName := items[..|items| - 1]];
        r := if task == "" then None else Loads(task);
      }
    }
  }

  /** A queue holding the texts of `ts`, first to come out first. */
  ghost predicate Holds(q: RedisQueueManager, ts: seq<Task>)
    reads q, q.conn
  {
    q.Waiting() == DumpsAll(ts)
  }

  /** Dequeuing from a queue holding `ts` yields `ts[0]` and leaves the rest
      in order: tasks come out as they went in, each exactly once. */
  lemma DequeueYieldsFirst(waiting: seq<string>, ts: seq<Task>)
    requires waiting == DumpsAll(ts) && ts != []
    ensures waiting[0] != "" && Loads(waiting[0]) == Some(ts[0])
    ensures waiting[1..] == DumpsAll(ts[1..])
  {
    LoadsDumps(ts[0]);
  }

  /** An example run of the queue class, the general order being
      `DequeueYieldsFirst`: two tasks enqueued on an empty queue are
      dequeued in the order they were enqueued. */
  method FifoOrder(conn: RedisLists, name: string, a: Task, b: Task)
    returns (first: Option<Task>, second: Option<Task>, third: Option<Task>)
    requires Items(conn.lists, name) == []
    modifies conn
    ensures first == Some(a) && second == Some(b) && third == None
  {
    var q := new RedisQueueManager(conn, name);
    q.EnqueueTask(a);
    q.EnqueueTask(b);
    assert Holds(q, [a, b]);
    DequeueYieldsFirst(q.Waiting(), [a, b]);
    first := q.DequeueTask();
    assert Holds(q, [b]);
    DequeueYieldsFirst(q.Waiting(), [b]);
    second := q.DequeueTask();
    third := q.DequeueTask();
  }
}

=== FILE: session.dfy ===
/** The password login routes: `login` validates the credentials and keeps
    the refresh token under the user name that logged in, `refresh` issues
    a new access token when the presented refresh token is the one kept,
    and `logout` deletes the kept token. Each route answers with status 0
    or 4 and never lets an exception escape. */
module Session {
  import opened Base
  import opened Records
  import opened Auth
  import opened Jwt
  import opened KeyValue

  /** The `data` of a successful answer: the new access token, the refresh
      token set as a cookie (login only) and `expired_at`. */
  datatype Tokens = Tokens(access: Wire, refresh: Option<Wire>, expiredAt: int)

  /** `ApiResponse(status, message, data)`. */
  datatype Response = Response(status: int, message: Option<string>, data: Option<Tokens>)

  const RefreshMissing := "Refresh token missing"
  const InvalidRefresh := "Invalid refresh token"
  const LoggedOut := "Logout"
  /** The message of an exception a route catches (its `repr` is not modelled). */
  const CaughtError := "baseapp.services.auth.api "

  /** The `refresh_token` cookie is absent or empty. */
  predicate Missing(cookie: Option<Wire>) {
    cookie.None? || cookie.value == Unsigned("")
  }

  // ---------------------------------------------------------------------
  // Specification of the three routes

  function LoginOutcome(entries: map<string, Entry>, users: seq<User>, orgs: seq<Org>,
                        login: string, password: string, now: int, cfg: JwtConfig): (Response, map<string, Entry>)
  {
    match ValidateUser(users, orgs, login, password)
    case Invalid(m) => (Response(4, Some(m), None), entries)
    case Valid(id, orgId, roles, authority) =>
      var claims := Claims(login, id, roles, authority, orgId);
      var (access, minutes) := CreateAccessToken(claims, 1440, now, cfg);
      var (refresh, days) := CreateRefreshToken(claims, 7, now, cfg);
      (Response(0, None, Some(Tokens(access, Some(refresh), now + 60 * minutes))),
       entries[login := Entry(Session(refresh), 86400 * days)])
  }

  function RefreshOutcome(entries: map<string, Entry>, cookie: Option<Wire>, now: int, cfg: JwtConfig): Response {
    if Missing(cookie) then Response(4, Some(RefreshMissing), None)
    else match Decode(cookie.value, now)
      case Expired => Response(4, Some(CaughtError), None)
      case Invalid => Response(4, Some(CaughtError), None)
      case Claimed(t) =>
        if Lookup(entries, t.claims.sub) != Some(Session(cookie.value)) then Response(4, Some(InvalidRefresh), None)
        else
          var (access, minutes) := CreateAccessToken(t.claims, 1440, now, cfg);
          Response(0, None, Some(Tokens(access, None, now + 60 * minutes)))
  }

  function LogoutOutcome(entries: map<string, Entry>, cookie: Option<Wire>, now: int): (Response, map<string, Entry>) {
    if Missing(cookie) then (Response(4, Some(RefreshMissing), None), entries)
    else match Decode(cookie.value, now)
      case Expired => (Response(4, Some(CaughtError), None), entries)
      case Invalid => (Response(4, Some(CaughtError), None), entries)
      case Claimed(t) => (Response(0, Some(LoggedOut), None), entries - {t.claims.sub})
  }

  // ---------------------------------------------------------------------
  // The routes

  method Login(store: KeyStore, users: seq<User>, orgs: seq<Org>, login: string, password: string, now: int, cfg: JwtConfig)
    returns (r: Response)
    modifies store
    ensures (r, store.entries) == LoginOutcome(old(store.entries), users, orgs, login, password, now, cfg)
  {
    var info := ValidateUser(users, orgs, login, password);
    if info.Invalid? {
      return Response(4, Some(info.message), None);
    }
    var claims := Claims(login, info.id, info.roles, info.authority, info.orgId);
    var (access, minutes) := CreateAccessToken(claims, 1440, now, cfg);
    var (refresh, days) := CreateRefreshToken(claims, 7, now, cfg);
    store.entries := store.entries[login := Entry(Session(refresh), 86400 * days)];
    r := Response(0, None, Some(Tokens(access, Some(refresh), now + 60 * minutes)));
  }

  method Refresh(store: KeyStore, cookie: Option<Wire>, now: int, cfg: JwtConfig) returns (r: Response)
    ensures r == RefreshOutcome(store.entries, cookie, now, cfg)
  {
    if Missing(cookie) {
      return Response(4, Some(RefreshMissing), None);
    }
    var payload := Decode(cookie.value, now);
    if !payload.Claimed? {
      return Response(4, Some(CaughtError), None);
    }
    var stored := Lookup(store.entries, payload.token.claims.sub);
    if stored != Some(Session(cookie.value)) {
      return Response(4, Some(InvalidRefresh), None);
    }
    var (access, minutes) := CreateAccessToken(payload.token.claims, 1440, now, cfg);
    r := Response(0, None, Some(Tokens(access, None, now + 60 * minutes)));
  }

  method Logout(store: KeyStore, cookie: Option<Wire>, now: int) returns (r: Response)
    modifies store
    ensures (r, store.entries) == LogoutOutcome(old(store.entries), cookie, now)
  {
    if Missing(cookie) {
      return Response(4, Some(RefreshMissing), None);
    }
    var payload := Decode(cookie.value, now);
    if !payload.Claimed? {
      return Response(4, Some(CaughtError), None);
    }
    store.entries := store.entries - {payload.token.claims.sub};
    r := Response(0, Some(LoggedOut), None);
  }

  // ---------------------------------------------------------------------
  // Properties of the session store

  /** Every answer is status 0 or status 4. */
  lemma StatusIsZeroOrFour(entries: map<string, Entry>, users: seq<User>, orgs: seq<Org>,
                           login: string, password: string, cookie: Option<Wire>, now: int, cfg: JwtConfig)
    ensures LoginOutcome(entries, users, orgs, login, password, now, cfg).0.status in {0, 4}
    ensures RefreshOutcome(entries, cookie, now, cfg).status in {0, 4}
    ensures LogoutOutcome(entries, cookie, now).0.status in {0, 4}
  {
  }

  /** A refused login answers with the validation message and stores
      nothing; an accepted one replaces whatever session was kept under the
      login name and leaves every other key alone. A user whose organisation
      is missing or has no tier is refused, whatever the password. */
  lemma LoginStores(entries: map<string, Entry>, users: seq<User>, orgs: seq<Org>,
                    login: string, password: string, now: int, cfg: JwtConfig)
    ensures var (r, entries') := LoginOutcome(entries, users, orgs, login, password, now, cfg);
      && (r.status == 0 <==> ValidateUser(users, orgs, login, password).Valid?)
      && (r.status != 0 ==> entries' == entries && r.message == Some(ValidateUser(users, orgs, login, password).message))
      && (r.status == 0 ==>
            && r.data.Some? && r.data.value.refresh.Some?
            && entries' == entries[login := Entry(Session(r.data.value.refresh.value), 86400 * cfg.refreshDays)])
    ensures var (r, entries') := LoginOutcome(entries, users, orgs, login, password, now, cfg);
      FindUserByLogin(users, login).Some? && !CheckOrg(orgs, FindUserByLogin(users, login).value.orgId).Tier? ==>
        r.status == 4 && entries' == entries
  {
    ValidateUserIff(users, orgs, login, password);
  }

  /** A refresh succeeds exactly when the cookie is a signed, unexpired
      token and it is the token kept under its `sub`; the new access token
      carries the refresh token's own claims. */
  lemma RefreshIff(entries: map<string, Entry>, cookie: Option<Wire>, now: int, cfg: JwtConfig)
    ensures var r := RefreshOutcome(entries, cookie, now, cfg);
      && (r.status == 0 <==>
            && cookie.Some? && cookie.value.Signed? && now <= cookie.value.token.exp
            && Lookup(entries, cookie.value.token.claims.sub) == Some(Session(cookie.value)))
      && (r.status == 0 ==>
            && r.data.Some? && r.data.value.access.Signed?
            && r.data.value.access.token.claims == cookie.value.token.claims)
  {
  }

  /** Right after an accepted login, the refresh token it handed out is
      honoured, and an earlier token for the same login name is honoured only
      if it is that very token. */
  lemma LoginThenRefresh(entries: map<string, Entry>, users: seq<User>, orgs: seq<Org>,
                         login: string, password: string, now: int, cfg: JwtConfig, older: Wire)
    requires LoginOutcome(entries, users, orgs, login, password, now, cfg).0.status == 0
    ensures var (r, entries') := LoginOutcome(entries, users, orgs, login, password, now, cfg);
      var issued := r.data.value.refresh.value;
      && RefreshOutcome(entries', Some(issued), now, cfg).status == 0
      && (older.Signed? && older.token.claims.sub == login ==>
            (RefreshOutcome(entries', Some(older), now, cfg).status == 0 <==> older == issued && now <= older.token.exp))
  {
    var (r, entries') := LoginOutcome(entries, users, orgs, login, password, now, cfg);
    var issued := r.data.value.refresh.value;
    assert issued.token.claims.sub == login;
    RefreshIff(entries', Some(issued), now, cfg);
    RefreshIff(entries', Some(older), now, cfg);
  }

  /** A logout with any valid token of a login name, even one that is no
      longer the kept one, ends that name's session: every later refresh
      for it fails until the next login. */
  lemma LogoutEndsSession(entries: map<string, Entry>, cookie: Option<Wire>, now: int, later: Option<Wire>, now2: int, cfg: JwtConfig)
    requires LogoutOutcome(entries, cookie, now).0.status == 0
    requires later.Some? && later.value.Signed? && later.value.token.claims.sub == cookie.value.token.claims.sub
    ensures cookie.Some? && cookie.value.Signed?
    ensures RefreshOutcome(LogoutOutcome(entries, cookie, now).1, later, now2, cfg).status == 4
  {
    var entries' := LogoutOutcome(entries, cookie, now).1;
    assert cookie.value.token.claims.sub !in entries';
    RefreshIff(entries', later, now2, cfg);
  }

  /** A revoked user's refresh tokens are refused, whoever logged in as whom. */
  lemma RevokedRefused(entries: map<string, Entry>, userId: string, cookie: Option<Wire>, now: int, cfg: JwtConfig)
    requires cookie.Some? && cookie.value.Signed? && cookie.value.token.claims.id == userId
    ensures RefreshOutcome(RevokeAll(entries, userId), cookie, now, cfg).status == 4
  {
    var revoked := RevokeAll(entries, userId);
    var sub := cookie.value.token.claims.sub;
    if sub in revoked {
      assert !SessionOf(revoked[sub], userId);
    }
    RefreshIff(revoked, cookie, now, cfg);
  }
}

=== FILE: sorting.dfy ===
/** `sorted(xs, key=...)` and a `$sort` stage on one integer key: a stable
    insertion sort, proved to order, to permute and to keep the relative
    order of entries with equal keys. */
module Sorting {

  predicate SortedBy<T>(s: seq<T>, key: T -> int) {
    forall i, j :: 0 <= i < j < |s| ==> key(s[i]) <= key(s[j])
  }

  /** `x` placed before the first entry whose key is not smaller. */
  function Insert<T>(x: T, s: seq<T>, key: T -> int): seq<T> {
    if s == [] || key(x) <= key(s[0]) then [x] + s
    else [s[0]] + Insert(x, s[1..], key)
  }

  /** The stable sort by `key`. */
  function SortBy<T>(s: seq<T>, key: T -> int): seq<T> {
    if s == [] then [] else Insert(s[0], SortBy(s[1..], key), key)
  }

  /** The entries of `s` whose key is `k`, in order. */
  function WithKey<T>(s: seq<T>, key: T -> int, k: int): seq<T> {
    if s == [] then [] else (if key(s[0]) == k then [s[0]] else []) + WithKey(s[1..], key, k)
  }

  lemma {:induction false} InsertKeeps<T>(x: T, s: seq<T>, key: T -> int)
    requires SortedBy(s, key)
    ensures SortedBy(Insert(x, s, key), key)
    ensures multiset(Insert(x, s, key)) == multiset(s) + multiset{x}
    ensures forall k :: WithKey(Insert(x, s, key), key, k) == (if key(x) == k then [x] else []) + WithKey(s, key, k)
  {
    InsertSorted(x, s, key);
    InsertPermutes(x, s, key);
    forall k ensures WithKey(Insert(x, s, key), key, k) == (if key(x) == k then [x] else []) + WithKey(s, key, k) {
      InsertWithKey(x, s, key, k);
    }
  }

  lemma {:induction false} InsertSorted<T>(x: T, s: seq<T>, key: T -> int)
    requires SortedBy(s, key)
    ensures SortedBy(Insert(x, s, key), key)
    ensures forall i :: 0 <= i < |Insert(x, s, key)| ==> key(Insert(x, s, key)[i]) == key(x) || key(Insert(x, s, key)[i]) >= key(s[0])
  {
    if s != [] && key(x) > key(s[0]) {
      InsertSorted(x, s[1..], key);
    }
  }

  lemma {:induction false} InsertPermutes<T>(x: T, s: seq<T>, key: T -> int)
    ensures multiset(Insert(x, s, key)) == multiset(s) + multiset{x}
  {
    if s != [] && key(x) > key(s[0]) {
      InsertPermutes(x, s[1..], key);
      assert s == [s[0]] + s[1..];
    }
  }

  lemma {:induction false} InsertWithKey<T>(x: T, s: seq<T>, key: T -> int, k: int)
    requires SortedBy(s, key)
    ensures WithKey(Insert(x, s, key), key, k) == (if key(x) == k then [x] else []) + WithKey(s, key, k)
  {
    if s == [] || key(x) <= key(s[0]) {
      assert ([x] + s)[1..] == s;
    } else {
      var rest := Insert(x, s[1..], key);
      InsertWithKey(x, s[1..], key, k);
      assert ([s[0]] + rest)[1..] == rest;
    }
  }

  /** The sort orders the entries, permutes them and is stable: the entries
      of each key keep their relative order. */
  lemma {:induction false} SortByCorrect<T>(s: seq<T>, key: T -> int)
    ensures SortedBy(SortBy(s, key), key)
    ensures multiset(SortBy(s, key)) == multiset(s)
    ensures forall k :: WithKey(SortBy(s, key), key, k) == WithKey(s, key, k)
  {
    if s != [] {
      SortByCorrect(s[1..], key);
      InsertKeeps(s[0], SortBy(s[1..], key), key);
      assert s == [s[0]] + s[1..];
    }
  }

  /** Entries with distinct keys come out in key order: a sorted input is
      returned unchanged. */
  lemma {:induction false} SortBySorted<T>(s: seq<T>, key: T -> int)
    requires SortedBy(s, key)
    ensures SortBy(s, key) == s
  {
    if s != [] {
      SortBySorted(s[1..], key);
      assert SortBy(s[1..], key) == s[1..];
      assert s == [s[0]] + s[1..];
    }
  }
}

=== FILE: strings.dfy ===
/** The Python string operations the services rely on (`find`, `replace`,
    `split`, `join`, `strip`, `rstrip`, `lower`, `in`), with the meaning
    Python gives them, over strings as sequences of characters. */
module Str {

  /** `sub` occurs in `s` starting at index `j`. */
  predicate OccursAt(s: string, sub: string, j: int) {
    0 <= j && j + |sub| <= |s| && s[j..j + |sub|] == sub
  }

  /** `s.find(sub, i)`: the first index at or after `i` where `sub` occurs, or -1. */
  function FindFrom(s: string, sub: string, i: nat): (r: int)
    ensures r == -1 || (i <= r && OccursAt(s, sub, r))
    ensures r == -1 ==> forall j {:trigger OccursAt(s, sub, j)} :: i <= j ==> !OccursAt(s, sub, j)
    ensures r != -1 ==> forall j {:trigger OccursAt(s, sub, j)} :: i <= j < r ==> !OccursAt(s, sub, j)
    decreases |s| - i
  {
    if i + |sub| > |s| then -1
    else if s[i..i + |sub|] == sub then i
    else FindFrom(s, sub, i + 1)
  }

  /** `s.find(sub)`. */
  function Find(s: string, sub: string): int {
    FindFrom(s, sub, 0)
  }

  /** `sub in s`. */
  predicate Contains(s: string, sub: string) {
    Find(s, sub) != -1
  }

  /** `s.replace(pat, rep)`: every non-overlapping occurrence of `pat`, scanned
      from the left, is replaced by `rep`; an empty `pat` inserts `rep` before
      every character and at the end. */
  function ReplaceAll(s: string, pat: string, rep: string): string
    decreases |s|
  {
    if pat == [] then
      if s == [] then rep else rep + [s[0]] + ReplaceAll(s[1..], pat, rep)
    else if s == [] then []
    else if pat <= s then rep + ReplaceAll(s[|pat|..], pat, rep)
    else [s[0]] + ReplaceAll(s[1..], pat, rep)
  }

  /** A string in which a non-empty `pat` does not occur is left unchanged by `replace`. */
  lemma {:induction false} ReplaceAbsent(s: string, pat: string, rep: string)
    requires pat != [] && !Contains(s, pat)
    ensures ReplaceAll(s, pat, rep) == s
  {
    if s != [] {
      assert !OccursAt(s, pat, 0);
      assert !(pat <= s);
      var t := s[1..];
      forall j | 0 <= j ensures !OccursAt(t, pat, j) {
        assert !OccursAt(s, pat, j + 1);
      }
      assert FindFrom(t, pat, 0) == -1;
      ReplaceAbsent(t, pat, rep);
    }
  }

  /** `sep.join(parts)`. */
  function Join(sep: string, parts: seq<string>): string {
    if |parts| == 0 then ""
    else if |parts| == 1 then parts[0]
    else parts[0] + sep + Join(sep, parts[1..])
  }

  /** Two or more parts joined, then `end`: the first part, the separator,
      and the others joined, then `end`. */
  lemma JoinCons(sep: string, parts: seq<string>, end: string)
    requires |parts| > 1
    ensures Join(sep, parts) + end == parts[0] + (sep + (Join(sep, parts[1..]) + end))
  {
    var j := Join(sep, parts[1..]);
    assert Join(sep, parts) == parts[0] + sep + j;
  }

  /** `s.split(sep)` for a non-empty separator. */
  function Split(s: string, sep: string): (r: seq<string>)
    requires sep != []
    ensures |r| >= 1
    decreases |s|
  {
    var i := Find(s, sep);
    if i == -1 then [s] else [s[..i]] + Split(s[i + |sep|..], sep)
  }

  /** `sep` first occurs in `p + sep` at its end: `p` holds no occurrence of
      `sep`, not even one that runs into the separator that follows it. */
  predicate CleanPart(p: string, sep: string) {
    Find(p + sep, sep) == |p|
  }

  /** Splitting joined parts gives the parts back, provided no part holds the separator. */
  lemma {:induction false} SplitJoin(sep: string, parts: seq<string>)
    requires sep != [] && |parts| >= 1
    requires forall k :: 0 <= k < |parts| - 1 ==> CleanPart(parts[k], sep)
    requires !Contains(parts[|parts| - 1], sep)
    ensures Split(Join(sep, parts), sep) == parts
  {
    if |parts| == 1 {
    } else {
      var p, rest := parts[0], Join(sep, parts[1..]);
      var s := p + sep + rest;
      assert Join(sep, parts) == s;
      FindPrefixed(p, sep, rest);
      assert Find(s, sep) == |p|;
      assert s[..|p|] == p;
      assert s[|p| + |sep|..] == rest;
      SplitJoin(sep, parts[1..]);
    }
  }

  /** The first occurrence of `sep` in `p + sep + rest` is the one after `p`. */
  lemma FindPrefixed(p: string, sep: string, rest: string)
    requires sep != [] && CleanPart(p, sep)
    ensures Find(p + sep + rest, sep) == |p|
  {
    var s := p + sep + rest;
    var t := p + sep;
    assert OccursAt(s, sep, |p|) by {
      assert s[|p|..|p| + |sep|] == sep;
    }
    forall j | 0 <= j < |p| ensures !OccursAt(s, sep, j) {
      assert !OccursAt(t, sep, j);
      assert s[j..j + |sep|] == t[j..j + |sep|];
    }
    FindFromFirst(s, sep, 0, |p|);
  }

  /** `FindFrom` returns an index `k` where `sub` occurs when it occurs nowhere between `i` and `k`. */
  lemma {:induction false} FindFromFirst(s: string, sub: string, i: nat, k: nat)
    requires i <= k && OccursAt(s, sub, k)
    requires forall j {:trigger OccursAt(s, sub, j)} :: i <= j < k ==> !OccursAt(s, sub, j)
    ensures FindFrom(s, sub, i) == k
    decreases k - i
  {
    if i < k {
      assert !OccursAt(s, sub, i);
      FindFromFirst(s, sub, i + 1, k);
    }
  }

  /** The ASCII characters Python's `str.isspace` accepts: space, tab,
      line feed, vertical tab, form feed, carriage return and the four
      separators 0x1c to 0x1f. */
  predicate IsSpace(c: char) {
    c == ' ' || 9 <= c as int <= 13 || 0x1c <= c as int <= 0x1f
  }

  /** `s.rstrip()` on ASCII whitespace. */
  function RStrip(s: string): (r: string)
    ensures r <= s
    ensures r == [] || !IsSpace(r[|r| - 1])
    ensures forall k :: |r| <= k < |s| ==> IsSpace(s[k])
  {
    if s != [] && IsSpace(s[|s| - 1]) then RStrip(s[..|s| - 1]) else s
  }

  /** `s.lstrip()` on ASCII whitespace. */
  function LStrip(s: string): (r: string)
    ensures |r| <= |s| && r == s[|s| - |r|..]
    ensures r == [] || !IsSpace(r[0])
    ensures forall k :: 0 <= k < |s| - |r| ==> IsSpace(s[k])
  {
    if s != [] && IsSpace(s[0]) then LStrip(s[1..]) else s
  }

  /** `s.strip()` on ASCII whitespace. */
  function Strip(s: string): string {
    RStrip(LStrip(s))
  }

  /** `s.rstrip(c)` for one character: every trailing `c` is removed. */
  function RStripChar(s: string, c: char): (r: string)
    ensures r <= s
    ensures r == [] || r[|r| - 1] != c
    ensures forall k :: |r| <= k < |s| ==> s[k] == c
  {
    if s != [] && s[|s| - 1] == c then RStripChar(s[..|s| - 1], c) else s
  }

  function LowerChar(c: char): char {
    if 'A' <= c <= 'Z' then (c as int + 32) as char else c
  }

  /** `s.lower()` on ASCII letters. */
  function Lower(s: string): (r: string)
    ensures |r| == |s|
    ensures forall k :: 0 <= k < |s| ==> r[k] == LowerChar(s[k])
  {
    seq(|s|, k requires 0 <= k < |s| => LowerChar(s[k]))
  }

  /** `str(n)` for a non-negative integer: its decimal digits. */
  function Decimal(n: nat): (s: string)
    ensures |s| >= 1
    ensures forall k :: 0 <= k < |s| ==> '0' <= s[k] <= '9'
  {
    if n < 10 then ["0123456789"[n]] else Decimal(n / 10) + ["0123456789"[n % 10]]
  }
}

=== FILE: user_crud.dfy ===
/** The user service: creating users with a hashed password that the
    answer never shows, the administrator's update, the password change and
    reset rules, and the listing's role filter and pagination. */
module UserCrud {
  import opened Base
  import opened Records
  import opened Utility

  /** The request of `create`. */
  datatype NewUser = NewUser(username: string, email: string, password: string, roles: seq<string>, status: Status)

  /** The request of `update_all_by_admin`. */
  datatype AdminUpdate = AdminUpdate(username: string, email: string, roles: seq<string>, status: Status)

  /** What `change_password` and `reset_password` answer. */
  datatype Summary = Summary(id: string, username: string, email: string)

  /** The value a status is stored as; a user created without one has none. */
  function StatusValue(s: Status): Value {
    match s
    case Unset => VNull
    case _ => VStr(StatusName(s))
  }

  function RoleList(roles: seq<string>): (v: Value)
    ensures v.VList? && |v.items| == |roles|
    ensures forall k :: 0 <= k < |roles| ==> v.items[k] == VStr(roles[k])
  {
    VList(seq(|roles|, k requires 0 <= k < |roles| => VStr(roles[k])))
  }

  const DuplicateId: Exc := ValueError("A document with the same ID already exists.")
  const UserNotFound: Exc := ValueError("User not found")
  const NotActive: Exc := ValueError("User is not active.")
  const InvalidData: Exc := ValueError("User data is invalid.")
  const InvalidOld: Exc := ValueError("Invalid old password.")
  const Mismatch: Exc := ValueError("New password is not match with verify password.")
  const ChangeFailed: Exc := ValueError("Change password failed")
  const ResetFailed: Exc := ValueError("Reset password failed")

  /** `not stored_hash`: no hash, or an empty one. */
  predicate NoHash(h: Option<Hash>) {
    h.None? || h == Some(NotBcrypt(""))
  }

  /** `_validate_user(old_password)` for the caller `userId`: the checks in
      their order, each with its own error. */
  function CheckCaller(users: seq<User>, userId: string, oldPassword: string): (r: Result<nat>)
    ensures r.Ok? ==> r.value < |users| && users[r.value].id == userId
  {
    match UserIndex(users, userId)
    case None => Raise(UserNotFound)
    case Some(k) =>
      if users[k].status != Active then Raise(NotActive)
      else if NoHash(users[k].password) then Raise(InvalidData)
      else if !CheckPassword(oldPassword, users[k].password) then Raise(InvalidOld)
      else Ok(k)
  }

  /** The caller is accepted exactly when it exists, is active, and its hash
      accepts the old password; each refusal names the first check that
      failed. */
  lemma CheckCallerIff(users: seq<User>, userId: string, oldPassword: string)
    ensures CheckCaller(users, userId, oldPassword).Ok? <==>
      && UserIndex(users, userId).Some?
      && var u := users[UserIndex(users, userId).value];
         u.status == Active && CheckPassword(oldPassword, u.password)
    ensures CheckCaller(users, userId, oldPassword) == Raise(UserNotFound) <==>
      forall i :: 0 <= i < |users| ==> users[i].id != userId
    ensures CheckCaller(users, userId, oldPassword) == Raise(NotActive) <==>
      UserIndex(users, userId).Some? && users[UserIndex(users, userId).value].status != Active
    ensures CheckCaller(users, userId, oldPassword) == Raise(InvalidData) <==>
      && UserIndex(users, userId).Some?
      && var u := users[UserIndex(users, userId).value];
         u.status == Active && NoHash(u.password)
    ensures CheckCaller(users, userId, oldPassword) == Raise(InvalidOld) <==>
      && UserIndex(users, userId).Some?
      && var u := users[UserIndex(users, userId).value];
         u.status == Active && !NoHash(u.password) && !CheckPassword(oldPassword, u.password)
  {
  }

  /** The user collection and the caller's context (`set_context`). */
  class UserService {
    var userId: string
    var orgId: string

    constructor (userId: string, orgId: string)
      ensures this.userId == userId && this.orgId == orgId
    {
      this.userId := userId;
      this.orgId := orgId;
    }

    /** `set_context`: the caller's user and organisation. */
    method SetContext(userId: string, orgId: string)
      modifies this
      ensures this.userId == userId && this.orgId == orgId
    {
      this.userId := userId;
      this.orgId := orgId;
    }

    /** `create(data)`: store the user with a hash of its password under the
        caller's organisation, and answer with the stored fields but the
        password. */
    method Create(db: Database, data: NewUser, newId: string, freshSalt: string, now: int) returns (r: Result<Doc>)
      modifies db`users
      ensures r.Ok? ==> "password" !in r.value
      ensures r.Ok? ==> r.value == CreatedDoc(data, newId, userId, orgId, now)
      ensures r.Raise? <==> exists i :: 0 <= i < |old(db.users)| && old(db.users)[i].id == newId
      ensures r.Raise? ==> r == Raise(DuplicateId) && db.users == old(db.users)
      ensures r.Ok? ==> db.users == old(db.users) + [StoredUser(data, newId, orgId, freshSalt)]
    {
      if UserIndex(db.users, newId).Some? {
        return Raise(DuplicateId);
      }
      db.users := db.users + [StoredUser(data, newId, orgId, freshSalt)];
      r := Ok(CreatedDoc(data, newId, userId, orgId, now));
    }

    /** `update_all_by_admin(user_id, data)`: set the four fields of the first
        user with that id. */
    method UpdateAllByAdmin(db: Database, target: string, data: AdminUpdate) returns (r: Result<User>)
      modifies db`users
      ensures r == Raise(UserNotFound) <==> forall i :: 0 <= i < |old(db.users)| ==> old(db.users)[i].id != target
      ensures r.Raise? ==> db.users == old(db.users)
      ensures r.Ok? ==>
        var k := UserIndex(old(db.users), target).value;
        && r.value == old(db.users)[k].(username := data.username, email := data.email,
                                         roles := RoleList(data.roles), status := data.status)
        && db.users == old(db.users)[k := r.value]
    {
      var k := UserIndex(db.users, target);
      if k.None? {
        return Raise(UserNotFound);
      }
      var u := db.users[k.value].(username := data.username, email := data.email,
                                  roles := RoleList(data.roles), status := data.status);
      db.users := db.users[k.value := u];
      r := Ok(u);
    }

    /** `change_password(data)`: the two new passwords must agree before
        anything is read; then the caller's old password must check. */
    method ChangePassword(db: Database, oldPassword: string, newPassword: string, verifyPassword: string, freshSalt: string)
      returns (r: Result<Summary>)
      modifies db`users
      ensures newPassword != verifyPassword ==> r == Raise(Mismatch) && db.users == old(db.users)
      ensures r.Ok? <==> newPassword == verifyPassword && CheckCaller(old(db.users), userId, oldPassword).Ok?
      ensures r.Raise? ==> db.users == old(db.users)
      ensures r.Ok? ==>
        var k := CheckCaller(old(db.users), userId, oldPassword).value;
        && db.users == old(db.users)[k := old(db.users)[k].(password := Some(HashPassword(newPassword, None, freshSalt)))]
        && r.value == Summary(userId, old(db.users)[k].username, old(db.users)[k].email)
    {
      if newPassword != verifyPassword {
        return Raise(Mismatch);
      }
      var checked := CheckCaller(db.users, userId, oldPassword);
      if checked.Raise? {
        return Raise(checked.exc);
      }
      var password := IsNone(Some(newPassword), newPassword);
      var k := checked.value;
      db.users := db.users[k := db.users[k].(password := Some(HashPassword(password, None, freshSalt)))];
      r := Ok(Summary(db.users[k].id, db.users[k].username, db.users[k].email));
    }

    /** `reset_password(user_id, data)`: the two new passwords must agree;
        no old password is asked for. */
    method ResetPassword(db: Database, target: string, newPassword: string, verifyPassword: string, freshSalt: string)
      returns (r: Result<Summary>)
      modifies db`users
      ensures newPassword != verifyPassword ==> r == Raise(Mismatch) && db.users == old(db.users)
      ensures r.Ok? <==> newPassword == verifyPassword && UserIndex(old(db.users), target).Some?
      ensures r.Raise? ==> db.users == old(db.users)
      ensures newPassword == verifyPassword && UserIndex(old(db.users), target).None? ==> r == Raise(ResetFailed)
      ensures r.Ok? ==>
        var k := UserIndex(old(db.users), target).value;
        db.users == old(db.users)[k := old(db.users)[k].(password := Some(HashPassword(newPassword, None, freshSalt)))]
    {
      if newPassword != verifyPassword {
        return Raise(Mismatch);
      }
      var password := IsNone(Some(newPassword), newPassword);
      var k := UserIndex(db.users, target);
      if k.None? {
        return Raise(ResetFailed);
      }
      db.users := db.users[k.value := db.users[k.value].(password := Some(HashPassword(password, None, freshSalt)))];
      r := Ok(Summary(db.users[k.value].id, db.users[k.value].username, db.users[k.value].email));
    }
  }

  /** The stored user of `create`. */
  function StoredUser(data: NewUser, newId: string, orgId: string, freshSalt: string): User {
    User(newId, data.username, data.email, Some(HashPassword(data.password, None, freshSalt)), None,
         RoleList(data.roles), data.status, orgId)
  }

  /** The answer of `create`: the request's fields and the bookkeeping
      fields, the password removed. */
  function CreatedDoc(data: NewUser, newId: string, recBy: string, orgId: string, now: int): Doc {
    map["username" := VStr(data.username), "email" := VStr(data.email), "roles" := RoleList(data.roles),
        "status" := StatusValue(data.status), "_id" := VStr(newId), "rec_by" := VStr(recBy),
        "rec_date" := VInt(now), "org_id" := VStr(orgId)]
  }

  /** A created user can later prove its password, and only that one. */
  lemma CreatedUserPassword(data: NewUser, newId: string, orgId: string, freshSalt: string, other: string)
    requires data.password != ""
    ensures CheckPassword(other, StoredUser(data, newId, orgId, freshSalt).password) <==> other == data.password
  {
    if other == data.password {
      CheckOwnHash(other, None, freshSalt);
    }
    if CheckPassword(other, StoredUser(data, newId, orgId, freshSalt).password) {
      CheckOnlyOwnHash(data.password, other, None, freshSalt);
    }
  }

  // ---------------------------------------------------------------------
  // get_all

  /** The `roles` filter as `get_all` rewrites it: a string becomes
      `{"$in": [s]}`, a list `{"$in": list}`; anything else, and every
      other key, is left alone. */
  function NormalizeRoles(filters: Doc): (r: Doc)
    ensures r.Keys == filters.Keys
    ensures forall k :: k in filters && k != "roles" ==> r[k] == filters[k]
  {
    if "roles" !in filters then filters
    else match filters["roles"]
      case VStr(s) => filters["roles" := VDict(map["$in" := VList([VStr(s)])])]
      case VList(xs) => filters["roles" := VDict(map["$in" := VList(xs)])]
      case _ => filters
  }

  /** The rewritten role filter matches a user's role list exactly when the
      original names one of its roles, whether it was one name or a list. */
  lemma NormalizeRolesMeaning(filters: Doc)
    requires "roles" in filters && (filters["roles"].VStr? || filters["roles"].VList?)
    ensures var r := NormalizeRoles(filters);
      && r["roles"].VDict? && "$in" in r["roles"].fields && r["roles"].fields["$in"].VList?
      && (forall v :: v in r["roles"].fields["$in"].items <==>
            (if filters["roles"].VStr? then v == filters["roles"] else v in filters["roles"].items))
  {
  }
}

=== FILE: utility.dfy ===
/** Small helpers shared by the services: identifiers, password hashing and
    checking, random passwords and the `is_none` default.

    SHA-256 and bcrypt are modelled as free constructors: two hashes are
    equal exactly when they were made from the same salt and the same
    password. This is the collision-freedom the services rely on and
    nothing more; the randomness of `uuid4`, `gensalt` and `secrets` is
    passed in as parameters. */
module Utility {
  import opened Base

  // ---------------------------------------------------------------------
  // generate_uuid

  function HexDigit(d: nat): char
    requires d < 16
  {
    "0123456789abcdef"[d]
  }

  predicate IsHexChar(c: char) {
    '0' <= c <= '9' || 'a' <= c <= 'f'
  }

  function HexValue(c: char): nat
    requires IsHexChar(c)
  {
    if '0' <= c <= '9' then c as nat - '0' as nat else c as nat - 'a' as nat + 10
  }

  function Pow16(n: nat): (r: nat)
    ensures r >= 1
  {
    if n == 0 then 1 else 16 * Pow16(n - 1)
  }

  /** The `n` lower-case hexadecimal digits of `v`, most significant first. */
  function Hex(v: nat, n: nat): (s: string)
    ensures |s| == n
    ensures forall k :: 0 <= k < n ==> IsHexChar(s[k])
  {
    if n == 0 then "" else Hex(v / 16, n - 1) + [HexDigit(v % 16)]
  }

  /** The number a string of hexadecimal digits denotes. */
  function ParseHex(s: string): nat
    requires forall k :: 0 <= k < |s| ==> IsHexChar(s[k])
  {
    if s == [] then 0 else 16 * ParseHex(s[..|s| - 1]) + HexValue(s[|s| - 1])
  }

  lemma HexDigitValue(d: nat)
    requires d < 16
    ensures IsHexChar(HexDigit(d)) && HexValue(HexDigit(d)) == d
  {
  }

  /** Reading back the digits gives the number, for every number that fits. */
  lemma {:induction false} ParseHexOfHex(v: nat, n: nat)
    requires v < Pow16(n)
    ensures ParseHex(Hex(v, n)) == v
  {
    if n > 0 {
      var s := Hex(v, n);
      assert s[..n - 1] == Hex(v / 16, n - 1);
      HexDigitValue(v % 16);
      ParseHexOfHex(v / 16, n - 1);
    }
  }

  const UuidRange: nat := Pow16(32)

  /** `uuid.uuid4().hex`: the 128 random bits `r` written as 32 hexadecimal digits. */
  function GenerateUuid(r: nat): (u: string)
    ensures |u| == 32
    ensures forall k :: 0 <= k < 32 ==> IsHexChar(u[k])
  {
    Hex(r % UuidRange, 32)
  }

  /** Distinct random draws give distinct identifiers. */
  lemma GenerateUuidInjective(r1: nat, r2: nat)
    requires r1 < UuidRange && r2 < UuidRange && r1 != r2
    ensures GenerateUuid(r1) != GenerateUuid(r2)
  {
    ModSmall(r1, UuidRange);
    ModSmall(r2, UuidRange);
    ParseHexOfHex(r1, 32);
    ParseHexOfHex(r2, 32);
  }

  lemma ModSmall(x: nat, m: nat)
    requires x < m
    ensures x % m == x
  {
  }

  // ---------------------------------------------------------------------
  // hash_password / check_password

  /** `hashlib.sha256(password).hexdigest()`. */
  datatype Digest = Sha256Hex(password: string)

  /** A stored password hash: what `bcrypt.hashpw` makes of a salt and a
      digest, or any other text (which `bcrypt.checkpw` rejects with an error). */
  datatype Hash = Bcrypt(salt: string, digest: Digest) | NotBcrypt(text: string)

  /** `hash_password(password, salt)`: bcrypt over the SHA-256 digest, with
      the given salt or, when there is none, the fresh one `gensalt` draws. */
  function HashPassword(password: string, salt: Option<string>, freshSalt: string): (h: Hash)
    ensures h.Bcrypt? && h.salt == salt.GetOr(freshSalt)
  {
    Bcrypt(salt.GetOr(freshSalt), Sha256Hex(password))
  }

  /** `salt, hashed = hash_password(password, salt)` as the organisation
      bootstrap and the login check call it: the salt used and the hash. */
  function SaltedHash(password: string, salt: string): (r: (string, Hash))
    ensures r.1 == HashPassword(password, Some(salt), salt) && r.0 == r.1.salt
  {
    (salt, Bcrypt(salt, Sha256Hex(password)))
  }

  /** The length of the text `bcrypt.hashpw` gives: "$2b$", a two-digit
      cost, "$", 22 salt characters and 31 hash characters. */
  const BcryptTextLength := 60

  const TooManyToUnpack := "too many values to unpack (expected 2)"

  /** Assigning a sequence of `n` items to two names, as Python does for
      `a, b = s`: nothing goes wrong for two items, and otherwise the
      ValueError Python raises. A str is unpacked character by character. */
  function UnpackError(n: nat): (e: Option<Exc>)
    ensures e.None? <==> n == 2
    ensures n > 2 ==> e == Some(ValueError(TooManyToUnpack))
    ensures e.Some? ==> e.value.ValueError?
  {
    if n == 2 then None
    else if n > 2 then Some(ValueError(TooManyToUnpack))
    else Some(ValueError("not enough values to unpack (expected 2, got " + (if n == 0 then "0" else "1") + ")"))
  }

  /** `hash_password` returns the hash as one str, so the pair assignment
      `salt, hashed = hash_password(...)` that the organisation bootstrap
      and the login check make unpacks its 60 characters and raises. */
  lemma SaltedHashRaisesAsWritten()
    ensures UnpackError(BcryptTextLength) == Some(ValueError(TooManyToUnpack))
  {
  }

  /** `check_password(password, stored)`: false for an empty password or an
      empty or missing hash; otherwise whether bcrypt accepts the digest,
      where an unreadable hash is an error that is caught and gives false. */
  function CheckPassword(password: string, stored: Option<Hash>): (ok: bool)
    ensures ok ==> password != "" && stored.Some? && stored.value.Bcrypt?
  {
    if password == "" || stored.None? then false
    else
      match stored.value
      case NotBcrypt(_) => false
      case Bcrypt(_, d) => d == Sha256Hex(password)
  }

  /** A hash made from a non-empty password accepts that password, whatever the salt. */
  lemma CheckOwnHash(password: string, salt: Option<string>, freshSalt: string)
    requires password != ""
    ensures CheckPassword(password, Some(HashPassword(password, salt, freshSalt)))
  {
  }

  /** A hash accepts no password but the one it was made from. */
  lemma CheckOnlyOwnHash(password: string, other: string, salt: Option<string>, freshSalt: string)
    requires CheckPassword(other, Some(HashPassword(password, salt, freshSalt)))
    ensures other == password
  {
  }

  // ---------------------------------------------------------------------
  // generate_password

  /** `string.ascii_letters + string.digits + string.punctuation`. */
  const PasswordAlphabet: string :=
    "abcdefghijklmnopqrstuvwxyzABCDEFGHIJKLMNOPQRSTUVWXYZ" + "0123456789"
    + "!\"#$%&'()*+,-./:;<=>?@[\\]^_`{|}~"

  /** `generate_password(length)`: one `secrets.choice` per character, the
      `k`-th choice being the draw `draws[k]` reduced to an alphabet index. */
  function GeneratePassword(length: nat, draws: seq<nat>): (p: string)
    requires |draws| >= length
    ensures |p| == length
    ensures forall k :: 0 <= k < length ==> p[k] in PasswordAlphabet
  {
    seq(length, k requires 0 <= k < length => PasswordAlphabet[draws[k] % |PasswordAlphabet|])
  }

  // ---------------------------------------------------------------------
  // is_none

  /** `is_none(variable, default)`: the default exactly when the variable is None. */
  function IsNone<T>(variable: Option<T>, default: T): (r: T)
    ensures variable.None? ==> r == default
    ensures variable.Some? ==> r == variable.value
  {
    variable.GetOr(default)
  }
}
